=== FILE: README.md ===
# ACCLAIM core, modelled in Dafny

ACCLAIM tunes the choice of MPI collective algorithm for MPICH by active learning. It runs
micro-benchmarks, fits a random-forest latency model, and writes the fastest algorithm per
configuration into MPICH's JSON algorithm-selection file. This project models the core of that
pipeline as pure Dafny functions over immutable data and proves what each step promises.

- **Parallel scheduling.**
  - Five topologies decide which benchmark points can run at the same time.
    - Theta: rack pairs, with a yes/no answer.
    - Polaris: dragonfly groups of racks.
    - Aurora: dragonfly groups of chassis.
    - Serial: one point per epoch.
    - Local: unlimited.
  - Supporting pieces:
    - Aries coordinate arithmetic (`xctopo.c`).
    - Reading a topology file.
    - Writing a nodefile.
  - Polaris and Aurora share one code shape, modelled once as `Dragonfly` with a `Scheme` tag. They differ in how a pool slices its node list: Aurora casts the request with `int()`, Polaris does not. The model takes integer requests (see `Dragonfly.PoolFit` under "Left out").
- **Active learning.**
  - Feature-space enumeration, the log2 feature encoding, and the algorithm table read from `all_algs.csv`.
  - Expanding rows to every algorithm.
  - Sequential and topology-scheduled batch collection (`collect_point_batch`).
  - Output normalisation and its inverse.
  - Jackknife variance, point selection, and the convergence test.
  - The training loop (`train_model`).
- **Rule mining and the selection file.**
  - Per-row argmin selections and break-point mining (`get_rules`).
  - Nesting the rules into `comm_size<=` / `comm_avg_ppn<=` / `avg_msg_size<=` objects, then widening the last key of each level to `=any` (`rules_to_dict`, `any_helper`).
  - Splicing the result into the file (`update_collective`).
  - Parameterised algorithm names (`param_algs_to_json.py`).
  - The algorithm-name collector `genericReader.py`.

How the outside world enters the model:
- Python dicts are insertion-ordered association lists (`Dicts`). Python slicing, `find`, `int()` and `str()` are modelled in `PyStrings`.
- A Python exception becomes a `Failure` carrying the exception's text.
- These enter only as function parameters:
  - the random forest (`fit`, `predict`);
  - the benchmark runner;
  - `log10`/`10**`;
  - a topology's `fit_point`/`reset_fit`.
- Nodefiles live in a `map` from path to content.

A few consequences of the code are easy to miss, and the model follows the code in each:
- **Feature-space size.** The feature space leaves out every `(1, 1, m)` triple. For a non-reduction collective it holds `n*ppn*m - m` rows, all filled. For a reduction it also leaves out message sizes 1 and 2. It then allocates `n*ppn*m - m - 2*n*ppn + 2` rows and fills `(n*ppn - 1)*(m - 2)` of them when `m >= 2`; the remaining rows stay zero (FeatureSpace.EnumerateCount, FeatureSpace.ShapeIsExact).
- **Message-size key.** `rules_to_dict` (`src/json_file/json_file.py:114`) writes every message-size condition as `avg_msg_size<=`, and no other key.
- **Parameter sub-rules.** `rules_to_dict` never calls `get_param_rule`, so its output has no parameter sub-rules. `get_param_rule` is modelled on its own.
- **Unknown parameterised names.** `get_param_rule` with an unknown parameterised name creates a `Warning` object without raising it. It then evaluates `None + "="`, which raises `TypeError`.

## Model

| member | source | states |
|---|---|---|
| Theta.NewPair | src/parallel_scheduling/anl_theta/anl_theta_parallel_scheduling.py:53-61 | A rack whose last digit is odd is the second rack of its pair, after the rack ten below; any other rack is the first, before the rack ten above; both start empty and free. |
| Theta.AddRack | src/parallel_scheduling/anl_theta/anl_theta_parallel_scheduling.py:20-22 | Afterwards the rack is in the topology; a known rack leaves the topology unchanged, an unknown one appends exactly one new pair. |
| Theta.RackAddNode | src/parallel_scheduling/anl_theta/anl_theta_parallel_scheduling.py:117-119 | A rack's node set grows by exactly the added node; its name and flag stay. |
| Theta.PairAddNode | src/parallel_scheduling/anl_theta/anl_theta_parallel_scheduling.py:70-77 | Adding to a pair reports success exactly when the pair holds the rack; rack names are unchanged. |
| Theta.PairIndex | src/parallel_scheduling/anl_theta/anl_theta_parallel_scheduling.py:28-30 | The pair chosen for a rack is the first one containing it. |
| Theta.AddNode | src/parallel_scheduling/anl_theta/anl_theta_parallel_scheduling.py:25-33 | Adding a node always succeeds, because the rack is added first, and leaves as many pairs as adding the rack would. |
| Theta.AddNodePlaces | src/parallel_scheduling/anl_theta/anl_theta_parallel_scheduling.py:25-33 | After adding, the rack's pair is found and the node is in the rack of that name. |
| Theta.RackNameFromLine | src/parallel_scheduling/anl_theta/anl_theta_parallel_scheduling.py:139-145 | No dash gives -1; otherwise the rack number is the integer read from the characters just before and just after the first dash, with Python's index -1 wrap-around for a leading dash and an IndexError for a trailing one. |
| Theta.NodeNameFromLine | src/parallel_scheduling/anl_theta/anl_theta_parallel_scheduling.py:147-150 | The node name is the text after `cname = `, right-stripped. |
| Theta.ParseLine | src/parallel_scheduling/anl_theta/anl_theta_parallel_scheduling.py:166-171 | Lines without the cname marker are skipped; an accepted line names a rack other than -1 and a node with exactly two `c`, one `s` and one `n`. |
| Theta.BuildFrom | src/parallel_scheduling/anl_theta/anl_theta_parallel_scheduling.py:162-175 | A failed read names a line that fails to parse, and a file without any cname line leaves the topology as it was. |
| Theta.Build | src/parallel_scheduling/anl_theta/anl_theta_parallel_scheduling.py:162-175 | Reading a file fails only on a line that fails to parse; a file without any cname line gives the empty topology. |
| Theta.BuildShape | src/parallel_scheduling/anl_theta/anl_theta_parallel_scheduling.py:162-175 | Every topology read from a file pairs racks ten apart, never repeats a node in a rack, and keeps each node in the rack its name designates. |
| Theta.RackFit | src/parallel_scheduling/anl_theta/anl_theta_parallel_scheduling.py:128-133 | A rack fit marks the rack used and takes min(k, its size) nodes. |
| Theta.PairFit | src/parallel_scheduling/anl_theta/anl_theta_parallel_scheduling.py:87-98 | A pair fit takes min(k, its free nodes); if that is fewer than k the pair has nothing free left; names and nodes are untouched and no used rack becomes free. |
| Theta.FitPoint | src/parallel_scheduling/anl_theta/anl_theta_parallel_scheduling.py:36-44 | A fit succeeds exactly when the free capacity is positive and at least k; a failed fit leaves no free capacity behind; only the used flags change. |
| Theta.FitPairs | src/parallel_scheduling/anl_theta/anl_theta_parallel_scheduling.py:36-44 | The loop over rack pairs keeps one pair for each pair it was given; its answer and what it drains are stated on Theta.FitPoint. |
| Theta.FitConsumes | src/parallel_scheduling/anl_theta/anl_theta_parallel_scheduling.py:36-44 | A successful fit of k nodes lowers the free capacity by at least k. |
| Theta.ResetUndoesFit | src/parallel_scheduling/anl_theta/anl_theta_parallel_scheduling.py:47-49 | Resetting after any fit gives the same topology as resetting before it. |
| Theta.Reset | src/parallel_scheduling/anl_theta/anl_theta_parallel_scheduling.py:47-49 | Reset clears the full flag of every rack and keeps every pair, rack name and node. |
| Theta.ResetIdempotent | src/parallel_scheduling/anl_theta/anl_theta_parallel_scheduling.py:47-49 | Resetting twice is resetting once. |
| Theta.FitAfterReset | src/parallel_scheduling/anl_theta/anl_theta_parallel_scheduling.py:36-49 | Right after a reset, a fit succeeds exactly when the topology holds at least one node and at least k. |
| Theta.RackNameExample | src/tests/unittests/test_anl_theta_parallel_scheduling.py:12-16 | The line `0: /proc/cray_xt/cname = c5-1c1s3n1` is in rack 51: the first dash of the whole line is the one in the node name. |
| Theta.NodeNameExample | src/tests/unittests/test_anl_theta_parallel_scheduling.py:23-26 | The line `11: /proc/cray_xt/cname = c6-0c1s3n1 \n` names node `c6-0c1s3n1`, its trailing blank and newline stripped. |
| Theta.SimpleScenario | src/tests/unittests/test_anl_theta_parallel_scheduling.py:92-106 | With one node in each of racks 51 and 60: fit 1, fit 1, fail, reset, fit 2, fail. |
| Theta.ComplexScenario | src/tests/unittests/test_anl_theta_parallel_scheduling.py:108-131 | With racks of 1, 6 and 9 nodes: the answer sequence the unit test expects across two resets. |
| Serial.GetTopology | src/parallel_scheduling/serial/serial_parallel_scheduling.py:29-31 | A freshly read serial topology is free. |
| Serial.FitPoint | src/parallel_scheduling/serial/serial_parallel_scheduling.py:12-16 | A fit hands out `["serial"]` exactly when the topology is free, and the topology is taken afterwards. |
| Serial.Reset | src/parallel_scheduling/serial/serial_parallel_scheduling.py:19-20 | A reset frees the topology. |
| Serial.GenTopologyFile | src/parallel_scheduling/serial/serial_parallel_scheduling.py:24-26 | No topology file is produced. |
| Serial.CreateNodefile | src/parallel_scheduling/serial/serial_parallel_scheduling.py:34-36 | No nodefile path is produced. |
| Serial.OneSuccessPerEpoch | src/parallel_scheduling/serial/serial_parallel_scheduling.py:12-20 | After a reset, a run of fits gives `["serial"]` to the first and fails every later one. |
| Serial.TakenStaysTaken | src/parallel_scheduling/serial/serial_parallel_scheduling.py:12-16 | Once taken, every further fit fails until a reset. |
| Serial.FreshIsReset | src/parallel_scheduling/serial/serial_parallel_scheduling.py:29-31 | Reading the topology gives the same state as a reset. |
| Local.FitPoint | src/parallel_scheduling/local/local_parallel_scheduling.py:10-11 | Every fit hands out `["local"]`. |
| Local.GetTopology | src/parallel_scheduling/local/local_parallel_scheduling.py:24-26 | The path is ignored: there is one topology value and it carries no state. |
| Local.Reset | src/parallel_scheduling/local/local_parallel_scheduling.py:13-15 | Reset changes nothing. |
| Local.GenTopologyFile | src/parallel_scheduling/local/local_parallel_scheduling.py:20-21 | No topology file is produced. |
| Local.CreateNodefile | src/parallel_scheduling/local/local_parallel_scheduling.py:30-31 | No nodefile path is produced. |
| Local.EveryFitSucceeds | src/parallel_scheduling/local/local_parallel_scheduling.py:10-15 | Any run of fits gives `["local"]` to every point, so scheduling is unlimited. |
| Xctopo.CDiv | src/parallel_scheduling/anl_theta/aries-topo/src/xctopo.c:45 | C division truncates toward zero. |
| Xctopo.CMod | src/parallel_scheduling/anl_theta/aries-topo/src/xctopo.c:51 | C remainder takes the dividend's sign and agrees with truncating division. |
| Xctopo.Group | src/parallel_scheduling/anl_theta/aries-topo/src/xctopo.c:43-46 | For non-negative coordinates the group is non-negative and at least `6 * rackj`. |
| Xctopo.Chassis | src/parallel_scheduling/anl_theta/aries-topo/src/xctopo.c:49-52 | For valid coordinates the chassis number is in 0..5 and below 3 exactly for even `racki`. |
| Xctopo.Blade | src/parallel_scheduling/anl_theta/aries-topo/src/xctopo.c:55-58 | The blade getter returns the blade coordinate. |
| Xctopo.Nic | src/parallel_scheduling/anl_theta/aries-topo/src/xctopo.c:61-64 | The nic getter returns the nic coordinate. |
| Xctopo.PairedRacksShareGroup | src/parallel_scheduling/anl_theta/aries-topo/src/xctopo.c:43-46 | Racks `2m` and `2m+1` of a row are in the same group. |
| Xctopo.GroupDecodes | src/parallel_scheduling/anl_theta/aries-topo/src/xctopo.c:43-46 | For `racki` in 0..11, group mod 6 recovers `racki / 2` and group div 6 recovers `rackj`. |
| Xctopo.GroupInjective | src/parallel_scheduling/anl_theta/aries-topo/src/xctopo.c:43-46 | Equal groups mean the same rack pair in the same row. |
| Xctopo.ChassisDecodes | src/parallel_scheduling/anl_theta/aries-topo/src/xctopo.c:49-52 | The chassis number recovers both the rack's parity and the chassis within the rack. |
| Xctopo.GettersIdentifyNode | src/parallel_scheduling/anl_theta/aries-topo/src/xctopo.c:43-64 | For valid coordinates the four getters (group, chassis, blade, nic) together determine the node: two nodes that agree on all four are equal. |
| Xctopo.HeaderTableExamples | src/parallel_scheduling/anl_theta/aries-topo/src/xctopo.c:43-46 | Racks 0 and 1 of row 0 form group 0, racks 2 and 3 of row 0 group 1, and racks 0 and 1 of row 1 group 6, against the header table's 2 and 1. |
| Xctopo.NegativeRack | src/parallel_scheduling/anl_theta/aries-topo/src/xctopo.c:43-52 | With truncating C arithmetic, `racki = -1` lands in group 0 and gives a negative chassis number. |
| Dragonfly.GroupId | src/parallel_scheduling/anl_polaris/anl_polaris_parallel_scheduling.py:14-15 | The group id exists exactly when the four rack digits parse; on Polaris it is the rack number divided by four, on Aurora the rack number itself. |
| Dragonfly.PoolAddNode | src/parallel_scheduling/anl_aurora/anl_aurora_parallel_scheduling.py:34-37 | A pool (an Aurora chassis or a Polaris rack) gains the node's name unless it already holds it; name and flag stay. |
| Dragonfly.PoolsAddNode | src/parallel_scheduling/anl_polaris/anl_polaris_parallel_scheduling.py:66-76 | Within a group the node goes to the first pool of its name, or to a new free pool appended at the end. |
| Dragonfly.GroupsAddNode | src/parallel_scheduling/anl_polaris/anl_polaris_parallel_scheduling.py:116-122 | The node goes to the first group with its id, or to a new group appended at the end. |
| Dragonfly.AddNode | src/parallel_scheduling/anl_polaris/anl_polaris_parallel_scheduling.py:116-122 | Adding fails exactly when the line's rack digits do not parse; otherwise the node is in its pool in the group of its id, and an existing group keeps its position. |
| Dragonfly.GroupsAddNodeLocates | src/parallel_scheduling/anl_polaris/anl_polaris_parallel_scheduling.py:66-76 | After adding, the group and pool are found where they were and the node is in that pool. |
| Dragonfly.AddNodeIgnoresDuplicate | src/parallel_scheduling/anl_polaris/anl_polaris_parallel_scheduling.py:29-32 | Adding the same line twice changes nothing the second time. |
| Dragonfly.BuildFromFails | src/parallel_scheduling/anl_aurora/anl_aurora_parallel_scheduling.py:150-163 | Reading a topology fails exactly when some line's rack digits do not parse. |
| Dragonfly.Build | src/parallel_scheduling/anl_polaris/anl_polaris_parallel_scheduling.py:149-155 | Reading a hostfile fails exactly when some line's rack digits do not parse. |
| Dragonfly.BuildFrom | src/parallel_scheduling/anl_polaris/anl_polaris_parallel_scheduling.py:149-155 | A failed read always names a line whose rack digits do not parse. |
| Dragonfly.BuildShape | src/parallel_scheduling/anl_polaris/anl_polaris_parallel_scheduling.py:149-154 | A topology read from a file has distinct group ids, distinct pool names per group, non-empty pools without repeated nodes, and nothing marked used. |
| Dragonfly.PoolFit | src/parallel_scheduling/anl_aurora/anl_aurora_parallel_scheduling.py:47-52 | A pool fit (an Aurora chassis or a Polaris rack) marks the pool used and hands out its first min(k, size) nodes in order. |
| Dragonfly.FitPoolsTakes | src/parallel_scheduling/anl_polaris/anl_polaris_parallel_scheduling.py:87-95 | A group fit hands out exactly the first min(need, free) free nodes of its pools, in order. |
| Dragonfly.FitGroupsTakes | src/parallel_scheduling/anl_polaris/anl_polaris_parallel_scheduling.py:126-133 | Across groups the fit hands out exactly the first min(need, free) free nodes of the topology, in order. |
| Dragonfly.FitGroups | src/parallel_scheduling/anl_polaris/anl_polaris_parallel_scheduling.py:126-136 | The loop over groups keeps one group for each group it was given and never hands out more nodes than requested. |
| Dragonfly.FitPoint | src/parallel_scheduling/anl_polaris/anl_polaris_parallel_scheduling.py:126-136 | A fit succeeds exactly when k nodes are free and then returns the first k free nodes; a failed fit leaves nothing free; what stays free is a suffix of what was free, shorter by at least k on success; only used flags change. |
| Dragonfly.ResetUndoesFit | src/parallel_scheduling/anl_polaris/anl_polaris_parallel_scheduling.py:139-141 | Resetting after any fit gives the same topology as resetting before it. |
| Dragonfly.Reset | src/parallel_scheduling/anl_polaris/anl_polaris_parallel_scheduling.py:138-141 | Reset unmarks every pool and keeps every group id, pool name and node. |
| Dragonfly.SameAnswerAfterReset | src/parallel_scheduling/anl_polaris/anl_polaris_parallel_scheduling.py:126-141 | After a reset, the next fit answers as if the earlier fit never happened. |
| Dragonfly.ResetIdempotent | src/parallel_scheduling/anl_aurora/anl_aurora_parallel_scheduling.py:137-139 | Resetting twice is resetting once. |
| Dragonfly.WholeMachineAfterReset | src/tests/unittests/test_anl_aurora_parallel_scheduling.py:157-172 | After a reset a request for every node gets all of them in discovery order, one node more fails, and after a failed request a later one fails until the next reset. |
| Dragonfly.FreeAfterReset | src/parallel_scheduling/anl_polaris/anl_polaris_parallel_scheduling.py:139-141 | After a reset every node of the topology is free, in topology order. |
| Dragonfly.FitSplitsFree | src/parallel_scheduling/anl_polaris/anl_polaris_parallel_scheduling.py:126-136 | One fit splits the free nodes: what it hands out and what stays free are disjoint and come from what was free. |
| Dragonfly.EpochHandsOutEachNodeOnce | src/parallel_scheduling/anl_polaris/anl_polaris_parallel_scheduling.py:126-136 | Between two resets no node is handed to two points, and every node handed out was free. |
| Dragonfly.CreateNodefile | src/parallel_scheduling/anl_aurora/anl_aurora_parallel_scheduling.py:167-174 | The file written holds the nodefile content of the nodes; Aurora returns the path it wrote and Polaris returns no path. |
| Dragonfly.PolarisSimpleBuild | src/tests/unittests/test_anl_polaris_parallel_scheduling.py:45-56 | Two lines of rack 3005 build one group 751 with one pool of both nodes. |
| Dragonfly.OnePoolScenario | src/tests/unittests/test_anl_polaris_parallel_scheduling.py:82-104 | One pool: fit 1 returns its first node, then two fits fail, and after a reset fit 2 returns its first two nodes. |
| Dragonfly.PolarisComplexFirstEpoch | src/tests/unittests/test_anl_polaris_parallel_scheduling.py:106-125 | Racks of 5, 3, 11 and 5 nodes in two groups: fits of 7, 3 and 2 return the nodes the unit test expects, then a fit of 1 fails. |
| Dragonfly.PolarisComplexSecondEpoch | src/tests/unittests/test_anl_polaris_parallel_scheduling.py:127-141 | After a reset, fits of 1, 1 and 12 return the expected nodes, then a fit of 1 fails. |
| Dragonfly.PolarisComplexLaterEpochs | src/tests/unittests/test_anl_polaris_parallel_scheduling.py:143-163 | A fit of 1000 fails and drains the topology; 24 nodes fit after a reset, 25 do not. |
| Dragonfly.AuroraLineNaming | src/tests/unittests/test_anl_aurora_parallel_scheduling.py:18-40 | An Aurora host line of rack 4407, chassis 3 is in pool "3" of group 4407, and its node name drops the newline. |
| Nodefile.Content | src/parallel_scheduling/anl_polaris/anl_polaris_parallel_scheduling.py:165-171 | The nodefile ends with the last node's name and is empty for no nodes. |
| Nodefile.ReadBackNodefile | src/parallel_scheduling/anl_polaris/anl_polaris_parallel_scheduling.py:165-171 | Reading the nodefile back line by line gives the node names in order, each line but the last ending in a newline, for non-empty names without newlines. |
| Encoding.PreprocessFeatures | src/active_learner/utils.py:6-13 | In log mode each value x becomes the e with 2^(e-1) <= x < 2^e (that is floor(log2 x) + 1, in exact arithmetic; see Left out for float rounding); otherwise the values pass through. |
| Encoding.UnprocessFeatures | src/active_learner/utils.py:15-22 | In log mode each encoding e decodes to 2^(e-1), which is positive; otherwise the values pass through. |
| Encoding.UnprocessPreprocess | src/active_learner/utils.py:6-22 | Encoding and then decoding gives back any power of two. |
| Encoding.PreprocessUnprocess | src/active_learner/utils.py:6-22 | Decoding and then encoding gives back any encoding of at least 1. |
| FeatureSpace.CreateFeatureSpace | src/active_learner/initialization.py:8-26 | The space exists exactly when the computed shape is non-negative and has that many rows: first the enumeration, then zero rows. |
| FeatureSpace.EnumerateMembers | src/active_learner/initialization.py:15-24 | A triple is enumerated exactly when each coordinate is in range, n and ppn are not both 1, and for reductions the message size is at least 3. |
| FeatureSpace.EnumerateSorted | src/active_learner/initialization.py:15-24 | The rows come out in strictly increasing (n, ppn, msg) order. |
| FeatureSpace.EnumerateCount | src/active_learner/initialization.py:15-24 | There are (n*ppn - 1) rows per usable message size. |
| FeatureSpace.RowsFitShape | src/active_learner/initialization.py:9-24 | The enumerated rows never overflow the allocated shape. |
| FeatureSpace.ShapeIsExact | src/active_learner/initialization.py:9-24 | For valid sizes the allocated shape is exactly the row count, so no zero row is left over. |
| FeatureSpace.GetInitialPoints | src/active_learner/initialization.py:30-41 | Fewer rows than requested returns them all; a count below -2 fails; otherwise k rows come back, row i at position floor(i*(count-1)/(k+1)) taken in exact arithmetic. numpy's rounded `linspace` can land one row lower (see Left out). |
| FeatureSpace.InitialIndex | src/active_learner/initialization.py:38-40 | The chosen positions are in range and, with two or more rows, never the last one. |
| FeatureSpace.FloorDivIsQuotient | src/active_learner/initialization.py:38 | The floor taken of each sample is the integer quotient: the q with d*q <= a < d*(q+1). |
| FeatureSpace.ExactIndexExample | src/active_learner/initialization.py:38 | With 123 rows and 13 initial points, position 7 is row 61 in exact arithmetic (the source's float linspace gives 60). |
| FeatureSpace.FirstIndexIsZero | src/active_learner/initialization.py:38-40 | The first initial point is always row 0. |
| FeatureSpace.IndicesNonDecreasing | src/active_learner/initialization.py:38-40 | Initial points keep the feature space's order. |
| FeatureSpace.IndicesIncreasing | src/active_learner/initialization.py:38-40 | With at least k+2 rows the initial points are distinct rows. |
| FeatureSpace.InitialIndexExamples | src/tests/unittests/test_initialization.py:51-96 | From 10 rows the points are rows 0, 2, 4; from 24 rows they are rows 0, 5, 11. |
| FeatureSpace.SmallSpace | src/tests/unittests/test_initialization.py:10-19 | The 2x2x2 bcast space is the six rows the unit test lists. |
| FeatureSpace.SmallReductionSpace | src/tests/unittests/test_initialization.py:20-26 | The 2x2x3 reduce_scatter space keeps only message size 3. |
| Algs.ReadAlgsLastMatch | src/active_learner/algs.py:15-21 | The result comes from a matching row after which no row matches, and is absent exactly when none matches. |
| Algs.ReadAlgs | src/active_learner/algs.py:15-21 | `read_algs` returns None exactly when no row names the collective. |
| Algs.ReadAlgsIgnoresOthers | src/active_learner/algs.py:15-21 | Rows for other collectives appended to the table change nothing. |
| Algs.RemoveFirst | src/active_learner/algs.py:19 | `list.remove(x)` cuts out exactly the first occurrence of `x`: the result is the list split around its first `x` with everything else in order, one element shorter and with one copy of `x` fewer. |
| Algs.RowAlgsDropsOneSmp | src/active_learner/algs.py:18-19 | A row's algorithms are its cells after the first, in order; when `smp` is among them exactly its first occurrence is cut out and the rest keep their order. |
| Algs.AddAlgsOne | src/active_learner/algs.py:31-36 | One configuration expands to one row per algorithm, row j carrying algorithm j. |
| Algs.AddAlgs | src/active_learner/algs.py:39-44 | The expansion has rows times algorithms entries. |
| Algs.AddAlgsCell | src/active_learner/algs.py:39-44 | Entry i*numAlgs + j is configuration i with algorithm j. |
| Algs.AddAlgsBlock | src/active_learner/algs.py:39-44 | Block i of the expansion is the one-configuration expansion of row i. |
| Algs.AddAlgsAppend | src/active_learner/algs.py:39-44 | Expanding two stacked matrices is stacking their expansions. |
| Algs.AddAlgsSingleRow | src/active_learner/algs.py:28-44 | The 1-D branch agrees with the 2-D branch on a single row. |
| Algs.GetAllAlgs | src/active_learner/algs.py:50-61 | A point expands to one row per algorithm, keeping its configuration. |
| Algs.GetAllAlgsIsExpansion | src/active_learner/algs.py:50-61 | `get_all_algs` of a point is the `add_algs` expansion of its configuration. |
| Algs.ExpansionExample | src/tests/unittests/test_algs.py:21-41 | (1,1,1) with three algorithms expands to algorithms 0, 1, 2. |
| Convergence.Converged | src/active_learner/convergence.py:8-18 | True exactly when at least four values exist and the last four are consecutively within 0.001; an IndexError only when the list runs out before a comparison fails. |
| Convergence.OnlyLastFourMatter | src/active_learner/convergence.py:8-18 | Earlier history never changes the verdict on the last four values. |
| Convergence.OscillationConverges | src/active_learner/convergence.py:8-18 | A bounded oscillation within the threshold counts as converged. |
| Convergence.ConvergenceExamples | src/tests/unittests/test_convergence.py:9-30 | The unit test's equal, increasing and 1.0011 histories. |
| PointSelection.Argmax | src/active_learner/point_selection.py:22 | Argmax fails exactly on an empty vector and otherwise gives the first maximal index. |
| PointSelection.FirstMaxUnique | src/active_learner/point_selection.py:22 | The first maximal index is unique. |
| PointSelection.ArgmaxTieExample | src/active_learner/point_selection.py:22 | Ties go to the earliest index. |
| PointSelection.SelectSingle | src/active_learner/point_selection.py:19-28 | A point is chosen exactly when the test set is non-empty; it is the test row at the first maximum of the jackknife variances. |
| PointSelection.BatchCount | src/active_learner/point_selection.py:33 | `argpartition(v, -b)[-b:]` keeps b indices for positive b and n + b otherwise, never more than n. |
| PointSelection.SelectBatchIndices | src/active_learner/point_selection.py:33 | The batch exists exactly when b is a valid kth; the chosen indices are distinct and in range, and every chosen variance is at least every unchosen one; a full batch takes every index. |
| PointSelection.TakeMax | src/active_learner/point_selection.py:33 | Moving a largest remaining index into the selection keeps the selection on top. |
| PointSelection.SelectBatch | src/active_learner/point_selection.py:30-36 | The batch rows are the test rows at the top-variance indices. |
| PointSelection.BatchOfOneIsAMax | src/active_learner/point_selection.py:33 | A batch of one picks a maximal variance. |
| Jackknife.Column | src/active_learner/jackknife.py:19-27 | Column c holds every tree's prediction for test row c. |
| Jackknife.Variances | src/active_learner/jackknife.py:29-45 | There is one variance per test row, that row's jackknife variance over the trees. |
| Jackknife.ResampleDeviation | src/active_learner/jackknife.py:37-41 | The leave-one-out mean differs from the mean by (mean - x_j) / (n - 1). |
| Jackknife.VarianceClosedForm | src/active_learner/jackknife.py:42 | The jackknife variance equals the sum of squared deviations divided by n(n-1)^3. |
| Jackknife.VarianceNonNegative | src/active_learner/jackknife.py:42 | Each variance is non-negative, and zero exactly when the squared resample deviations sum to zero. |
| Jackknife.VarianceZeroIffConstant | src/active_learner/jackknife.py:29-42 | A test row's variance is zero exactly when all trees predict the same value. |
| Jackknife.Jackknife | src/active_learner/jackknife.py:48-52 | The average is absent exactly when there are no test rows. |
| Jackknife.JackknifeBounds | src/active_learner/jackknife.py:48-52 | The average is non-negative and zero when all trees agree everywhere. |
| Jackknife.TwoMemberExample | src/active_learner/jackknife.py:37-42 | Two trees predicting 1 and 3 give variance 1. |
| Normalizations.UndoPreprocessRow | src/active_learner/normalizations.py:47-55 | Each size column decodes to 2^(v-1); the algorithm column is kept. |
| Normalizations.UndoPreprocessInput | src/active_learner/normalizations.py:47-55 | Every row is decoded by itself, in order. |
| Normalizations.UndoPreprocessIsUnprocess | src/active_learner/normalizations.py:47-55 | Undoing the input preprocessing agrees with `unprocess_features`. |
| Normalizations.UndoPreprocessExample | src/tests/unittests/test_normalizations.py:9-20 | (10, 5, 3, 2) decodes to (512, 16, 4, 2). |
| Normalizations.NormalizeOutput | src/active_learner/normalizations.py:66-104 | The untouched copy is returned alongside, lengths are kept, and an unknown mode changes nothing. |
| Normalizations.DivideBlocksCell | src/active_learner/normalizations.py:72-77 | In alg mode each entry of a complete block is divided by the block's first entry; a trailing partial block is untouched. |
| Normalizations.BlockHeadIsOne | src/active_learner/normalizations.py:72-77 | After alg division, every complete block starts with 1. |
| Normalizations.NormalizeExample | src/tests/unittests/test_normalizations.py:21-29 | [10, 11, 12] over three algorithms divides to [1, 1.1, 1.2]. |
| Normalizations.MatchRowsUnique | src/active_learner/normalizations.py:118-124 | A queried row with exactly one algorithm-0 training match contributes exactly one value, scaled by that match's raw timing. |
| Normalizations.MatchRows | src/active_learner/normalizations.py:118-124 | One query row yields at most one value per training row, and each value is `c` times the raw timing of an algorithm-0 training row with the query's triple. |
| Normalizations.MatchRowsNone | src/active_learner/normalizations.py:118-124 | A queried row without an algorithm-0 training match contributes nothing. |
| Normalizations.UndoNormalizeAppend | src/active_learner/normalizations.py:118-124 | Undoing the normalisation works query row by query row. |
| Normalizations.UndoNormalize | src/active_learner/normalizations.py:107-127 | Every undone value is the raw timing of an algorithm-0 training row that shares the triple of some query row, scaled by that query's `10 ** (y - 1)`. |
| Normalizations.RoundTrip | src/active_learner/normalizations.py:107-127 | Undoing alg normalisation recovers the raw timings. This holds for positive timings, when each configuration's algorithm-0 timing is anchored once in the training set and `10**` inverts `log10`. |
| Normalizations.LogRoundTrip | src/active_learner/normalizations.py:130-132 | Undoing log normalisation recovers positive timings. |
| DataCollect.Exp2 | src/active_learner/data_collect.py:47-49 | `2 ** e` on a numpy integer is defined exactly for e >= 0 and is then at least 1. |
| DataCollect.MakeJob | src/active_learner/data_collect.py:45-53 | An unknown algorithm id is a KeyError. The job exists exactly for a valid point. It names the algorithm and decodes each size from the point. A non-empty path selects the nodefile script. |
| DataCollect.JobEncodesPoint | src/active_learner/data_collect.py:45-53 | Encoding a job's sizes again gives back the point it was decoded from. |
| DataCollect.SingleExample | src/tests/unittests/test_data_collect.py:200-205 | Point (1, 2, 1, 1) of bcast runs `binomial` on 1 node, 2 processes per node, 1-byte messages. |
| DataCollect.Lookup | src/active_learner/data_collect.py:93-95 | A run sees a nodefile exactly when it is still on disk. |
| DataCollect.Results | src/active_learner/data_collect.py:62-65 | Each result is the runner's value for its own run. |
| DataCollect.SequentialAligned | src/active_learner/data_collect.py:63-65 | Sequential collection succeeds exactly when every point is valid and runs each point once, in order, without a nodefile. |
| DataCollect.Sequential | src/active_learner/data_collect.py:63-65 | Sequential mode yields one run per point, none given nodes or a nodefile. |
| DataCollect.PathFor | src/active_learner/data_collect.py:76 | Nodefile paths are never empty. |
| DataCollect.PathInjective | src/active_learner/data_collect.py:76 | Distinct point indices get distinct nodefile paths. |
| DataCollect.RunAllSpec | src/active_learner/data_collect.py:84-89 | A pool flush succeeds exactly when every pending point is valid; each run carries its own nodes and sees whatever is then on disk at its path. |
| DataCollect.Flush | src/active_learner/data_collect.py:84-89 | A flush runs every pending point and needs at least one (a pool of zero processes raises). |
| DataCollect.FlushAligned | src/active_learner/data_collect.py:84-91 | After a flush, the runs still line up with the points and every run has seen its own nodefile. |
| DataCollect.PackFilesHold | src/active_learner/data_collect.py:74-78 | Writing a new nodefile keeps every pending point's nodefile on disk. |
| DataCollect.PackAligned | src/active_learner/data_collect.py:74-80 | Packing a fitted point keeps runs plus pending points lined up with the points. |
| DataCollect.LoopKeeps | src/active_learner/data_collect.py:70-91 | The scheduling loop keeps every point in order, each with nodefile path number i. It keeps each pending point's nodefile on disk, and each finished run has seen its own nodefile. |
| DataCollect.Loop | src/active_learner/data_collect.py:70-91 | The scheduling loop only adds runs: the runs collected before it stay a prefix of the runs after it. |
| DataCollect.LoopAligned | src/active_learner/data_collect.py:70-91 | The same alignment, stated for the loop's result. |
| DataCollect.LoopLeavesLastReady | src/active_learner/data_collect.py:70-91 | The loop always ends with pending points: the last packed group is never flushed inside the loop. |
| DataCollect.LoopSucceeds | src/active_learner/data_collect.py:70-91 | With valid points that each fit right after a reset, the loop never fails. |
| DataCollect.BatchAligned | src/active_learner/data_collect.py:58-108 | One result per point, in order, each the runner's value for that point's job. In parallel mode the nodefiles are gone and the topology is reset afterwards. |
| DataCollect.CollectWith | src/active_learner/data_collect.py:58-108 | Each result is the runner's value for its run, in order. A parallel call without a topology fails. Sequential mode keeps the topology and the files; parallel mode ends with a topology and no nodefiles. |
| DataCollect.CollectPointBatch | src/active_learner/data_collect.py:58-108 | With the flush before the deletion: results are the runner's values for the runs, a parallel call without a topology fails, and parallel mode leaves no nodefile. |
| DataCollect.ParallelAligned | src/active_learner/data_collect.py:67-104 | Parallel collection runs every point once, in order, with nodefile i. It leaves no nodefile behind and ends on a reset topology. |
| DataCollect.Parallel | src/active_learner/data_collect.py:67-104 | Parallel collection leaves no nodefile behind. |
| DataCollect.ParallelSucceeds | src/active_learner/data_collect.py:67-104 | With a schedulable topology, parallel collection succeeds. |
| DataCollect.AsWrittenLastRunBlind | src/active_learner/data_collect.py:93-103 | In the code as written, the last point's run is told its nodefile path, but that file was deleted before the leftover flush. |
| DataCollect.CollectPointBatchAsWritten | src/active_learner/data_collect.py:58-108 | As written (deletion at 93-95 before the flush at 97-103): results are the runner's values for the runs, a parallel call without a topology fails, and parallel mode leaves no nodefile. |
| DataCollect.ParallelLastBlind | src/active_learner/data_collect.py:93-103 | With deletion before the leftover flush, the last run never sees its nodefile. |
| DataCollect.EveryRunSeesItsNodefile | src/active_learner/data_collect.py:93-103 | When the flush comes before the deletion, every run sees exactly the nodefile written for its nodes. |
| DataCollect.NodefileOrderExample | src/active_learner/data_collect.py:93-103 | On the local topology a single point runs blind as written and sees `local` with the order corrected. |
| DataCollect.AsCalledAlwaysFails | src/active_learner/active_learner.py:64 | `collect_point_batch(collective, algs, X_train, topo)` binds the topology to `parallel` and leaves `topo` as None, so the call always fails with an AttributeError. |
| DataCollect.CollectAsCalled | src/active_learner/active_learner.py:64 | The call as written at line 64 fails for every batch. |
| DataCollect.IntendedCollects | src/active_learner/active_learner.py:64 | Passing the topology by keyword with `parallel=1`, collection succeeds on a schedulable topology and yields one runner value per point. |
| DataCollect.CollectAsIntended | src/active_learner/active_learner.py:64 | The keyword call yields the runner's value for each run, keeps a topology and leaves no nodefile. |
| ActiveLearner.Normalize | src/active_learner/normalizations.py:66-77 | Alg normalisation (called at active_learner.py:69) succeeds exactly when there are algorithms and no complete block's head is a zero divisor, and keeps the raw copy. With no algorithms it raises IndexError on an empty batch and otherwise reports that the block loop makes no progress. |
| ActiveLearner.Fit | src/active_learner/active_learner.py:98-99 | Fitting fails on an empty or ragged training set and otherwise is the forest's fit. |
| ActiveLearner.Uncertainty | src/active_learner/active_learner.py:106 | The jackknife estimate over the whole space is non-negative and exists exactly when the forest's predictions are well formed for a non-empty space. |
| ActiveLearner.FirstRound | src/active_learner/active_learner.py:54-72 | The first round trains on the initial points expanded to every algorithm. It collects their timings and records one convergence value. Its model is the forest fitted to that training set. |
| ActiveLearner.LaterRound | src/active_learner/active_learner.py:75-91 | A later round appends every algorithm version of the most uncertain point and extends the targets. It records one more convergence value and refits on the grown set. |
| ActiveLearner.ChosenUnique | src/active_learner/active_learner.py:77 | The point a round chooses is unique. |
| ActiveLearner.Stop | src/active_learner/active_learner.py:108-112 | Training stops exactly when at least `min_reps` values exist and the convergence criteria hold. |
| ActiveLearner.Loop | src/active_learner/active_learner.py:47-112 | A stop means converged. Without a stop the loop runs its full fuel. Every round only extends the learner. |
| ActiveLearner.TrainOn | src/active_learner/active_learner.py:47-114 | Training returns the feature space and the last model. If it reports convergence, the criteria hold. The training set grew from the initial points expanded to every algorithm. |
| ActiveLearner.ExtendsFirst | src/active_learner/active_learner.py:59-83 | A learner grown from the first round starts with the first round's training set. |
| ActiveLearner.TrainedRows | src/active_learner/active_learner.py:59-83 | The final training set holds the initial rows with every algorithm, followed by one block of `numAlgs` rows per later round. |
| ActiveLearner.TrainModel | src/active_learner/active_learner.py:16-24 | Training succeeds exactly when the encoded feature space exists, the collective has algorithms and the loop succeeds, and is then that loop's result. |
| ActiveLearner.TrainModelAsWrittenFails | src/active_learner/active_learner.py:64 | With `collect` wired to `collect_point_batch` as line 64 calls it and a topology given, `train_model` fails for every forest, size and table. |
| JsonRules.Argmin | src/json_file/json_file.py:25 | Argmin fails exactly on an empty vector and otherwise gives the first minimal index. |
| JsonRules.FirstMinUnique | src/json_file/json_file.py:25 | The first minimal index is unique. |
| JsonRules.Selections | src/json_file/json_file.py:20-28 | One selection per complete block of predictions, each naming an algorithm. |
| JsonRules.SelectionIsBlockArgmin | src/json_file/json_file.py:24-26 | Selection b is the first fastest algorithm of block b. |
| JsonRules.GetSelections | src/json_file/json_file.py:20-28 | Selecting fails exactly when there are no algorithms (division by zero); otherwise it gives the per-block selections. |
| JsonRules.ProbeIsCurrentRow | src/json_file/json_file.py:53 | The "midpoint" message size `log2((2^(m-1) + 2^(m-1)) / 2) + 1` is the current row's own size. |
| JsonRules.Probe | src/json_file/json_file.py:53-56 | The probe answers with the first fastest algorithm at the current row, and fails only on an empty prediction. |
| JsonRules.RulesStep | src/json_file/json_file.py:40-71 | An unchanged selection adds no rule; a change past the last feature row raises an IndexError. |
| JsonRules.GetRules | src/json_file/json_file.py:32-73 | Rule mining fails on an empty selection list or an empty feature space. |
| JsonRules.RowRulesOrdered | src/json_file/json_file.py:32-73 | The row-indexed reference records rows in increasing order, starting with row 0 and the first selection. |
| JsonRules.SortedRowsDistinct | src/active_learner/initialization.py:15-24 | A strictly sorted feature space has no repeated row. |
| JsonRules.PutByRow | src/json_file/json_file.py:58-68 | Writing a rule keyed by a row's triple is writing the row-indexed reference, when rows are distinct. |
| JsonRules.GetRulesByRow | src/json_file/json_file.py:32-73 | Over distinct rows, the mined rules are the row-indexed reference turned into triples. |
| JsonRules.GetRulesSorted | src/json_file/json_file.py:32-73 | Over a sorted feature space, the first rule is row 0 with the first selection and the rule keys strictly increase. |
| JsonRules.SwitchRecordsBoth | src/json_file/json_file.py:66-68 | In the reference, a switch between rows of different n or ppn records both rows, one after the other. |
| JsonRules.GetRulesRecordsSwitch | src/json_file/json_file.py:66-68 | Such a switch puts both rows and their selections next to each other in the mined rules. |
| JsonTree.AnyKeyOfBound | src/json_file/json_file.py:82 | Renaming `name<=bound` gives `name=any`, since `find('=') - 1` drops the `<`. |
| JsonTree.AnyKeyNotAlgorithm | src/json_file/json_file.py:80-82 | A renamed key never starts with `algorithm=`. |
| JsonTree.AnyHelperLevel | src/json_file/json_file.py:76-86 | An empty or algorithm-keyed object is left alone. Otherwise the last key is renamed: appended last when new, or written in place over an existing sibling. Every value is widened in turn. |
| JsonTree.AnyHelper | src/json_file/json_file.py:76-86 | An empty object, or one whose last key starts with `algorithm`, comes back unchanged. Otherwise renaming the last key never adds a key and loses at most one, the key it collides with. |
| JsonTree.AnyHelperWellFormed | src/json_file/json_file.py:76-86 | Widening never repeats a key. |
| JsonTree.NestStep | src/json_file/json_file.py:97-114 | A rule fails exactly when a coordinate is not positive (numpy's negative power) or it writes a leaf for an unknown algorithm. |
| JsonTree.RulesToDict | src/json_file/json_file.py:90-117 | The nested object exists exactly when nesting every rule succeeds. |
| JsonTree.Update2Found | src/json_file/json_file.py:104-114 | A written leaf is found at its three-key path. |
| JsonTree.Update2Other | src/json_file/json_file.py:104-114 | Writing a path leaves every other path's lookup unchanged. |
| JsonTree.NestStepFiles | src/json_file/json_file.py:101-114 | A rule that changes some level stores its leaf at its path and updates the current bounds; one that changes nothing leaves everything alone. |
| JsonTree.NestStepKeeps | src/json_file/json_file.py:101-114 | A later rule never overwrites the leaf of an earlier one. |
| JsonTree.RulesNestFiles | src/json_file/json_file.py:90-115 | Strictly sorted positive rules with known algorithms nest without failure, and every rule's leaf sits at its own path. |
| JsonTree.FirstStep | src/json_file/json_file.py:101-114 | The first rule opens all three levels at once. |
| JsonTree.WidenPath | src/json_file/json_file.py:76-86 | A single path widens to `comm_size=any`, `comm_avg_ppn=any`, `avg_msg_size=any`. |
| JsonTree.SingleRuleAppliesEverywhere | src/json_file/json_file.py:90-117 | A single rule becomes one leaf that applies to every size. |
| JsonFile.Splice | src/json_file/json_file.py:133-137 | Splicing fails exactly when the slot exists and building the new object fails; without the slot the file is unchanged. |
| JsonFile.SpliceReplacesOnlySlot | src/json_file/json_file.py:133-137 | The slot holds the new object; every other key of the file and of the collective's object is unchanged, in the same order. |
| JsonFile.SpliceWellFormed | src/json_file/json_file.py:133-137 | Splicing keeps keys distinct. |
| JsonFile.UpdateCollective | src/json_file/json_file.py:119-139 | A collective missing from the algorithm table fails as `read_algs`'s None does. |
| JsonFile.UpdateTouchesOnlySlot | src/json_file/json_file.py:119-139 | The update changes at most the collective's intra slot, and a file without it comes back unchanged. |
| JsonFile.UpdateFillsSlot | src/json_file/json_file.py:119-139 | The slot receives `rules_to_dict` of the rules mined for the capitalised collective. |
| ParamAlgs.DigitRunStart | src/json_file/param_algs_to_json.py:8-12 | The scan stops at the start of the run of trailing digits. |
| ParamAlgs.SplitParamAlg | src/json_file/param_algs_to_json.py:6-22 | A value exactly when the name ends in a digit; the name is the longest non-digit-ending prefix and the value reads the digit run. |
| ParamAlgs.SplitJoin | src/json_file/param_algs_to_json.py:6-22 | Splitting `name + str(v)` gives `name` and `v` back when the name does not end in a digit. |
| ParamAlgs.SplitThenJoin | src/json_file/param_algs_to_json.py:6-22 | The split's parts concatenate back to the string, up to leading zeros of the value. |
| ParamAlgs.IntToString | src/json_file/param_algs_to_json.py:43 | `str` of an integer, with a minus sign for negatives. |
| ParamAlgs.GetParamRule | src/json_file/param_algs_to_json.py:25-43 | No value gives no rule; a radix algorithm's value gives `k=<value>`; any other name with a value raises TypeError. |
| ParamAlgs.ParamRuleRoundTrip | src/json_file/param_algs_to_json.py:6-43 | The rule for `alg + str(v)` is `k=v`, and parsing after `k=` gives v back. |
| ParamAlgs.SplitExamples | src/tests/unittests/test_json_file.py:90-102 | The unit test's three names split as expected. |
| ParamAlgs.ParamRuleExamples | src/tests/unittests/test_json_file.py:104-128 | The unit test's rules, plus the TypeError for `ring`. |
| GenericReader.YieldsByEntry | utils/mpich/algorithm_config/scripts/genericReader.py:12-17 | The reference reading, entry by entry. |
| GenericReader.GatherYields | utils/mpich/algorithm_config/scripts/genericReader.py:10-18 | The collector finds exactly the names the reference reading yields: non-`inter` algorithm keys, found directly or under non-algorithm keys. |
| GenericReader.GatherIgnoresOrder | utils/mpich/algorithm_config/scripts/genericReader.py:10-18 | The collected names depend only on which entries an object holds. |
| GenericReader.AlgorithmValueIgnored | utils/mpich/algorithm_config/scripts/genericReader.py:13-15 | The object under an algorithm key is never searched. |
| GenericReader.RenamedKeyNotAlgorithm | utils/mpich/algorithm_config/scripts/genericReader.py:13 | A key the widening may rename is not an algorithm key before or after. |
| GenericReader.AnyHelperKeepsAlgorithms | utils/mpich/algorithm_config/scripts/genericReader.py:10-18 | Widening to `=any` keeps every name the reference reading yields, as long as no rename collides. |
| GenericReader.AnyHelperKeepsGather | utils/mpich/algorithm_config/scripts/genericReader.py:10-18 | The collector finds the same set before and after the widening, under the same condition. |

## Left out

- **File and process I/O.**
  - Opening files, `subprocess` and `aprun` runs, and `print` are not modelled.
  - `multiprocessing.Pool` concurrency is not modelled. A flush is sequential over its pending points, and the runner is a function parameter.
  - The benchmark runner, the random forest, and `log10`/`10**` are parameters, so floating-point rounding is not modelled. Reals are exact.
- **Excluded operations.**
  - ConfigManager is not part of this model. `num_initial_points`, `acclaim_root` and the topology choice are parameters.
  - `gen_topology` / `gen_topology_file` for Theta, Polaris and Aurora only read the environment or run `aprun`. Serial and Local return `None`, which is modelled.
  - `read_generic_json_file`, `gatherAlgorithms`' printing and the JSON parser itself are not modelled. The selection file is a `JsonTree.Tree` of string keys.
  - The header table in `xctopo.h` is not modelled. The group and chassis formulas are proved instead.
  - `preprocess_input`'s scaler modes and the `norm`/`scale` output modes use sklearn scalers and are left out. Only `alg`, `log` and pass-through are modelled.
  - `collect_point_batch`'s final "did not collect the right amount" message is a print. The count is proved equal instead (BatchAligned).
  - Python's `int()` on non-ASCII digits or with `_` separators is not modelled. Only ASCII digits are accepted.
  - Theta's `add_node` "does not contain rack" branch cannot happen after `add_rack`. It is not modelled.
- ParamAlgs.SplitParamAlg: the backward scan at param_algs_to_json.py:11 tests characters with an ASCII digit test. Python's `str.isdigit` also accepts other Unicode digits, such as Arabic-Indic or superscript digits. A name ending in such digits is split differently by the source, and its `int()` may then raise. ParamAlgs.DigitRunStart shares this restriction.
- Xctopo.Group: C `int` arithmetic is modelled with unbounded integers. The coordinates are assumed small enough that `6*rackj + racki/2` fits in an `int`, so overflow at xctopo.c:43-46 is not modelled.
- Xctopo.Chassis: likewise `3*(racki%2) + chassis` is assumed to fit in an `int`; overflow at xctopo.c:49-52 is not modelled.
- FeatureSpace.GetInitialPoints: positions are the exact floor of `i*(count-1)/(k+1)`. The source floors `np.linspace`, which multiplies `i` by the rounded float step `(count-1)/(k+1)`. That product can fall just below an integer, and the source then picks the row one lower. For example, with 123 rows and `num_initial_points = 13`, position 7 is `7*(122/14) = 60.99999999999999` in float, so the source takes row 60 where the model takes row 61. It can only happen where the exact sample is a whole number (FeatureSpace.ExactIndexExample).
- FeatureSpace.InitialIndex: the same exact floor, so it can be one above the source's float index, as described for GetInitialPoints. Its in-range bounds hold for both.
- Encoding.PreprocessFeatures: the source computes `np.log2(x) + 1` in float64 and truncates. For sizes just below a large power of two the float logarithm rounds up, e.g. `np.log2(2**49 - 1)` is `49.0`, so the source encodes 50 where the model gives 49. The model is exact; sizes of 2^49 and above are not realistic process or message counts.
- Dragonfly.PoolFit: requests are natural numbers. In the source the request is `n = 2 ** (row[0] - 1)` (data_collect.py:71-73) over the float64 feature space, so it is a numpy float. Aurora casts it with `int()` before slicing (anl_aurora_parallel_scheduling.py:52). Polaris slices `self.nodes[:num_nodes]` without a cast (anl_polaris_parallel_scheduling.py:47), so a Polaris pool fit that reaches the slice raises TypeError. That includes the corrected keyword call of active_learner.py:64. The model treats both schemes like Aurora.
- ParamAlgs.DigitRunStart: uses an ASCII digit test where the source's `str.isdigit` also accepts other Unicode digits, as described for SplitParamAlg.
- PyStrings.Capitalize: ASCII case mapping only. Python's `str.capitalize` also maps non-ASCII letters and uses title case for the first character. JsonFile.UpdateFillsSlot relies on it for `collective.capitalize()`; collective names are ASCII.
- Jackknife.Variances: requires at least two trees. With one tree numpy divides by zero and yields NaN, which reals cannot express.
- Normalizations.NormalizeOutput: alg mode requires every complete block's head to be non-zero. numpy would produce inf/NaN there. ActiveLearner.Normalize reports that case as a Failure.
- Normalizations.NormalizeOutput: alg mode also requires at least one algorithm. With `num_algs == 0` the loop at normalizations.py:73-77 reads `y[0]` of an empty array (IndexError), and on a non-empty array it never advances (`i += 0`) and does not return. ActiveLearner.Normalize covers both cases as distinct Failures.
- ActiveLearner.Normalize: the non-terminating case (no algorithms, some timings) cannot be expressed by a terminating function. The model returns the Failure `NoAlgsNoProgress` there instead of diverging, kept apart from the IndexError of the empty case.
- Normalizations.RoundTrip: stated under the `Anchored` hypothesis that each configuration's algorithm-0 row appears exactly once in the training set, holding that block's raw head. The source assumes this silently.
- ActiveLearner.Loop: bounded by a `fuel` count. The source loops until convergence with no bound, so a run that never converges is not modelled.
- ActiveLearner.TrainModel: requires positive sizes. `log2` of a non-positive size is a float error in numpy.
- ActiveLearner.TrainModel: the `collect` oracle models the corrected keyword call (DataCollect.CollectAsIntended). As written, line 64 passes the topology positionally into `parallel`, so with a topology every collection fails (DataCollect.AsCalledAlwaysFails, ActiveLearner.TrainModelAsWrittenFails). With `topo=None` the written call is sequential collection (DataCollect.Sequential).
- ActiveLearner.FirstRound: the timings come from the `collect` oracle, which models the corrected keyword call (DataCollect.CollectAsIntended). The call written at line 64 never returns timings when a topology is given, and is sequential collection when `topo=None`.
- ActiveLearner.Uncertainty: malformed forest predictions (ragged rows) become a Failure instead of numpy's error.
- PointSelection.SelectBatchIndices: states the top-b property and distinctness, not numpy's particular `argpartition` order.
- JsonRules.GetRulesByRow: the equivalence with the row-indexed reference needs distinct feature rows. The zero padding rows of a shape that overshoots may repeat.
- JsonTree.RulesNestFiles: describes the nested object before the `=any` widening.
- GenericReader.AnyHelperKeepsGather: holds only when no rename collides with a sibling key (NoClashAnywhere). A collision drops the sibling's old value.
- JsonTree.NestStep: `2 ** (v - 1)` on a numpy int64 is not wrapped at 64 bits. Values stay unbounded.
- ParamAlgs.GetParamRule: models the unknown-name path as the TypeError that `None + "="` raises. The unraised `Warning` object it creates first has no effect and is not modelled.
- Theta.FitPoint: returns the boolean answer the source gives. There are no node lists for this topology.
- DataCollect.CollectPointBatch: the topology's `fit` must answer with a node list or nothing. Theta's `fit_point` answers `True` or `False`. Given `True`, `create_nodefile(True, path)` (`src/active_learner/data_collect.py:77`) would iterate a bool and raise TypeError, so parallel collection on Theta is not modelled.
- DataCollect.Exp2: treats point coordinates as numpy integers, on which a negative power raises ValueError. A point taken from a float64 array (as `np.zeros` makes them) would give `2 ** -1 == 0.5` instead of failing. Only a coordinate below 1 reaches this case, and encoded points are at least 1: MakeJob succeeds exactly on valid points.
- JsonRules.RulesStep: the same integer assumption for the probe's message coordinate (`cur.msg < 1` fails). On a float64 feature space numpy would compute a fractional size instead. Feature-space coordinates are encodings, at least 1, so the case does not arise there.

## Findings

| source | as written | input that shows it | evidently intended | confidence | as-written member | corrected member |
|---|---|---|---|---|---|---|
| src/active_learner/data_collect.py:93-103 | The nodefiles are deleted (lines 93-95) before the leftover points are flushed (lines 97-103), so the last group of points runs with a nodefile path that no longer exists. | A single point on the local topology: it is packed with `nodefile0`, the loop ends, the file is removed, then the point runs. | Flush the leftover points first, then delete the nodefiles. | not executed | DataCollect.CollectPointBatchAsWritten, DataCollect.AsWrittenLastRunBlind | DataCollect.CollectPointBatch, DataCollect.EveryRunSeesItsNodefile |
| src/active_learner/active_learner.py:64 | `collect_point_batch(collective, algs, X_train, topo)` passes the topology positionally as `parallel`, so `topo` stays `None` and `topo.fit_point` raises on the first point (or `topo.reset_fit` for an empty batch). | Any call from `train_model` with a non-None topology. | `collect_point_batch(collective, algs, X_train, parallel=1, topo=topo)`. | not executed | DataCollect.CollectAsCalled, DataCollect.AsCalledAlwaysFails | DataCollect.CollectAsIntended, DataCollect.IntendedCollects |

=== FILE: active_learner.dfy ===
/** The active-learning loop of `active_learner.py` (`train_model`). The
    random forest, the benchmark collector and `log10` are oracles: `fit`
    trains a forest, `predict` gives its members' predictions on a set of
    rows (one row of the matrix per member), `collect` runs the benchmarks
    for a batch of training rows. The loop has no bound in the source; here
    it runs for at most `fuel` selection rounds. */
module ActiveLearner {
  import opened Wrappers
  import opened Points
  import Encoding
  import FeatureSpace
  import Algs
  import Normalizations
  import Jackknife
  import PointSelection
  import Convergence
  import DataCollect

  datatype Oracles<!M> = Oracles(
    collect: seq<Point> -> Result<seq<real>>,
    fit: (seq<Point>, seq<real>) -> M,
    predict: (M, seq<Point>) -> seq<seq<real>>,
    log10: real -> real)

  /** What one round leaves behind: the training rows, their normalised and
      raw runtimes, one convergence value per round so far, and the forest
      trained in the last round. */
  datatype Learner<M> = Learner(xTrain: seq<Point>, y: seq<real>, ynf: seq<real>, conv: seq<real>, model: M)

  /** What `train_model` returns, plus the final learner state and whether
      the loop stopped by converging (rather than by running out of fuel). */
  datatype Trained<M> = Trained(featureSpace: seq<Triple>, model: M, last: Learner<M>, converged: bool)

  /** Training rows and runtimes line up row for row. */
  predicate Aligned<M>(l: Learner<M>) {
    |l.xTrain| == |l.y| == |l.ynf|
  }

  /** With no algorithms and no timings the block loop reads `y[0]` of an
      empty array. */
  const NoAlgsNoTimings := "IndexError: index 0 is out of bounds"

  /** With no algorithms and some timings the block loop never advances
      (`i += 0`), so `normalize_output` does not return. */
  const NoAlgsNoProgress := "no progress: the block loop never advances without algorithms"

  /** `normalize_output(y, len(algs), norm_type="alg")`. The two ways the
      source goes wrong without algorithms are kept apart; a zero block head
      is a float division by zero, outside this real-valued model. */
  function Normalize(ys: seq<real>, numAlgs: nat, log10: real -> real): (r: Result<(seq<real>, seq<real>)>)
    ensures r.Success? <==> numAlgs >= 1 && Normalizations.HeadsNonZero(ys, numAlgs)
    ensures r.Success? ==> r.value.1 == ys && |r.value.0| == |ys|
    ensures numAlgs == 0 && ys == [] ==> r == Failure(NoAlgsNoTimings)
    ensures numAlgs == 0 && ys != [] ==> r == Failure(NoAlgsNoProgress)
  {
    if numAlgs == 0 then Failure(if ys == [] then NoAlgsNoTimings else NoAlgsNoProgress)
    else if !Normalizations.HeadsNonZero(ys, numAlgs) then Failure("divide by zero: numpy leaves inf/NaN in the block, which reals cannot express")
    else Success(Normalizations.NormalizeOutput(ys, numAlgs, Normalizations.AlgNorm, log10))
  }

  /** `RandomForestRegressor().fit(X_train, y_train)`, with the two input
      checks scikit-learn makes before training. */
  function Fit<M>(o: Oracles<M>, x: seq<Point>, y: seq<real>): (r: Result<M>)
    ensures r.Success? <==> |x| > 0 && |x| == |y|
    ensures r.Success? ==> r.value == o.fit(x, y)
  {
    if |x| == 0 then Failure("ValueError: Found array with 0 sample(s)")
    else if |x| != |y| then Failure("ValueError: Found input variables with inconsistent numbers of samples")
    else Success(o.fit(x, y))
  }

  /** A prediction matrix the jackknife can use: at least two members, each
      predicting every row. */
  predicate WellFormed(preds: seq<seq<real>>, rows: nat) {
    |preds| >= 2 && Jackknife.Rectangular(preds, rows)
  }

  /** `jackknife(rf, X)`: the forest's average variance over the whole
      expanded feature space. An empty feature space is rejected by the
      trees' `predict` before any average is taken. */
  function Uncertainty<M>(o: Oracles<M>, m: M, x: seq<Point>): (r: Result<real>)
    ensures r.Success? <==> WellFormed(o.predict(m, x), |x|) && |x| > 0
    ensures r.Success? ==> r.value >= 0.0
  {
    var preds := o.predict(m, x);
    if !WellFormed(preds, |x|) then Failure("ValueError: malformed prediction matrix")
    else if |x| == 0 then Failure("ValueError: Found array with 0 sample(s)")
    else
      Jackknife.JackknifeBounds(preds, |x|);
      Success(Jackknife.Jackknife(preds, |x|).value)
  }

  /** The first round (`if first:`): the evenly spaced initial points, each
      under every algorithm. */
  function FirstRound<M>(o: Oracles<M>, numAlgs: nat, fs: seq<Triple>, numInitial: int, x: seq<Point>)
    : (r: Result<Learner<M>>)
    ensures r.Success? ==> FeatureSpace.GetInitialPoints(fs, numInitial).Success?
    ensures r.Success? ==> r.value.xTrain == Algs.AddAlgs(FeatureSpace.GetInitialPoints(fs, numInitial).value, numAlgs)
    ensures r.Success? ==> o.collect(r.value.xTrain).Success? && r.value.ynf == o.collect(r.value.xTrain).value
    ensures r.Success? ==> Aligned(r.value) && |r.value.conv| == 1
    ensures r.Success? ==> r.value.model == o.fit(r.value.xTrain, r.value.y)
  {
    var initial :- FeatureSpace.GetInitialPoints(fs, numInitial);
    var xTrain := Algs.AddAlgs(initial, numAlgs);
    var ys :- o.collect(xTrain);
    var norm :- Normalize(ys, numAlgs, o.log10);
    var model :- Fit(o, xTrain, norm.0);
    var u :- Uncertainty(o, model, x);
    Success(Learner(xTrain, norm.0, norm.1, [u], model))
  }

  /** `l2` continues `l1` by some further rounds of `numAlgs` rows each:
      the training rows and the convergence history only grow at the end,
      one block of rows per new convergence value. */
  predicate Extends<M>(l1: Learner<M>, l2: Learner<M>, numAlgs: nat) {
    |l1.conv| <= |l2.conv| && l2.conv[..|l1.conv|] == l1.conv
    && |l1.xTrain| <= |l2.xTrain| && l2.xTrain[..|l1.xTrain|] == l1.xTrain
    && |l2.xTrain| - |l1.xTrain| == numAlgs * (|l2.conv| - |l1.conv|)
    && (Aligned(l1) ==> Aligned(l2))
  }

  lemma ExtendsTrans<M>(l1: Learner<M>, l2: Learner<M>, l3: Learner<M>, numAlgs: nat)
    requires Extends(l1, l2, numAlgs) && Extends(l2, l3, numAlgs)
    ensures Extends(l1, l3, numAlgs)
  {
    assert l3.conv[..|l2.conv|][..|l1.conv|] == l3.conv[..|l1.conv|];
    assert l3.xTrain[..|l2.xTrain|][..|l1.xTrain|] == l3.xTrain[..|l1.xTrain|];
    var a, b := |l2.conv| - |l1.conv|, |l3.conv| - |l2.conv|;
    assert numAlgs * (a + b) == numAlgs * a + numAlgs * b;
  }

  /** The row a later round adds: where the last forest's variance over the
      expanded feature space is largest, the first such row on ties. */
  predicate Chosen<M>(o: Oracles<M>, x: seq<Point>, l: Learner<M>, i: int) {
    WellFormed(o.predict(l.model, x), |x|)
    && PointSelection.IsFirstMax(Jackknife.Variances(o.predict(l.model, x), |x|), i)
  }

  /** `l2` is `l1` with the algorithm variants of `p` appended as training
      rows and the runtimes collected for them appended to the raw runtimes. */
  predicate Appended<M>(o: Oracles<M>, numAlgs: nat, p: Point, l1: Learner<M>, l2: Learner<M>) {
    var batch := Algs.GetAllAlgs(p, numAlgs);
    l2.xTrain == l1.xTrain + batch
    && o.collect(batch).Success?
    && l2.ynf == l1.ynf + o.collect(batch).value
  }

  /** A later round (`else:`): the row of the expanded space where the last
      forest is least certain, under every algorithm, is appended to the
      training set and benchmarked; the forest is retrained on everything. */
  function LaterRound<M>(o: Oracles<M>, numAlgs: nat, x: seq<Point>, l: Learner<M>) : (r: Result<Learner<M>>)
    ensures r.Success? ==> Extends(l, r.value, numAlgs) && |r.value.conv| == |l.conv| + 1
    ensures r.Success? ==> exists i :: Chosen(o, x, l, i) && Appended(o, numAlgs, x[i], l, r.value)
    ensures r.Success? ==> r.value.model == o.fit(r.value.xTrain, r.value.y)
    ensures r.Success? ==> |l.y| <= |r.value.y| && r.value.y[..|l.y|] == l.y
  {
    var preds := o.predict(l.model, x);
    if !WellFormed(preds, |x|) then Failure("ValueError: malformed prediction matrix")
    else
      var sel :- PointSelection.SelectSingle(preds, l.xTrain, x);
      var batch := Algs.GetAllAlgs(sel.0, numAlgs);
      var xTrain := l.xTrain + batch;
      var ys :- o.collect(batch);
      var norm :- Normalize(ys, numAlgs, o.log10);
      var y := l.y + norm.0;
      var model :- Fit(o, xTrain, y);
      var u :- Uncertainty(o, model, x);
      var next := Learner(xTrain, y, l.ynf + norm.1, l.conv + [u], model);
      assert next.conv[..|l.conv|] == l.conv;
      assert xTrain[..|l.xTrain|] == l.xTrain;
      assert y[..|l.y|] == l.y;
      assert Chosen(o, x, l, sel.1) && Appended(o, numAlgs, x[sel.1], l, next);
      Success(next)
  }

  /** The selected row is unique: `Chosen` pins down a single index. */
  lemma ChosenUnique<M>(o: Oracles<M>, x: seq<Point>, l: Learner<M>, i: int, k: int)
    requires Chosen(o, x, l, i) && Chosen(o, x, l, k)
    ensures i == k
  {
    PointSelection.FirstMaxUnique(Jackknife.Variances(o.predict(l.model, x), |x|), i, k);
  }

  /** `if len(convergence_vals) < min_reps: continue`, else the criterion. */
  function Stop(conv: seq<real>, minReps: int): (r: Result<bool>)
    ensures r == Success(true) <==> |conv| >= minReps && Convergence.Converged(conv) == Success(true)
  {
    if |conv| < minReps then Success(false) else Convergence.Converged(conv)
  }

  /** The `while not converged` loop after the first round. It ends by
      converging, by running out of fuel, or with the first error a round
      raises. */
  function Loop<M>(o: Oracles<M>, numAlgs: nat, x: seq<Point>, minReps: int, l: Learner<M>, fuel: nat)
    : (r: Result<(Learner<M>, bool)>)
    ensures r.Success? && r.value.1 ==> Stop(r.value.0.conv, minReps) == Success(true)
    ensures r.Success? ==> |r.value.0.conv| <= |l.conv| + fuel
    ensures r.Success? && !r.value.1 ==> |r.value.0.conv| == |l.conv| + fuel
    ensures r.Success? ==> Extends(l, r.value.0, numAlgs)
    decreases fuel
  {
    var done :- Stop(l.conv, minReps);
    if done then
      assert l.conv[..|l.conv|] == l.conv && l.xTrain[..|l.xTrain|] == l.xTrain;
      Success((l, true))
    else if fuel == 0 then
      assert l.conv[..|l.conv|] == l.conv && l.xTrain[..|l.xTrain|] == l.xTrain;
      Success((l, false))
    else
      var next :- LaterRound(o, numAlgs, x, l);
      var r := Loop(o, numAlgs, x, minReps, next, fuel - 1);
      if r.Success? then
        ExtendsTrans(l, next, r.value.0, numAlgs);
        r
      else r
  }

  /** Everything `train_model` does once the feature space `fs` and the
      number of algorithms are known: the first round over the initial
      points, then the loop. */
  function TrainOn<M>(o: Oracles<M>, fs: seq<Triple>, numAlgs: nat, numInitial: int, minReps: int, fuel: nat)
    : (r: Result<Trained<M>>)
    ensures r.Success? ==> r.value.featureSpace == fs && r.value.model == r.value.last.model
    ensures r.Success? && r.value.converged ==>
      |r.value.last.conv| >= minReps && Convergence.Converged(r.value.last.conv) == Success(true)
    ensures r.Success? ==> 1 <= |r.value.last.conv| <= 1 + fuel && Aligned(r.value.last)
    ensures r.Success? && !r.value.converged ==> |r.value.last.conv| == 1 + fuel
    ensures r.Success? ==> FeatureSpace.GetInitialPoints(fs, numInitial).Success?
    ensures r.Success? ==>
      GrewFrom(r.value.last, Algs.AddAlgs(FeatureSpace.GetInitialPoints(fs, numInitial).value, numAlgs), numAlgs)
  {
    var x := Algs.AddAlgs(fs, numAlgs);
    var first :- FirstRound(o, numAlgs, fs, numInitial, x);
    var out :- Loop(o, numAlgs, x, minReps, first, fuel);
    ExtendsFirst(first, out.0, numAlgs);
    Success(Trained(fs, out.0.model, out.0, out.1))
  }

  /** Whatever extends a one-round learner grew from its rows. */
  lemma ExtendsFirst<M>(first: Learner<M>, last: Learner<M>, numAlgs: nat)
    requires |first.conv| == 1 && Extends(first, last, numAlgs)
    ensures GrewFrom(last, first.xTrain, numAlgs)
  {
    var k := |last.conv| - |first.conv|;
    assert k == |last.conv| - 1;
  }

  /** `l` holds the rows `prefix` first, then one block of `numAlgs` rows
      per convergence value after the first. */
  predicate GrewFrom<M>(l: Learner<M>, prefix: seq<Point>, numAlgs: nat) {
    |prefix| <= |l.xTrain| && l.xTrain[..|prefix|] == prefix
    && |l.xTrain| - |prefix| == numAlgs * (|l.conv| - 1)
  }

  /** The training rows `train_model` ends with: the initial points under
      every algorithm come first, then one block of `numAlgs` rows for each
      later round. */
  lemma TrainedRows<M>(o: Oracles<M>, fs: seq<Triple>, numAlgs: nat, numInitial: int, minReps: int, fuel: nat)
    requires TrainOn(o, fs, numAlgs, numInitial, minReps, fuel).Success?
    ensures var last := TrainOn(o, fs, numAlgs, numInitial, minReps, fuel).value.last;
      var initial := FeatureSpace.GetInitialPoints(fs, numInitial).value;
      && |initial| * numAlgs <= |last.xTrain|
      && last.xTrain[..|initial| * numAlgs] == Algs.AddAlgs(initial, numAlgs)
      && |last.xTrain| == |initial| * numAlgs + numAlgs * (|last.conv| - 1)
  {
    var last := TrainOn(o, fs, numAlgs, numInitial, minReps, fuel).value.last;
    var initial := FeatureSpace.GetInitialPoints(fs, numInitial).value;
    assert GrewFrom(last, Algs.AddAlgs(initial, numAlgs), numAlgs);
  }

  /** `train_model(n, ppn, msg_size, collective, min_reps)`. `rows` are the
      parsed lines of the algorithm table and `numInitial` the configured
      number of initial points. */
  function TrainModel<M>(o: Oracles<M>, n: int, ppn: int, msg: int, collective: string,
                         rows: seq<seq<string>>, numInitial: int, minReps: int, fuel: nat)
    : (r: Result<Trained<M>>)
    requires n >= 1 && ppn >= 1 && msg >= 1
    ensures r.Success? <==>
      var e := Encoding.PreprocessFeatures(n, ppn, msg, "log");
      var fs := FeatureSpace.CreateFeatureSpace(e.0, e.1, e.2, collective);
      var algs := Algs.ReadAlgs(rows, collective);
      fs.Success? && algs.Some? && TrainOn(o, fs.value, |algs.value|, numInitial, minReps, fuel).Success?
    ensures r.Success? ==>
      var e := Encoding.PreprocessFeatures(n, ppn, msg, "log");
      r == TrainOn(o, FeatureSpace.CreateFeatureSpace(e.0, e.1, e.2, collective).value,
                   |Algs.ReadAlgs(rows, collective).value|, numInitial, minReps, fuel)
  {
    var e := Encoding.PreprocessFeatures(n, ppn, msg, "log");
    var fs :- FeatureSpace.CreateFeatureSpace(e.0, e.1, e.2, collective);
    var algs := Algs.ReadAlgs(rows, collective);
    if algs.None? then Failure(Algs.NoAlgs)
    else TrainOn(o, fs, |algs.value|, numInitial, minReps, fuel)
  }

  /************************** the collector as `train_model` calls it **************************/

  /** The `collect` oracle wired to `collect_point_batch` the way line 64
      calls it (the topology passed positionally), the batch's results being
      the timings. */
  function CollectCalledAs<S>(name: string, algs: seq<string>, topo: S, root: string,
                              fit: (S, int) -> (S, Option<seq<string>>), reset: S -> S,
                              files: DataCollect.Files, runner: (DataCollect.Job, Option<string>) -> real)
    : seq<Point> -> Result<seq<real>>
  {
    pts => match DataCollect.CollectAsCalled(name, algs, pts, topo, root, fit, reset, files, runner)
           case Success(b) => Success(b.results)
           case Failure(e) => Failure(e)
  }

  /** With the collector called as written and a topology given, training
      never gets past its first batch: whatever the forest, the sizes and
      the table, `train_model` fails. */
  lemma {:induction false} TrainModelAsWrittenFails<M, S>(o: Oracles<M>, n: int, ppn: int, msg: int, collective: string,
                                     rows: seq<seq<string>>, numInitial: int, minReps: int, fuel: nat,
                                     topo: S, root: string, fit: (S, int) -> (S, Option<seq<string>>),
                                     reset: S -> S, files: DataCollect.Files,
                                     runner: (DataCollect.Job, Option<string>) -> real)
    requires n >= 1 && ppn >= 1 && msg >= 1
    ensures var algs := Algs.ReadAlgs(rows, collective);
      var o' := o.(collect := CollectCalledAs(collective, if algs.Some? then algs.value else [], topo, root,
                                              fit, reset, files, runner));
      TrainModel(o', n, ppn, msg, collective, rows, numInitial, minReps, fuel).Failure?
  {
    var algs := Algs.ReadAlgs(rows, collective);
    var names := if algs.Some? then algs.value else [];
    var o' := o.(collect := CollectCalledAs(collective, names, topo, root, fit, reset, files, runner));
    var e := Encoding.PreprocessFeatures(n, ppn, msg, "log");
    var fs := FeatureSpace.CreateFeatureSpace(e.0, e.1, e.2, collective);
    if fs.Success? && algs.Some? {
      var initial := FeatureSpace.GetInitialPoints(fs.value, numInitial);
      if initial.Success? {
        var xTrain := Algs.AddAlgs(initial.value, |algs.value|);
        assert DataCollect.CollectAsCalled(collective, names, xTrain, topo, root, fit, reset, files, runner).Failure?;
        assert o'.collect(xTrain).Failure?;
        assert FirstRound(o', |algs.value|, fs.value, numInitial, Algs.AddAlgs(fs.value, |algs.value|)).Failure?;
      }
    }
  }
}

=== FILE: algs.dfy ===
/** The algorithm table of a collective and the expansion of feature rows
    into one training row per algorithm. The table is the dictionary
    `read_algs` builds, whose keys are always `0 .. k - 1` in order; it is a
    sequence here, key `j` being position `j`. */
module Algs {
  import opened Wrappers
  import opened Points
  import opened Arith

  /** `r` is `s` with its first `x` cut out and everything else in order. */
  predicate RemovedFirst(s: seq<string>, x: string, r: seq<string>) {
    exists i :: 0 <= i < |s| && s[i] == x && x !in s[..i] && r == s[..i] + s[i + 1..]
  }

  /** `list.remove(x)`: drops the first occurrence (the caller has checked
      that there is one). */
  function RemoveFirst(s: seq<string>, x: string): (r: seq<string>)
    requires x in s
    ensures |r| == |s| - 1
    ensures multiset(r) == multiset(s) - multiset{x}
    ensures RemovedFirst(s, x, r)
    decreases |s|
  {
    assert s == [s[0]] + s[1..];
    if s[0] == x then
      assert s[..0] + s[1..] == s[1..];
      s[1..]
    else
      var t := RemoveFirst(s[1..], x);
      assert RemovedFirst(s, x, [s[0]] + t) by {
        var j :| 0 <= j < |s| - 1 && s[1..][j] == x && x !in s[1..][..j] && t == s[1..][..j] + s[1..][j + 1..];
        SpliceCons(s[0], s[1..], x, t, j);
      }
      [s[0]] + t
  }

  /** Putting back a head that is not `x` moves the first `x` one place on. */
  lemma SpliceCons(h: string, s: seq<string>, x: string, t: seq<string>, j: int)
    requires h != x && 0 <= j < |s| && s[j] == x && x !in s[..j] && t == s[..j] + s[j + 1..]
    ensures ([h] + s)[j + 1] == x && x !in ([h] + s)[..j + 1]
    ensures [h] + t == ([h] + s)[..j + 1] + ([h] + s)[j + 2..]
  {
    assert ([h] + s)[..j + 1] == [h] + s[..j];
    assert ([h] + s)[j + 2..] == s[j + 1..];
  }

  /** The algorithms one CSV row lists for its collective, first "smp"
      removed. */
  function RowAlgs(row: seq<string>): (r: seq<string>)
    requires |row| > 0
  {
    var algs := row[1..];
    if "smp" in algs then RemoveFirst(algs, "smp") else algs
  }

  predicate Matches(row: seq<string>, collective: string) {
    |row| > 0 && row[0] == collective
  }

  /** `read_algs(collective)` over the parsed rows of the CSV file: every
      matching row overwrites the table, so the last one wins; `None` when
      no row names the collective. */
  function ReadAlgs(rows: seq<seq<string>>, collective: string): (r: Option<seq<string>>)
    ensures r.None? <==> forall i :: 0 <= i < |rows| ==> !Matches(rows[i], collective)
    decreases |rows|
  {
    if |rows| == 0 then None
    else
      var last := rows[|rows| - 1];
      if Matches(last, collective) then Some(RowAlgs(last))
      else
        assert forall i :: 0 <= i < |rows| - 1 ==> rows[..|rows| - 1][i] == rows[i];
        ReadAlgs(rows[..|rows| - 1], collective)
  }

  /** `read_algs` is `None` exactly when no row names the collective, and
      otherwise the table of the last row that does. */
  lemma {:induction false} ReadAlgsLastMatch(rows: seq<seq<string>>, collective: string)
    ensures ReadAlgs(rows, collective).None? <==> forall i :: 0 <= i < |rows| ==> !Matches(rows[i], collective)
    ensures ReadAlgs(rows, collective).Some? ==>
      exists i :: 0 <= i < |rows| && Matches(rows[i], collective)
        && ReadAlgs(rows, collective).value == RowAlgs(rows[i])
        && forall j :: i < j < |rows| ==> !Matches(rows[j], collective)
    decreases |rows|
  {
    if |rows| > 0 {
      var n := |rows| - 1;
      if !Matches(rows[n], collective) {
        var init := rows[..n];
        assert ReadAlgs(rows, collective) == ReadAlgs(init, collective);
        ReadAlgsLastMatch(init, collective);
        assert forall i :: 0 <= i < n ==> rows[i] == init[i];
        if ReadAlgs(init, collective).Some? {
          var i :| 0 <= i < n && Matches(init[i], collective)
            && ReadAlgs(init, collective).value == RowAlgs(init[i])
            && forall j :: i < j < n ==> !Matches(init[j], collective);
          assert forall j :: i < j < |rows| ==> !Matches(rows[j], collective);
        }
      } else {
        assert Matches(rows[n], collective) && ReadAlgs(rows, collective).value == RowAlgs(rows[n]);
      }
    }
  }

  /** Rows appended after the last match leave the table as it is. */
  lemma ReadAlgsIgnoresOthers(rows: seq<seq<string>>, more: seq<seq<string>>, collective: string)
    requires forall i :: 0 <= i < |more| ==> !Matches(more[i], collective)
    ensures ReadAlgs(rows + more, collective) == ReadAlgs(rows, collective)
    decreases |more|
  {
    if |more| > 0 {
      var all := rows + more;
      assert all[..|all| - 1] == rows + more[..|more| - 1];
      assert all[|all| - 1] == more[|more| - 1];
      ReadAlgsIgnoresOthers(rows, more[..|more| - 1], collective);
    } else {
      assert rows + more == rows;
    }
  }

  /** A table without "smp" keeps its order; with one, only its first "smp"
      goes and the others keep their order around the gap. */
  lemma RowAlgsDropsOneSmp(row: seq<string>)
    requires |row| > 0
    ensures "smp" !in row[1..] ==> RowAlgs(row) == row[1..]
    ensures "smp" in row[1..] ==> multiset(RowAlgs(row)) == multiset(row[1..]) - multiset{"smp"}
    ensures "smp" in row[1..] ==> RemovedFirst(row[1..], "smp", RowAlgs(row))
  {
  }

  /** `add_algs` reads `algs.keys()`, so a collective without a CSV row
      (`read_algs` gave `None`) fails there. */
  const NoAlgs: string := "AttributeError: 'NoneType' object has no attribute 'keys'"

  /** One row of `add_algs` in its one-dimensional form: the feature vector
      once per algorithm, with the algorithm id appended. */
  function AddAlgsOne(t: Triple, numAlgs: nat): (r: seq<Point>)
    ensures |r| == numAlgs
    ensures forall j :: 0 <= j < numAlgs ==> TripleOf(r[j]) == t && r[j].alg == j
  {
    seq(numAlgs, j => WithAlg(t, j))
  }

  /** `add_algs(feature_space, algs)` for a two-dimensional feature space:
      row `i * A + j` is feature row `i` with algorithm `j`. A single-row
      space squeezes to the one-dimensional case, which gives the same
      rows. */
  function AddAlgs(fs: seq<Triple>, numAlgs: nat): (r: seq<Point>)
    ensures |r| == |fs| * numAlgs
  {
    if |fs| == 0 then []
    else AddAlgsOne(fs[0], numAlgs) + AddAlgs(fs[1..], numAlgs)
  }

  /** Every cell of the expansion, by row and algorithm. */
  lemma {:induction false} AddAlgsCell(fs: seq<Triple>, numAlgs: nat, i: nat, j: nat)
    requires i < |fs| && j < numAlgs
    ensures i * numAlgs + j < |AddAlgs(fs, numAlgs)|
    ensures AddAlgs(fs, numAlgs)[i * numAlgs + j] == WithAlg(fs[i], j)
  {
    CellInRange(i, j, numAlgs, |fs|);
    if i > 0 {
      AddAlgsCell(fs[1..], numAlgs, i - 1, j);
      assert (i - 1) * numAlgs + j == i * numAlgs + j - numAlgs;
    }
  }

  /** The rows for feature row `i` form one block of `A` consecutive rows. */
  lemma AddAlgsBlock(fs: seq<Triple>, numAlgs: nat, i: nat)
    requires i < |fs|
    ensures (i + 1) * numAlgs <= |AddAlgs(fs, numAlgs)|
    ensures AddAlgs(fs, numAlgs)[i * numAlgs..(i + 1) * numAlgs] == AddAlgsOne(fs[i], numAlgs)
  {
    MulMonotone(i + 1, |fs|, numAlgs);
    assert (i + 1) * numAlgs == i * numAlgs + numAlgs;
    forall j | 0 <= j < numAlgs
      ensures AddAlgs(fs, numAlgs)[i * numAlgs..(i + 1) * numAlgs][j] == AddAlgsOne(fs[i], numAlgs)[j]
    {
      AddAlgsCell(fs, numAlgs, i, j);
    }
  }

  /** The one-dimensional form is the two-dimensional form of a single row. */
  lemma AddAlgsSingleRow(t: Triple, numAlgs: nat)
    ensures AddAlgs([t], numAlgs) == AddAlgsOne(t, numAlgs)
  {
    assert AddAlgs([t], numAlgs) == AddAlgsOne(t, numAlgs) + AddAlgs([], numAlgs);
  }

  /** Expansion distributes over concatenation of feature spaces. */
  lemma {:induction false} AddAlgsAppend(a: seq<Triple>, b: seq<Triple>, numAlgs: nat)
    ensures AddAlgs(a + b, numAlgs) == AddAlgs(a, numAlgs) + AddAlgs(b, numAlgs)
  {
    if |a| > 0 {
      assert (a + b)[1..] == a[1..] + b;
      AddAlgsAppend(a[1..], b, numAlgs);
    } else {
      assert a + b == b;
    }
  }

  /** `get_all_algs(x, algs)`: every column but the last copied from `x`,
      the last set to each key in dictionary order. */
  function GetAllAlgs(x: Point, numAlgs: nat): (r: seq<Point>)
    ensures |r| == numAlgs
    ensures forall j :: 0 <= j < numAlgs ==> TripleOf(r[j]) == TripleOf(x) && r[j].alg == j
  {
    seq(numAlgs, j => Point(x.n, x.ppn, x.msg, j))
  }

  /** All algorithm variants of a training row are the expansion of its
      feature triple, whatever algorithm the row itself carried. */
  lemma GetAllAlgsIsExpansion(x: Point, numAlgs: nat)
    ensures GetAllAlgs(x, numAlgs) == AddAlgsOne(TripleOf(x), numAlgs)
  {
  }

  /** The example table for bcast expands (1, 1, 1) into ids 0, 1, 2. */
  lemma ExpansionExample()
    ensures AddAlgsOne(Triple(1, 1, 1), 3) == [Point(1, 1, 1, 0), Point(1, 1, 1, 1), Point(1, 1, 1, 2)]
  {
  }
}

=== FILE: arith.dfy ===
/** Small facts about products that the solver does not find unaided. */
module Arith {

  lemma {:induction false} MulMonotone(a: nat, b: nat, c: nat)
    requires a <= b
    ensures a * c <= b * c
  {
    if c > 0 {
      MulMonotone(a, b, c - 1);
      assert a * c == a * (c - 1) + a && b * c == b * (c - 1) + b;
    }
  }

  /** Row `i * w + j` of a table of `h` rows of width `w` is in range. */
  lemma CellInRange(i: nat, j: nat, w: nat, h: nat)
    requires i < h && j < w
    ensures i * w + j < h * w
  {
    MulMonotone(i + 1, h, w);
    assert (i + 1) * w == i * w + w;
  }
}

=== FILE: convergence.dfy ===
/** The stopping test of the active learner (`convergence.py`): the model
    has converged once its last four jackknife values lie within 0.001 of
    their neighbours. */
module Convergence {
  import opened Wrappers

  /** The hard-coded tolerance. */
  const Threshold: real := 0.001

  function Abs(x: real): (r: real)
    ensures r >= 0.0 && (r == x || r == -x)
  {
    if x < 0.0 then -x else x
  }

  /** `abs(vals[-i] - vals[-(i + 1)]) <= threshold`, for `vals` long enough. */
  predicate Close(vals: seq<real>, i: nat)
    requires 1 <= i < |vals|
  {
    Abs(vals[|vals| - i] - vals[|vals| - i - 1]) <= Threshold
  }

  const IndexError: string := "IndexError: list index out of range"

  /** `convergence_criteria(convergence_vals)`: each comparison in turn,
      returning `False` at the first gap larger than the threshold. A
      comparison that indexes past the front of the list raises, but only
      if every earlier comparison passed. */
  function Converged(vals: seq<real>): (r: Result<bool>)
    ensures r.Failure? <==>
      |vals| < 2
      || (|vals| == 2 && Close(vals, 1))
      || (|vals| == 3 && Close(vals, 1) && Close(vals, 2))
    ensures r == Success(true) <==>
      |vals| >= 4 && Close(vals, 1) && Close(vals, 2) && Close(vals, 3)
  {
    var n := |vals|;
    if n < 2 then Failure(IndexError)
    else if Abs(vals[n - 1] - vals[n - 2]) > Threshold then Success(false)
    else if n < 3 then Failure(IndexError)
    else if Abs(vals[n - 2] - vals[n - 3]) > Threshold then Success(false)
    else if n < 4 then Failure(IndexError)
    else if Abs(vals[n - 3] - vals[n - 4]) > Threshold then Success(false)
    else Success(true)
  }

  /** Only the last four values are read: any history in front of them is
      irrelevant. */
  lemma OnlyLastFourMatter(history: seq<real>, last: seq<real>)
    requires |last| == 4
    ensures Converged(history + last) == Converged(last)
  {
    var vals := history + last;
    var n := |vals|;
    assert forall i :: 0 <= i < 4 ==> vals[n - 4 + i] == last[i];
  }

  /** The sequence need not settle on one value: any values that keep
      within the threshold of each other converge, for instance an
      oscillation of exactly the threshold's height. */
  lemma OscillationConverges(a: real, history: seq<real>)
    ensures Converged(history + [a, a + Threshold, a, a + Threshold]) == Success(true)
  {
    var last := [a, a + Threshold, a, a + Threshold];
    OnlyLastFourMatter(history, last);
  }

  lemma ConvergenceExamples()
    ensures Converged([1.0, 1.0, 1.0, 1.0]) == Success(true)
    ensures Converged([1.0, 2.0, 3.0, 4.0]) == Success(false)
    ensures Converged([1.0, 1.0, 1.0, 1.0011]) == Success(false)
    ensures Converged([0.5, 0.5, 0.5]).Failure?
  {
  }
}

=== FILE: data_collect.dfy ===
/** The data collector (`data_collect.py`): decoding an encoded point into a
    benchmark job, and `collect_point_batch`, which packs jobs onto a
    topology while they fit, runs the ready ones when one does not, resets
    the topology and retries. The benchmark script is the `runner`
    parameter; the process pool is an order-preserving map over the ready
    jobs; the topology is any state `S` with `fit` and `reset`. */
module DataCollect {
  import opened Wrappers
  import opened Points
  import opened PyStrings
  import Encoding
  import Nodefile
  import Local

  /** The files of the `parallel_nodefiles` directory, by path. */
  type Files = map<string, string>

  /** One call of the benchmark script: collective, algorithm name, decoded
      node count, processes per node and message size, and the nodefile path
      when the nodefile variant of the script is called. */
  datatype Job = Job(collective: string, alg: string, n: nat, ppn: nat, msg: nat, nodefile: Option<string>)

  /** A job as the pool ran it: the nodes it was packed on, and the content
      of its nodefile at the moment it ran (`None`: no such file). */
  datatype Run = Run(job: Job, nodes: seq<string>, seen: Option<string>)

  /** A job waiting for the next flush. */
  datatype Ready = Ready(point: Point, path: string, nodes: seq<string>)

  /** The topology argument: `topo=None` or a topology. */
  datatype TopoArg<S> = NoTopo | Topo(state: S)

  /** The order of the two clean-up steps after the loop. */
  datatype Cleanup = DeleteThenFlush | FlushThenDelete

  /** What a call returns, with what it did on the way: one result per run,
      the runs in submission order, the topology and the nodefile
      directory afterwards. */
  datatype Batch<S> = Batch(results: seq<real>, runs: seq<Run>, topo: TopoArg<S>, files: Files)

  /************************** one point **************************/

  /** `2 ** e` on a numpy integer; a negative exponent raises ValueError. */
  function Exp2(e: int): (r: Result<nat>)
    ensures r.Success? <==> e >= 0
    ensures r.Success? ==> r.value >= 1
  {
    if e >= 0 then Success(Encoding.Pow2(e))
    else Failure("ValueError: Integers to negative integer powers are not allowed.")
  }

  /** A point `collect_point_single` can decode: a known algorithm id and
      encodings of at least one. */
  predicate ValidPoint(p: Point, numAlgs: nat) {
    0 <= p.alg < numAlgs && p.n >= 1 && p.ppn >= 1 && p.msg >= 1
  }

  /** The decoding half of `collect_point_single(name, algs, point, path)`:
      the algorithm name is looked up first (KeyError), then each size is
      `2 ** (v - 1)`; a non-empty path selects the nodefile script. */
  function MakeJob(name: string, algs: seq<string>, p: Point, path: Option<string>): (r: Result<Job>)
    ensures r.Success? <==> ValidPoint(p, |algs|)
    ensures !(0 <= p.alg < |algs|) ==> r == Failure("KeyError")
    ensures r.Success? ==>
      r.value.collective == name && r.value.alg == algs[p.alg]
      && r.value.n as real == Encoding.Decode(p.n)
      && r.value.ppn as real == Encoding.Decode(p.ppn)
      && r.value.msg as real == Encoding.Decode(p.msg)
    ensures r.Success? ==>
      (r.value.nodefile.Some? <==> path.Some? && |path.value| > 0)
      && (r.value.nodefile.Some? ==> r.value.nodefile == path)
  {
    if !(0 <= p.alg < |algs|) then Failure("KeyError")
    else
      var n :- Exp2(p.n - 1);
      var ppn :- Exp2(p.ppn - 1);
      var msg :- Exp2(p.msg - 1);
      Success(Job(name, algs[p.alg], n, ppn, msg, if path.Some? && |path.value| > 0 then path else None))
  }

  /** The job's sizes encode back to the point: decoding inverts
      `preprocess_features`. */
  lemma JobEncodesPoint(name: string, algs: seq<string>, p: Point, path: Option<string>)
    requires ValidPoint(p, |algs|)
    ensures var j := MakeJob(name, algs, p, path).value;
      j.n >= 1 && j.ppn >= 1 && j.msg >= 1
      && Encoding.PreprocessFeatures(j.n, j.ppn, j.msg, "log") == (p.n, p.ppn, p.msg)
  {
    Encoding.PreprocessUnprocess(p.n, p.ppn, p.msg);
  }

  /** The point `[1, 2, 1, 1]` of the bcast test is binomial on 1 node with
      2 processes per node and 1-byte messages. */
  lemma SingleExample()
    ensures MakeJob("bcast", ["scatter_recursive_doubling_allgather", "binomial", "scatter_ring_allgather"],
                    Point(1, 2, 1, 1), None)
         == Success(Job("bcast", "binomial", 1, 2, 1, None))
  {
    assert Encoding.Pow2(1) == 2;
  }

  /** What the script reads from the nodefile path when it runs. */
  function Lookup(files: Files, path: string): (r: Option<string>)
    ensures r.Some? <==> path in files
    ensures r.Some? ==> r.value == files[path]
  {
    if path in files then Some(files[path]) else None
  }

  /** The pool's results, in submission order. */
  function Results(runs: seq<Run>, runner: (Job, Option<string>) -> real): (r: seq<real>)
    ensures |r| == |runs|
    ensures forall k :: 0 <= k < |runs| ==> r[k] == runner(runs[k].job, runs[k].seen)
  {
    seq(|runs|, k requires 0 <= k < |runs| => runner(runs[k].job, runs[k].seen))
  }

  /************************** sequential mode **************************/

  /** `for row in points: results.append(collect_point_single(name, algs, row))` */
  function Sequential(name: string, algs: seq<string>, points: seq<Point>): (r: Result<seq<Run>>)
    ensures r.Success? ==> |r.value| == |points|
    ensures r.Success? ==> forall k :: 0 <= k < |r.value| ==> r.value[k].nodes == [] && r.value[k].seen.None?
    decreases |points|
  {
    if |points| == 0 then Success([])
    else
      var job :- MakeJob(name, algs, points[0], None);
      var rest :- Sequential(name, algs, points[1..]);
      Success([Run(job, [], None)] + rest)
  }

  /** Sequential mode runs one job per row, in row order, and fails exactly
      when some row cannot be decoded. */
  lemma {:induction false} SequentialAligned(name: string, algs: seq<string>, points: seq<Point>)
    ensures var r := Sequential(name, algs, points);
      (r.Success? <==> forall k :: 0 <= k < |points| ==> ValidPoint(points[k], |algs|))
      && (r.Success? ==>
            |r.value| == |points|
            && forall k :: 0 <= k < |points| ==>
                 MakeJob(name, algs, points[k], None) == Success(r.value[k].job) && r.value[k].seen.None?)
    decreases |points|
  {
    if |points| > 0 {
      SequentialAligned(name, algs, points[1..]);
      assert forall k :: 1 <= k < |points| ==> points[1..][k - 1] == points[k];
    }
  }

  /************************** parallel mode **************************/

  /** `f"{root_path}/parallel_nodefiles/nodefile{i}"` */
  function PathFor(root: string, i: nat): (r: string)
    ensures |r| > 0
  {
    root + "/parallel_nodefiles/nodefile" + NatToString(i)
  }

  /** Different points get different nodefiles. */
  lemma PathInjective(root: string, i: nat, j: nat)
    requires PathFor(root, i) == PathFor(root, j)
    ensures i == j
  {
    var pre := root + "/parallel_nodefiles/nodefile";
    assert PathFor(root, i)[|pre|..] == NatToString(i);
    assert PathFor(root, j)[|pre|..] == NatToString(j);
    NatToStringInjective(i, j);
  }

  /** Python truthiness of what `fit_point` returned: `False`/`None` and the
      empty list are false. */
  predicate Truthy(nodes: Option<seq<string>>) {
    nodes.Some? && |nodes.value| > 0
  }

  function RunReady(name: string, algs: seq<string>, r: Ready, files: Files): Result<Run> {
    var job :- MakeJob(name, algs, r.point, Some(r.path));
    Success(Run(job, r.nodes, Lookup(files, r.path)))
  }

  function RunAll(name: string, algs: seq<string>, ready: seq<Ready>, files: Files): (r: Result<seq<Run>>)
    ensures r.Success? ==> |r.value| == |ready|
    decreases |ready|
  {
    if |ready| == 0 then Success([])
    else
      var first :- RunReady(name, algs, ready[0], files);
      var rest :- RunAll(name, algs, ready[1..], files);
      Success([first] + rest)
  }

  /** A flush: `Pool(processes=len(ready)).starmap(collect_point_single, ready)`.
      A pool of zero processes raises ValueError. */
  function Flush(name: string, algs: seq<string>, ready: seq<Ready>, files: Files): (r: Result<seq<Run>>)
    ensures r.Success? ==> |ready| > 0 && |r.value| == |ready|
  {
    if |ready| == 0 then Failure("ValueError: Number of processes must be at least 1")
    else RunAll(name, algs, ready, files)
  }

  /** A flush succeeds iff there is a ready job and every ready point
      decodes; run `k` is ready job `k`, reading its nodefile from `files`. */
  lemma {:induction false} RunAllSpec(name: string, algs: seq<string>, ready: seq<Ready>, files: Files)
    ensures var r := RunAll(name, algs, ready, files);
      (r.Success? <==> forall k :: 0 <= k < |ready| ==> ValidPoint(ready[k].point, |algs|))
      && (r.Success? ==> forall k :: 0 <= k < |ready| ==>
            MakeJob(name, algs, ready[k].point, Some(ready[k].path)) == Success(r.value[k].job)
            && r.value[k].nodes == ready[k].nodes
            && r.value[k].seen == Lookup(files, ready[k].path))
    decreases |ready|
  {
    if |ready| > 0 {
      RunAllSpec(name, algs, ready[1..], files);
      assert forall k :: 1 <= k < |ready| ==> ready[1..][k - 1] == ready[k];
    }
  }

  /** The `while i < num_results` loop: the index moves on only when the
      point fits; otherwise the ready jobs are flushed, the topology reset
      and the same point tried again. Returns the runs so far, the jobs
      still ready, the topology and the nodefile directory. */
  function Loop<S>(name: string, algs: seq<string>, points: seq<Point>, root: string,
                   fit: (S, int) -> (S, Option<seq<string>>), reset: S -> S,
                   i: nat, ready: seq<Ready>, runs: seq<Run>, topo: S, files: Files)
    : (r: Result<(seq<Run>, seq<Ready>, S, Files)>)
    requires i <= |points|
    ensures r.Success? ==> |runs| <= |r.value.0| && r.value.0[..|runs|] == runs
    decreases |points| - i, |ready|
  {
    if i == |points| then Success((runs, ready, topo, files))
    else
      var n :- Exp2(points[i].n - 1);
      var f := fit(topo, n);
      if Truthy(f.1) then
        var path := PathFor(root, i);
        Loop(name, algs, points, root, fit, reset, i + 1, ready + [Ready(points[i], path, f.1.value)], runs,
             f.0, files[path := Nodefile.Content(f.1.value)])
      else
        var flushed :- Flush(name, algs, ready, files);
        Loop(name, algs, points, root, fit, reset, i, [], runs + flushed, reset(f.0), files)
  }

  /** The parallel branch, with the two clean-up steps in either order; the
      topology is reset at the end. */
  function Parallel<S>(name: string, algs: seq<string>, points: seq<Point>, root: string,
                       fit: (S, int) -> (S, Option<seq<string>>), reset: S -> S,
                       topo: S, files: Files, cleanup: Cleanup): (r: Result<(seq<Run>, S, Files)>)
    ensures r.Success? ==> r.value.2 == map[]
  {
    var (runs, ready, t, fs) :- Loop(name, algs, points, root, fit, reset, 0, [], [], topo, files);
    var seenFiles := if cleanup == DeleteThenFlush then map[] else fs;
    var leftover :- if |ready| != 0 then Flush(name, algs, ready, seenFiles) else Success([]);
    Success((runs + leftover, reset(t), map[]))
  }

  /** `collect_point_batch(name, algs, points, parallel, topo)`, clean-up
      order as a parameter. A parallel call without a topology raises
      AttributeError at its first use of `topo`. */
  function CollectWith<S>(name: string, algs: seq<string>, points: seq<Point>, parallel: bool, topo: TopoArg<S>,
                          root: string, fit: (S, int) -> (S, Option<seq<string>>), reset: S -> S,
                          files: Files, runner: (Job, Option<string>) -> real, cleanup: Cleanup): (r: Result<Batch<S>>)
    ensures r.Success? ==> r.value.results == Results(r.value.runs, runner)
    ensures parallel && topo.NoTopo? ==> r.Failure?
    ensures !parallel && r.Success? ==> r.value.topo == topo && r.value.files == files
    ensures parallel && r.Success? ==> r.value.topo.Topo? && r.value.files == map[]
  {
    if !parallel then
      var runs :- Sequential(name, algs, points);
      Success(Batch(Results(runs, runner), runs, topo, files))
    else if topo.NoTopo? then
      Failure(if |points| > 0 then "AttributeError: 'NoneType' object has no attribute 'fit_point'"
              else "AttributeError: 'NoneType' object has no attribute 'reset_fit'")
    else
      var (runs, t, fs) :- Parallel(name, algs, points, root, fit, reset, topo.state, files, cleanup);
      Success(Batch(Results(runs, runner), runs, Topo(t), fs))
  }

  /** `collect_point_batch` as written: the nodefiles are deleted (lines
      93-95) before the leftover jobs run (lines 97-103). */
  function CollectPointBatchAsWritten<S>(name: string, algs: seq<string>, points: seq<Point>, parallel: bool,
                                         topo: TopoArg<S>, root: string, fit: (S, int) -> (S, Option<seq<string>>),
                                         reset: S -> S, files: Files, runner: (Job, Option<string>) -> real)
    : (r: Result<Batch<S>>)
    ensures r.Success? ==> r.value.results == Results(r.value.runs, runner)
    ensures parallel && topo.NoTopo? ==> r.Failure?
    ensures parallel && r.Success? ==> r.value.files == map[]
  {
    CollectWith(name, algs, points, parallel, topo, root, fit, reset, files, runner, DeleteThenFlush)
  }

  /** `collect_point_batch` with the leftover jobs run before their
      nodefiles are deleted. */
  function CollectPointBatch<S>(name: string, algs: seq<string>, points: seq<Point>, parallel: bool,
                                topo: TopoArg<S>, root: string, fit: (S, int) -> (S, Option<seq<string>>),
                                reset: S -> S, files: Files, runner: (Job, Option<string>) -> real)
    : (r: Result<Batch<S>>)
    ensures r.Success? ==> r.value.results == Results(r.value.runs, runner)
    ensures parallel && topo.NoTopo? ==> r.Failure?
    ensures parallel && r.Success? ==> r.value.files == map[]
  {
    CollectWith(name, algs, points, parallel, topo, root, fit, reset, files, runner, FlushThenDelete)
  }

  /************************** the loop's invariant **************************/

  /** Runs `0..|runs|` are the jobs of the first points, each with its own
      nodefile path; ready job `k` is point `|runs| + k`. */
  predicate Aligned(name: string, algs: seq<string>, points: seq<Point>, root: string,
                    ready: seq<Ready>, runs: seq<Run>) {
    |runs| + |ready| <= |points|
    && (forall k :: 0 <= k < |runs| ==>
          MakeJob(name, algs, points[k], Some(PathFor(root, k))) == Success(runs[k].job))
    && (forall k :: 0 <= k < |ready| ==>
          ready[k].point == points[|runs| + k] && ready[k].path == PathFor(root, |runs| + k))
  }

  /** Every ready job's nodefile holds its nodes, and every run so far read
      the nodefile of its own nodes. */
  predicate FilesHold(ready: seq<Ready>, runs: seq<Run>, files: Files) {
    (forall k :: 0 <= k < |ready| ==> Lookup(files, ready[k].path) == Some(Nodefile.Content(ready[k].nodes)))
    && (forall k :: 0 <= k < |runs| ==> runs[k].seen == Some(Nodefile.Content(runs[k].nodes)))
  }

  /** Appending the runs of a flush keeps the alignment. */
  lemma FlushAligned(name: string, algs: seq<string>, points: seq<Point>, root: string,
                     ready: seq<Ready>, runs: seq<Run>, files: Files)
    requires Aligned(name, algs, points, root, ready, runs)
    requires Flush(name, algs, ready, files).Success?
    ensures var flushed := Flush(name, algs, ready, files).value;
      Aligned(name, algs, points, root, [], runs + flushed)
      && |runs + flushed| == |runs| + |ready|
      && (FilesHold(ready, runs, files) ==> FilesHold([], runs + flushed, files))
  {
    var flushed := Flush(name, algs, ready, files).value;
    RunAllSpec(name, algs, ready, files);
    var all := runs + flushed;
    forall k | 0 <= k < |all|
      ensures MakeJob(name, algs, points[k], Some(PathFor(root, k))) == Success(all[k].job)
    {
      if k >= |runs| {
        assert all[k] == flushed[k - |runs|];
      }
    }
    if FilesHold(ready, runs, files) {
      forall k | 0 <= k < |all| ensures all[k].seen == Some(Nodefile.Content(all[k].nodes)) {
        if k >= |runs| {
          assert all[k] == flushed[k - |runs|];
        }
      }
    }
  }

  /** Packing point `i` keeps the alignment, and its nodefile is a new file
      that overwrites no ready job's nodefile. */
  lemma PackAligned(name: string, algs: seq<string>, points: seq<Point>, root: string,
                    ready: seq<Ready>, runs: seq<Run>, files: Files, i: nat, nodes: seq<string>)
    requires Aligned(name, algs, points, root, ready, runs)
    requires i < |points| && i == |runs| + |ready|
    ensures var path := PathFor(root, i);
      var ready' := ready + [Ready(points[i], path, nodes)];
      Aligned(name, algs, points, root, ready', runs)
      && (FilesHold(ready, runs, files) ==> FilesHold(ready', runs, files[path := Nodefile.Content(nodes)]))
  {
    var path := PathFor(root, i);
    var ready' := ready + [Ready(points[i], path, nodes)];
    forall k | 0 <= k < |ready'|
      ensures ready'[k].point == points[|runs| + k] && ready'[k].path == PathFor(root, |runs| + k)
    {
      if k < |ready| {
        assert ready'[k] == ready[k];
      }
    }
    if FilesHold(ready, runs, files) {
      PackFilesHold(root, ready, runs, files, i, points[i], nodes);
    }
  }

  /** The new nodefile's path is none of the ready jobs' paths, so every
      ready job still finds its own nodes. */
  lemma PackFilesHold(root: string, ready: seq<Ready>, runs: seq<Run>, files: Files, i: nat,
                      point: Point, nodes: seq<string>)
    requires i == |runs| + |ready|
    requires forall k :: 0 <= k < |ready| ==> ready[k].path == PathFor(root, |runs| + k)
    requires FilesHold(ready, runs, files)
    ensures var path := PathFor(root, i);
      FilesHold(ready + [Ready(point, path, nodes)], runs, files[path := Nodefile.Content(nodes)])
  {
    var path := PathFor(root, i);
    var ready' := ready + [Ready(point, path, nodes)];
    var files' := files[path := Nodefile.Content(nodes)];
    forall k | 0 <= k < |ready'|
      ensures Lookup(files', ready'[k].path) == Some(Nodefile.Content(ready'[k].nodes))
    {
      if k < |ready| {
        assert ready'[k] == ready[k];
        if ready[k].path == path {
          PathInjective(root, |runs| + k, i);
        }
      }
    }
  }

  /** The loop keeps `Aligned` (and `FilesHold`) and ends with every point
      either run or ready. */
  lemma LoopAligned<S>(name: string, algs: seq<string>, points: seq<Point>, root: string,
                       fit: (S, int) -> (S, Option<seq<string>>), reset: S -> S,
                       i: nat, ready: seq<Ready>, runs: seq<Run>, topo: S, files: Files)
    requires i <= |points| && i == |runs| + |ready|
    requires Aligned(name, algs, points, root, ready, runs)
    requires Loop(name, algs, points, root, fit, reset, i, ready, runs, topo, files).Success?
    ensures var (runs', ready', _, files') := Loop(name, algs, points, root, fit, reset, i, ready, runs, topo, files).value;
      |runs'| + |ready'| == |points| && Aligned(name, algs, points, root, ready', runs')
      && (FilesHold(ready, runs, files) ==> FilesHold(ready', runs', files'))
  {
    var runs', ready', files' := LoopKeeps(name, algs, points, root, fit, reset, i, ready, runs, topo, files);
  }

  /** `LoopAligned`, naming the loop's results. */
  lemma {:induction false} LoopKeeps<S>(name: string, algs: seq<string>, points: seq<Point>, root: string,
                                        fit: (S, int) -> (S, Option<seq<string>>), reset: S -> S,
                                        i: nat, ready: seq<Ready>, runs: seq<Run>, topo: S, files: Files)
    returns (runs': seq<Run>, ready': seq<Ready>, files': Files)
    requires i <= |points| && i == |runs| + |ready|
    requires Aligned(name, algs, points, root, ready, runs)
    requires Loop(name, algs, points, root, fit, reset, i, ready, runs, topo, files).Success?
    ensures var out := Loop(name, algs, points, root, fit, reset, i, ready, runs, topo, files).value;
      out.0 == runs' && out.1 == ready' && out.3 == files'
    ensures |runs'| + |ready'| == |points| && Aligned(name, algs, points, root, ready', runs')
    ensures FilesHold(ready, runs, files) ==> FilesHold(ready', runs', files')
    decreases |points| - i, |ready|
  {
    if i == |points| {
      runs', ready', files' := runs, ready, files;
      assert Loop(name, algs, points, root, fit, reset, i, ready, runs, topo, files) == Success((runs, ready, topo, files));
    } else {
      var n := Exp2(points[i].n - 1).value;
      var f := fit(topo, n);
      if Truthy(f.1) {
        var path := PathFor(root, i);
        var ready1 := ready + [Ready(points[i], path, f.1.value)];
        var files1 := files[path := Nodefile.Content(f.1.value)];
        assert Loop(name, algs, points, root, fit, reset, i, ready, runs, topo, files)
          == Loop(name, algs, points, root, fit, reset, i + 1, ready1, runs, f.0, files1);
        PackAligned(name, algs, points, root, ready, runs, files, i, f.1.value);
        runs', ready', files' := LoopKeeps(name, algs, points, root, fit, reset, i + 1, ready1, runs, f.0, files1);
        assert Loop(name, algs, points, root, fit, reset, i + 1, ready1, runs, f.0, files1).value.3 == files';
      } else {
        var flushed := Flush(name, algs, ready, files).value;
        assert Loop(name, algs, points, root, fit, reset, i, ready, runs, topo, files)
          == Loop(name, algs, points, root, fit, reset, i, [], runs + flushed, reset(f.0), files);
        FlushAligned(name, algs, points, root, ready, runs, files);
        runs', ready', files' := LoopKeeps(name, algs, points, root, fit, reset, i, [], runs + flushed, reset(f.0), files);
        assert Loop(name, algs, points, root, fit, reset, i, [], runs + flushed, reset(f.0), files).value.3 == files';
      }
    }
  }

  /** A loop that starts on a point or with a ready job ends with a ready
      job: the last point always waits for the leftover flush. */
  lemma {:induction false} LoopLeavesLastReady<S>(name: string, algs: seq<string>, points: seq<Point>, root: string,
                                                  fit: (S, int) -> (S, Option<seq<string>>), reset: S -> S,
                                                  i: nat, ready: seq<Ready>, runs: seq<Run>, topo: S, files: Files)
    requires i <= |points| && (i < |points| || |ready| > 0)
    requires Loop(name, algs, points, root, fit, reset, i, ready, runs, topo, files).Success?
    ensures |Loop(name, algs, points, root, fit, reset, i, ready, runs, topo, files).value.1| > 0
    decreases |points| - i, |ready|
  {
    if i < |points| {
      var n := Exp2(points[i].n - 1).value;
      var f := fit(topo, n);
      if Truthy(f.1) {
        var path := PathFor(root, i);
        LoopLeavesLastReady(name, algs, points, root, fit, reset, i + 1, ready + [Ready(points[i], path, f.1.value)],
                            runs, f.0, files[path := Nodefile.Content(f.1.value)]);
      } else {
        var flushed := Flush(name, algs, ready, files).value;
        LoopLeavesLastReady(name, algs, points, root, fit, reset, i, [], runs + flushed, reset(f.0), files);
      }
    }
  }

  /** Every size `fit` may be asked for fits any freshly reset topology. */
  ghost predicate FitsAfterReset<S(!new)>(fit: (S, int) -> (S, Option<seq<string>>), reset: S -> S, n: int) {
    forall s: S :: Truthy(fit(reset(s), n).1)
  }

  /** The points a batch can always complete: each decodes, and each fits
      a freshly reset topology. */
  ghost predicate Schedulable<S(!new)>(algs: seq<string>, points: seq<Point>,
                           fit: (S, int) -> (S, Option<seq<string>>), reset: S -> S) {
    forall k :: 0 <= k < |points| ==>
      ValidPoint(points[k], |algs|) && FitsAfterReset(fit, reset, Encoding.Pow2(points[k].n - 1))
  }

  /** On schedulable points the loop never flushes an empty pool: a failed
      fit always has a ready job to flush, because a topology with no ready
      job on it is a reset one. */
  lemma {:induction false} LoopSucceeds<S(!new)>(name: string, algs: seq<string>, points: seq<Point>, root: string,
                                           fit: (S, int) -> (S, Option<seq<string>>), reset: S -> S,
                                           i: nat, ready: seq<Ready>, runs: seq<Run>, topo: S, files: Files, prev: S)
    requires i <= |points| && Schedulable(algs, points, fit, reset)
    requires forall k :: 0 <= k < |ready| ==> ValidPoint(ready[k].point, |algs|)
    requires |ready| > 0 || topo == reset(prev)
    ensures Loop(name, algs, points, root, fit, reset, i, ready, runs, topo, files).Success?
    ensures forall k :: 0 <= k < |Loop(name, algs, points, root, fit, reset, i, ready, runs, topo, files).value.1| ==>
      ValidPoint(Loop(name, algs, points, root, fit, reset, i, ready, runs, topo, files).value.1[k].point, |algs|)
    decreases |points| - i, |ready|
  {
    if i < |points| {
      var n := Exp2(points[i].n - 1).value;
      var f := fit(topo, n);
      if Truthy(f.1) {
        var path := PathFor(root, i);
        var ready' := ready + [Ready(points[i], path, f.1.value)];
        assert forall k :: 0 <= k < |ready'| ==> ValidPoint(ready'[k].point, |algs|) by {
          forall k | 0 <= k < |ready'| ensures ValidPoint(ready'[k].point, |algs|) {
            if k < |ready| { assert ready'[k] == ready[k]; }
          }
        }
        LoopSucceeds(name, algs, points, root, fit, reset, i + 1, ready', runs, f.0,
                     files[path := Nodefile.Content(f.1.value)], prev);
      } else {
        assert |ready| > 0 by {
          assert FitsAfterReset(fit, reset, n);
          assert topo == reset(prev) ==> Truthy(fit(reset(prev), n).1);
        }
        RunAllSpec(name, algs, ready, files);
        var flushed := Flush(name, algs, ready, files).value;
        LoopSucceeds(name, algs, points, root, fit, reset, i, [], runs + flushed, reset(f.0), files, f.0);
      }
    }
  }

  /************************** batch properties **************************/

  /** Results align index-for-index with the points: run `k` is the job of
      point `k` (with nodefile `nodefile{k}` in parallel mode), result `k`
      is what the runner measured for it, and a parallel call ends on a
      reset topology with the nodefile directory emptied. Holds for both
      clean-up orders. */
  lemma BatchAligned<S>(name: string, algs: seq<string>, points: seq<Point>, parallel: bool, topo: TopoArg<S>,
                        root: string, fit: (S, int) -> (S, Option<seq<string>>), reset: S -> S,
                        files: Files, runner: (Job, Option<string>) -> real, cleanup: Cleanup)
    requires CollectWith(name, algs, points, parallel, topo, root, fit, reset, files, runner, cleanup).Success?
    ensures var b := CollectWith(name, algs, points, parallel, topo, root, fit, reset, files, runner, cleanup).value;
      |b.results| == |points| && |b.runs| == |points|
      && (forall k :: 0 <= k < |points| ==> b.results[k] == runner(b.runs[k].job, b.runs[k].seen))
      && (forall k :: 0 <= k < |points| ==>
            MakeJob(name, algs, points[k], if parallel then Some(PathFor(root, k)) else None) == Success(b.runs[k].job))
      && (parallel ==> b.files == map[] && b.topo.Topo? && exists s :: b.topo.state == reset(s))
  {
    if !parallel {
      SequentialAligned(name, algs, points);
    } else {
      ParallelAligned(name, algs, points, root, fit, reset, topo.state, files, cleanup);
    }
  }

  lemma ParallelAligned<S>(name: string, algs: seq<string>, points: seq<Point>, root: string,
                           fit: (S, int) -> (S, Option<seq<string>>), reset: S -> S,
                           topo: S, files: Files, cleanup: Cleanup)
    requires Parallel(name, algs, points, root, fit, reset, topo, files, cleanup).Success?
    ensures var (runs, t, fs) := Parallel(name, algs, points, root, fit, reset, topo, files, cleanup).value;
      |runs| == |points| && fs == map[] && (exists s :: t == reset(s))
      && forall k :: 0 <= k < |points| ==> MakeJob(name, algs, points[k], Some(PathFor(root, k))) == Success(runs[k].job)
  {
    var (runs, ready, t, fs) := Loop(name, algs, points, root, fit, reset, 0, [], [], topo, files).value;
    LoopAligned(name, algs, points, root, fit, reset, 0, [], [], topo, files);
    var seenFiles := if cleanup == DeleteThenFlush then map[] else fs;
    if |ready| != 0 {
      FlushAligned(name, algs, points, root, ready, runs, seenFiles);
    }
    assert Parallel(name, algs, points, root, fit, reset, topo, files, cleanup).value.1 == reset(t);
  }

  /** On schedulable points a parallel call on a reset topology succeeds,
      whichever the clean-up order. */
  lemma ParallelSucceeds<S(!new)>(name: string, algs: seq<string>, points: seq<Point>, root: string,
                                  fit: (S, int) -> (S, Option<seq<string>>), reset: S -> S,
                                  s0: S, files: Files, cleanup: Cleanup)
    requires Schedulable(algs, points, fit, reset)
    ensures Parallel(name, algs, points, root, fit, reset, reset(s0), files, cleanup).Success?
  {
    LoopSucceeds(name, algs, points, root, fit, reset, 0, [], [], reset(s0), files, s0);
    var (runs, ready, t, fs) := Loop(name, algs, points, root, fit, reset, 0, [], [], reset(s0), files).value;
    var seenFiles := if cleanup == DeleteThenFlush then map[] else fs;
    RunAllSpec(name, algs, ready, seenFiles);
  }

  /** As written, the last point's job always runs after the nodefiles were
      deleted: it is still ready when the loop ends, and the leftover flush
      comes after the `os.remove` loop. */
  lemma AsWrittenLastRunBlind<S>(name: string, algs: seq<string>, points: seq<Point>, topo: S,
                                 root: string, fit: (S, int) -> (S, Option<seq<string>>), reset: S -> S,
                                 files: Files, runner: (Job, Option<string>) -> real)
    requires |points| > 0
    requires CollectPointBatchAsWritten(name, algs, points, true, Topo(topo), root, fit, reset, files, runner).Success?
    ensures var b := CollectPointBatchAsWritten(name, algs, points, true, Topo(topo), root, fit, reset, files, runner).value;
      |b.runs| == |points| && b.runs[|points| - 1].job.nodefile == Some(PathFor(root, |points| - 1))
      && b.runs[|points| - 1].seen == None
  {
    var b := CollectPointBatchAsWritten(name, algs, points, true, Topo(topo), root, fit, reset, files, runner).value;
    assert b.runs == Parallel(name, algs, points, root, fit, reset, topo, files, DeleteThenFlush).value.0;
    ParallelLastBlind(name, algs, points, root, fit, reset, topo, files);
    ParallelAligned(name, algs, points, root, fit, reset, topo, files, DeleteThenFlush);
  }

  /** With the deletion first, the last run comes from the leftover flush,
      which reads an empty nodefile directory. */
  lemma ParallelLastBlind<S>(name: string, algs: seq<string>, points: seq<Point>, root: string,
                             fit: (S, int) -> (S, Option<seq<string>>), reset: S -> S, topo: S, files: Files)
    requires |points| > 0
    requires Parallel(name, algs, points, root, fit, reset, topo, files, DeleteThenFlush).Success?
    ensures var runs := Parallel(name, algs, points, root, fit, reset, topo, files, DeleteThenFlush).value.0;
      |runs| == |points| && runs[|points| - 1].seen == None
  {
    var (runs, ready, t, fs) := Loop(name, algs, points, root, fit, reset, 0, [], [], topo, files).value;
    LoopAligned(name, algs, points, root, fit, reset, 0, [], [], topo, files);
    LoopLeavesLastReady(name, algs, points, root, fit, reset, 0, [], [], topo, files);
    RunAllSpec(name, algs, ready, map[]);
    var leftover := Flush(name, algs, ready, map[]).value;
    assert Parallel(name, algs, points, root, fit, reset, topo, files, DeleteThenFlush).value.0 == runs + leftover;
    assert |runs| + |leftover| == |points| && |leftover| > 0;
    var all := runs + leftover;
    assert all[|all| - 1] == leftover[|leftover| - 1];
    assert leftover[|leftover| - 1].seen == None;
  }

  /** With the leftover flush before the deletion, every job reads the
      nodefile of exactly the nodes it was packed on. */
  lemma EveryRunSeesItsNodefile<S>(name: string, algs: seq<string>, points: seq<Point>, topo: S,
                                   root: string, fit: (S, int) -> (S, Option<seq<string>>), reset: S -> S,
                                   files: Files, runner: (Job, Option<string>) -> real)
    requires CollectPointBatch(name, algs, points, true, Topo(topo), root, fit, reset, files, runner).Success?
    ensures var b := CollectPointBatch(name, algs, points, true, Topo(topo), root, fit, reset, files, runner).value;
      forall k :: 0 <= k < |b.runs| ==> b.runs[k].seen == Some(Nodefile.Content(b.runs[k].nodes))
  {
    var (runs, ready, t, fs) := Loop(name, algs, points, root, fit, reset, 0, [], [], topo, files).value;
    LoopAligned(name, algs, points, root, fit, reset, 0, [], [], topo, files);
    if |ready| != 0 {
      FlushAligned(name, algs, points, root, ready, runs, fs);
    }
  }

  /** The one-point batch on the local topology: as written, the job runs
      without its nodefile; with the clean-up reordered it reads "local". */
  lemma NodefileOrderExample(runner: (Job, Option<string>) -> real)
    ensures var fit := (t: Local.Topology, n: int) => Local.FitPoint(t, n);
      var reset := (t: Local.Topology) => Local.Reset(t);
      var points := [Point(1, 2, 1, 1)];
      var algs := ["binomial", "scatter_ring_allgather"];
      var asWritten := CollectPointBatchAsWritten("bcast", algs, points, true, Topo(Local.Topology), "/acclaim",
                                                   fit, reset, map[], runner);
      var fixed := CollectPointBatch("bcast", algs, points, true, Topo(Local.Topology), "/acclaim",
                                     fit, reset, map[], runner);
      asWritten.Success? && asWritten.value.runs[0].seen == None
      && fixed.Success? && fixed.value.runs[0].seen == Some("local")
  {
    var fit := (t: Local.Topology, n: int) => Local.FitPoint(t, n);
    var reset := (t: Local.Topology) => Local.Reset(t);
    var points := [Point(1, 2, 1, 1)];
    var algs := ["binomial", "scatter_ring_allgather"];
    var path := PathFor("/acclaim", 0);
    var ready := [Ready(points[0], path, ["local"])];
    var files := map[path := Nodefile.Content(["local"])];
    assert Exp2(0) == Success(1);
    assert fit(Local.Topology, 1) == (Local.Topology, Some(["local"]));
    assert [] + [Ready(points[0], path, ["local"])] == ready;
    assert map[][path := Nodefile.Content(["local"])] == files;
    assert Loop("bcast", algs, points, "/acclaim", fit, reset, 1, ready, [], Local.Topology, files)
        == Success(([], ready, Local.Topology, files));
    assert Loop("bcast", algs, points, "/acclaim", fit, reset, 0, [], [], Local.Topology, map[])
        == Success(([], ready, Local.Topology, files));
    assert Nodefile.Content(["local"]) == "local";
    var job := MakeJob("bcast", algs, points[0], Some(path)).value;
    assert ready[1..] == [];
    assert RunReady("bcast", algs, ready[0], map[]) == Success(Run(job, ["local"], None));
    assert RunReady("bcast", algs, ready[0], files) == Success(Run(job, ["local"], Some("local")));
    assert [Run(job, ["local"], None)] + [] == [Run(job, ["local"], None)];
    assert [Run(job, ["local"], Some("local"))] + [] == [Run(job, ["local"], Some("local"))];
    assert RunAll("bcast", algs, ready, map[]) == Success([Run(job, ["local"], None)]);
    assert RunAll("bcast", algs, ready, files) == Success([Run(job, ["local"], Some("local"))]);
  }

  /************************** the call from the active learner **************************/

  /** `collect_point_batch(collective, algs, X_train, topo)` as
      `train_model` calls it: the topology lands in the `parallel`
      parameter (an object, so true) and `topo` keeps its default `None`. */
  function CollectAsCalled<S>(name: string, algs: seq<string>, points: seq<Point>, topo: S,
                              root: string, fit: (S, int) -> (S, Option<seq<string>>), reset: S -> S,
                              files: Files, runner: (Job, Option<string>) -> real): (r: Result<Batch<S>>)
    ensures r.Failure?
  {
    CollectPointBatch(name, algs, points, true, NoTopo, root, fit, reset, files, runner)
  }

  /** The call as written can never collect anything. */
  lemma AsCalledAlwaysFails<S>(name: string, algs: seq<string>, points: seq<Point>, topo: S,
                               root: string, fit: (S, int) -> (S, Option<seq<string>>), reset: S -> S,
                               files: Files, runner: (Job, Option<string>) -> real)
    ensures var r := CollectAsCalled(name, algs, points, topo, root, fit, reset, files, runner);
      r.Failure?
      && r.error == if |points| > 0 then "AttributeError: 'NoneType' object has no attribute 'fit_point'"
                    else "AttributeError: 'NoneType' object has no attribute 'reset_fit'"
  {
  }

  /** The evidently intended call: parallel mode on the topology. */
  function CollectAsIntended<S>(name: string, algs: seq<string>, points: seq<Point>, topo: S,
                                root: string, fit: (S, int) -> (S, Option<seq<string>>), reset: S -> S,
                                files: Files, runner: (Job, Option<string>) -> real): (r: Result<Batch<S>>)
    ensures r.Success? ==> r.value.results == Results(r.value.runs, runner)
    ensures r.Success? ==> r.value.topo.Topo? && r.value.files == map[]
  {
    CollectPointBatch(name, algs, points, true, Topo(topo), root, fit, reset, files, runner)
  }

  /** The intended call on a reset topology collects one aligned result per
      schedulable point. */
  lemma IntendedCollects<S(!new)>(name: string, algs: seq<string>, points: seq<Point>, s0: S,
                                  root: string, fit: (S, int) -> (S, Option<seq<string>>), reset: S -> S,
                                  files: Files, runner: (Job, Option<string>) -> real)
    requires Schedulable(algs, points, fit, reset)
    ensures var r := CollectAsIntended(name, algs, points, reset(s0), root, fit, reset, files, runner);
      r.Success? && |r.value.results| == |points|
      && forall k :: 0 <= k < |points| ==> r.value.results[k] == runner(r.value.runs[k].job, r.value.runs[k].seen)
  {
    ParallelSucceeds(name, algs, points, root, fit, reset, s0, files, FlushThenDelete);
    BatchAligned(name, algs, points, true, Topo(reset(s0)), root, fit, reset, files, runner, FlushThenDelete);
  }
}

=== FILE: dicts.dfy ===
/** Python's insertion-ordered `dict` (and `OrderedDict`), as the list of its
    entries in insertion order. Assigning to a present key keeps its
    position; assigning to a new key appends it; `pop` removes the entry. */
module Dicts {
  import opened Wrappers

  type Dict<K, V> = seq<(K, V)>

  predicate HasKey<K(==), V>(d: Dict<K, V>, k: K) {
    exists i :: 0 <= i < |d| && d[i].0 == k
  }

  /** No key occurs twice, as in every dict Python builds. */
  predicate KeysDistinct<K(==), V>(d: Dict<K, V>) {
    forall i, j :: 0 <= i < j < |d| ==> d[i].0 != d[j].0
  }

  /** Where `k` sits, or -1. */
  function IndexOf<K(==), V>(d: Dict<K, V>, k: K): (r: int)
    ensures -1 <= r < |d|
    ensures r == -1 <==> !HasKey(d, k)
    ensures r >= 0 ==> d[r].0 == k && forall i :: 0 <= i < r ==> d[i].0 != k
  {
    if |d| == 0 then -1
    else if d[0].0 == k then 0
    else
      var r := IndexOf(d[1..], k);
      assert forall i :: 1 <= i < |d| ==> d[1..][i - 1] == d[i];
      if r == -1 then -1 else r + 1
  }

  /** `d[k]`, or `None` for a `KeyError`. */
  function Get<K(==), V>(d: Dict<K, V>, k: K): (r: Option<V>)
    ensures r.Some? <==> HasKey(d, k)
    ensures r.Some? ==> exists i :: 0 <= i < |d| && d[i] == (k, r.value)
  {
    var i := IndexOf(d, k);
    if i < 0 then None else Some(d[i].1)
  }

  /** `d[k] = v`. */
  function Put<K(==), V>(d: Dict<K, V>, k: K, v: V): (r: Dict<K, V>)
    ensures HasKey(d, k) ==>
      (|r| == |d| && r[IndexOf(d, k)] == (k, v)
       && forall i :: 0 <= i < |d| && i != IndexOf(d, k) ==> r[i] == d[i])
    ensures !HasKey(d, k) ==> r == d + [(k, v)]
  {
    var i := IndexOf(d, k);
    if i < 0 then d + [(k, v)] else d[i := (k, v)]
  }

  /** After `d[k] = v`, `d[k]` is `v`. */
  lemma PutGetSame<K, V>(d: Dict<K, V>, k: K, v: V)
    ensures Get(Put(d, k, v), k) == Some(v)
  {
    var r := Put(d, k, v);
    if HasKey(d, k) {
      var j := IndexOf(d, k);
      assert forall i :: 0 <= i < j ==> r[i] == d[i];
      assert IndexOf(r, k) == j;
    } else {
      assert forall i :: 0 <= i < |d| ==> r[i] == d[i] && d[i].0 != k;
      assert r[|d|] == (k, v);
      assert IndexOf(r, k) == |d|;
    }
  }

  /** Assigning never makes a key occur twice. */
  lemma PutKeepsDistinct<K, V>(d: Dict<K, V>, k: K, v: V)
    requires KeysDistinct(d)
    ensures KeysDistinct(Put(d, k, v))
  {
    var r := Put(d, k, v);
    if HasKey(d, k) {
      var j := IndexOf(d, k);
      assert forall i :: 0 <= i < |r| && i != j ==> r[i].0 == d[i].0 != k;
    } else {
      assert forall i :: 0 <= i < |d| ==> r[i] == d[i] && d[i].0 != k;
    }
  }

  /** Assigning to `k` leaves every other key's lookup as it was. */
  lemma PutGetOther<K, V>(d: Dict<K, V>, k: K, v: V, k': K)
    requires k' != k
    ensures Get(Put(d, k, v), k') == Get(d, k')
  {
    var r := Put(d, k, v);
    if HasKey(d, k') {
      var j := IndexOf(d, k');
      assert r[j] == d[j];
      assert forall i :: 0 <= i < j ==> r[i].0 != k';
      assert IndexOf(r, k') == j;
    } else {
      assert forall i :: 0 <= i < |r| ==> r[i].0 != k';
    }
  }

  /** The keys of the dict, in order. */
  function Keys<K, V>(d: Dict<K, V>): (r: seq<K>)
    ensures |r| == |d| && forall i :: 0 <= i < |d| ==> r[i] == d[i].0
  {
    seq(|d|, i requires 0 <= i < |d| => d[i].0)
  }

  /** Assigning to a present key never changes the key order. */
  lemma PutPresentKeepsKeys<K, V>(d: Dict<K, V>, k: K, v: V)
    requires HasKey(d, k)
    ensures Keys(Put(d, k, v)) == Keys(d)
  {
  }
}

=== FILE: dragonfly.dfy ===
/** Topology packing for the two dragonfly machines, ANL Polaris and ANL Aurora.
    Both files hold the same three-level structure (dragonfly group, sub-pool,
    node) and the same greedy `fit_point` / `reset_fit`; they differ only in
    how a hostfile line is cut into a group id and a sub-pool name. On Polaris
    the sub-pool is a rack, on Aurora a chassis. */
module Dragonfly {
  import opened Wrappers
  import opened PyStrings
  import Nodefile

  datatype Scheme = Polaris | Aurora

  /** `get_node_name` / `_get_node_name`: the line without its last character
      (the newline `readlines` leaves on it). */
  function NodeName(line: string): string {
    DropLast(line)
  }

  /** `get_rack_name` / `_get_rack_name`: characters 1..4 of the line. */
  function RackName(line: string): string {
    Slice(line, 1, 5)
  }

  /** `_get_chassis_name`: character 6 of the line. */
  function ChassisName(line: string): string {
    Slice(line, 6, 7)
  }

  /** The name of the sub-pool a line belongs to. */
  function PoolName(scheme: Scheme, line: string): string {
    match scheme
    case Polaris => RackName(line)
    case Aurora => ChassisName(line)
  }

  /** `get_dragonfly_group` (Polaris: `int(rack) // 4`) and
      `_get_dragonfly_group` (Aurora: `int(rack)`). `None` is the ValueError
      `int()` raises on a rack field that is not a number. */
  function GroupId(scheme: Scheme, line: string): (r: Option<int>)
    ensures r.Some? <==> ParseInt(RackName(line)).Some?
    ensures r.Some? && scheme == Aurora ==> r.value == ParseInt(RackName(line)).value
    ensures r.Some? && scheme == Polaris ==>
      4 * r.value <= ParseInt(RackName(line)).value < 4 * r.value + 4
  {
    match ParseInt(RackName(line))
    case None => None
    case Some(v) => Some(if scheme == Polaris then v / 4 else v)
  }

  /** A rack (Polaris) or chassis (Aurora): its node names in discovery order
      and whether a fit has already used it in the current epoch. */
  datatype Pool = Pool(name: string, nodes: seq<string>, full: bool)

  datatype Group = Group(id: int, pools: seq<Pool>)

  datatype Topology = Topology(groups: seq<Group>)

  /************************** building the topology **************************/

  /** `Rack.add_node` / `Chassis.add_node`: a name already present is ignored. */
  function PoolAddNode(p: Pool, name: string): (r: Pool)
    ensures r.name == p.name && r.full == p.full
    ensures name in p.nodes ==> r == p
    ensures name !in p.nodes ==> r.nodes == p.nodes + [name]
  {
    if name in p.nodes then p else p.(nodes := p.nodes + [name])
  }

  /** Index of the first pool called `poolName`, or `|ps|`. */
  function PoolIndex(ps: seq<Pool>, poolName: string): (i: nat)
    ensures i <= |ps|
    ensures i < |ps| ==> ps[i].name == poolName
    ensures forall j :: 0 <= j < i ==> ps[j].name != poolName
  {
    if |ps| == 0 || ps[0].name == poolName then 0 else 1 + PoolIndex(ps[1..], poolName)
  }

  /** The sub-pool part of `DragonflyGroup.add_node` once the group id matched:
      add to the first pool of that name, or open a new pool at the end. */
  function PoolsAddNode(ps: seq<Pool>, poolName: string, name: string): (r: seq<Pool>)
    ensures var i := PoolIndex(ps, poolName);
      && (i < |ps| ==> r == ps[i := PoolAddNode(ps[i], name)])
      && (i == |ps| ==> r == ps + [Pool(poolName, [name], false)])
  {
    if |ps| == 0 then [Pool(poolName, [name], false)]
    else if ps[0].name == poolName then [PoolAddNode(ps[0], name)] + ps[1..]
    else [ps[0]] + PoolsAddNode(ps[1..], poolName, name)
  }

  /** Index of the first group with id `gid`, or `|gs|`. */
  function GroupIndex(gs: seq<Group>, gid: int): (i: nat)
    ensures i <= |gs|
    ensures i < |gs| ==> gs[i].id == gid
    ensures forall j :: 0 <= j < i ==> gs[j].id != gid
  {
    if |gs| == 0 || gs[0].id == gid then 0 else 1 + GroupIndex(gs[1..], gid)
  }

  /** The routing loop of `Topology.add_node`: the first group whose id matches
      takes the node, otherwise a new group is appended. */
  function GroupsAddNode(gs: seq<Group>, gid: int, poolName: string, name: string): (r: seq<Group>)
    ensures var i := GroupIndex(gs, gid);
      && (i < |gs| ==> r == gs[i := Group(gid, PoolsAddNode(gs[i].pools, poolName, name))])
      && (i == |gs| ==> r == gs + [Group(gid, [Pool(poolName, [name], false)])])
  {
    if |gs| == 0 then [Group(gid, [Pool(poolName, [name], false)])]
    else if gs[0].id == gid then [Group(gid, PoolsAddNode(gs[0].pools, poolName, name))] + gs[1..]
    else [gs[0]] + GroupsAddNode(gs[1..], gid, poolName, name)
  }

  /** After adding, the named pool exists at the same position it was found
      at (or at the end) and holds the node. */
  lemma {:induction false} PoolsAddNodeLocates(ps: seq<Pool>, poolName: string, name: string)
    ensures var r := PoolsAddNode(ps, poolName, name);
      && PoolIndex(r, poolName) == PoolIndex(ps, poolName) < |r|
      && name in r[PoolIndex(r, poolName)].nodes
  {
    if |ps| > 0 && ps[0].name != poolName {
      PoolsAddNodeLocates(ps[1..], poolName, name);
      var r := PoolsAddNode(ps, poolName, name);
      assert r[1..] == PoolsAddNode(ps[1..], poolName, name);
    }
  }

  lemma {:induction false} GroupsAddNodeLocates(gs: seq<Group>, gid: int, poolName: string, name: string)
    ensures var r := GroupsAddNode(gs, gid, poolName, name);
      && GroupIndex(r, gid) == GroupIndex(gs, gid) < |r|
      && var gi := GroupIndex(r, gid);
         && r[gi].id == gid
         && PoolIndex(r[gi].pools, poolName) < |r[gi].pools|
         && name in r[gi].pools[PoolIndex(r[gi].pools, poolName)].nodes
  {
    if |gs| == 0 {
    } else if gs[0].id == gid {
      PoolsAddNodeLocates(gs[0].pools, poolName, name);
    } else {
      GroupsAddNodeLocates(gs[1..], gid, poolName, name);
      var r := GroupsAddNode(gs, gid, poolName, name);
      assert r[1..] == GroupsAddNode(gs[1..], gid, poolName, name);
    }
  }

  /** `Topology.add_node(pool_name, line)` (Polaris) / `Topology._add_node`
      (Aurora). The group id is computed from the line, the stored name is the
      line minus its last character. */
  function AddNode(scheme: Scheme, t: Topology, poolName: string, line: string): (r: Result<Topology>)
    ensures r.Failure? <==> GroupId(scheme, line).None?
    ensures r.Success? ==>
      var gid := GroupId(scheme, line).value;
      var gi := GroupIndex(r.value.groups, gid);
      && gi < |r.value.groups|
      && GroupIndex(t.groups, gid) == gi
      && var pi := PoolIndex(r.value.groups[gi].pools, poolName);
         pi < |r.value.groups[gi].pools| && NodeName(line) in r.value.groups[gi].pools[pi].nodes
  {
    match GroupId(scheme, line)
    case None => Failure("ValueError: rack field is not an integer")
    case Some(gid) =>
      GroupsAddNodeLocates(t.groups, gid, poolName, NodeName(line));
      Success(Topology(GroupsAddNode(t.groups, gid, poolName, NodeName(line))))
  }

  /** `get_topology(path)` over the lines of the hostfile, in file order. */
  function Build(scheme: Scheme, lines: seq<string>): (r: Result<Topology>)
    ensures r.Failure? <==> exists i :: 0 <= i < |lines| && GroupId(scheme, lines[i]).None?
    decreases |lines|
  {
    BuildFromFails(scheme, Topology([]), lines);
    BuildFrom(scheme, Topology([]), lines)
  }

  function BuildFrom(scheme: Scheme, t: Topology, lines: seq<string>): (r: Result<Topology>)
    ensures r.Failure? ==> exists i :: 0 <= i < |lines| && GroupId(scheme, lines[i]).None?
    decreases |lines|
  {
    if |lines| == 0 then Success(t)
    else
      match AddNode(scheme, t, PoolName(scheme, lines[0]), lines[0])
      case Failure(e) => Failure(e)
      case Success(t') => BuildFrom(scheme, t', lines[1..])
  }

  /****************************** fitting ******************************/

  /** `Rack.is_full` / `Chassis.is_full`: an empty pool is always full. */
  predicate PoolIsFull(p: Pool) {
    |p.nodes| == 0 || p.full
  }

  /** `DragonflyGroup.is_full` */
  predicate GroupIsFull(g: Group) {
    forall i :: 0 <= i < |g.pools| ==> PoolIsFull(g.pools[i])
  }

  function Min(a: nat, b: nat): nat {
    if a <= b then a else b
  }

  /** `Rack.fit(k)` / `Chassis.fit(k)`: mark the pool used and hand out its first
      `min(k, size)` nodes. */
  function PoolFit(p: Pool, k: nat): (r: (Pool, seq<string>))
    ensures r.0 == p.(full := true)
    ensures |r.1| == Min(k, |p.nodes|) && r.1 == p.nodes[..|r.1|]
  {
    (p.(full := true), if k > |p.nodes| then p.nodes else p.nodes[..k])
  }

  /** The free nodes of a list of pools, pool by pool in discovery order. */
  function FreePools(ps: seq<Pool>): seq<string> {
    if |ps| == 0 then []
    else (if PoolIsFull(ps[0]) then [] else ps[0].nodes) + FreePools(ps[1..])
  }

  /** The free nodes of the topology, group by group, pool by pool. */
  function FreeGroups(gs: seq<Group>): seq<string> {
    if |gs| == 0 then [] else FreePools(gs[0].pools) + FreeGroups(gs[1..])
  }

  function FreeNodes(t: Topology): seq<string> {
    FreeGroups(t.groups)
  }

  /** Fitting changes full flags and nothing else, and never clears one. */
  predicate PoolsFlagsOnly(ps: seq<Pool>, ps': seq<Pool>) {
    && |ps'| == |ps|
    && forall i :: 0 <= i < |ps| ==>
         ps'[i].name == ps[i].name && ps'[i].nodes == ps[i].nodes && (ps[i].full ==> ps'[i].full)
  }

  predicate GroupsFlagsOnly(gs: seq<Group>, gs': seq<Group>) {
    && |gs'| == |gs|
    && forall i :: 0 <= i < |gs| ==> gs'[i].id == gs[i].id && PoolsFlagsOnly(gs[i].pools, gs'[i].pools)
  }

  /** `need` is the request minus what has been assigned so far. Python's
      `if len(assigned) >= num_nodes: return` is `need == 0`. */
  function FitPools(ps: seq<Pool>, need: nat): (r: (seq<Pool>, seq<string>))
    ensures |r.0| == |ps| && |r.1| <= need
  {
    if |ps| == 0 then ([], [])
    else if need == 0 then (ps, [])
    else if PoolIsFull(ps[0]) then
      var rest := FitPools(ps[1..], need);
      ([ps[0]] + rest.0, rest.1)
    else
      var first := PoolFit(ps[0], need);
      var rest := FitPools(ps[1..], need - |first.1|);
      ([first.0] + rest.0, first.1 + rest.1)
  }

  lemma FreePoolsCons(p: Pool, qs: seq<Pool>)
    ensures FreePools([p] + qs) == (if PoolIsFull(p) then [] else p.nodes) + FreePools(qs)
  {
    assert ([p] + qs)[1..] == qs;
  }

  lemma FreeGroupsCons(g: Group, hs: seq<Group>)
    ensures FreeGroups([g] + hs) == FreePools(g.pools) + FreeGroups(hs)
  {
    assert ([g] + hs)[1..] == hs;
  }

  /** A pool fit only ever sets full flags. */
  lemma {:induction false} FitPoolsFlagsOnly(ps: seq<Pool>, need: nat)
    ensures PoolsFlagsOnly(ps, FitPools(ps, need).0)
  {
    if |ps| > 0 && need > 0 {
      var need' := if PoolIsFull(ps[0]) then need else need - |PoolFit(ps[0], need).1|;
      FitPoolsFlagsOnly(ps[1..], need');
    }
  }

  /** `a` is what is left at the end of `b`. */
  predicate IsSuffix<T(==)>(a: seq<T>, b: seq<T>) {
    |a| <= |b| && a == b[|b| - |a|..]
  }

  lemma SuffixUnderPrefix<T>(a: seq<T>, b: seq<T>, c: seq<T>)
    requires IsSuffix(a, b)
    ensures IsSuffix(a, c + b)
  {
    assert (c + b)[|c + b| - |a|..] == b[|b| - |a|..];
  }

  lemma SuffixOfSuffixes<T>(a: seq<T>, a': seq<T>, b: seq<T>)
    requires IsSuffix(a', a)
    ensures IsSuffix(a' + b, a + b)
  {
    assert (a + b)[|a + b| - |a' + b|..] == a[|a| - |a'|..] + b;
  }

  lemma PrefixUnderPrefix<T>(g: seq<T>, f: seq<T>, a: seq<T>)
    requires g <= f
    ensures a + g <= a + f
  {
    assert (a + f)[..|a + g|] == a + f[..|g|];
  }

  lemma PrefixOfPrefix<T>(g: seq<T>, a: seq<T>, f: seq<T>)
    requires g <= a
    ensures g <= a + f
  {
    assert (a + f)[..|g|] == a[..|g|];
  }

  /** A pool fit hands out the first `min(need, free)` free nodes, in
      discovery order. */
  lemma {:induction false} FitPoolsTakes(ps: seq<Pool>, need: nat)
    ensures var r := FitPools(ps, need);
      |r.1| == Min(need, |FreePools(ps)|) && r.1 <= FreePools(ps)
  {
    if |ps| > 0 && need > 0 {
      FreePoolsCons(ps[0], ps[1..]);
      assert [ps[0]] + ps[1..] == ps;
      if PoolIsFull(ps[0]) {
        FitPoolsTakes(ps[1..], need);
      } else {
        var first := PoolFit(ps[0], need);
        FitPoolsTakes(ps[1..], need - |first.1|);
        if need <= |ps[0].nodes| {
          PrefixOfPrefix(first.1, ps[0].nodes, FreePools(ps[1..]));
        } else {
          PrefixUnderPrefix(FitPools(ps[1..], need - |first.1|).1, FreePools(ps[1..]), ps[0].nodes);
        }
      }
    }
  }

  /** What stays free after a pool fit is what was free at the end. */
  lemma {:induction false} FitPoolsLeavesSuffix(ps: seq<Pool>, need: nat)
    ensures IsSuffix(FreePools(FitPools(ps, need).0), FreePools(ps))
  {
    if |ps| > 0 && need > 0 {
      FreePoolsCons(ps[0], ps[1..]);
      assert [ps[0]] + ps[1..] == ps;
      if PoolIsFull(ps[0]) {
        FitPoolsLeavesSuffix(ps[1..], need);
        FreePoolsCons(ps[0], FitPools(ps[1..], need).0);
      } else {
        var first := PoolFit(ps[0], need);
        var rest := FitPools(ps[1..], need - |first.1|);
        FitPoolsLeavesSuffix(ps[1..], need - |first.1|);
        assert FitPools(ps, need).0 == [first.0] + rest.0;
        FreePoolsCons(first.0, rest.0);
        assert FreePools(FitPools(ps, need).0) == FreePools(rest.0);
        assert FreePools(ps) == ps[0].nodes + FreePools(ps[1..]);
        SuffixUnderPrefix(FreePools(rest.0), FreePools(ps[1..]), ps[0].nodes);
      }
    }
  }

  /** ... and none of the nodes just handed out is among them. */
  lemma {:induction false} FitPoolsDisjointLeft(ps: seq<Pool>, need: nat)
    ensures var r := FitPools(ps, need); |r.1| + |FreePools(r.0)| <= |FreePools(ps)|
  {
    if |ps| > 0 && need > 0 {
      FreePoolsCons(ps[0], ps[1..]);
      assert [ps[0]] + ps[1..] == ps;
      if PoolIsFull(ps[0]) {
        FitPoolsDisjointLeft(ps[1..], need);
        FreePoolsCons(ps[0], FitPools(ps[1..], need).0);
      } else {
        var first := PoolFit(ps[0], need);
        var rest := FitPools(ps[1..], need - |first.1|);
        FitPoolsDisjointLeft(ps[1..], need - |first.1|);
        FreePoolsCons(first.0, rest.0);
      }
    }
  }

  /** A pool fit that falls short has drained every pool. */
  lemma {:induction false} FitPoolsShortDrains(ps: seq<Pool>, need: nat)
    ensures var r := FitPools(ps, need); |r.1| < need ==> FreePools(r.0) == []
  {
    if |ps| > 0 && need > 0 {
      if PoolIsFull(ps[0]) {
        FitPoolsShortDrains(ps[1..], need);
        FreePoolsCons(ps[0], FitPools(ps[1..], need).0);
      } else {
        var first := PoolFit(ps[0], need);
        var rest := FitPools(ps[1..], need - |first.1|);
        FitPoolsShortDrains(ps[1..], need - |first.1|);
        FreePoolsCons(first.0, rest.0);
      }
    }
  }

  /** `DragonflyGroup.fit`, applied to the groups in turn by `fit_point`. A
      group whose pools are all full is skipped. */
  function FitGroups(gs: seq<Group>, need: nat): (r: (seq<Group>, seq<string>))
    ensures |r.0| == |gs| && |r.1| <= need
  {
    if |gs| == 0 then ([], [])
    else if need == 0 then (gs, [])
    else if GroupIsFull(gs[0]) then
      var rest := FitGroups(gs[1..], need);
      ([gs[0]] + rest.0, rest.1)
    else
      var first := FitPools(gs[0].pools, need);
      var rest := FitGroups(gs[1..], need - |first.1|);
      ([Group(gs[0].id, first.0)] + rest.0, first.1 + rest.1)
  }

  lemma {:induction false} FullGroupHasNoFreeNodes(ps: seq<Pool>)
    requires forall i :: 0 <= i < |ps| ==> PoolIsFull(ps[i])
    ensures FreePools(ps) == []
  {
    if |ps| > 0 {
      assert PoolIsFull(ps[0]);
      FullGroupHasNoFreeNodes(ps[1..]);
    }
  }

  lemma {:induction false} FitGroupsFlagsOnly(gs: seq<Group>, need: nat)
    ensures GroupsFlagsOnly(gs, FitGroups(gs, need).0)
  {
    if |gs| > 0 && need > 0 {
      if GroupIsFull(gs[0]) {
        FitGroupsFlagsOnly(gs[1..], need);
      } else {
        FitPoolsFlagsOnly(gs[0].pools, need);
        FitGroupsFlagsOnly(gs[1..], need - |FitPools(gs[0].pools, need).1|);
      }
    }
  }

  lemma {:induction false} FitGroupsTakes(gs: seq<Group>, need: nat)
    ensures var r := FitGroups(gs, need);
      |r.1| == Min(need, |FreeGroups(gs)|) && r.1 <= FreeGroups(gs)
  {
    if |gs| > 0 && need > 0 {
      FreeGroupsCons(gs[0], gs[1..]);
      assert [gs[0]] + gs[1..] == gs;
      if GroupIsFull(gs[0]) {
        FullGroupHasNoFreeNodes(gs[0].pools);
        FitGroupsTakes(gs[1..], need);
      } else {
        var first := FitPools(gs[0].pools, need);
        FitPoolsTakes(gs[0].pools, need);
        FitGroupsTakes(gs[1..], need - |first.1|);
        if |first.1| == need {
          PrefixOfPrefix(first.1, FreePools(gs[0].pools), FreeGroups(gs[1..]));
        } else {
          PrefixUnderPrefix(FitGroups(gs[1..], need - |first.1|).1, FreeGroups(gs[1..]), first.1);
        }
      }
    }
  }

  lemma {:induction false} FitGroupsLeavesSuffix(gs: seq<Group>, need: nat)
    ensures IsSuffix(FreeGroups(FitGroups(gs, need).0), FreeGroups(gs))
  {
    if |gs| > 0 && need > 0 {
      FreeGroupsCons(gs[0], gs[1..]);
      assert [gs[0]] + gs[1..] == gs;
      if GroupIsFull(gs[0]) {
        FitGroupsLeavesSuffix(gs[1..], need);
        FreeGroupsCons(gs[0], FitGroups(gs[1..], need).0);
        FullGroupHasNoFreeNodes(gs[0].pools);
      } else {
        var first := FitPools(gs[0].pools, need);
        var rest := FitGroups(gs[1..], need - |first.1|);
        FitPoolsTakes(gs[0].pools, need);
        FreeGroupsCons(Group(gs[0].id, first.0), rest.0);
        if |first.1| == need {
          FitPoolsLeavesSuffix(gs[0].pools, need);
          SuffixOfSuffixes(FreePools(gs[0].pools), FreePools(first.0), FreeGroups(gs[1..]));
        } else {
          FitPoolsShortDrains(gs[0].pools, need);
          FitGroupsLeavesSuffix(gs[1..], need - |first.1|);
          SuffixUnderPrefix(FreeGroups(rest.0), FreeGroups(gs[1..]), FreePools(gs[0].pools));
        }
      }
    }
  }

  lemma {:induction false} FitGroupsDisjointLeft(gs: seq<Group>, need: nat)
    ensures var r := FitGroups(gs, need); |r.1| + |FreeGroups(r.0)| <= |FreeGroups(gs)|
  {
    if |gs| > 0 && need > 0 {
      FreeGroupsCons(gs[0], gs[1..]);
      assert [gs[0]] + gs[1..] == gs;
      if GroupIsFull(gs[0]) {
        FitGroupsDisjointLeft(gs[1..], need);
        FreeGroupsCons(gs[0], FitGroups(gs[1..], need).0);
        FullGroupHasNoFreeNodes(gs[0].pools);
      } else {
        var first := FitPools(gs[0].pools, need);
        var rest := FitGroups(gs[1..], need - |first.1|);
        FitPoolsDisjointLeft(gs[0].pools, need);
        FitGroupsDisjointLeft(gs[1..], need - |first.1|);
        FreeGroupsCons(Group(gs[0].id, first.0), rest.0);
        if |first.1| == need {
          FitGroupsLeavesSuffix(gs[1..], 0);
        }
      }
    }
  }

  lemma {:induction false} FitGroupsShortDrains(gs: seq<Group>, need: nat)
    ensures var r := FitGroups(gs, need); |r.1| < need ==> FreeGroups(r.0) == []
  {
    if |gs| > 0 && need > 0 {
      if GroupIsFull(gs[0]) {
        FitGroupsShortDrains(gs[1..], need);
        FreeGroupsCons(gs[0], FitGroups(gs[1..], need).0);
        FullGroupHasNoFreeNodes(gs[0].pools);
      } else {
        var first := FitPools(gs[0].pools, need);
        var rest := FitGroups(gs[1..], need - |first.1|);
        FitPoolsShortDrains(gs[0].pools, need);
        FitGroupsShortDrains(gs[1..], need - |first.1|);
        FreeGroupsCons(Group(gs[0].id, first.0), rest.0);
      }
    }
  }

  /** `Topology.fit_point(k)`: the nodes assigned, or `None` for `False`. The
      new topology is returned in both cases, since a failed attempt still
      marks every pool it touched. */
  function FitPoint(t: Topology, k: nat): (r: (Topology, Option<seq<string>>))
    ensures r.1.Some? <==> k <= |FreeNodes(t)|
    ensures r.1.Some? ==> r.1.value == FreeNodes(t)[..k]
    ensures r.1.None? ==> FreeNodes(r.0) == []
    ensures IsSuffix(FreeNodes(r.0), FreeNodes(t))
    ensures r.1.Some? ==> |FreeNodes(r.0)| <= |FreeNodes(t)| - k
    ensures GroupsFlagsOnly(t.groups, r.0.groups)
  {
    FitGroupsTakes(t.groups, k);
    FitGroupsShortDrains(t.groups, k);
    FitGroupsLeavesSuffix(t.groups, k);
    FitGroupsDisjointLeft(t.groups, k);
    FitGroupsFlagsOnly(t.groups, k);
    var res := FitGroups(t.groups, k);
    (Topology(res.0), if |res.1| >= k then Some(res.1) else None)
  }

  /** `Topology.reset_fit`: every full flag cleared. */
  function ResetPools(ps: seq<Pool>): (r: seq<Pool>)
    ensures |r| == |ps|
    ensures forall i :: 0 <= i < |ps| ==> r[i] == ps[i].(full := false)
  {
    if |ps| == 0 then [] else [ps[0].(full := false)] + ResetPools(ps[1..])
  }

  function ResetGroups(gs: seq<Group>): (r: seq<Group>)
    ensures |r| == |gs|
    ensures forall i :: 0 <= i < |gs| ==> r[i] == Group(gs[i].id, ResetPools(gs[i].pools))
  {
    if |gs| == 0 then [] else [Group(gs[0].id, ResetPools(gs[0].pools))] + ResetGroups(gs[1..])
  }

  function Reset(t: Topology): (r: Topology)
    ensures |r.groups| == |t.groups|
    ensures forall i :: 0 <= i < |t.groups| ==>
      && r.groups[i].id == t.groups[i].id && |r.groups[i].pools| == |t.groups[i].pools|
      && forall j :: 0 <= j < |t.groups[i].pools| ==> r.groups[i].pools[j] == t.groups[i].pools[j].(full := false)
  {
    Topology(ResetGroups(t.groups))
  }

  /** Every node of the topology, used or not, in discovery order. */
  function AllPools(ps: seq<Pool>): seq<string> {
    if |ps| == 0 then [] else ps[0].nodes + AllPools(ps[1..])
  }

  function AllGroups(gs: seq<Group>): seq<string> {
    if |gs| == 0 then [] else AllPools(gs[0].pools) + AllGroups(gs[1..])
  }

  function AllNodes(t: Topology): seq<string> {
    AllGroups(t.groups)
  }

  /** `create_nodefile(nodes, path)`: the text written to `path`. Polaris
      returns `None`, Aurora returns `path`. */
  function CreateNodefile(scheme: Scheme, nodes: seq<string>, path: string): (r: (string, Option<string>))
    ensures r.0 == Nodefile.Content(nodes)
    ensures scheme == Polaris <==> r.1.None?
    ensures scheme == Aurora ==> r.1 == Some(path)
  {
    (Nodefile.Content(nodes), if scheme == Aurora then Some(path) else None)
  }

  /************************** properties **************************/

  /** A fit followed by `reset_fit` leaves the topology as `reset_fit` alone
      would: fitting only ever touches the flags. */
  lemma ResetForgetsFlags(gs: seq<Group>, gs': seq<Group>)
    requires GroupsFlagsOnly(gs, gs')
    ensures ResetGroups(gs') == ResetGroups(gs)
  {
    forall i | 0 <= i < |gs|
      ensures ResetGroups(gs')[i] == ResetGroups(gs)[i]
    {
      var ps, ps' := gs[i].pools, gs'[i].pools;
      assert PoolsFlagsOnly(ps, ps');
      assert forall j :: 0 <= j < |ps| ==> ResetPools(ps')[j] == ResetPools(ps)[j];
    }
  }

  lemma ResetUndoesFit(t: Topology, k: nat)
    ensures Reset(FitPoint(t, k).0) == Reset(t)
  {
    ResetForgetsFlags(t.groups, FitPoint(t, k).0.groups);
  }

  /** Hence a request repeated after a reset gets the same answer, however
      many fits came in between. */
  lemma SameAnswerAfterReset(t: Topology, k: nat, k': nat)
    ensures FitPoint(Reset(FitPoint(t, k).0), k') == FitPoint(Reset(t), k')
  {
    ResetUndoesFit(t, k);
  }

  lemma ResetIdempotent(t: Topology)
    ensures Reset(Reset(t)) == Reset(t)
  {
    var gs := t.groups;
    forall i | 0 <= i < |gs|
      ensures ResetGroups(ResetGroups(gs))[i] == ResetGroups(gs)[i]
    {
      var ps := gs[i].pools;
      assert forall j :: 0 <= j < |ps| ==> ResetPools(ResetPools(ps))[j] == ResetPools(ps)[j];
    }
  }

  lemma {:induction false} FreePoolsAfterReset(ps: seq<Pool>)
    ensures FreePools(ResetPools(ps)) == AllPools(ps)
  {
    if |ps| > 0 {
      FreePoolsAfterReset(ps[1..]);
      assert ResetPools(ps) == [ps[0].(full := false)] + ResetPools(ps[1..]);
      FreePoolsCons(ps[0].(full := false), ResetPools(ps[1..]));
    }
  }

  lemma {:induction false} FreeGroupsAfterReset(gs: seq<Group>)
    ensures FreeGroups(ResetGroups(gs)) == AllGroups(gs)
  {
    if |gs| > 0 {
      FreeGroupsAfterReset(gs[1..]);
      FreePoolsAfterReset(gs[0].pools);
      assert ResetGroups(gs) == [Group(gs[0].id, ResetPools(gs[0].pools))] + ResetGroups(gs[1..]);
      FreeGroupsCons(Group(gs[0].id, ResetPools(gs[0].pools)), ResetGroups(gs[1..]));
    }
  }

  /** After `reset_fit` every node is free again. */
  lemma FreeAfterReset(t: Topology)
    ensures FreeNodes(Reset(t)) == AllNodes(t)
  {
    FreeGroupsAfterReset(t.groups);
  }

  /** After `reset_fit` a request for the whole machine gets every node in
      discovery order, one more node fails, and a failed request leaves
      nothing for any later one until the next reset. */
  lemma WholeMachineAfterReset(t: Topology, k: nat, k': nat)
    requires k' >= 1
    ensures FitPoint(Reset(t), |AllNodes(t)|).1 == Some(AllNodes(t))
    ensures FitPoint(Reset(t), |AllNodes(t)| + 1).1.None?
    ensures |AllNodes(t)| < k ==> FitPoint(FitPoint(Reset(t), k).0, k').1.None?
  {
    FreeAfterReset(t);
    assert AllNodes(t)[..|AllNodes(t)|] == AllNodes(t);
  }

  predicate NoDup<T(==)>(s: seq<T>) {
    forall i, j :: 0 <= i < j < |s| ==> s[i] != s[j]
  }

  lemma NoDupConcat<T>(a: seq<T>, b: seq<T>)
    requires NoDup(a) && NoDup(b)
    requires forall x :: x in a ==> x !in b
    ensures NoDup(a + b)
  {
    forall i, j | 0 <= i < j < |a + b|
      ensures (a + b)[i] != (a + b)[j]
    {
      if j >= |a| && i < |a| {
        assert a[i] in a && b[j - |a|] in b;
      }
    }
  }

  /** Cutting a window out of a duplicate-free sequence leaves the head and
      the tail apart. */
  lemma NoDupSplice<T>(s: seq<T>, p: nat, q: nat)
    requires NoDup(s) && p <= q <= |s|
    ensures NoDup(s[..p] + s[q..])
    ensures forall x :: x in s[..p] ==> x !in s[q..]
    ensures forall x :: x in s[..p] + s[q..] ==> x in s
  {
    forall x | x in s[..p]
      ensures x !in s[q..]
    {
      var i :| 0 <= i < p && s[i] == x;
      forall j | 0 <= j < |s| - q
        ensures s[q..][j] != x
      {
        assert s[q..][j] == s[q + j] && i < q + j;
      }
    }
    NoDupConcat(s[..p], s[q..]);
  }

  /** The fits of one epoch, in order, on the state each leaves behind. */
  function RunEpoch(t: Topology, ks: seq<nat>): (r: (Topology, seq<Option<seq<string>>>))
    ensures |r.1| == |ks|
    decreases |ks|
  {
    if |ks| == 0 then (t, [])
    else
      var f := FitPoint(t, ks[0]);
      var rest := RunEpoch(f.0, ks[1..]);
      (rest.0, [f.1] + rest.1)
  }

  /** Every node handed out by a list of fit results, in order. */
  function Handed(rs: seq<Option<seq<string>>>): seq<string> {
    if |rs| == 0 then [] else (if rs[0].Some? then rs[0].value else []) + Handed(rs[1..])
  }

  /** One fit: what it hands out and what stays free are disjoint pieces of
      what was free. */
  lemma FitSplitsFree(t: Topology, k: nat)
    requires NoDup(FreeNodes(t))
    ensures var f := FitPoint(t, k);
      var a := if f.1.Some? then f.1.value else [];
      && NoDup(a + FreeNodes(f.0))
      && (forall x :: x in a ==> x !in FreeNodes(f.0))
      && (forall x :: x in a + FreeNodes(f.0) ==> x in FreeNodes(t))
  {
    var s := FreeNodes(t);
    var f := FitPoint(t, k);
    var a := if f.1.Some? then f.1.value else [];
    var left := FreeNodes(f.0);
    assert a == s[..|a|];
    assert left == s[|s| - |left|..];
    NoDupSplice(s, |a|, |s| - |left|);
  }

  /** Within one epoch (between two calls of `reset_fit`) no node is handed
      out twice, and every node handed out was free when the epoch began. */
  lemma {:induction false} EpochHandsOutEachNodeOnce(t: Topology, ks: seq<nat>)
    requires NoDup(FreeNodes(t))
    ensures var r := RunEpoch(t, ks);
      && NoDup(Handed(r.1) + FreeNodes(r.0))
      && forall x :: x in Handed(r.1) + FreeNodes(r.0) ==> x in FreeNodes(t)
    decreases |ks|
  {
    if |ks| > 0 {
      var f := FitPoint(t, ks[0]);
      var a := if f.1.Some? then f.1.value else [];
      var left := FreeNodes(f.0);
      FitSplitsFree(t, ks[0]);
      NoDupHalves(a, left);
      EpochHandsOutEachNodeOnce(f.0, ks[1..]);
      var rest := RunEpoch(f.0, ks[1..]);
      var tail := Handed(rest.1) + FreeNodes(rest.0);
      RunEpochStep(t, ks);
      NoDupConcat(a, tail);
    }
  }

  /** Both halves of a duplicate-free sequence are duplicate-free. */
  lemma NoDupHalves<T>(a: seq<T>, b: seq<T>)
    requires NoDup(a + b)
    ensures NoDup(a) && NoDup(b)
  {
    assert forall i :: 0 <= i < |a| ==> a[i] == (a + b)[i];
    assert forall i :: 0 <= i < |b| ==> b[i] == (a + b)[|a| + i];
  }

  /** One fit of an epoch, then the rest. */
  lemma RunEpochStep(t: Topology, ks: seq<nat>)
    requires |ks| > 0
    ensures var f := FitPoint(t, ks[0]);
      var rest := RunEpoch(f.0, ks[1..]);
      var r := RunEpoch(t, ks);
      Handed(r.1) + FreeNodes(r.0)
        == (if f.1.Some? then f.1.value else []) + (Handed(rest.1) + FreeNodes(rest.0))
  {
    var f := FitPoint(t, ks[0]);
    var rest := RunEpoch(f.0, ks[1..]);
    var r := RunEpoch(t, ks);
    assert r.1 == [f.1] + rest.1;
    assert ([f.1] + rest.1)[1..] == rest.1;
  }

  /************************** building **************************/

  /** No pool is marked full. */
  predicate Fresh(t: Topology) {
    forall gi, pi :: 0 <= gi < |t.groups| && 0 <= pi < |t.groups[gi].pools| ==>
      !t.groups[gi].pools[pi].full
  }

  /** The shape `get_topology` builds: group ids distinct, pool names distinct
      within a group, every pool non-empty and free of repeated names. */
  predicate PoolsWellFormed(ps: seq<Pool>) {
    && (forall i :: 0 <= i < |ps| ==> |ps[i].nodes| > 0 && NoDup(ps[i].nodes))
    && (forall i, j :: 0 <= i < j < |ps| ==> ps[i].name != ps[j].name)
  }

  predicate WellFormed(t: Topology) {
    && (forall i :: 0 <= i < |t.groups| ==> PoolsWellFormed(t.groups[i].pools))
    && (forall i, j :: 0 <= i < j < |t.groups| ==> t.groups[i].id != t.groups[j].id)
  }

  lemma PoolAddNodeKeepsNoDup(p: Pool, name: string)
    requires NoDup(p.nodes)
    ensures NoDup(PoolAddNode(p, name).nodes)
  {
    if name !in p.nodes {
      var s := p.nodes + [name];
      forall i, j | 0 <= i < j < |s| ensures s[i] != s[j] {
        if j == |p.nodes| {
          assert s[i] == p.nodes[i];
        }
      }
    }
  }

  lemma PoolsAddNodeKeepsShape(ps: seq<Pool>, poolName: string, name: string)
    requires PoolsWellFormed(ps)
    ensures PoolsWellFormed(PoolsAddNode(ps, poolName, name))
  {
    var i := PoolIndex(ps, poolName);
    var r := PoolsAddNode(ps, poolName, name);
    if i < |ps| {
      var p' := PoolAddNode(ps[i], name);
      PoolAddNodeKeepsNoDup(ps[i], name);
      assert r == ps[i := p'];
      forall j | 0 <= j < |r|
        ensures |r[j].nodes| > 0 && NoDup(r[j].nodes) && r[j].name == ps[j].name
      {
        if j != i {
          assert r[j] == ps[j];
        }
      }
    } else {
      assert r == ps + [Pool(poolName, [name], false)];
      assert NoDup(r[i].nodes);
      forall j | 0 <= j < |r|
        ensures |r[j].nodes| > 0 && NoDup(r[j].nodes)
      {
        if j < i {
          assert r[j] == ps[j];
        }
      }
      forall j, j' | 0 <= j < j' < |r|
        ensures r[j].name != r[j'].name
      {
        assert r[j] == ps[j];
        if j' < i {
          assert r[j'] == ps[j'];
        }
      }
    }
  }

  lemma GroupsAddNodeKeepsShape(gs: seq<Group>, gid: int, poolName: string, name: string)
    requires forall i :: 0 <= i < |gs| ==> PoolsWellFormed(gs[i].pools)
    requires forall i, j :: 0 <= i < j < |gs| ==> gs[i].id != gs[j].id
    ensures var r := GroupsAddNode(gs, gid, poolName, name);
      && (forall i :: 0 <= i < |r| ==> PoolsWellFormed(r[i].pools))
      && (forall i, j :: 0 <= i < j < |r| ==> r[i].id != r[j].id)
  {
    var gi := GroupIndex(gs, gid);
    var r := GroupsAddNode(gs, gid, poolName, name);
    if gi < |gs| {
      PoolsAddNodeKeepsShape(gs[gi].pools, poolName, name);
      assert r == gs[gi := Group(gid, PoolsAddNode(gs[gi].pools, poolName, name))];
      forall i | 0 <= i < |r|
        ensures r[i].id == gs[i].id && PoolsWellFormed(r[i].pools)
      {
        if i != gi {
          assert r[i] == gs[i];
        }
      }
    } else {
      var g := Group(gid, [Pool(poolName, [name], false)]);
      assert r == gs + [g];
      assert PoolsWellFormed(g.pools) by {
        assert NoDup(g.pools[0].nodes);
      }
      forall i | 0 <= i < |r|
        ensures PoolsWellFormed(r[i].pools) && (i < |gs| ==> r[i] == gs[i])
      {
      }
    }
  }

  /** `add_node` keeps the shape, never marks a pool full, and ignores a line
      whose node is already there. */
  lemma AddNodeKeepsShape(scheme: Scheme, t: Topology, poolName: string, line: string)
    requires WellFormed(t) && AddNode(scheme, t, poolName, line).Success?
    ensures WellFormed(AddNode(scheme, t, poolName, line).value)
  {
    var gid := GroupId(scheme, line).value;
    GroupsAddNodeKeepsShape(t.groups, gid, poolName, NodeName(line));
    assert AddNode(scheme, t, poolName, line).value.groups
      == GroupsAddNode(t.groups, gid, poolName, NodeName(line));
  }

  lemma AddNodeKeepsFresh(scheme: Scheme, t: Topology, poolName: string, line: string)
    requires Fresh(t) && AddNode(scheme, t, poolName, line).Success?
    ensures Fresh(AddNode(scheme, t, poolName, line).value)
  {
    var gid := GroupId(scheme, line).value;
    GroupsAddNodeKeepsFresh(Topology(t.groups), gid, poolName, NodeName(line));
    assert AddNode(scheme, t, poolName, line).value
      == Topology(GroupsAddNode(t.groups, gid, poolName, NodeName(line)));
  }

  lemma GroupsAddNodeKeepsFresh(t: Topology, gid: int, poolName: string, name: string)
    requires Fresh(t)
    ensures Fresh(Topology(GroupsAddNode(t.groups, gid, poolName, name)))
  {
    var gs := t.groups;
    var r := GroupsAddNode(gs, gid, poolName, name);
    var gi := GroupIndex(gs, gid);
    if gi < |gs| {
      PoolsAddNodeKeepsFresh(gs[gi].pools, poolName, name);
      assert forall i :: 0 <= i < |gs| && i != gi ==> r[i] == gs[i];
    } else {
      assert forall i :: 0 <= i < |gs| ==> r[i] == gs[i];
    }
  }

  lemma PoolsAddNodeKeepsFresh(ps: seq<Pool>, poolName: string, name: string)
    requires forall i :: 0 <= i < |ps| ==> !ps[i].full
    ensures var r := PoolsAddNode(ps, poolName, name);
      forall i :: 0 <= i < |r| ==> !r[i].full
  {
  }

  lemma AddNodeIgnoresDuplicate(scheme: Scheme, t: Topology, poolName: string, line: string)
    requires AddNode(scheme, t, poolName, line).Success?
    ensures var t' := AddNode(scheme, t, poolName, line).value;
      AddNode(scheme, t', poolName, line) == Success(t')
  {
    var gid := GroupId(scheme, line).value;
    var t' := AddNode(scheme, t, poolName, line).value;
    var gs := t'.groups;
    var gi := GroupIndex(gs, gid);
    var ps := gs[gi].pools;
    var pi := PoolIndex(ps, poolName);
    assert PoolsAddNode(ps, poolName, NodeName(line)) == ps[pi := ps[pi]] == ps;
    assert GroupsAddNode(gs, gid, poolName, NodeName(line)) == gs[gi := gs[gi]] == gs;
  }

  /** `get_topology` yields a well-formed topology with every node free. */
  lemma {:induction false} BuildFromShape(scheme: Scheme, t: Topology, lines: seq<string>)
    requires WellFormed(t) && Fresh(t)
    ensures BuildFrom(scheme, t, lines).Success? ==>
      WellFormed(BuildFrom(scheme, t, lines).value) && Fresh(BuildFrom(scheme, t, lines).value)
    decreases |lines|
  {
    if |lines| > 0 {
      var a := AddNode(scheme, t, PoolName(scheme, lines[0]), lines[0]);
      if a.Success? {
        AddNodeKeepsShape(scheme, t, PoolName(scheme, lines[0]), lines[0]);
        AddNodeKeepsFresh(scheme, t, PoolName(scheme, lines[0]), lines[0]);
        BuildFromShape(scheme, a.value, lines[1..]);
      }
    }
  }

  lemma BuildShape(scheme: Scheme, lines: seq<string>)
    ensures Build(scheme, lines).Success? ==>
      && WellFormed(Build(scheme, lines).value)
      && Fresh(Build(scheme, lines).value)
  {
    BuildFromShape(scheme, Topology([]), lines);
  }

  /** `get_topology` fails exactly when some line's rack field is not a
      number. */
  lemma {:induction false} BuildFromFails(scheme: Scheme, t: Topology, lines: seq<string>)
    ensures BuildFrom(scheme, t, lines).Failure? <==>
      exists i :: 0 <= i < |lines| && GroupId(scheme, lines[i]).None?
    decreases |lines|
  {
    if |lines| > 0 {
      var a := AddNode(scheme, t, PoolName(scheme, lines[0]), lines[0]);
      if a.Success? {
        assert BuildFrom(scheme, t, lines) == BuildFrom(scheme, a.value, lines[1..]);
        BuildFromFails(scheme, a.value, lines[1..]);
        BadLineInTail(scheme, lines);
      } else {
        assert GroupId(scheme, lines[0]).None?;
      }
    }
  }

  /** Past a good first line, a bad line is a bad line of the rest. */
  lemma BadLineInTail(scheme: Scheme, lines: seq<string>)
    requires |lines| > 0 && GroupId(scheme, lines[0]).Some?
    ensures (exists i :: 0 <= i < |lines| && GroupId(scheme, lines[i]).None?) <==>
      exists i :: 0 <= i < |lines| - 1 && GroupId(scheme, lines[1..][i]).None?
  {
    if exists i :: 0 <= i < |lines| && GroupId(scheme, lines[i]).None? {
      var i :| 0 <= i < |lines| && GroupId(scheme, lines[i]).None?;
      assert lines[1..][i - 1] == lines[i];
    }
    if exists i :: 0 <= i < |lines| - 1 && GroupId(scheme, lines[1..][i]).None? {
      var i :| 0 <= i < |lines| - 1 && GroupId(scheme, lines[1..][i]).None?;
      assert lines[i + 1] == lines[1..][i];
    }
  }

  /** One step of a pool fit on a free first pool, and on a used one. */
  lemma FitPoolsFreeStep(p: Pool, qs: seq<Pool>, need: nat)
    requires need > 0 && !PoolIsFull(p)
    ensures var m := Min(need, |p.nodes|); var rest := FitPools(qs, need - m);
      FitPools([p] + qs, need) == ([p.(full := true)] + rest.0, p.nodes[..m] + rest.1)
  {
    assert ([p] + qs)[1..] == qs;
  }

  lemma FitPoolsUsedStep(p: Pool, qs: seq<Pool>, need: nat)
    requires need > 0 && PoolIsFull(p)
    ensures FitPools([p] + qs, need) == ([p] + FitPools(qs, need).0, FitPools(qs, need).1)
  {
    assert ([p] + qs)[1..] == qs;
  }

  lemma FitGroupsStep(g: Group, hs: seq<Group>, need: nat)
    requires need > 0 && !GroupIsFull(g)
    ensures var first := FitPools(g.pools, need); var rest := FitGroups(hs, need - |first.1|);
      FitGroups([g] + hs, need) == ([Group(g.id, first.0)] + rest.0, first.1 + rest.1)
  {
    assert ([g] + hs)[1..] == hs;
  }

  lemma FitGroupsUsedStep(g: Group, hs: seq<Group>, need: nat)
    requires need > 0 && GroupIsFull(g)
    ensures FitGroups([g] + hs, need) == ([g] + FitGroups(hs, need).0, FitGroups(hs, need).1)
  {
    assert ([g] + hs)[1..] == hs;
  }

  /** Free nodes of a two-group, two-pools-each topology. */
  lemma FreeOfTwoByTwo(a: Pool, b: Pool, c: Pool, d: Pool, i: int, j: int)
    ensures FreeNodes(Topology([Group(i, [a, b]), Group(j, [c, d])]))
      == FreePools([a]) + FreePools([b]) + FreePools([c]) + FreePools([d])
  {
    FreeGroupsCons(Group(i, [a, b]), [Group(j, [c, d])]);
    FreeGroupsCons(Group(j, [c, d]), []);
    FreePoolsCons(a, [b]);
    FreePoolsCons(c, [d]);
  }

  /************************** scenarios **************************/

  /** A Polaris line of rack 3005 belongs to dragonfly group 751. */
  lemma Rack3005Line(n: string)
    requires |n| >= 5 && n[1..5] == "3005"
    ensures RackName(n + "\n") == "3005"
    ensures GroupId(Polaris, n + "\n") == Some(751)
    ensures NodeName(n + "\n") == n
  {
    var l := n + "\n";
    assert RackName(l) == "3005" by {
      assert l[1..5] == n[1..5];
    }
    Parse3005();
    assert ParseInt(RackName(l)) == Some(3005);
    assert 3005 / 4 == 751;
    assert NodeName(l) == n by {
      assert l[..|n|] == n;
    }
  }

  lemma Parse3005()
    ensures ParseInt("3005") == Some(3005)
  {
    var d := "3005";
    assert AllDigits(d);
    assert DigitsValue(d) == 3005 by {
      assert d[..3] == "300" && "300"[..2] == "30" && "30"[..1] == "3" && "3"[..0] == "";
    }
    ParseIntOfDigits(d);
  }

  /** The first line of a hostfile opens a group and a pool. */
  lemma AddFirstNode(scheme: Scheme, l: string, pool: string, gid: int)
    requires GroupId(scheme, l) == Some(gid)
    ensures AddNode(scheme, Topology([]), pool, l)
      == Success(Topology([Group(gid, [Pool(pool, [NodeName(l)], false)])]))
  {
  }

  /** A further line of the same pool and group joins that pool. */
  lemma AddSecondNode(scheme: Scheme, l: string, pool: string, gid: int, n0: string)
    requires GroupId(scheme, l) == Some(gid) && NodeName(l) != n0
    ensures AddNode(scheme, Topology([Group(gid, [Pool(pool, [n0], false)])]), pool, l)
      == Success(Topology([Group(gid, [Pool(pool, [n0, NodeName(l)], false)])]))
  {
    var n1 := NodeName(l);
    var p := Pool(pool, [n0], false);
    var p' := Pool(pool, [n0, n1], false);
    assert PoolAddNode(p, n1) == p';
    assert PoolsAddNode([p], pool, n1) == [p'];
    assert GroupsAddNode([Group(gid, [p])], gid, pool, n1) == [Group(gid, [p'])];
  }

  /** Two lines of the same pool and group, with different node names, build
      a single group holding a single pool of both nodes. */
  lemma BuildTwoNodesOneRack(scheme: Scheme, l0: string, l1: string, pool: string, gid: int)
    requires PoolName(scheme, l0) == pool && PoolName(scheme, l1) == pool
    requires GroupId(scheme, l0) == Some(gid) && GroupId(scheme, l1) == Some(gid)
    requires NodeName(l0) != NodeName(l1)
    ensures Build(scheme, [l0, l1])
      == Success(Topology([Group(gid, [Pool(pool, [NodeName(l0), NodeName(l1)], false)])]))
  {
    var t1 := Topology([Group(gid, [Pool(pool, [NodeName(l0)], false)])]);
    var t2 := Topology([Group(gid, [Pool(pool, [NodeName(l0), NodeName(l1)], false)])]);
    AddFirstNode(scheme, l0, pool, gid);
    AddSecondNode(scheme, l1, pool, gid, NodeName(l0));
    assert [l0, l1][1..] == [l1];
    assert BuildFrom(scheme, t1, [l1]) == BuildFrom(scheme, t2, []);
  }

  /** The two-node Polaris hostfile of the unit tests builds one group
      (751) holding one rack ("3005") of both nodes. */
  lemma PolarisSimpleBuild()
    ensures var n0 := "x3005c0s25b1n0.hsn.cm.polaris.alcf.anl.gov";
      var n1 := "x3005c0s31b0n0.hsn.cm.polaris.alcf.anl.gov";
      Build(Polaris, [n0 + "\n", n1 + "\n"])
        == Success(Topology([Group(751, [Pool("3005", [n0, n1], false)])]))
  {
    var n0 := "x3005c0s25b1n0.hsn.cm.polaris.alcf.anl.gov";
    var n1 := "x3005c0s31b0n0.hsn.cm.polaris.alcf.anl.gov";
    assert n0[1..5] == "3005" by {
      assert n0[1] == '3' && n0[2] == '0' && n0[3] == '0' && n0[4] == '5';
    }
    assert n1[1..5] == "3005" by {
      assert n1[1] == '3' && n1[2] == '0' && n1[3] == '0' && n1[4] == '5';
    }
    assert n0 != n1 by {
      assert n0[9] != n1[9];
    }
    Rack3005Line(n0);
    Rack3005Line(n1);
    BuildTwoNodesOneRack(Polaris, n0 + "\n", n1 + "\n", "3005", 751);
  }

  lemma OnePoolFitOne(gid: int, name: string, nodes: seq<string>)
    requires |nodes| >= 1
    ensures var p := Pool(name, nodes, false);
      && FreeNodes(Topology([Group(gid, [p])])) == nodes
      && FitPoint(Topology([Group(gid, [p])]), 1).0 == Topology([Group(gid, [p.(full := true)])])
      && FreeNodes(Topology([Group(gid, [p.(full := true)])])) == []
  {
    var p := Pool(name, nodes, false);
    var q := p.(full := true);
    assert [p] + [] == [p] && [q] + [] == [q];
    assert [Group(gid, [p])] + [] == [Group(gid, [p])];
    assert [Group(gid, [q])] + [] == [Group(gid, [q])];
    FreeGroupsCons(Group(gid, [p]), []);
    FreePoolsCons(p, []);
    FitPoolsFreeStep(p, [], 1);
    assert FitPools([], 0) == ([], []);
    assert nodes[..1] + [] == nodes[..1];
    assert FitPools([p], 1) == ([q], nodes[..1]);
    FitGroupsStep(Group(gid, [p]), [], 1);
    assert FitGroups([], 0) == ([], []);
    assert FitGroups([Group(gid, [p])], 1) == ([Group(gid, [q])], nodes[..1]);
    FreeGroupsCons(Group(gid, [q]), []);
    FreePoolsCons(q, []);
  }

  /** A topology of one pool with at least two nodes, as in the small Polaris
      (one rack of 2) and Aurora (one chassis of 4) hostfiles: a one-node fit
      uses the pool, so the next fits fail until a reset, after which two
      nodes fit together and then nothing more. */
  lemma OnePoolScenario(gid: int, name: string, nodes: seq<string>)
    requires |nodes| >= 2
    ensures var t := Topology([Group(gid, [Pool(name, nodes, false)])]);
      && var f1 := FitPoint(t, 1);
      && f1.1 == Some(nodes[..1])
      && var f2 := FitPoint(f1.0, 1);
      && f2.1.None?
      && var f3 := FitPoint(f2.0, 1);
      && f3.1.None?
      && var f4 := FitPoint(Reset(f3.0), 2);
      && f4.1 == Some(nodes[..2])
      && FitPoint(f4.0, 1).1.None?
  {
    var p := Pool(name, nodes, false);
    var t := Topology([Group(gid, [p])]);
    OnePoolFitOne(gid, name, nodes);
    var f1 := FitPoint(t, 1);
    ResetUndoesFit(t, 1);
    ResetUndoesFit(f1.0, 1);
    assert ResetPools([p]) == [p];
    assert Reset(t) == t;
    var f2 := FitPoint(f1.0, 1);
    ResetUndoesFit(f2.0, 1);
    assert Reset(FitPoint(f2.0, 1).0) == t;
    var f4 := FitPoint(t, 2);
    assert f4.1 == Some(nodes[..2]);
    var q := p.(full := true);
    assert FitPools([], 0) == ([], []);
    assert [q] + [] == [q];
    FitPoolsFreeStep(p, [], 2);
    assert FitPools([p], 2).0 == [q];
    FitGroupsStep(Group(gid, [p]), [], 2);
    assert FitGroups([], 0) == ([], []);
    assert [Group(gid, [q])] + [] == [Group(gid, [q])];
    assert f4.0 == Topology([Group(gid, [q])]);
  }

  lemma ParseRack4407()
    ensures ParseInt("4407") == Some(4407)
  {
    var d := "4407";
    assert AllDigits(d);
    assert d[..3] == "440" && "440"[..2] == "44" && "44"[..1] == "4" && "4"[..0] == "";
    assert DigitsValue(d) == 4407;
    ParseIntOfDigits(d);
  }

  /** An Aurora line: character 6 names the chassis, and the rack number is
      the dragonfly group itself. */
  lemma AuroraLineNaming(n: string)
    requires |n| >= 7 && n[1..5] == "4407" && n[6] == '3'
    ensures PoolName(Aurora, n + "\n") == "3"
    ensures GroupId(Aurora, n + "\n") == Some(4407)
    ensures NodeName(n + "\n") == n
  {
    var l := n + "\n";
    assert l[6..7] == "3";
    assert l[1..5] == n[1..5];
    ParseRack4407();
    assert l[..|l| - 1] == n;
  }

  /** The state of a two-group, two-pools-each topology, given which pools
      are used. */
  function TwoByTwo(r1: seq<string>, r2: seq<string>, r3: seq<string>, r4: seq<string>,
                    u1: bool, u2: bool, u3: bool, u4: bool): Topology
  {
    Topology([Group(800, [Pool("3201", r1, u1), Pool("3202", r2, u2)]),
              Group(750, [Pool("3002", r3, u3), Pool("3003", r4, u4)])])
  }

  lemma TwoByTwoFree(r1: seq<string>, r2: seq<string>, r3: seq<string>, r4: seq<string>,
                     u1: bool, u2: bool, u3: bool, u4: bool)
    requires |r1| > 0 && |r2| > 0 && |r3| > 0 && |r4| > 0
    ensures FreeNodes(TwoByTwo(r1, r2, r3, r4, u1, u2, u3, u4))
      == (if u1 then [] else r1) + (if u2 then [] else r2) + (if u3 then [] else r3) + (if u4 then [] else r4)
  {
    var a, b := Pool("3201", r1, u1), Pool("3202", r2, u2);
    var c, d := Pool("3002", r3, u3), Pool("3003", r4, u4);
    FreeOfTwoByTwo(a, b, c, d, 800, 750);
    FreeOfOnePool(a);
    FreeOfOnePool(b);
    FreeOfOnePool(c);
    FreeOfOnePool(d);
  }

  lemma FreeOfOnePool(x: Pool)
    ensures FreePools([x]) == if PoolIsFull(x) then [] else x.nodes
  {
    FreePoolsCons(x, []);
    assert [x] + [] == [x];
  }

  /** Fitting 7 nodes onto racks of 5 and 3 uses both racks of group 800. */
  lemma TwoByTwoFitSeven(r1: seq<string>, r2: seq<string>, r3: seq<string>, r4: seq<string>)
    requires |r1| == 5 && |r2| == 3
    ensures FitPoint(TwoByTwo(r1, r2, r3, r4, false, false, false, false), 7).0
      == TwoByTwo(r1, r2, r3, r4, true, true, false, false)
  {
    var p1, p2 := Pool("3201", r1, false), Pool("3202", r2, false);
    var g2 := Group(750, [Pool("3002", r3, false), Pool("3003", r4, false)]);
    FitPoolsFreeStep(p2, [], 2);
    assert [p2] + [] == [p2];
    assert FitPools([], 0) == ([], []);
    assert FitPools([p2], 2).0 == [p2.(full := true)];
    assert |FitPools([p2], 2).1| == 2;
    FitPoolsFreeStep(p1, [p2], 7);
    assert [p1] + [p2] == [p1, p2];
    assert FitPools([p1, p2], 7).0 == [p1.(full := true), p2.(full := true)];
    assert |FitPools([p1, p2], 7).1| == 7;
    FitGroupsStep(Group(800, [p1, p2]), [g2], 7);
    assert [Group(800, [p1, p2])] + [g2] == [Group(800, [p1, p2]), g2];
    assert FitGroups([g2], 0) == ([g2], []);
    assert FitGroups([Group(800, [p1, p2]), g2], 7).0
      == [Group(800, [p1.(full := true), p2.(full := true)]), g2];
  }

  /** With group 800 used, a fit of `k` (at most the 11 nodes of rack 3002)
      takes rack 3002 only. */
  lemma TwoByTwoFitInRack3002(r1: seq<string>, r2: seq<string>, r3: seq<string>, r4: seq<string>, k: nat)
    requires |r1| > 0 && |r2| > 0 && 0 < k <= |r3|
    ensures FitPoint(TwoByTwo(r1, r2, r3, r4, true, true, false, false), k).0
      == TwoByTwo(r1, r2, r3, r4, true, true, true, false)
  {
    var q1, q2 := Pool("3201", r1, true), Pool("3202", r2, true);
    var p3, p4 := Pool("3002", r3, false), Pool("3003", r4, false);
    FitPoolsFreeStep(p3, [p4], k);
    assert [p3] + [p4] == [p3, p4];
    assert FitPools([p4], 0) == ([p4], []);
    assert FitPools([p3, p4], k).0 == [p3.(full := true), p4];
    assert |FitPools([p3, p4], k).1| == k;
    FitGroupsStep(Group(750, [p3, p4]), [], k);
    assert [Group(750, [p3, p4])] + [] == [Group(750, [p3, p4])];
    assert FitGroups([], 0) == ([], []);
    assert FitGroups([Group(750, [p3, p4])], k).0 == [Group(750, [p3.(full := true), p4])];
    assert GroupIsFull(Group(800, [q1, q2]));
    FitGroupsUsedStep(Group(800, [q1, q2]), [Group(750, [p3, p4])], k);
    assert [Group(800, [q1, q2])] + [Group(750, [p3, p4])] == [Group(800, [q1, q2]), Group(750, [p3, p4])];
    assert FitGroups([Group(800, [q1, q2]), Group(750, [p3, p4])], k).0
      == [Group(800, [q1, q2]), Group(750, [p3.(full := true), p4])];
  }

  /** ... and a fit of 2 then takes rack 3003. */
  lemma TwoByTwoFitInRack3003(r1: seq<string>, r2: seq<string>, r3: seq<string>, r4: seq<string>)
    requires |r1| > 0 && |r2| > 0 && |r3| > 0 && |r4| >= 2
    ensures FitPoint(TwoByTwo(r1, r2, r3, r4, true, true, true, false), 2).0
      == TwoByTwo(r1, r2, r3, r4, true, true, true, true)
  {
    var q1, q2 := Pool("3201", r1, true), Pool("3202", r2, true);
    var q3, p4 := Pool("3002", r3, true), Pool("3003", r4, false);
    FitPoolsFreeStep(p4, [], 2);
    assert [p4] + [] == [p4];
    assert FitPools([], 0) == ([], []);
    assert FitPools([p4], 2).0 == [p4.(full := true)];
    assert |FitPools([p4], 2).1| == 2;
    FitPoolsUsedStep(q3, [p4], 2);
    assert [q3] + [p4] == [q3, p4];
    assert FitPools([q3, p4], 2).0 == [q3, p4.(full := true)];
    assert |FitPools([q3, p4], 2).1| == 2;
    FitGroupsStep(Group(750, [q3, p4]), [], 2);
    assert [Group(750, [q3, p4])] + [] == [Group(750, [q3, p4])];
    assert FitGroups([], 0) == ([], []);
    assert FitGroups([Group(750, [q3, p4])], 2).0 == [Group(750, [q3, p4.(full := true)])];
    assert GroupIsFull(Group(800, [q1, q2]));
    FitGroupsUsedStep(Group(800, [q1, q2]), [Group(750, [q3, p4])], 2);
    assert [Group(800, [q1, q2])] + [Group(750, [q3, p4])] == [Group(800, [q1, q2]), Group(750, [q3, p4])];
  }

  /** A one-node fit on a fresh topology uses rack 3201 only. */
  lemma TwoByTwoFitFirstOne(r1: seq<string>, r2: seq<string>, r3: seq<string>, r4: seq<string>)
    requires |r1| > 0
    ensures FitPoint(TwoByTwo(r1, r2, r3, r4, false, false, false, false), 1).0
      == TwoByTwo(r1, r2, r3, r4, true, false, false, false)
  {
    var p1, p2 := Pool("3201", r1, false), Pool("3202", r2, false);
    var g2 := Group(750, [Pool("3002", r3, false), Pool("3003", r4, false)]);
    FitPoolsFreeStep(p1, [p2], 1);
    assert [p1] + [p2] == [p1, p2];
    assert FitPools([p2], 0) == ([p2], []);
    assert FitPools([p1, p2], 1).0 == [p1.(full := true), p2];
    assert |FitPools([p1, p2], 1).1| == 1;
    FitGroupsStep(Group(800, [p1, p2]), [g2], 1);
    assert [Group(800, [p1, p2])] + [g2] == [Group(800, [p1, p2]), g2];
    assert FitGroups([g2], 0) == ([g2], []);
    assert FitGroups([Group(800, [p1, p2]), g2], 1).0 == [Group(800, [p1.(full := true), p2]), g2];
  }

  /** ... and the next one-node fit uses rack 3202. */
  lemma TwoByTwoFitSecondOne(r1: seq<string>, r2: seq<string>, r3: seq<string>, r4: seq<string>)
    requires |r1| > 0 && |r2| > 0
    ensures FitPoint(TwoByTwo(r1, r2, r3, r4, true, false, false, false), 1).0
      == TwoByTwo(r1, r2, r3, r4, true, true, false, false)
  {
    var q1, p2 := Pool("3201", r1, true), Pool("3202", r2, false);
    var g2 := Group(750, [Pool("3002", r3, false), Pool("3003", r4, false)]);
    FitPoolsFreeStep(p2, [], 1);
    assert [p2] + [] == [p2];
    assert FitPools([], 0) == ([], []);
    assert FitPools([p2], 1).0 == [p2.(full := true)];
    assert |FitPools([p2], 1).1| == 1;
    FitPoolsUsedStep(q1, [p2], 1);
    assert [q1] + [p2] == [q1, p2];
    assert FitPools([q1, p2], 1).0 == [q1, p2.(full := true)];
    assert |FitPools([q1, p2], 1).1| == 1;
    FitGroupsStep(Group(800, [q1, p2]), [g2], 1);
    assert [Group(800, [q1, p2])] + [g2] == [Group(800, [q1, p2]), g2];
    assert FitGroups([g2], 0) == ([g2], []);
    assert FitGroups([Group(800, [q1, p2]), g2], 1).0 == [Group(800, [q1, p2.(full := true)]), g2];
  }

  /** With group 800 used, a fit of 12 takes all of rack 3002 and one node
      of rack 3003. */
  lemma TwoByTwoFitTwelve(r1: seq<string>, r2: seq<string>, r3: seq<string>, r4: seq<string>)
    requires |r1| > 0 && |r2| > 0 && |r3| == 11 && |r4| > 0
    ensures FitPoint(TwoByTwo(r1, r2, r3, r4, true, true, false, false), 12).0
      == TwoByTwo(r1, r2, r3, r4, true, true, true, true)
  {
    var q1, q2 := Pool("3201", r1, true), Pool("3202", r2, true);
    var p3, p4 := Pool("3002", r3, false), Pool("3003", r4, false);
    FitPoolsFreeStep(p4, [], 1);
    assert [p4] + [] == [p4];
    assert FitPools([], 0) == ([], []);
    assert FitPools([p4], 1).0 == [p4.(full := true)];
    assert |FitPools([p4], 1).1| == 1;
    FitPoolsFreeStep(p3, [p4], 12);
    assert [p3] + [p4] == [p3, p4];
    assert FitPools([p3, p4], 12).0 == [p3.(full := true), p4.(full := true)];
    assert |FitPools([p3, p4], 12).1| == 12;
    FitGroupsStep(Group(750, [p3, p4]), [], 12);
    assert [Group(750, [p3, p4])] + [] == [Group(750, [p3, p4])];
    assert FitGroups([], 0) == ([], []);
    assert FitGroups([Group(750, [p3, p4])], 12).0 == [Group(750, [p3.(full := true), p4.(full := true)])];
    assert GroupIsFull(Group(800, [q1, q2]));
    FitGroupsUsedStep(Group(800, [q1, q2]), [Group(750, [p3, p4])], 12);
    assert [Group(800, [q1, q2])] + [Group(750, [p3, p4])] == [Group(800, [q1, q2]), Group(750, [p3, p4])];
  }

  /** The 24-node Polaris hostfile of the unit tests: group 800 holds racks of
      5 and 3 nodes, group 750 racks of 11 and 5. Only the shape matters, so
      the node names are left open. First epoch: 7, 3, 2, then 1 fails. */
  lemma PolarisComplexFirstEpoch(r1: seq<string>, r2: seq<string>, r3: seq<string>, r4: seq<string>)
    requires |r1| == 5 && |r2| == 3 && |r3| == 11 && |r4| == 5
    ensures var t := TwoByTwo(r1, r2, r3, r4, false, false, false, false);
      && var f1 := FitPoint(t, 7);
      && f1.1 == Some(r1 + r2[..2])
      && var f2 := FitPoint(f1.0, 3);
      && f2.1 == Some(r3[..3])
      && var f3 := FitPoint(f2.0, 2);
      && f3.1 == Some(r4[..2])
      && FitPoint(f3.0, 1).1.None?
  {
    var t := TwoByTwo(r1, r2, r3, r4, false, false, false, false);
    var t1 := TwoByTwo(r1, r2, r3, r4, true, true, false, false);
    var t2 := TwoByTwo(r1, r2, r3, r4, true, true, true, false);
    var t3 := TwoByTwo(r1, r2, r3, r4, true, true, true, true);
    TwoByTwoFree(r1, r2, r3, r4, false, false, false, false);
    TwoByTwoFree(r1, r2, r3, r4, true, true, false, false);
    TwoByTwoFree(r1, r2, r3, r4, true, true, true, false);
    TwoByTwoFree(r1, r2, r3, r4, true, true, true, true);
    TwoByTwoFitSeven(r1, r2, r3, r4);
    TwoByTwoFitInRack3002(r1, r2, r3, r4, 3);
    TwoByTwoFitInRack3003(r1, r2, r3, r4);
    assert (r1 + r2 + r3 + r4)[..7] == r1 + r2[..2];
    assert FreeNodes(t1) == r3 + r4 by {
      assert [] + [] + r3 + r4 == r3 + r4;
    }
    assert (r3 + r4)[..3] == r3[..3];
    assert FreeNodes(t2) == r4 by {
      assert [] + [] + [] + r4 == r4;
    }
    assert FreeNodes(t3) == [];
    assert FitPoint(t, 7).0 == t1;
    assert FitPoint(t1, 3).0 == t2;
    assert FitPoint(t2, 2).0 == t3;
  }

  /** Second epoch: 1, 1, 12, then 1 fails. */
  lemma PolarisComplexSecondEpoch(r1: seq<string>, r2: seq<string>, r3: seq<string>, r4: seq<string>)
    requires |r1| == 5 && |r2| == 3 && |r3| == 11 && |r4| == 5
    ensures var t := TwoByTwo(r1, r2, r3, r4, false, false, false, false);
      && var g1 := FitPoint(t, 1);
      && g1.1 == Some(r1[..1])
      && var g2 := FitPoint(g1.0, 1);
      && g2.1 == Some(r2[..1])
      && var g3 := FitPoint(g2.0, 12);
      && g3.1 == Some(r3 + r4[..1])
      && FitPoint(g3.0, 1).1.None?
  {
    var t := TwoByTwo(r1, r2, r3, r4, false, false, false, false);
    var t1 := TwoByTwo(r1, r2, r3, r4, true, false, false, false);
    var t2 := TwoByTwo(r1, r2, r3, r4, true, true, false, false);
    var t3 := TwoByTwo(r1, r2, r3, r4, true, true, true, true);
    TwoByTwoFree(r1, r2, r3, r4, false, false, false, false);
    TwoByTwoFree(r1, r2, r3, r4, true, false, false, false);
    TwoByTwoFree(r1, r2, r3, r4, true, true, false, false);
    TwoByTwoFree(r1, r2, r3, r4, true, true, true, true);
    TwoByTwoFitFirstOne(r1, r2, r3, r4);
    TwoByTwoFitSecondOne(r1, r2, r3, r4);
    TwoByTwoFitTwelve(r1, r2, r3, r4);
    assert (r1 + r2 + r3 + r4)[..1] == r1[..1];
    assert FreeNodes(t1) == r2 + r3 + r4 by {
      assert [] + r2 + r3 + r4 == r2 + r3 + r4;
    }
    assert (r2 + r3 + r4)[..1] == r2[..1];
    assert FreeNodes(t2) == r3 + r4 by {
      assert [] + [] + r3 + r4 == r3 + r4;
    }
    assert (r3 + r4)[..12] == r3 + r4[..1];
    assert FreeNodes(t3) == [];
    assert FitPoint(t, 1).0 == t1;
    assert FitPoint(t1, 1).0 == t2;
    assert FitPoint(t2, 12).0 == t3;
  }

  /** Later epochs: 1000 fails and uses everything, so 1 fails too; after a
      reset all 24 nodes fit at once, and 25 never do. */
  lemma PolarisComplexLaterEpochs(r1: seq<string>, r2: seq<string>, r3: seq<string>, r4: seq<string>)
    requires |r1| == 5 && |r2| == 3 && |r3| == 11 && |r4| == 5
    ensures var t := TwoByTwo(r1, r2, r3, r4, false, false, false, false);
      && var h := FitPoint(t, 1000);
      && h.1.None? && FitPoint(h.0, 1).1.None?
      && FitPoint(t, 24).1 == Some(r1 + r2 + r3 + r4)
      && FitPoint(t, 25).1.None?
  {
    TwoByTwoFree(r1, r2, r3, r4, false, false, false, false);
    assert (r1 + r2 + r3 + r4)[..24] == r1 + r2 + r3 + r4;
  }

  /** The epochs of the complex test start from a reset topology, which is
      the built one. */
  lemma TwoByTwoFreshIsReset(r1: seq<string>, r2: seq<string>, r3: seq<string>, r4: seq<string>)
    ensures Reset(TwoByTwo(r1, r2, r3, r4, true, true, true, true))
      == TwoByTwo(r1, r2, r3, r4, false, false, false, false)
  {
    assert ResetPools([Pool("3201", r1, true), Pool("3202", r2, true)])
      == [Pool("3201", r1, false), Pool("3202", r2, false)];
    assert ResetPools([Pool("3002", r3, true), Pool("3003", r4, true)])
      == [Pool("3002", r3, false), Pool("3003", r4, false)];
  }
}

=== FILE: encoding.dfy ===
/** The log2-plus-one feature encoding (`preprocess_features` and
    `unprocess_features`): a raw size `x = 2^a` is stored as `a + 1`. */
module Encoding {

  function Pow2(e: nat): (r: nat)
    ensures r >= 1
  {
    if e == 0 then 1 else 2 * Pow2(e - 1)
  }

  /** `2 ** e` for any integer exponent; negative exponents give fractions,
      as Python's `int ** negative int` does. */
  function Pow2Real(e: int): (r: real)
    ensures r > 0.0
    ensures e >= 0 ==> r == Pow2(e) as real
  {
    if e >= 0 then Pow2(e) as real else 1.0 / Pow2(-e) as real
  }

  /** `int(np.log2(x))` for `x >= 1`: the position of the highest set bit. */
  function Log2Floor(x: nat): (r: nat)
    requires x >= 1
    ensures Pow2(r) <= x < Pow2(r + 1)
  {
    if x == 1 then 0 else 1 + Log2Floor(x / 2)
  }

  /** One coordinate of `preprocess_features` in "log" mode. */
  function Encode(x: nat): int
    requires x >= 1
  {
    Log2Floor(x) + 1
  }

  /** One coordinate of `unprocess_features` in "log" mode: `2 ** (e - 1)`. */
  function Decode(e: int): real {
    Pow2Real(e - 1)
  }

  /** `preprocess_features(n, ppn, msg_size, type)`. Only "log" transforms;
      every other type hands the inputs back. */
  function PreprocessFeatures(n: int, ppn: int, msg: int, kind: string): (r: (int, int, int))
    requires kind == "log" ==> n >= 1 && ppn >= 1 && msg >= 1
    ensures kind != "log" ==> r == (n, ppn, msg)
    ensures kind == "log" ==> r.0 >= 1 && r.1 >= 1 && r.2 >= 1
    ensures kind == "log" ==>
      Pow2(r.0 - 1) <= n < Pow2(r.0) && Pow2(r.1 - 1) <= ppn < Pow2(r.1) && Pow2(r.2 - 1) <= msg < Pow2(r.2)
  {
    if kind == "log" then (Encode(n), Encode(ppn), Encode(msg)) else (n, ppn, msg)
  }

  /** `unprocess_features(n, ppn, msg_size, type)`. */
  function UnprocessFeatures(n: int, ppn: int, msg: int, kind: string): (r: (real, real, real))
    ensures kind != "log" ==> r == (n as real, ppn as real, msg as real)
    ensures kind == "log" && n >= 1 ==> r.0 == Pow2(n - 1) as real
    ensures kind == "log" && ppn >= 1 ==> r.1 == Pow2(ppn - 1) as real
    ensures kind == "log" && msg >= 1 ==> r.2 == Pow2(msg - 1) as real
    ensures kind == "log" ==> r.0 > 0.0 && r.1 > 0.0 && r.2 > 0.0
  {
    if kind == "log" then (Decode(n), Decode(ppn), Decode(msg))
    else (n as real, ppn as real, msg as real)
  }

  lemma {:induction false} Log2OfPow2(a: nat)
    ensures Log2Floor(Pow2(a)) == a
  {
    if a > 0 {
      assert Pow2(a) / 2 == Pow2(a - 1);
      Log2OfPow2(a - 1);
    }
  }

  /** Encoding a power of two recovers its exponent plus one. */
  lemma EncodePow2(a: nat)
    ensures Encode(Pow2(a)) == a + 1
  {
    Log2OfPow2(a);
  }

  /** `unprocess(preprocess(2^a))` for one coordinate. */
  lemma DecodeEncodePow2(a: nat)
    ensures Decode(Encode(Pow2(a))) == Pow2(a) as real
  {
    EncodePow2(a);
  }

  /** `unprocess(preprocess(2^a, 2^b, 2^c)) == (2^a, 2^b, 2^c)` */
  lemma UnprocessPreprocess(a: nat, b: nat, c: nat)
    ensures var e := PreprocessFeatures(Pow2(a), Pow2(b), Pow2(c), "log");
            UnprocessFeatures(e.0, e.1, e.2, "log") == (Pow2(a) as real, Pow2(b) as real, Pow2(c) as real)
  {
    DecodeEncodePow2(a);
    DecodeEncodePow2(b);
    DecodeEncodePow2(c);
  }

  /** `preprocess(unprocess(e1, e2, e3)) == (e1, e2, e3)` for encodings >= 1. */
  lemma PreprocessUnprocess(e1: int, e2: int, e3: int)
    requires e1 >= 1 && e2 >= 1 && e3 >= 1
    ensures PreprocessFeatures(Pow2(e1 - 1), Pow2(e2 - 1), Pow2(e3 - 1), "log") == (e1, e2, e3)
  {
    EncodePow2(e1 - 1);
    EncodePow2(e2 - 1);
    EncodePow2(e3 - 1);
    assert Encode(Pow2(e1 - 1)) == e1 && Encode(Pow2(e2 - 1)) == e2 && Encode(Pow2(e3 - 1)) == e3;
  }

  lemma {:induction false} Pow2Monotone(a: nat, b: nat)
    requires a <= b
    ensures Pow2(a) <= Pow2(b)
  {
    if a < b {
      Pow2Monotone(a, b - 1);
    }
  }

  lemma Pow2Injective(a: nat, b: nat)
    requires Pow2(a) == Pow2(b)
    ensures a == b
  {
    Log2OfPow2(a);
    Log2OfPow2(b);
  }
}

=== FILE: feature_space.dfy ===
/** The candidate grid of the active learner (`create_feature_space`) and the
    evenly spaced starting points drawn from it (`get_initial_points`). */
module FeatureSpace {
  import opened Wrappers
  import opened PyStrings
  import opened Points
  import opened Arith

  /** `"reduce" in collective` */
  predicate IsReduction(collective: string) {
    Contains(collective, "reduce")
  }

  /** The first skipped-to message index: reductions skip encoded sizes 1
      and 2 (`cur_msg_size < 2`). */
  function MsgStart(reduce: bool): nat {
    if reduce then 2 else 0
  }

  /** `shape_x`: the number of rows the result is allocated with. */
  function Shape(n: int, ppn: int, m: int, reduce: bool): (s: int)
    ensures !reduce ==> s == (n * ppn - 1) * m
    ensures reduce ==> s == (n * ppn - 1) * (m - 2)
  {
    var s := n * ppn * m - m;
    if reduce then s - n * ppn * 2 + 2 else s
  }

  /** The innermost loop for fixed `cur_n == cn`, `cur_ppn == cp`. */
  function MsgRows(cn: nat, cp: nat, m: int, lo: nat): (r: seq<Triple>)
    ensures |r| == if m > lo then m - lo else 0
  {
    if m <= lo then [] else seq(m - lo, k => Triple(cn + 1, cp + 1, lo + k + 1))
  }

  /** The middle loop for `cur_n == cn`, over `cur_ppn < p`, skipping the
      `(0, 0)` combination. */
  function PpnRows(cn: nat, p: nat, m: int, lo: nat): seq<Triple> {
    if p == 0 then []
    else PpnRows(cn, p - 1, m, lo) + (if cn == 0 && p - 1 == 0 then [] else MsgRows(cn, p - 1, m, lo))
  }

  /** The outer loop over `cur_n < c`. */
  function NRows(c: nat, ppn: nat, m: int, lo: nat): seq<Triple> {
    if c == 0 then [] else NRows(c - 1, ppn, m, lo) + PpnRows(c - 1, ppn, m, lo)
  }

  /** The rows the loops of `create_feature_space` write, in order. */
  function Enumerate(n: int, ppn: int, m: int, reduce: bool): seq<Triple> {
    if n <= 0 || ppn <= 0 then [] else NRows(n, ppn, m, MsgStart(reduce))
  }

  /** Membership in the grid: every coordinate in its range, `(1, 1, *)`
      excluded, and for reductions message sizes 1 and 2 excluded. */
  predicate InSpace(t: Triple, n: int, ppn: int, m: int, reduce: bool) {
    && 1 <= t.n <= n && 1 <= t.ppn <= ppn
    && MsgStart(reduce) + 1 <= t.msg <= m
    && !(t.n == 1 && t.ppn == 1)
  }

  predicate StrictlySorted(s: seq<Triple>) {
    forall i, j :: 0 <= i < j < |s| ==> LexLess(s[i], s[j])
  }

  /** `create_feature_space(n, ppn, msg_size, collective)`. A negative
      `shape_x` is numpy's ValueError; rows the loops do not reach keep
      their zeros; a row past the allocation would be an IndexError. */
  function CreateFeatureSpace(n: int, ppn: int, m: int, collective: string): (r: Result<seq<Triple>>)
    ensures r.Success? <==> Shape(n, ppn, m, IsReduction(collective)) >= 0
    ensures r.Success? ==> |r.value| == Shape(n, ppn, m, IsReduction(collective))
    ensures r.Success? ==>
      && |Enumerate(n, ppn, m, IsReduction(collective))| <= |r.value|
      && r.value[..|Enumerate(n, ppn, m, IsReduction(collective))|] == Enumerate(n, ppn, m, IsReduction(collective))
    ensures r.Success? ==> forall i :: |Enumerate(n, ppn, m, IsReduction(collective))| <= i < |r.value| ==>
                             r.value[i] == Triple(0, 0, 0)
  {
    var reduce := IsReduction(collective);
    var shape := Shape(n, ppn, m, reduce);
    var rows := Enumerate(n, ppn, m, reduce);
    RowsFitShape(n, ppn, m, reduce);
    if shape < 0 then Failure("ValueError: negative dimensions are not allowed")
    else if |rows| > shape then Failure("IndexError: index out of bounds")
    else
      var r := rows + seq(shape - |rows|, _ => Triple(0, 0, 0));
      assert r[..|rows|] == rows;
      Success(r)
  }

  /************************** counting **************************/

  lemma {:induction false} PpnRowsCount(cn: nat, p: nat, m: int, lo: nat)
    ensures var l := if m > lo then m - lo else 0;
      |PpnRows(cn, p, m, lo)| == p * l - (if cn == 0 && p >= 1 then l else 0)
  {
    var l := if m > lo then m - lo else 0;
    if p > 0 {
      PpnRowsCount(cn, p - 1, m, lo);
      assert (p - 1) * l + l == p * l;
    }
  }

  lemma {:induction false} NRowsCount(c: nat, ppn: nat, m: int, lo: nat)
    requires c >= 1 && ppn >= 1
    ensures var l := if m > lo then m - lo else 0;
      |NRows(c, ppn, m, lo)| == c * (ppn * l) - l
  {
    var l := if m > lo then m - lo else 0;
    PpnRowsCount(c - 1, ppn, m, lo);
    assert NRows(c, ppn, m, lo) == NRows(c - 1, ppn, m, lo) + PpnRows(c - 1, ppn, m, lo);
    if c > 1 {
      NRowsCount(c - 1, ppn, m, lo);
      assert (c - 1) * (ppn * l) + ppn * l == c * (ppn * l);
    }
  }

  /** The loops write `(n·ppn − 1)·(m − s)` rows, `s` being 0, or 2 for a
      reduction, when every bound is at least one. */
  lemma EnumerateCount(n: int, ppn: int, m: int, reduce: bool)
    requires n >= 1 && ppn >= 1
    ensures var l := if m > MsgStart(reduce) then m - MsgStart(reduce) else 0;
      |Enumerate(n, ppn, m, reduce)| == (n * ppn - 1) * l
  {
    var l := if m > MsgStart(reduce) then m - MsgStart(reduce) else 0;
    NRowsCount(n, ppn, m, MsgStart(reduce));
    assert n * (ppn * l) == (n * ppn) * l;
  }

  /** Whenever the allocation succeeds the rows fit in it, so the IndexError
      branch never happens. */
  lemma RowsFitShape(n: int, ppn: int, m: int, reduce: bool)
    ensures Shape(n, ppn, m, reduce) >= 0 ==> |Enumerate(n, ppn, m, reduce)| <= Shape(n, ppn, m, reduce)
  {
    if n >= 1 && ppn >= 1 {
      EnumerateCount(n, ppn, m, reduce);
      var np := n * ppn;
      assert np >= 1 by { assert n * ppn >= 1 * ppn; }
      var lo := MsgStart(reduce);
      if m < lo && np > 1 {
        assert (np - 1) * (m - lo) < 0 by { assert (np - 1) * (lo - m) > 0; }
      }
    }
  }

  /** With every bound at least one (and at least two message sizes for a
      reduction) the size computed up front is exact: no zero padding. */
  lemma ShapeIsExact(n: int, ppn: int, m: int, collective: string)
    requires n >= 1 && ppn >= 1 && m >= 1
    requires IsReduction(collective) ==> m >= 2
    ensures CreateFeatureSpace(n, ppn, m, collective) == Success(Enumerate(n, ppn, m, IsReduction(collective)))
  {
    var reduce := IsReduction(collective);
    EnumerateCount(n, ppn, m, reduce);
    var r := CreateFeatureSpace(n, ppn, m, collective);
    assert r.Success? by { assert n * ppn >= 1 by { assert n * ppn >= 1 * ppn; } }
    assert |r.value| == |Enumerate(n, ppn, m, reduce)|;
    assert r.value == r.value[..|Enumerate(n, ppn, m, reduce)|];
  }

  /************************** membership **************************/

  lemma MsgRowsMembers(cn: nat, cp: nat, m: int, lo: nat, t: Triple)
    ensures t in MsgRows(cn, cp, m, lo) <==> t.n == cn + 1 && t.ppn == cp + 1 && lo + 1 <= t.msg <= m
  {
    if t.n == cn + 1 && t.ppn == cp + 1 && lo + 1 <= t.msg <= m {
      assert MsgRows(cn, cp, m, lo)[t.msg - lo - 1] == t;
    }
  }

  /** The rows the middle loop writes for `n = cn + 1`. */
  predicate InColumn(t: Triple, cn: nat, ppn: nat, m: int, lo: nat) {
    t.n == cn + 1 && 1 <= t.ppn <= ppn && lo + 1 <= t.msg <= m && !(cn == 0 && t.ppn == 1)
  }

  /** The rows the outer loop writes up to `n = c`. */
  predicate InGrid(t: Triple, c: nat, ppn: nat, m: int, lo: nat) {
    1 <= t.n <= c && 1 <= t.ppn <= ppn && lo + 1 <= t.msg <= m && !(t.n == 1 && t.ppn == 1)
  }

  lemma {:induction false} PpnRowsMembers(cn: nat, p: nat, m: int, lo: nat, t: Triple)
    ensures t in PpnRows(cn, p, m, lo) <==> InColumn(t, cn, p, m, lo)
  {
    if p > 0 {
      var a := PpnRows(cn, p - 1, m, lo);
      var b := if cn == 0 && p - 1 == 0 then [] else MsgRows(cn, p - 1, m, lo);
      assert PpnRows(cn, p, m, lo) == a + b;
      PpnRowsMembers(cn, p - 1, m, lo, t);
      MsgRowsMembers(cn, p - 1, m, lo, t);
      assert t in a + b <==> t in a || t in b;
    }
  }

  lemma {:induction false} NRowsMembers(c: nat, ppn: nat, m: int, lo: nat, t: Triple)
    ensures t in NRows(c, ppn, m, lo) <==> InGrid(t, c, ppn, m, lo)
  {
    if c > 0 {
      var a, b := NRows(c - 1, ppn, m, lo), PpnRows(c - 1, ppn, m, lo);
      NRowsMembers(c - 1, ppn, m, lo, t);
      PpnRowsMembers(c - 1, ppn, m, lo, t);
      NextColumnMembers(c - 1, ppn, m, lo, t, a, b);
    } else {
      assert NRows(c, ppn, m, lo) == [];
    }
  }

  /** Rows up to `n = cn` followed by the rows of `n = cn + 1` hold the
      rows up to `n = cn + 1`. */
  lemma NextColumnMembers(cn: nat, ppn: nat, m: int, lo: nat, t: Triple, a: seq<Triple>, b: seq<Triple>)
    requires t in a <==> InGrid(t, cn, ppn, m, lo)
    requires t in b <==> InColumn(t, cn, ppn, m, lo)
    ensures t in a + b <==> InGrid(t, cn + 1, ppn, m, lo)
  {
    assert t in a + b <==> t in a || t in b;
  }

  /** A triple is written by the loops exactly when it lies in the grid. */
  lemma EnumerateMembers(n: int, ppn: int, m: int, reduce: bool, t: Triple)
    ensures t in Enumerate(n, ppn, m, reduce) <==> InSpace(t, n, ppn, m, reduce)
  {
    if n > 0 && ppn > 0 {
      NRowsMembers(n, ppn, m, MsgStart(reduce), t);
    }
  }

  /************************** order **************************/

  lemma SortedConcat(a: seq<Triple>, b: seq<Triple>)
    requires StrictlySorted(a) && StrictlySorted(b)
    requires forall i, j :: 0 <= i < |a| && 0 <= j < |b| ==> LexLess(a[i], b[j])
    ensures StrictlySorted(a + b)
  {
    var s := a + b;
    forall i, j | 0 <= i < j < |s| ensures LexLess(s[i], s[j]) {
      if j < |a| {
        assert s[i] == a[i] && s[j] == a[j];
      } else if i >= |a| {
        assert s[i] == b[i - |a|] && s[j] == b[j - |a|];
      } else {
        assert s[i] == a[i] && s[j] == b[j - |a|];
      }
    }
  }

  lemma {:induction false} PpnRowsSorted(cn: nat, p: nat, m: int, lo: nat)
    ensures StrictlySorted(PpnRows(cn, p, m, lo))
  {
    if p > 0 {
      PpnRowsSorted(cn, p - 1, m, lo);
      var a := PpnRows(cn, p - 1, m, lo);
      var b := if cn == 0 && p - 1 == 0 then [] else MsgRows(cn, p - 1, m, lo);
      forall i, j | 0 <= i < |a| && 0 <= j < |b| ensures LexLess(a[i], b[j]) {
        PpnRowsMembers(cn, p - 1, m, lo, a[i]);
        MsgRowsMembers(cn, p - 1, m, lo, b[j]);
      }
      SortedConcat(a, b);
    }
  }

  lemma {:induction false} NRowsSorted(c: nat, ppn: nat, m: int, lo: nat)
    ensures StrictlySorted(NRows(c, ppn, m, lo))
  {
    if c > 0 {
      NRowsSorted(c - 1, ppn, m, lo);
      PpnRowsSorted(c - 1, ppn, m, lo);
      var a := NRows(c - 1, ppn, m, lo);
      var b := PpnRows(c - 1, ppn, m, lo);
      NRowsBelow(c - 1, ppn, m, lo);
      PpnRowsColumn(c - 1, ppn, m, lo);
      ApartByN(a, b, c - 1);
      SortedConcat(a, b);
    }
  }

  /** The outer loop up to `c` writes no `n` beyond `c`. */
  lemma NRowsBelow(c: nat, ppn: nat, m: int, lo: nat)
    ensures forall i :: 0 <= i < |NRows(c, ppn, m, lo)| ==> NRows(c, ppn, m, lo)[i].n <= c
  {
    var a := NRows(c, ppn, m, lo);
    forall i | 0 <= i < |a| ensures a[i].n <= c {
      assert a[i] in a;
      NRowsMembers(c, ppn, m, lo, a[i]);
    }
  }

  /** The middle loop for `cn` writes only rows with `n = cn + 1`. */
  lemma PpnRowsColumn(cn: nat, ppn: nat, m: int, lo: nat)
    ensures forall j :: 0 <= j < |PpnRows(cn, ppn, m, lo)| ==> PpnRows(cn, ppn, m, lo)[j].n == cn + 1
  {
    var b := PpnRows(cn, ppn, m, lo);
    forall j | 0 <= j < |b| ensures b[j].n == cn + 1 {
      assert b[j] in b;
      PpnRowsMembers(cn, ppn, m, lo, b[j]);
    }
  }

  /** Rows with `n` at most `k` come before rows with `n` beyond it. */
  lemma ApartByN(a: seq<Triple>, b: seq<Triple>, k: int)
    requires forall i :: 0 <= i < |a| ==> a[i].n <= k
    requires forall j :: 0 <= j < |b| ==> b[j].n == k + 1
    ensures forall i, j :: 0 <= i < |a| && 0 <= j < |b| ==> LexLess(a[i], b[j])
  {
  }

  /** The rows come out in strictly increasing (n, ppn, msg) order, so no
      row repeats. */
  lemma EnumerateSorted(n: int, ppn: int, m: int, reduce: bool)
    ensures StrictlySorted(Enumerate(n, ppn, m, reduce))
  {
    if n > 0 && ppn > 0 {
      NRowsSorted(n, ppn, m, MsgStart(reduce));
    }
  }

  /************************** initial points **************************/

  /** `floor(a / d)` for non-negative operands, by repeated subtraction. */
  function FloorDiv(a: nat, d: nat): (q: nat)
    requires d > 0
    decreases a
  {
    if a < d then 0 else 1 + FloorDiv(a - d, d)
  }

  lemma {:induction false} FloorDivMonotone(a: nat, b: nat, d: nat)
    requires d > 0 && a <= b
    ensures FloorDiv(a, d) <= FloorDiv(b, d)
    decreases a
  {
    if a >= d {
      FloorDivMonotone(a - d, b - d, d);
    }
  }

  lemma {:induction false} FloorDivBelow(a: nat, d: nat, q: nat)
    requires d > 0 && a < d * q
    ensures FloorDiv(a, d) < q
    decreases a
  {
    if a >= d {
      assert d * q - d == d * (q - 1);
      FloorDivBelow(a - d, d, q - 1);
    }
  }

  /** FloorDiv is the quotient: the `q` with `d·q <= a < d·(q + 1)`. */
  lemma {:induction false} FloorDivIsQuotient(a: nat, d: nat, q: nat)
    requires d > 0 && d * q <= a < d * q + d
    ensures FloorDiv(a, d) == q
    decreases a
  {
    if a >= d {
      assert q >= 1;
      assert d * (q - 1) == d * q - d;
      FloorDivIsQuotient(a - d, d, q - 1);
    }
  }

  /** `floor(linspace(0, N - 1, k + 2))[i]` in exact arithmetic: the sample
      `i·(N − 1)/(k + 1)` rounded down. numpy forms the sample as `i` times
      the rounded float step, which can fall just short of an integer and
      then floors one lower. */
  function InitialIndex(count: nat, k: nat, i: nat): (r: nat)
    requires 1 <= k <= count && i < k
    ensures r < count
    ensures count >= 2 ==> r < count - 1
  {
    var c := count - 1;
    if c == 0 then FloorDiv(0, k + 1)
    else
      assert i * c < (k + 1) * c by { assert (k + 1) * c - i * c == (k + 1 - i) * c; }
      FloorDivBelow(i * c, k + 1, c);
      FloorDiv(i * c, k + 1)
  }

  /** `get_initial_points(X)` with `num_initial_points == k`. A `k` below
      -2 makes `linspace` reject its sample count; a `k` of at most zero
      leaves no index once the last two are dropped. */
  function GetInitialPoints<T>(x: seq<T>, k: int): (r: Result<seq<T>>)
    ensures |x| < k ==> r == Success(x)
    ensures r.Failure? <==> k < -2
    ensures 0 <= k <= |x| ==> r.Success? && |r.value| == k
    ensures 0 < k <= |x| ==> forall i :: 0 <= i < k ==> r.value[i] == x[InitialIndex(|x|, k, i)]
  {
    if |x| < k then Success(x)
    else if k + 2 < 0 then Failure("ValueError: number of samples must be non-negative")
    else if k <= 0 then Success([])
    else Success(seq(k, i requires 0 <= i < k => x[InitialIndex(|x|, k, i)]))
  }

  /** 123 rows and 13 initial points: position 7 is the exact
      `floor(7·122/14) = floor(61) = 61`. numpy's float `7·fl(122/14)` is
      60.99999999999999, so the source picks row 60 here. */
  lemma ExactIndexExample()
    ensures InitialIndex(123, 13, 7) == 61
  {
    FloorDivIsQuotient(7 * 122, 14, 61);
  }

  /** The first initial point is row 0. */
  lemma FirstIndexIsZero(count: nat, k: nat)
    requires 1 <= k <= count
    ensures InitialIndex(count, k, 0) == 0
  {
  }

  /** Later points never come before earlier ones. */
  lemma IndicesNonDecreasing(count: nat, k: nat, i: nat, j: nat)
    requires 1 <= k <= count && i <= j < k
    ensures InitialIndex(count, k, i) <= InitialIndex(count, k, j)
  {
    var c := count - 1;
    MulMonotone(i, j, c);
    FloorDivMonotone(i * c, j * c, k + 1);
  }

  /** When the grid has at least `k + 2` rows the points are distinct. */
  lemma IndicesIncreasing(count: nat, k: nat, i: nat, j: nat)
    requires 1 <= k && k + 2 <= count && i < j < k
    ensures InitialIndex(count, k, i) < InitialIndex(count, k, j)
  {
    var c, d := count - 1, k + 1;
    var a, b := i * c, j * c;
    assert b - a == (j - i) * c;
    MulMonotone(1, j - i, c);
    assert a + d <= b;
    FloorDivMonotone(a + d, b, d);
    assert FloorDiv(a + d, d) == 1 + FloorDiv(a, d);
  }

  /** The points of the ten- and twenty-four-row examples with three initial
      points: rows 0, 2, 4 and rows 0, 5, 11. */
  lemma InitialIndexExamples()
    ensures InitialIndex(10, 3, 0) == 0 && InitialIndex(10, 3, 1) == 2 && InitialIndex(10, 3, 2) == 4
    ensures InitialIndex(24, 3, 0) == 0 && InitialIndex(24, 3, 1) == 5 && InitialIndex(24, 3, 2) == 11
  {
  }

  /************************** examples **************************/

  lemma ReductionNames()
    ensures IsReduction("reduce_scatter") && !IsReduction("bcast")
  {
    assert OccursAt("reduce_scatter", "reduce", 0) by {
      assert "reduce_scatter"[0..6] == "reduce";
    }
  }

  /** `create_feature_space(2, 2, 2, "bcast")` */
  lemma SmallSpace()
    ensures CreateFeatureSpace(2, 2, 2, "bcast") == Success([
      Triple(1, 2, 1), Triple(1, 2, 2), Triple(2, 1, 1), Triple(2, 1, 2), Triple(2, 2, 1), Triple(2, 2, 2)])
  {
    ReductionNames();
    ShapeIsExact(2, 2, 2, "bcast");
    assert MsgRows(0, 1, 2, 0) == [Triple(1, 2, 1), Triple(1, 2, 2)];
    assert MsgRows(1, 0, 2, 0) == [Triple(2, 1, 1), Triple(2, 1, 2)];
    assert MsgRows(1, 1, 2, 0) == [Triple(2, 2, 1), Triple(2, 2, 2)];
    assert PpnRows(0, 1, 2, 0) == [];
    assert PpnRows(0, 2, 2, 0) == MsgRows(0, 1, 2, 0);
    assert PpnRows(1, 1, 2, 0) == MsgRows(1, 0, 2, 0);
    assert PpnRows(1, 2, 2, 0) == MsgRows(1, 0, 2, 0) + MsgRows(1, 1, 2, 0);
    assert NRows(1, 2, 2, 0) == PpnRows(0, 2, 2, 0);
    assert NRows(2, 2, 2, 0) == NRows(1, 2, 2, 0) + PpnRows(1, 2, 2, 0);
    assert Enumerate(2, 2, 2, false) == [
      Triple(1, 2, 1), Triple(1, 2, 2), Triple(2, 1, 1), Triple(2, 1, 2), Triple(2, 2, 1), Triple(2, 2, 2)];
  }

  /** `create_feature_space(2, 2, 3, "reduce_scatter")` */
  lemma SmallReductionSpace()
    ensures CreateFeatureSpace(2, 2, 3, "reduce_scatter") == Success([
      Triple(1, 2, 3), Triple(2, 1, 3), Triple(2, 2, 3)])
  {
    ReductionNames();
    ShapeIsExact(2, 2, 3, "reduce_scatter");
    assert MsgRows(0, 1, 3, 2) == [Triple(1, 2, 3)];
    assert MsgRows(1, 0, 3, 2) == [Triple(2, 1, 3)];
    assert MsgRows(1, 1, 3, 2) == [Triple(2, 2, 3)];
    assert PpnRows(0, 1, 3, 2) == [];
    assert PpnRows(0, 2, 3, 2) == MsgRows(0, 1, 3, 2);
    assert PpnRows(1, 1, 3, 2) == MsgRows(1, 0, 3, 2);
    assert PpnRows(1, 2, 3, 2) == MsgRows(1, 0, 3, 2) + MsgRows(1, 1, 3, 2);
    assert NRows(1, 2, 3, 2) == PpnRows(0, 2, 3, 2);
    assert NRows(2, 2, 3, 2) == NRows(1, 2, 3, 2) + PpnRows(1, 2, 3, 2);
    assert Enumerate(2, 2, 3, true) == [Triple(1, 2, 3), Triple(2, 1, 3), Triple(2, 2, 3)];
  }
}

=== FILE: generic_reader.dfy ===
/** The algorithm-name collector of `genericReader.py`: every key of the
    selection file that starts with `algorithm=` and is not an
    inter-communicator algorithm names an algorithm; any other key's
    object is searched in turn. */
module GenericReader {
  import opened PyStrings
  import JsonTree

  type Tree = JsonTree.Tree

  /** `sub_obj[:10] == "algorithm="` */
  predicate IsAlgorithmEntry(k: string) {
    Slice(k, 0, 10) == "algorithm="
  }

  /** What the algorithm key `k` contributes: its name after the prefix,
      unless it mentions `inter`. */
  function Named(k: string): set<string> {
    if Contains(k, "inter") then {} else {SliceFrom(k, 10)}
  }

  /** `gatherAlgorithmsHelper(obj)` over the keys from position `i` on. */
  function GatherFrom(t: Tree, i: nat): set<string>
    requires i <= |t.entries|
    decreases t, |t.entries| - i
  {
    if i == |t.entries| then {}
    else
      var k := t.entries[i].0;
      (if IsAlgorithmEntry(k) then Named(k) else GatherFrom(t.entries[i].1, 0)) + GatherFrom(t, i + 1)
  }

  /** `gatherAlgorithmsHelper(obj)` */
  function Gather(t: Tree): set<string> {
    GatherFrom(t, 0)
  }

  /** The reference reading: `a` is collected when some key of the object
      names it directly, or some non-algorithm key leads to an object
      that yields it. */
  predicate Yields(t: Tree, a: string)
    decreases t
  {
    exists j :: 0 <= j < |t.entries| &&
      if IsAlgorithmEntry(t.entries[j].0) then !Contains(t.entries[j].0, "inter") && SliceFrom(t.entries[j].0, 10) == a
      else Yields(t.entries[j].1, a)
  }

  /** What entry `j` of the object yields by itself. */
  predicate EntryYields(t: Tree, j: nat, a: string)
    requires j < |t.entries|
  {
    var k := t.entries[j].0;
    if IsAlgorithmEntry(k) then !Contains(k, "inter") && SliceFrom(k, 10) == a
    else Yields(t.entries[j].1, a)
  }

  /** `Yields` entry by entry. */
  lemma YieldsByEntry(t: Tree, a: string)
    ensures Yields(t, a) <==> exists j :: 0 <= j < |t.entries| && EntryYields(t, j, a)
  {
    if exists j :: 0 <= j < |t.entries| && EntryYields(t, j, a) {
      var j :| 0 <= j < |t.entries| && EntryYields(t, j, a);
      var k := t.entries[j].0;
      assert if IsAlgorithmEntry(k) then !Contains(k, "inter") && SliceFrom(k, 10) == a
        else Yields(t.entries[j].1, a);
      assert Yields(t, a);
    }
    if Yields(t, a) {
      var j :| 0 <= j < |t.entries| &&
        if IsAlgorithmEntry(t.entries[j].0) then !Contains(t.entries[j].0, "inter") && SliceFrom(t.entries[j].0, 10) == a
        else Yields(t.entries[j].1, a);
      assert EntryYields(t, j, a);
    }
  }

  lemma {:induction false} GatherFromYields(t: Tree, i: nat, a: string)
    requires i <= |t.entries|
    ensures a in GatherFrom(t, i) <==> exists j :: i <= j < |t.entries| && EntryYields(t, j, a)
    decreases t, |t.entries| - i
  {
    if i < |t.entries| {
      GatherFromYields(t, i + 1, a);
      var k := t.entries[i].0;
      var here := if IsAlgorithmEntry(k) then Named(k) else GatherFrom(t.entries[i].1, 0);
      assert GatherFrom(t, i) == here + GatherFrom(t, i + 1);
      if !IsAlgorithmEntry(k) {
        GatherYields(t.entries[i].1, a);
      }
      assert a in here <==> EntryYields(t, i, a);
      if exists j :: i <= j < |t.entries| && EntryYields(t, j, a) {
        var j :| i <= j < |t.entries| && EntryYields(t, j, a);
        assert j == i || i + 1 <= j;
      }
    }
  }

  /** The collector finds exactly the names the reference reading yields. */
  lemma {:induction false} GatherYields(t: Tree, a: string)
    ensures a in Gather(t) <==> Yields(t, a)
    decreases t, |t.entries| + 1
  {
    GatherFromYields(t, 0, a);
    YieldsByEntry(t, a);
  }

  /** The result is a set: the collected names depend only on which
      entries an object holds, not on their order or repetition. */
  lemma GatherIgnoresOrder(t: Tree, u: Tree)
    requires forall e :: e in t.entries <==> e in u.entries
    ensures Gather(t) == Gather(u)
  {
    forall a
      ensures a in Gather(t) <==> a in Gather(u)
    {
      GatherYields(t, a);
      GatherYields(u, a);
      YieldsByEntry(t, a);
      YieldsByEntry(u, a);
      if Yields(t, a) {
        var j :| 0 <= j < |t.entries| && EntryYields(t, j, a);
        assert t.entries[j] in u.entries;
        var j' :| 0 <= j' < |u.entries| && u.entries[j'] == t.entries[j];
        assert EntryYields(u, j', a);
      }
      if Yields(u, a) {
        var j :| 0 <= j < |u.entries| && EntryYields(u, j, a);
        assert u.entries[j] in t.entries;
        var j' :| 0 <= j' < |t.entries| && t.entries[j'] == u.entries[j];
        assert EntryYields(t, j', a);
      }
    }
  }

  /** The object under an algorithm key is never searched: replacing it
      changes nothing. */
  lemma AlgorithmValueIgnored(t: Tree, j: nat, v: Tree)
    requires j < |t.entries| && IsAlgorithmEntry(t.entries[j].0)
    ensures Gather(JsonTree.Tree(t.entries[j := (t.entries[j].0, v)])) == Gather(t)
  {
    var u := JsonTree.Tree(t.entries[j := (t.entries[j].0, v)]);
    forall a
      ensures a in Gather(u) <==> a in Gather(t)
    {
      GatherYields(t, a);
      GatherYields(u, a);
      YieldsByEntry(t, a);
      YieldsByEntry(u, a);
      assert EntryYields(u, j, a) == EntryYields(t, j, a);
      forall i | 0 <= i < |t.entries| && i != j
        ensures EntryYields(u, i, a) == EntryYields(t, i, a)
      {
        assert u.entries[i] == t.entries[i];
      }
    }
  }

  /** `any_helper` never renames without collisions anywhere. */
  predicate NoClashAnywhere(t: Tree)
    decreases t
  {
    var es := t.entries;
    (|es| > 0 && !JsonTree.IsAlgorithmKey(es[|es| - 1].0) ==> JsonTree.NoClash(es))
    && forall i :: 0 <= i < |es| ==> NoClashAnywhere(es[i].1)
  }

  /** A key `any_helper` may rename is not an algorithm key for the
      collector either, before or after the rename. */
  lemma RenamedKeyNotAlgorithm(k: string)
    requires !JsonTree.IsAlgorithmKey(k)
    ensures !IsAlgorithmEntry(k) && !IsAlgorithmEntry(JsonTree.AnyKey(k))
  {
    JsonTree.AnyKeyNotAlgorithm(k);
    if |k| >= 10 {
      assert Slice(k, 0, 9) == Slice(k, 0, 10)[..9];
    }
  }

  /** One level of the widening: with every value's names kept, every
      entry yields what it did. */
  lemma WidenedEntriesYield(t: Tree, a: string)
    requires |t.entries| > 0 && !JsonTree.IsAlgorithmKey(t.entries[|t.entries| - 1].0)
    requires JsonTree.NoClash(t.entries)
    requires forall j :: 0 <= j < |t.entries| ==>
      (Yields(JsonTree.AnyHelper(t.entries[j].1), a) <==> Yields(t.entries[j].1, a))
    ensures |JsonTree.AnyHelper(t).entries| == |t.entries|
    ensures forall j :: 0 <= j < |t.entries| ==> EntryYields(JsonTree.AnyHelper(t), j, a) == EntryYields(t, j, a)
  {
    var es := t.entries;
    var r := JsonTree.AnyHelper(t);
    JsonTree.AnyHelperLevel(t);
    RenamedKeyNotAlgorithm(es[|es| - 1].0);
    forall j | 0 <= j < |es|
      ensures EntryYields(r, j, a) == EntryYields(t, j, a)
    {
      if j < |es| - 1 {
        assert r.entries[j] == (es[j].0, JsonTree.AnyHelper(es[j].1));
      } else {
        assert r.entries[j] == (JsonTree.AnyKey(es[j].0), JsonTree.AnyHelper(es[j].1));
        assert !IsAlgorithmEntry(es[j].0) && !IsAlgorithmEntry(r.entries[j].0);
      }
    }
  }

  /** The `=any` widening keeps the set of algorithms the file names, as
      long as no rename collides with a sibling key. */
  lemma {:induction false} AnyHelperKeepsAlgorithms(t: Tree, a: string)
    requires NoClashAnywhere(t)
    ensures Yields(JsonTree.AnyHelper(t), a) <==> Yields(t, a)
    decreases t
  {
    var es := t.entries;
    if |es| == 0 || JsonTree.IsAlgorithmKey(es[|es| - 1].0) {
      JsonTree.AnyHelperLevel(t);
    } else {
      forall j | 0 <= j < |es|
        ensures Yields(JsonTree.AnyHelper(es[j].1), a) <==> Yields(es[j].1, a)
      {
        AnyHelperKeepsAlgorithms(es[j].1, a);
      }
      WidenedEntriesYield(t, a);
      YieldsByEntry(t, a);
      YieldsByEntry(JsonTree.AnyHelper(t), a);
    }
  }

  /** The same, for the collector itself. */
  lemma AnyHelperKeepsGather(t: Tree)
    requires NoClashAnywhere(t)
    ensures Gather(JsonTree.AnyHelper(t)) == Gather(t)
  {
    forall a
      ensures a in Gather(JsonTree.AnyHelper(t)) <==> a in Gather(t)
    {
      GatherYields(t, a);
      GatherYields(JsonTree.AnyHelper(t), a);
      AnyHelperKeepsAlgorithms(t, a);
    }
  }
}

=== FILE: jackknife.dfy ===
/** Jackknife variance of a forest's predictions (`jackknife.py`), over
    reals. The prediction matrix is given: row `m` holds ensemble member
    `m`'s predictions, column `c` belongs to test row `c`. */
module Jackknife {
  import opened Wrappers

  function Sum(s: seq<real>): real
    decreases |s|
  {
    if |s| == 0 then 0.0 else s[0] + Sum(s[1..])
  }

  /** `np.mean` of a non-empty vector. */
  function Mean(s: seq<real>): real
    requires |s| > 0
  {
    Sum(s) / |s| as real
  }

  function Sq(x: real): (r: real)
    ensures r >= 0.0
  {
    x * x
  }

  /** Every member predicts every test row. */
  predicate Rectangular(preds: seq<seq<real>>, cols: nat) {
    forall m :: 0 <= m < |preds| ==> |preds[m]| == cols
  }

  /** `prediction_array.T[c]`: every member's prediction for test row `c`. */
  function Column(preds: seq<seq<real>>, cols: nat, c: nat): (r: seq<real>)
    requires Rectangular(preds, cols) && c < cols
    ensures |r| == |preds|
    ensures forall m :: 0 <= m < |preds| ==> r[m] == preds[m][c]
  {
    seq(|preds|, m requires 0 <= m < |preds| => preds[m][c])
  }

  /** `np.delete(column, j)` */
  function Delete(s: seq<real>, j: nat): (r: seq<real>)
    requires j < |s|
    ensures |r| == |s| - 1
  {
    s[..j] + s[j + 1..]
  }

  /** The leave-one-out means: mean `j` leaves member `j` out. */
  function ResampleMeans(col: seq<real>): (r: seq<real>)
    requires |col| >= 2
    ensures |r| == |col|
  {
    seq(|col|, j requires 0 <= j < |col| => Mean(Delete(col, j)))
  }

  /** `np.square(np.subtract(resample_means, mean))` */
  function ResampleSquares(col: seq<real>): (r: seq<real>)
    requires |col| >= 2
    ensures |r| == |col|
  {
    var m := Mean(col);
    var rm := ResampleMeans(col);
    seq(|col|, j requires 0 <= j < |col| => Sq(rm[j] - m))
  }

  /** The variance of one column:
      `sum((resample_means - mean) ** 2) / (n * (n - 1))`. */
  function ColumnVariance(col: seq<real>): real
    requires |col| >= 2
  {
    var n := |col| as real;
    Sum(ResampleSquares(col)) / (n * (n - 1.0))
  }

  /** `jackknife_variances(regressor, X_test)` on the given matrix. */
  function Variances(preds: seq<seq<real>>, cols: nat): (r: seq<real>)
    requires |preds| >= 2 && Rectangular(preds, cols)
    ensures |r| == cols
    ensures forall c :: 0 <= c < cols ==> r[c] == ColumnVariance(Column(preds, cols, c))
  {
    seq(cols, c requires 0 <= c < cols => ColumnVariance(Column(preds, cols, c)))
  }

  /** `jackknife(regressor, X_test)`: the average variance; numpy gives NaN
      (here `None`) for no test rows. */
  function Jackknife(preds: seq<seq<real>>, cols: nat): (r: Option<real>)
    requires |preds| >= 2 && Rectangular(preds, cols)
    ensures r.None? <==> cols == 0
  {
    if cols == 0 then None else Some(Mean(Variances(preds, cols)))
  }

  /************************** sums **************************/

  lemma {:induction false} SumNonNegative(s: seq<real>)
    requires forall i :: 0 <= i < |s| ==> s[i] >= 0.0
    ensures Sum(s) >= 0.0
    decreases |s|
  {
    if |s| > 0 {
      SumNonNegative(s[1..]);
    }
  }

  /** A sum of non-negative terms is zero iff every term is. */
  lemma {:induction false} SumZeroIff(s: seq<real>)
    requires forall i :: 0 <= i < |s| ==> s[i] >= 0.0
    ensures Sum(s) == 0.0 <==> forall i :: 0 <= i < |s| ==> s[i] == 0.0
    decreases |s|
  {
    if |s| > 0 {
      SumZeroIff(s[1..]);
      SumNonNegative(s[1..]);
      assert forall i :: 1 <= i < |s| ==> s[1..][i - 1] == s[i];
    }
  }

  lemma {:induction false} SumAppend(a: seq<real>, b: seq<real>)
    ensures Sum(a + b) == Sum(a) + Sum(b)
    decreases |a|
  {
    if |a| > 0 {
      assert (a + b)[1..] == a[1..] + b;
      SumAppend(a[1..], b);
    } else {
      assert a + b == b;
    }
  }

  /** Leaving one member out removes exactly its prediction from the sum. */
  lemma SumDelete(s: seq<real>, j: nat)
    requires j < |s|
    ensures Sum(Delete(s, j)) == Sum(s) - s[j]
  {
    assert s == s[..j] + s[j..];
    SumAppend(s[..j], s[j..]);
    assert s[j..] == [s[j]] + s[j + 1..];
    assert Sum(s[j..]) == s[j] + Sum(s[j + 1..]);
    SumAppend(s[..j], s[j + 1..]);
  }

  /** Scaling every term scales the sum. */
  lemma {:induction false} SumScaled(a: seq<real>, b: seq<real>, k: real)
    requires k != 0.0 && |a| == |b|
    requires forall i :: 0 <= i < |a| ==> b[i] == a[i] / k
    ensures Sum(b) == Sum(a) / k
    decreases |a|
  {
    if |a| > 0 {
      SumScaled(a[1..], b[1..], k);
      assert Sum(b) == b[0] + Sum(b[1..]);
      assert a[0] / k + Sum(a[1..]) / k == (a[0] + Sum(a[1..])) / k;
    }
  }

  lemma {:induction false} SumConstant(s: seq<real>, c: real)
    requires forall i :: 0 <= i < |s| ==> s[i] == c
    ensures Sum(s) == |s| as real * c
    decreases |s|
  {
    if |s| > 0 {
      SumConstant(s[1..], c);
    }
  }

  /************************** the variance **************************/

  /** A leave-one-out mean differs from the full mean by the left-out
      member's deviation, shrunk by `n - 1`. */
  lemma ResampleDeviation(col: seq<real>, j: nat)
    requires |col| >= 2 && j < |col|
    ensures Mean(Delete(col, j)) - Mean(col) == (Mean(col) - col[j]) / (|col| as real - 1.0)
  {
    var n := |col| as real;
    var s := Sum(col);
    var x := col[j];
    assert Sum(Delete(col, j)) == s - x by {
      SumDelete(col, j);
    }
    assert Mean(Delete(col, j)) == (s - x) / (n - 1.0);
    assert Mean(col) == s / n;
    LeaveOneOutShift(s, x, n);
  }

  /** The squared deviations of the column itself. */
  function Deviations(col: seq<real>): (r: seq<real>)
    requires |col| > 0
    ensures |r| == |col|
  {
    var m := Mean(col);
    seq(|col|, j requires 0 <= j < |col| => Sq(col[j] - m))
  }

  /************************** real arithmetic **************************/

  /** Dropping `x` from a total `s` of `n` terms moves the mean by
      `(s / n - x) / (n - 1)`. */
  lemma LeaveOneOutShift(s: real, x: real, n: real)
    requires n >= 2.0
    ensures (s - x) / (n - 1.0) - s / n == (s / n - x) / (n - 1.0)
  {
    assert (s - x) / (n - 1.0) - s / n == (n * (s - x) - (n - 1.0) * s) / (n * (n - 1.0));
    assert n * (s - x) - (n - 1.0) * s == s - n * x;
    assert (s / n - x) / (n - 1.0) == (s - n * x) / (n * (n - 1.0));
  }

  lemma CancelFactor(x: real, y: real)
    requires y != 0.0
    ensures x * y / y == x
  {
  }

  /** The square of a non-zero real is non-zero; the square is passed as
      `p` so that the solver sees it as one term. */
  lemma SquareNonZero(x: real, p: real)
    requires x != 0.0 && p == x * x
    ensures p != 0.0
  {
    CancelFactor(x, x);
    assert p / x == x;
  }

  lemma SqOfQuotient(d: real, q: real)
    requires q != 0.0
    ensures Sq(d / q) == Sq(d) / (q * q)
  {
    var e := d / q;
    var p := q * q;
    SquareNonZero(q, p);
    assert d == e * q;
    assert Sq(d) == (e * e) * p;
    CancelFactor(e * e, p);
  }

  lemma QuotientOfQuotient(a: real, k: real, m: real)
    requires k != 0.0 && m != 0.0
    ensures a / k / m == a / (k * m)
  {
    var e := a / k / m;
    assert e * m == a / k;
    assert e * m * k == a;
    assert k * m != 0.0;
  }

  /** `v = (s / k) / p` is `s / c` when `c = k * p`. */
  lemma ChainedQuotient(v: real, t: real, s: real, k: real, p: real, c: real)
    requires k != 0.0 && p != 0.0 && c == k * p
    requires t == s / k && v == t / p
    ensures v == s / c
  {
    QuotientOfQuotient(s, k, p);
  }

  lemma QuotientSign(a: real, b: real)
    requires b > 0.0
    ensures a >= 0.0 ==> a / b >= 0.0
    ensures a / b == 0.0 <==> a == 0.0
  {
    assert (a / b) * b == a;
  }

  lemma MeanOfConstant(s: seq<real>, c: real)
    requires |s| > 0 && forall i :: 0 <= i < |s| ==> s[i] == c
    ensures Mean(s) == c
  {
    var n := |s| as real;
    var t := Sum(s);
    SumConstant(s, c);
    assert t == c * n;
    CancelFactor(c, n);
  }

  lemma SqNegate(x: real)
    ensures Sq(-x) == Sq(x)
  {
  }

  /** Squaring `-v / e` divides the square of `v` by `e * e`. */
  lemma ScaledSquare(u: real, v: real, d: real, e: real, k: real)
    requires e != 0.0 && k > 0.0 && k == e * e && d == -v && u == d / e
    ensures Sq(u) == Sq(v) / k
  {
    SqOfQuotient(d, e);
    SqNegate(v);
  }

  lemma SqZero(x: real)
    ensures Sq(x) == 0.0 <==> x == 0.0
  {
    if x != 0.0 {
      SquareNonZero(x, Sq(x));
    }
  }

  /** The product of two positive reals is positive; the product is
      passed as `p` so that the solver sees it as one term. */
  lemma ProductPositive(a: real, b: real, p: real)
    requires a > 0.0 && b > 0.0 && p == a * b
    ensures p > 0.0
  {
  }

  lemma PairDenominatorPositive(n: real)
    requires n >= 2.0
    ensures n * (n - 1.0) > 0.0
  {
    ProductPositive(n, n - 1.0, n * (n - 1.0));
  }

  lemma CubeDenominatorPositive(n: real)
    requires n >= 2.0
    ensures (n - 1.0) * (n - 1.0) > 0.0
    ensures n * (n - 1.0) * (n - 1.0) * (n - 1.0) > 0.0
  {
    var d := n - 1.0;
    ProductPositive(d, d, d * d);
    ProductPositive(n, d, n * d);
    ProductPositive(n * d, d, n * d * d);
    ProductPositive(n * d * d, d, n * d * d * d);
  }

  /** `n * (n - 1) ** 3` splits as `(n - 1) ** 2` times `n * (n - 1)`,
      all positive. */
  lemma CubeFactors(n: real, k: real, pair: real, c: real)
    requires n >= 2.0 && k == (n - 1.0) * (n - 1.0) && pair == n * (n - 1.0)
    requires c == n * (n - 1.0) * (n - 1.0) * (n - 1.0)
    ensures k > 0.0 && pair > 0.0 && c > 0.0 && k * pair == c
  {
    PairDenominatorPositive(n);
    CubeDenominatorPositive(n);
  }

  /************************** the closed form **************************/

  /** The `j`-th leave-one-out square and squared deviation, unfolded. */
  lemma ResampleSquareUnfold(col: seq<real>, j: nat)
    requires |col| >= 2 && j < |col|
    ensures ResampleSquares(col)[j] == Sq(Mean(Delete(col, j)) - Mean(col))
    ensures Deviations(col)[j] == Sq(col[j] - Mean(col))
  {
  }

  /** Each leave-one-out square is the member's squared deviation shrunk
      by `(n - 1) ** 2`. */
  lemma ResampleSquareScaled(col: seq<real>, k: real, j: nat)
    requires |col| >= 2 && j < |col| && k == (|col| as real - 1.0) * (|col| as real - 1.0)
    ensures ResampleSquares(col)[j] == Deviations(col)[j] / k
  {
    var e := |col| as real - 1.0;
    ResampleSquareUnfold(col, j);
    ResampleDeviation(col, j);
    CubeDenominatorPositive(|col| as real);
    ScaledSquare(Mean(Delete(col, j)) - Mean(col), col[j] - Mean(col), Mean(col) - col[j], e, k);
  }

  lemma ResampleSquaresScaled(col: seq<real>, k: real)
    requires |col| >= 2 && k == (|col| as real - 1.0) * (|col| as real - 1.0)
    ensures forall j :: 0 <= j < |col| ==> ResampleSquares(col)[j] == Deviations(col)[j] / k
  {
    forall j | 0 <= j < |col| ensures ResampleSquares(col)[j] == Deviations(col)[j] / k {
      ResampleSquareScaled(col, k, j);
    }
  }

  lemma VarianceAsQuotient(col: seq<real>)
    requires |col| >= 2
    ensures ColumnVariance(col) == Sum(ResampleSquares(col)) / (|col| as real * (|col| as real - 1.0))
  {
  }

  /** `n * (n - 1) ** 3` for a column of `n` predictions. */
  function CubeDenominator(col: seq<real>): real {
    var n := |col| as real;
    n * (n - 1.0) * (n - 1.0) * (n - 1.0)
  }

  /** The jackknife variance is the column's sum of squared deviations
      divided by `n * (n - 1) ** 3`: the usual closed form. */
  lemma VarianceClosedForm(col: seq<real>)
    requires |col| >= 2
    ensures CubeDenominator(col) > 0.0
    ensures ColumnVariance(col) == Sum(Deviations(col)) / CubeDenominator(col)
  {
    var n := |col| as real;
    var k := (n - 1.0) * (n - 1.0);
    var pair := n * (n - 1.0);
    CubeDenominatorFactors(col, k, pair);
    SumOfResampleSquares(col, k);
    VarianceAsQuotient(col);
    ChainedQuotient(ColumnVariance(col), Sum(ResampleSquares(col)), Sum(Deviations(col)), k, pair, CubeDenominator(col));
  }

  lemma CubeDenominatorFactors(col: seq<real>, k: real, pair: real)
    requires |col| >= 2
    requires k == (|col| as real - 1.0) * (|col| as real - 1.0)
    requires pair == |col| as real * (|col| as real - 1.0)
    ensures k > 0.0 && pair > 0.0 && CubeDenominator(col) > 0.0 && k * pair == CubeDenominator(col)
  {
    CubeFactors(|col| as real, k, pair, CubeDenominator(col));
  }

  lemma SumOfResampleSquares(col: seq<real>, k: real)
    requires |col| >= 2 && k == (|col| as real - 1.0) * (|col| as real - 1.0)
    ensures Sum(ResampleSquares(col)) == Sum(Deviations(col)) / k
  {
    CubeDenominatorPositive(|col| as real);
    ResampleSquaresScaled(col, k);
    SumScaled(Deviations(col), ResampleSquares(col), k);
  }

  /** Every column variance is non-negative, and zero exactly when the
      leave-one-out squares sum to zero. */
  lemma VarianceNonNegative(col: seq<real>)
    requires |col| >= 2
    ensures ColumnVariance(col) >= 0.0
    ensures ColumnVariance(col) == 0.0 <==> Sum(ResampleSquares(col)) == 0.0
  {
    var n := |col| as real;
    var s := Sum(ResampleSquares(col));
    var pair := n * (n - 1.0);
    assert s >= 0.0 by {
      SumNonNegative(ResampleSquares(col));
    }
    assert pair > 0.0 by {
      PairDenominatorPositive(n);
    }
    QuotientSign(s, pair);
    assert ColumnVariance(col) == s / pair;
  }

  /** A leave-one-out mean equals the full mean exactly when the left-out
      member predicts the mean. */
  lemma ResampleSquareZeroIff(col: seq<real>, j: nat)
    requires |col| >= 2 && j < |col|
    ensures ResampleSquares(col)[j] == 0.0 <==> col[j] == Mean(col)
  {
    var n := |col| as real;
    var m := Mean(col);
    var q := (m - col[j]) / (n - 1.0);
    assert ResampleSquares(col)[j] == Sq(q) by {
      ResampleDeviation(col, j);
    }
    assert Sq(q) == 0.0 <==> q == 0.0 by {
      SqZero(q);
    }
    assert q == 0.0 <==> m - col[j] == 0.0 by {
      QuotientSign(m - col[j], n - 1.0);
    }
  }

  /** A column's variance is zero exactly when every member predicts the
      same value. */
  lemma VarianceZeroIffConstant(col: seq<real>)
    requires |col| >= 2
    ensures ColumnVariance(col) == 0.0 <==> forall j :: 0 <= j < |col| ==> col[j] == col[0]
  {
    VarianceZeroIffSquaresZero(col);
    SquaresZeroIffAtMean(col);
    AtMeanIffConstant(col);
  }

  lemma VarianceZeroIffSquaresZero(col: seq<real>)
    requires |col| >= 2
    ensures ColumnVariance(col) == 0.0 <==> forall j :: 0 <= j < |col| ==> ResampleSquares(col)[j] == 0.0
  {
    VarianceNonNegative(col);
    SumZeroIff(ResampleSquares(col));
  }

  lemma SquaresZeroIffAtMean(col: seq<real>)
    requires |col| >= 2
    ensures (forall j :: 0 <= j < |col| ==> ResampleSquares(col)[j] == 0.0)
        <==> forall j :: 0 <= j < |col| ==> col[j] == Mean(col)
  {
    forall j | 0 <= j < |col|
      ensures ResampleSquares(col)[j] == 0.0 <==> col[j] == Mean(col)
    {
      ResampleSquareZeroIff(col, j);
    }
  }

  /** Every member predicts the mean exactly when all predict the same. */
  lemma AtMeanIffConstant(col: seq<real>)
    requires |col| >= 2
    ensures (forall j :: 0 <= j < |col| ==> col[j] == Mean(col))
        <==> forall j :: 0 <= j < |col| ==> col[j] == col[0]
  {
    if forall j :: 0 <= j < |col| ==> col[j] == col[0] {
      MeanOfConstant(col, col[0]);
    }
  }

  /** The average of the variances is non-negative, and zero when every
      test row gets the same prediction from every member. */
  lemma JackknifeBounds(preds: seq<seq<real>>, cols: nat)
    requires |preds| >= 2 && Rectangular(preds, cols) && cols > 0
    ensures Jackknife(preds, cols).value >= 0.0
    ensures (forall m, c :: 0 <= m < |preds| && 0 <= c < cols ==> preds[m][c] == preds[0][c])
      ==> Jackknife(preds, cols).value == 0.0
  {
    var v := Variances(preds, cols);
    forall c | 0 <= c < cols ensures v[c] >= 0.0 {
      VarianceNonNegative(Column(preds, cols, c));
    }
    SumNonNegative(v);
    if forall m, c :: 0 <= m < |preds| && 0 <= c < cols ==> preds[m][c] == preds[0][c] {
      forall c | 0 <= c < cols ensures v[c] == 0.0 {
        VarianceZeroIffConstant(Column(preds, cols, c));
      }
      SumConstant(v, 0.0);
    }
  }

  /** Two members predicting 1 and 3: the leave-one-out means are 3 and 1
      around the mean 2, so the variance is (1 + 1) / 2 = 1. */
  lemma TwoMemberExample()
    ensures ColumnVariance([1.0, 3.0]) == 1.0
  {
    var col := [1.0, 3.0];
    assert Sum(col) == 4.0 by {
      assert col[1..] == [3.0];
      assert col[1..][1..] == [];
    }
    assert Delete(col, 0) == [3.0] && Delete(col, 1) == [1.0];
    assert Sum([3.0]) == 3.0 && Sum([1.0]) == 1.0 by {
      assert [3.0][1..] == [] && [1.0][1..] == [];
    }
    var rm := ResampleMeans(col);
    assert rm[0] == 3.0 && rm[1] == 1.0;
    var terms := ResampleSquares(col);
    assert Mean(col) == 2.0;
    assert terms == [1.0, 1.0];
    assert Sum(terms) == 2.0 by {
      assert terms[1..] == [1.0] && terms[1..][1..] == [];
    }
  }
}

=== FILE: json_file.dfy ===
/** `update_collective` (`json_file.py`): the rules mined for one
    collective replace its intra-communicator object in the MPICH
    selection file, and nothing else in the file changes. */
module JsonFile {
  import opened Wrappers
  import opened Points
  import opened PyStrings
  import Dicts
  import Algs
  import JsonRules
  import JsonTree

  type Tree = JsonTree.Tree

  const Intra: string := "comm_type=intra"

  function CollectiveKey(coll: string): string {
    "collective=" + coll
  }

  /** The file has an object for the collective, holding an intra slot. */
  predicate HasSlot(data: Tree, key: string) {
    Dicts.HasKey(data.entries, key)
    && Dicts.HasKey(JsonTree.Child(data.entries, key), Intra)
  }

  /** `data[key][intra]`, when both steps exist. */
  function Slot(data: Tree, key: string): Option<Tree> {
    Dicts.Get(JsonTree.Child(data.entries, key), Intra)
  }

  /** The two loops of `update_collective`: the slot `data[key][intra]` is
      assigned the new object, which is only built (and so can only fail)
      once the slot has been found. Without the slot the file is returned
      as it was. */
  function Splice(data: Tree, key: string, sub: Result<Tree>): (r: Result<Tree>)
    ensures r.Failure? <==> HasSlot(data, key) && sub.Failure?
    ensures !HasSlot(data, key) ==> r == Success(data)
  {
    if !HasSlot(data, key) then Success(data)
    else
      var t :- sub;
      var c := JsonTree.Child(data.entries, key);
      Success(JsonTree.Tree(Dicts.Put(data.entries, key, JsonTree.Tree(Dicts.Put(c, Intra, t)))))
  }

  /** After the splice the slot holds the new object; every other key of
      the file, and every other key of the collective's object, looks up
      what it did before, and both objects keep their key order. */
  lemma SpliceReplacesOnlySlot(data: Tree, key: string, sub: Result<Tree>)
    requires HasSlot(data, key) && sub.Success?
    ensures Splice(data, key, sub).Success?
    ensures var r := Splice(data, key, sub).value;
      Slot(r, key) == Some(sub.value)
      && Dicts.Keys(r.entries) == Dicts.Keys(data.entries)
      && Dicts.Keys(JsonTree.Child(r.entries, key)) == Dicts.Keys(JsonTree.Child(data.entries, key))
      && (forall k :: k != key ==> Dicts.Get(r.entries, k) == Dicts.Get(data.entries, k))
      && (forall k :: k != Intra ==>
            Dicts.Get(JsonTree.Child(r.entries, key), k) == Dicts.Get(JsonTree.Child(data.entries, key), k))
  {
    var c := JsonTree.Child(data.entries, key);
    var inner := Dicts.Put(c, Intra, sub.value);
    var r := Splice(data, key, sub).value;
    assert r.entries == Dicts.Put(data.entries, key, JsonTree.Tree(inner));
    Dicts.PutGetSame(data.entries, key, JsonTree.Tree(inner));
    assert JsonTree.Child(r.entries, key) == inner;
    Dicts.PutGetSame(c, Intra, sub.value);
    Dicts.PutPresentKeepsKeys(data.entries, key, JsonTree.Tree(inner));
    Dicts.PutPresentKeepsKeys(c, Intra, sub.value);
    forall k | k != key
      ensures Dicts.Get(r.entries, k) == Dicts.Get(data.entries, k)
    {
      Dicts.PutGetOther(data.entries, key, JsonTree.Tree(inner), k);
    }
    forall k | k != Intra
      ensures Dicts.Get(inner, k) == Dicts.Get(c, k)
    {
      Dicts.PutGetOther(c, Intra, sub.value, k);
    }
  }

  /** A splice keeps a file without repeated keys free of them, provided
      the new object is. */
  lemma SpliceWellFormed(data: Tree, key: string, sub: Result<Tree>)
    requires JsonTree.WellFormed(data) && Splice(data, key, sub).Success?
    requires sub.Success? ==> JsonTree.WellFormed(sub.value)
    ensures JsonTree.WellFormed(Splice(data, key, sub).value)
  {
    if HasSlot(data, key) {
      var es := data.entries;
      var c := JsonTree.Child(es, key);
      var i := Dicts.IndexOf(es, key);
      assert es[i].1.entries == c;
      assert JsonTree.WellFormed(es[i].1);
      var inner := Dicts.Put(c, Intra, sub.value);
      Dicts.PutKeepsDistinct(c, Intra, sub.value);
      var j := Dicts.IndexOf(c, Intra);
      forall m | 0 <= m < |inner|
        ensures JsonTree.WellFormed(inner[m].1)
      {
        if m != j {
          assert inner[m] == c[m] == es[i].1.entries[m];
        }
      }
      assert JsonTree.WellFormed(JsonTree.Tree(inner));
      var r := Dicts.Put(es, key, JsonTree.Tree(inner));
      Dicts.PutKeepsDistinct(es, key, JsonTree.Tree(inner));
      forall m | 0 <= m < |r|
        ensures JsonTree.WellFormed(r[m].1)
      {
        if m != i {
          assert r[m] == es[m];
        }
      }
    }
  }

  /** `update_collective(json_file_data, collective, feature_space, rf)`
      with the CSV rows `read_algs` parses and the forest's `predict` as
      parameters: read the algorithm table, predict every algorithm on
      every row, pick the per-row fastest, mine the break points, and
      splice their nested object (under the capitalised collective name)
      into the file. */
  function UpdateCollective(data: Tree, coll: string, fs: seq<Triple>,
                            predict: seq<Point> -> seq<real>, rows: seq<seq<string>>): (r: Result<Tree>)
    ensures Algs.ReadAlgs(rows, coll).None? ==> r == Failure(Algs.NoAlgs)
  {
    match Algs.ReadAlgs(rows, coll)
    case None => Failure(Algs.NoAlgs)
    case Some(algs) =>
      var y := predict(Algs.AddAlgs(fs, |algs|));
      var sel :- JsonRules.GetSelections(y, |algs|);
      var rules :- JsonRules.GetRules(fs, sel, predict, |algs|);
      Splice(data, CollectiveKey(coll), JsonTree.RulesToDict(Capitalize(coll), rules, algs))
  }

  /** `update_collective` changes at most the collective's intra slot:
      every other entry of the file and of the collective's object is as
      it was, in the same order, and a file without that slot comes back
      unchanged. */
  lemma UpdateTouchesOnlySlot(data: Tree, coll: string, fs: seq<Triple>,
                              predict: seq<Point> -> seq<real>, rows: seq<seq<string>>)
    requires UpdateCollective(data, coll, fs, predict, rows).Success?
    ensures var r := UpdateCollective(data, coll, fs, predict, rows).value;
      var key := CollectiveKey(coll);
      (!HasSlot(data, key) ==> r == data)
      && Dicts.Keys(r.entries) == Dicts.Keys(data.entries)
      && (forall k :: k != key ==> Dicts.Get(r.entries, k) == Dicts.Get(data.entries, k))
      && (forall k :: k != Intra ==>
            Dicts.Get(JsonTree.Child(r.entries, key), k) == Dicts.Get(JsonTree.Child(data.entries, key), k))
  {
    var algs := Algs.ReadAlgs(rows, coll).value;
    var y := predict(Algs.AddAlgs(fs, |algs|));
    var sel := JsonRules.GetSelections(y, |algs|).value;
    var rules := JsonRules.GetRules(fs, sel, predict, |algs|).value;
    var key := CollectiveKey(coll);
    var sub := JsonTree.RulesToDict(Capitalize(coll), rules, algs);
    if HasSlot(data, key) {
      SpliceReplacesOnlySlot(data, key, sub);
    }
  }

  /** With the slot present, it ends up holding `rules_to_dict` of the
      mined rules for the capitalised name. */
  lemma UpdateFillsSlot(data: Tree, coll: string, fs: seq<Triple>,
                        predict: seq<Point> -> seq<real>, rows: seq<seq<string>>)
    requires UpdateCollective(data, coll, fs, predict, rows).Success?
    requires HasSlot(data, CollectiveKey(coll))
    ensures var algs := Algs.ReadAlgs(rows, coll).value;
      var sel := JsonRules.GetSelections(predict(Algs.AddAlgs(fs, |algs|)), |algs|).value;
      var rules := JsonRules.GetRules(fs, sel, predict, |algs|).value;
      JsonTree.RulesToDict(Capitalize(coll), rules, algs).Success?
      && Slot(UpdateCollective(data, coll, fs, predict, rows).value, CollectiveKey(coll))
         == Some(JsonTree.RulesToDict(Capitalize(coll), rules, algs).value)
  {
    var algs := Algs.ReadAlgs(rows, coll).value;
    var y := predict(Algs.AddAlgs(fs, |algs|));
    var sel := JsonRules.GetSelections(y, |algs|).value;
    var rules := JsonRules.GetRules(fs, sel, predict, |algs|).value;
    SpliceReplacesOnlySlot(data, CollectiveKey(coll), JsonTree.RulesToDict(Capitalize(coll), rules, algs));
  }
}

=== FILE: json_rules.dfy ===
/** From a trained forest to break points (`json_file.py`): the fastest
    predicted algorithm at every feature-space row (`get_selections`), and
    the rows where that choice switches (`get_rules`). The forest is its
    `predict` function on a batch of training rows. */
module JsonRules {
  import opened Wrappers
  import opened Points
  import Dicts
  import Encoding
  import Algs
  import FeatureSpace

  /************************** argmin **************************/

  /** `i` is where `np.argmin` lands: a minimum, and the first one. */
  predicate IsFirstMin(v: seq<real>, i: int) {
    0 <= i < |v|
    && (forall j :: 0 <= j < |v| ==> v[i] <= v[j])
    && (forall j :: 0 <= j < i ==> v[i] < v[j])
  }

  function FirstMin(v: seq<real>): (r: nat)
    requires |v| > 0
    ensures IsFirstMin(v, r)
    decreases |v|
  {
    if |v| == 1 then 0
    else
      var i := FirstMin(v[..|v| - 1]);
      assert forall j :: 0 <= j < |v| - 1 ==> v[..|v| - 1][j] == v[j];
      if v[|v| - 1] < v[i] then |v| - 1 else i
  }

  /** `np.argmin(v)`; an empty vector raises. */
  function Argmin(v: seq<real>): (r: Result<nat>)
    ensures r.Success? <==> |v| > 0
    ensures r.Success? ==> IsFirstMin(v, r.value)
  {
    if |v| == 0 then Failure("ValueError: attempt to get argmin of an empty sequence")
    else Success(FirstMin(v))
  }

  lemma FirstMinUnique(v: seq<real>, i: int, k: int)
    requires IsFirstMin(v, i) && IsFirstMin(v, k)
    ensures i == k
  {
    assert v[i] == v[k];
    assert !(i < k);
    assert !(k < i);
  }

  /************************** get_selections **************************/

  /** One selection per complete block of `numAlgs` predictions, front to
      back. A trailing partial block is dropped: `int(y_test.size /
      num_algs)` rounds down. */
  function Selections(y: seq<real>, numAlgs: nat): (r: seq<nat>)
    requires numAlgs >= 1
    ensures |r| == FeatureSpace.FloorDiv(|y|, numAlgs)
    ensures forall b :: 0 <= b < |r| ==> r[b] < numAlgs
    decreases |y|
  {
    if |y| < numAlgs then []
    else [FirstMin(y[..numAlgs])] + Selections(y[numAlgs..], numAlgs)
  }

  /** Where block `b` starts: `b * d`. */
  function BlockStart(b: nat, d: nat): nat {
    if b == 0 then 0 else BlockStart(b - 1, d) + d
  }

  lemma {:induction false} BlockStartIsProduct(b: nat, d: nat)
    ensures BlockStart(b, d) == b * d
  {
    if b > 0 {
      BlockStartIsProduct(b - 1, d);
      assert (b - 1) * d + d == b * d;
    }
  }

  lemma SliceOfSuffix(y: seq<real>, d: nat, lo: nat, len: nat)
    requires d + lo + len <= |y|
    ensures y[d..][lo..lo + len] == y[d + lo..d + lo + len]
  {
  }

  /** Selection `b` is the first fastest algorithm of block `b`, the
      predictions at positions `b * numAlgs` up to `(b + 1) * numAlgs`. */
  lemma {:induction false} SelectionIsBlockArgmin(y: seq<real>, numAlgs: nat, b: nat)
    requires numAlgs >= 1 && b < |Selections(y, numAlgs)|
    ensures BlockStart(b, numAlgs) + numAlgs <= |y|
    ensures IsFirstMin(y[BlockStart(b, numAlgs)..BlockStart(b, numAlgs) + numAlgs], Selections(y, numAlgs)[b])
    decreases b
  {
    var rest := Selections(y[numAlgs..], numAlgs);
    if b > 0 {
      var lo := BlockStart(b - 1, numAlgs);
      assert Selections(y, numAlgs)[b] == rest[b - 1];
      SelectionIsBlockArgmin(y[numAlgs..], numAlgs, b - 1);
      SliceOfSuffix(y, numAlgs, lo, numAlgs);
    } else {
      assert y[0..numAlgs] == y[..numAlgs];
    }
  }

  /** `get_selections(y_test, algs)`; with no algorithms the block count
      divides by zero. */
  function GetSelections(y: seq<real>, numAlgs: nat): (r: Result<seq<nat>>)
    ensures r.Failure? <==> numAlgs == 0
    ensures r.Success? ==> |r.value| == FeatureSpace.FloorDiv(|y|, numAlgs)
    ensures r.Success? ==> forall b :: 0 <= b < |r.value| ==> r.value[b] < numAlgs
    ensures r.Success? ==> r.value == Selections(y, numAlgs)
  {
    if numAlgs == 0 then Failure("ZeroDivisionError: division by zero")
    else Success(Selections(y, numAlgs))
  }

  /************************** get_rules **************************/

  /** The break points: feature-space row to algorithm index, in insertion
      order. */
  type Rules = Dicts.Dict<Triple, nat>

  /** The message coordinate `get_rules` probes between two rows with the
      same `n` and `ppn`: `log2((2^(m-1) + 2^(m-1)) / 2) + 1`. */
  function ProbeMsg(m: nat): (r: nat)
    requires m >= 1
  {
    Encoding.Log2Floor((Encoding.Pow2(m - 1) + Encoding.Pow2(m - 1)) / 2) + 1
  }

  /** The "midpoint" is the current row's own message size: the probe
      asks the forest about row `i` itself. */
  lemma ProbeIsCurrentRow(m: nat)
    requires m >= 1
    ensures ProbeMsg(m) == m
  {
    Encoding.Log2OfPow2(m - 1);
  }

  /** `np.argmin(rf.predict(add_algs(row, algs)))`. */
  function Probe(predict: seq<Point> -> seq<real>, t: Triple, numAlgs: nat): (r: Result<nat>)
    ensures r.Success? <==> |predict(Algs.AddAlgsOne(t, numAlgs))| > 0
    ensures r.Success? ==> IsFirstMin(predict(Algs.AddAlgsOne(t, numAlgs)), r.value)
  {
    Argmin(predict(Algs.AddAlgsOne(t, numAlgs)))
  }

  const IndexError: string := "IndexError: index out of bounds for axis 0"

  /** numpy refuses `2 ** e` on integers for a negative `e`. */
  const NegativePower: string := "ValueError: Integers to negative integer powers are not allowed."

  /** The loop body at position `i >= 1` (at position 0 the selection never
      changes). Between rows with the same `n` and `ppn` the probe is row
      `i` itself (`ProbeIsCurrentRow`), once its message coordinate can be
      raised as a power of two. */
  function RulesStep(fs: seq<Triple>, sel: seq<nat>, predict: seq<Point> -> seq<real>, numAlgs: nat,
                     i: nat, bp: Rules): (r: Result<Rules>)
    requires 1 <= i < |sel|
    ensures sel[i - 1] == sel[i] ==> r == Success(bp)
    ensures sel[i - 1] != sel[i] && i >= |fs| ==> r.Failure?
  {
    if sel[i - 1] == sel[i] then Success(bp)
    else if i >= |fs| then Failure(IndexError)
    else
      var prev, cur := fs[i - 1], fs[i];
      if prev.n == cur.n && prev.ppn == cur.ppn then
        if cur.msg < 1 then Failure(NegativePower)
        else
        var fastest :- Probe(predict, cur, numAlgs);
        if fastest == sel[i - 1] then Success(Dicts.Put(bp, cur, sel[i - 1]))
        else if fastest == sel[i] then Success(Dicts.Put(bp, prev, sel[i - 1]))
        else Success(Dicts.Put(Dicts.Put(bp, prev, sel[i - 1]), cur, fastest))
      else Success(Dicts.Put(Dicts.Put(bp, prev, sel[i - 1]), cur, sel[i]))
  }

  function RulesFrom(fs: seq<Triple>, sel: seq<nat>, predict: seq<Point> -> seq<real>, numAlgs: nat,
                     i: nat, bp: Rules): (r: Result<Rules>)
    requires 1 <= i
    decreases |sel| - i
  {
    if i >= |sel| then Success(bp)
    else
      var next :- RulesStep(fs, sel, predict, numAlgs, i, bp);
      RulesFrom(fs, sel, predict, numAlgs, i + 1, next)
  }

  /** `get_rules(feature_space, selections, algs, rf)`. */
  function GetRules(fs: seq<Triple>, sel: seq<nat>, predict: seq<Point> -> seq<real>, numAlgs: nat)
    : (r: Result<Rules>)
    ensures |sel| == 0 || |fs| == 0 ==> r.Failure?
  {
    if |sel| == 0 || |fs| == 0 then Failure(IndexError)
    else RulesFrom(fs, sel, predict, numAlgs, 1, [(fs[0], sel[0])])
  }

  /************************** reference: rules by row index **************************/

  /** The same break points, keyed by row position instead of row content. */
  type RowRules = seq<(nat, nat)>

  /** Rows only ever arrive in non-decreasing order, so a key that is
      already present is the last one. */
  function PutRow(r: RowRules, k: nat, v: nat): (r': RowRules)
    ensures |r'| == (if |r| > 0 && r[|r| - 1].0 == k then |r| else |r| + 1)
    ensures r'[|r'| - 1] == (k, v)
    ensures forall j :: 0 <= j < |r'| - 1 ==> r'[j] == r[j]
  {
    if |r| > 0 && r[|r| - 1].0 == k then r[|r| - 1 := (k, v)] else r + [(k, v)]
  }

  /** Row positions strictly increase, the first entry is row 0, and every
      row lies before `bound`. */
  predicate Ordered(r: RowRules, bound: nat) {
    |r| > 0
    && (forall j :: 0 <= j < |r| ==> r[j].0 < bound)
    && (forall j, k :: 0 <= j < k < |r| ==> r[j].0 < r[k].0)
  }

  /** Assigning row `k` to rules whose rows are at most `k` keeps them
      ordered, and keeps the first entry unless that entry is row `k`. */
  lemma PutRowOrdered(r: RowRules, k: nat, v: nat)
    requires Ordered(r, k + 1)
    ensures Ordered(PutRow(r, k, v), k + 1)
    ensures r[0].0 != k ==> PutRow(r, k, v)[0] == r[0]
  {
    var r' := PutRow(r, k, v);
    forall j, l | 0 <= j < l < |r'| ensures r'[j].0 < r'[l].0 {
      if l == |r'| - 1 {
        assert r'[j] == r[j];
        if |r'| == |r| {
          assert r[j].0 < r[|r| - 1].0;
        }
      }
    }
  }

  lemma OrderedWeaken(r: RowRules, b: nat, b': nat)
    requires Ordered(r, b) && b <= b'
    ensures Ordered(r, b')
  {
  }

  /** Assigning rows `i - 1` and then `i`, as a switch between them does. */
  lemma PutPairOrdered(r: RowRules, i: nat, a: nat, b: nat)
    requires 1 <= i && Ordered(r, i) && r[0].0 == 0 && (i == 1 ==> a == r[0].1)
    ensures Ordered(PutRow(PutRow(r, i - 1, a), i, b), i + 1)
    ensures PutRow(PutRow(r, i - 1, a), i, b)[0] == r[0]
  {
    PutRowOrdered(r, i - 1, a);
    var r1 := PutRow(r, i - 1, a);
    OrderedWeaken(r1, i, i + 1);
    PutRowOrdered(r1, i, b);
  }

  /** The loop body by row index; `fastest(i)` is the probe's answer at
      row `i`. */
  function RowStep(fs: seq<Triple>, sel: seq<nat>, fastest: nat -> nat, i: nat, r: RowRules): RowRules
    requires 1 <= i < |sel| <= |fs|
  {
    if sel[i - 1] == sel[i] then r
    else if fs[i - 1].n == fs[i].n && fs[i - 1].ppn == fs[i].ppn then
      var f := fastest(i);
      if f == sel[i - 1] then PutRow(r, i, sel[i - 1])
      else if f == sel[i] then PutRow(r, i - 1, sel[i - 1])
      else PutRow(PutRow(r, i - 1, sel[i - 1]), i, f)
    else PutRow(PutRow(r, i - 1, sel[i - 1]), i, sel[i])
  }

  /** A pass at position `i` only touches rows `i - 1` and `i`, so order
      is kept and the first entry stays row 0 with the first selection. */
  lemma RowStepOrdered(fs: seq<Triple>, sel: seq<nat>, fastest: nat -> nat, i: nat, r: RowRules)
    requires 1 <= i < |sel| <= |fs|
    requires Ordered(r, i) && r[0] == (0, sel[0])
    ensures var r' := RowStep(fs, sel, fastest, i, r);
      Ordered(r', i + 1) && r'[0] == (0, sel[0])
  {
    if sel[i - 1] == sel[i] {
      OrderedWeaken(r, i, i + 1);
    } else if fs[i - 1].n == fs[i].n && fs[i - 1].ppn == fs[i].ppn {
      var f := fastest(i);
      if f == sel[i - 1] {
        OrderedWeaken(r, i, i + 1);
        PutRowOrdered(r, i, sel[i - 1]);
      } else if f == sel[i] {
        PutRowOrdered(r, i - 1, sel[i - 1]);
        OrderedWeaken(PutRow(r, i - 1, sel[i - 1]), i, i + 1);
      } else {
        PutPairOrdered(r, i, sel[i - 1], f);
      }
    } else {
      PutPairOrdered(r, i, sel[i - 1], sel[i]);
    }
  }

  function RowRulesFrom(fs: seq<Triple>, sel: seq<nat>, fastest: nat -> nat, i: nat, r: RowRules): RowRules
    requires 1 <= i <= |sel| <= |fs|
    decreases |sel| - i
  {
    if i == |sel| then r
    else RowRulesFrom(fs, sel, fastest, i + 1, RowStep(fs, sel, fastest, i, r))
  }

  lemma {:induction false} RowRulesFromOrdered(fs: seq<Triple>, sel: seq<nat>, fastest: nat -> nat, i: nat, r: RowRules)
    requires 1 <= i <= |sel| <= |fs|
    requires Ordered(r, i) && r[0] == (0, sel[0])
    ensures var r' := RowRulesFrom(fs, sel, fastest, i, r);
      Ordered(r', |sel|) && r'[0] == (0, sel[0])
    decreases |sel| - i
  {
    if i < |sel| {
      RowStepOrdered(fs, sel, fastest, i, r);
      RowRulesFromOrdered(fs, sel, fastest, i + 1, RowStep(fs, sel, fastest, i, r));
    }
  }

  /** The whole loop by row index, starting from row 0's entry. */
  function RowRulesOf(fs: seq<Triple>, sel: seq<nat>, fastest: nat -> nat): RowRules
    requires 1 <= |sel| <= |fs|
  {
    RowRulesFrom(fs, sel, fastest, 1, [(0, sel[0])])
  }

  /** The break points by row index are in strictly increasing row order,
      all rows of the feature space, and the first is row 0 with the first
      selection. */
  lemma RowRulesOrdered(fs: seq<Triple>, sel: seq<nat>, fastest: nat -> nat)
    requires 1 <= |sel| <= |fs|
    ensures var r := RowRulesOf(fs, sel, fastest);
      Ordered(r, |sel|) && r[0] == (0, sel[0])
  {
    RowRulesFromOrdered(fs, sel, fastest, 1, [(0, sel[0])]);
  }

  /** The row-indexed rules read back as rows. */
  function ToRules(fs: seq<Triple>, r: RowRules): (d: Rules)
    requires forall j :: 0 <= j < |r| ==> r[j].0 < |fs|
    ensures |d| == |r|
  {
    seq(|r|, j requires 0 <= j < |r| => (fs[r[j].0], r[j].1))
  }

  lemma ToRulesAt(fs: seq<Triple>, r: RowRules, j: nat)
    requires (forall k :: 0 <= k < |r| ==> r[k].0 < |fs|) && j < |r|
    ensures ToRules(fs, r)[j] == (fs[r[j].0], r[j].1)
  {
  }

  /** Every row of the feature space is a different triple. */
  predicate DistinctRows(fs: seq<Triple>) {
    forall i, j :: 0 <= i < j < |fs| ==> fs[i] != fs[j]
  }

  lemma SortedRowsDistinct(fs: seq<Triple>)
    requires FeatureSpace.StrictlySorted(fs)
    ensures DistinctRows(fs)
  {
    forall i, j | 0 <= i < j < |fs| ensures fs[i] != fs[j] {
      assert LexLess(fs[i], fs[j]);
    }
  }

  /** What the probe answers at each row, as the reference consumes it. */
  function Fastest(fs: seq<Triple>, predict: seq<Point> -> seq<real>, numAlgs: nat): nat -> nat {
    (i: nat) => if i < |fs| && Probe(predict, fs[i], numAlgs).Success? then Probe(predict, fs[i], numAlgs).value else 0
  }

  /** With distinct rows, assigning by row content is assigning by row
      position. */
  lemma PutByRow(fs: seq<Triple>, r: RowRules, k: nat, v: nat)
    requires DistinctRows(fs) && k < |fs| && Ordered(r, k + 1)
    ensures Dicts.Put(ToRules(fs, r), fs[k], v) == ToRules(fs, PutRow(r, k, v))
  {
    if r[|r| - 1].0 == k {
      PutByRowReplace(fs, r, k, v);
    } else {
      PutByRowAppend(fs, r, k, v);
    }
  }

  lemma PutByRowReplace(fs: seq<Triple>, r: RowRules, k: nat, v: nat)
    requires DistinctRows(fs) && k < |fs| && Ordered(r, k + 1) && r[|r| - 1].0 == k
    ensures Dicts.Put(ToRules(fs, r), fs[k], v) == ToRules(fs, PutRow(r, k, v))
  {
    var d := ToRules(fs, r);
    var last := |r| - 1;
    forall j | 0 <= j < last ensures d[j].0 != fs[k] {
      ToRulesAt(fs, r, j);
      assert r[j].0 < r[last].0;
    }
    ToRulesAt(fs, r, last);
    assert Dicts.IndexOf(d, fs[k]) == last;
    var lhs := Dicts.Put(d, fs[k], v);
    var r' := PutRow(r, k, v);
    var rhs := ToRules(fs, r');
    forall j | 0 <= j < |r| ensures lhs[j] == rhs[j] {
      ToRulesAt(fs, r', j);
      if j < last {
        ToRulesAt(fs, r, j);
        assert r'[j] == r[j];
      }
    }
  }

  lemma PutByRowAppend(fs: seq<Triple>, r: RowRules, k: nat, v: nat)
    requires DistinctRows(fs) && k < |fs| && Ordered(r, k + 1) && r[|r| - 1].0 != k
    ensures Dicts.Put(ToRules(fs, r), fs[k], v) == ToRules(fs, PutRow(r, k, v))
  {
    var d := ToRules(fs, r);
    forall j | 0 <= j < |r| ensures d[j].0 != fs[k] {
      ToRulesAt(fs, r, j);
      assert r[j].0 <= r[|r| - 1].0;
    }
    assert !Dicts.HasKey(d, fs[k]);
    var lhs := Dicts.Put(d, fs[k], v);
    var r' := PutRow(r, k, v);
    var rhs := ToRules(fs, r');
    forall j | 0 <= j < |r'| ensures lhs[j] == rhs[j] {
      ToRulesAt(fs, r', j);
      if j < |r| {
        ToRulesAt(fs, r, j);
      }
    }
  }

  /** One loop pass over rows equals one pass over row positions. */
  lemma StepByRow(fs: seq<Triple>, sel: seq<nat>, predict: seq<Point> -> seq<real>, numAlgs: nat,
                  i: nat, r: RowRules)
    requires DistinctRows(fs) && 1 <= i < |sel| <= |fs| && Ordered(r, i) && r[0] == (0, sel[0])
    requires RulesStep(fs, sel, predict, numAlgs, i, ToRules(fs, r)).Success?
    ensures var next := RowStep(fs, sel, Fastest(fs, predict, numAlgs), i, r);
      Ordered(next, i + 1) && next[0] == (0, sel[0])
      && RulesStep(fs, sel, predict, numAlgs, i, ToRules(fs, r)).value == ToRules(fs, next)
  {
    RowStepOrdered(fs, sel, Fastest(fs, predict, numAlgs), i, r);
    if sel[i - 1] != sel[i] {
      PutRowOrdered(r, i - 1, sel[i - 1]);
      var r1 := PutRow(r, i - 1, sel[i - 1]);
      PutByRow(fs, r, i - 1, sel[i - 1]);
      assert Ordered(r1, i + 1);
      if fs[i - 1].n == fs[i].n && fs[i - 1].ppn == fs[i].ppn {
        var f := Probe(predict, fs[i], numAlgs).value;
        assert Fastest(fs, predict, numAlgs)(i) == f;
        if f == sel[i - 1] {
          assert Ordered(r, i + 1);
          PutByRow(fs, r, i, sel[i - 1]);
        } else if f != sel[i] {
          PutByRow(fs, r1, i, f);
        }
      } else {
        PutByRow(fs, r1, i, sel[i]);
      }
    }
  }

  lemma {:induction false} FromByRow(fs: seq<Triple>, sel: seq<nat>, predict: seq<Point> -> seq<real>,
                                     numAlgs: nat, i: nat, r: RowRules) returns (rr: RowRules)
    requires DistinctRows(fs) && 1 <= i <= |sel| <= |fs| && Ordered(r, i) && r[0] == (0, sel[0])
    requires RulesFrom(fs, sel, predict, numAlgs, i, ToRules(fs, r)).Success?
    ensures rr == RowRulesFrom(fs, sel, Fastest(fs, predict, numAlgs), i, r)
    ensures Ordered(rr, |sel|)
    ensures RulesFrom(fs, sel, predict, numAlgs, i, ToRules(fs, r)) == Success(ToRules(fs, rr))
    decreases |sel| - i
  {
    var fast := Fastest(fs, predict, numAlgs);
    if i == |sel| {
      rr := r;
    } else {
      StepByRow(fs, sel, predict, numAlgs, i, r);
      var next := RowStep(fs, sel, fast, i, r);
      RulesFromStep(fs, sel, predict, numAlgs, i, ToRules(fs, r), ToRules(fs, next));
      rr := FromByRow(fs, sel, predict, numAlgs, i + 1, next);
      RowRulesFromStep(fs, sel, fast, i, r);
    }
  }

  lemma RulesFromStep(fs: seq<Triple>, sel: seq<nat>, predict: seq<Point> -> seq<real>, numAlgs: nat,
                      i: nat, bp: Rules, next: Rules)
    requires 1 <= i < |sel| && RulesStep(fs, sel, predict, numAlgs, i, bp) == Success(next)
    ensures RulesFrom(fs, sel, predict, numAlgs, i, bp) == RulesFrom(fs, sel, predict, numAlgs, i + 1, next)
  {
  }

  lemma RowRulesFromStep(fs: seq<Triple>, sel: seq<nat>, fastest: nat -> nat, i: nat, r: RowRules)
    requires 1 <= i < |sel| <= |fs|
    ensures RowRulesFrom(fs, sel, fastest, i, r) == RowRulesFrom(fs, sel, fastest, i + 1, RowStep(fs, sel, fastest, i, r))
  {
  }

  /** When the rows are distinct, `get_rules` computes the row-position
      reference: its keys are rows in strictly increasing position, the
      first being row 0 with the first selection. */
  lemma GetRulesByRow(fs: seq<Triple>, sel: seq<nat>, predict: seq<Point> -> seq<real>, numAlgs: nat)
    requires DistinctRows(fs) && |sel| <= |fs|
    requires GetRules(fs, sel, predict, numAlgs).Success?
    ensures 1 <= |sel|
    ensures var rr := RowRulesOf(fs, sel, Fastest(fs, predict, numAlgs));
      Ordered(rr, |sel|) && rr[0] == (0, sel[0])
      && GetRules(fs, sel, predict, numAlgs).value == ToRules(fs, rr)
  {
    assert ToRules(fs, [(0, sel[0])]) == [(fs[0], sel[0])];
    RowRulesOrdered(fs, sel, Fastest(fs, predict, numAlgs));
    var rr := FromByRow(fs, sel, predict, numAlgs, 1, [(0, sel[0])]);
  }

  /** On a feature space enumerated in increasing order, the break points
      come out in increasing order too, and the first one is row 0 with
      the first selection. */
  lemma GetRulesSorted(fs: seq<Triple>, sel: seq<nat>, predict: seq<Point> -> seq<real>, numAlgs: nat)
    requires FeatureSpace.StrictlySorted(fs) && |sel| <= |fs|
    requires GetRules(fs, sel, predict, numAlgs).Success?
    ensures var d := GetRules(fs, sel, predict, numAlgs).value;
      |d| >= 1 && d[0] == (fs[0], sel[0])
      && forall j, k :: 0 <= j < k < |d| ==> LexLess(d[j].0, d[k].0)
  {
    SortedRowsDistinct(fs);
    GetRulesByRow(fs, sel, predict, numAlgs);
  }

  /************************** what the loop keeps **************************/

  /** The rules as they stand before the pass at position `i`. */
  function RowRulesUpTo(fs: seq<Triple>, sel: seq<nat>, fastest: nat -> nat, i: nat): RowRules
    requires 1 <= i <= |sel| <= |fs|
  {
    if i == 1 then [(0, sel[0])] else RowStep(fs, sel, fastest, i - 1, RowRulesUpTo(fs, sel, fastest, i - 1))
  }

  /** Running the whole loop is running it up to `i` and then on from `i`. */
  lemma {:induction false} SplitAt(fs: seq<Triple>, sel: seq<nat>, fastest: nat -> nat, i: nat)
    requires 1 <= i <= |sel| <= |fs|
    ensures RowRulesOf(fs, sel, fastest) == RowRulesFrom(fs, sel, fastest, i, RowRulesUpTo(fs, sel, fastest, i))
    decreases i
  {
    if i > 1 {
      SplitAt(fs, sel, fastest, i - 1);
    }
  }

  /** `a` and `b` agree on their first `n` entries. */
  predicate Agree(a: RowRules, b: RowRules, n: nat) {
    n <= |a| && n <= |b| && forall j :: 0 <= j < n ==> a[j] == b[j]
  }

  lemma AgreeTrans(a: RowRules, b: RowRules, c: RowRules, n: nat, m: nat)
    requires Agree(a, b, n) && Agree(b, c, m) && n <= m
    ensures Agree(a, c, n)
  {
  }

  /** One pass changes at most the last entry it starts with. */
  lemma StepKeepsFront(fs: seq<Triple>, sel: seq<nat>, fastest: nat -> nat, i: nat, r: RowRules)
    requires 1 <= i < |sel| <= |fs| && |r| > 0
    ensures var next := RowStep(fs, sel, fastest, i, r);
      |r| <= |next| && Agree(r, next, |r| - 1)
  {
    var next := RowStep(fs, sel, fastest, i, r);
    if sel[i - 1] != sel[i] && next != PutRow(r, i, sel[i - 1]) && next != PutRow(r, i - 1, sel[i - 1]) {
      var r1 := PutRow(r, i - 1, sel[i - 1]);
      assert Agree(r, r1, |r| - 1);
      assert Agree(r1, next, |r1| - 1);
    }
  }

  /** Entries before the last one are final. */
  lemma {:induction false} FrontKept(fs: seq<Triple>, sel: seq<nat>, fastest: nat -> nat, i: nat, r: RowRules)
    requires 1 <= i <= |sel| <= |fs| && |r| > 0
    ensures Agree(r, RowRulesFrom(fs, sel, fastest, i, r), |r| - 1)
    decreases |sel| - i
  {
    if i < |sel| {
      var next := RowStep(fs, sel, fastest, i, r);
      StepKeepsFront(fs, sel, fastest, i, r);
      FrontKept(fs, sel, fastest, i + 1, next);
      AgreeTrans(r, next, RowRulesFrom(fs, sel, fastest, i + 1, next), |r| - 1, |next| - 1);
    }
  }

  /** The last entry before the pass at `i` is final too when it can no
      longer be reassigned: it lies before row `i - 1`, or it is row `i - 1`
      holding that row's own selection. */
  predicate Settled(sel: seq<nat>, i: nat, r: RowRules)
    requires 1 <= i <= |sel| && |r| > 0
  {
    r[|r| - 1].0 < i - 1 || r[|r| - 1] == (i - 1, sel[i - 1])
  }

  lemma StepSettled(fs: seq<Triple>, sel: seq<nat>, fastest: nat -> nat, i: nat, r: RowRules)
    requires 1 <= i < |sel| <= |fs| && |r| > 0 && Settled(sel, i, r)
    ensures var next := RowStep(fs, sel, fastest, i, r);
      Agree(r, next, |r|) && (|r| <= |next| - 1 || Settled(sel, i + 1, next))
  {
    var next := RowStep(fs, sel, fastest, i, r);
    if sel[i - 1] != sel[i] {
      var r1 := PutRow(r, i - 1, sel[i - 1]);
      if r[|r| - 1].0 == i - 1 {
        assert Agree(r, r1, |r|);
      }
      assert Agree(r, r1, |r|);
      if next != r1 && next != PutRow(r, i, sel[i - 1]) {
        assert Agree(r1, next, |r1|);
      }
    }
  }

  /** The first pass of the rest of the loop from a settled entry: the
      rest is the rest from `next`, which keeps all of `r`, and either
      grew past it or ends in a settled entry again. */
  lemma SettledStep(fs: seq<Triple>, sel: seq<nat>, fastest: nat -> nat, i: nat, r: RowRules)
    returns (next: RowRules)
    requires 1 <= i < |sel| <= |fs| && |r| > 0 && Settled(sel, i, r)
    ensures RowRulesFrom(fs, sel, fastest, i, r) == RowRulesFrom(fs, sel, fastest, i + 1, next)
    ensures |next| > 0 && Agree(r, next, |r|) && (|r| <= |next| - 1 || Settled(sel, i + 1, next))
  {
    next := RowStep(fs, sel, fastest, i, r);
    StepSettled(fs, sel, fastest, i, r);
  }

  /** A settled entry survives the rest of the loop. */
  lemma {:induction false} SettledKept(fs: seq<Triple>, sel: seq<nat>, fastest: nat -> nat, i: nat, r: RowRules)
    requires 1 <= i <= |sel| <= |fs| && |r| > 0 && Settled(sel, i, r)
    ensures Agree(r, RowRulesFrom(fs, sel, fastest, i, r), |r|)
    decreases |sel| - i, 1
  {
    if i < |sel| {
      var next := SettledStep(fs, sel, fastest, i, r);
      KeptAfterStep(fs, sel, fastest, i + 1, r, next);
    }
  }

  /** The step of `SettledKept` after its first pass `r` to `next`: either
      `next` grew past `r`, so `r` lies in its final front, or its last
      entry is settled in turn. */
  lemma {:induction false} KeptAfterStep(fs: seq<Triple>, sel: seq<nat>, fastest: nat -> nat, i: nat,
                                         r: RowRules, next: RowRules)
    requires 2 <= i <= |sel| <= |fs| && |next| > 0
    requires Agree(r, next, |r|) && (|r| <= |next| - 1 || Settled(sel, i, next))
    ensures Agree(r, RowRulesFrom(fs, sel, fastest, i, next), |r|)
    decreases |sel| - i + 1, 0
  {
    var res := RowRulesFrom(fs, sel, fastest, i, next);
    if |r| > |next| - 1 {
      SettledKept(fs, sel, fastest, i, next);
      AgreeTrans(r, next, res, |r|, |next|);
    } else {
      FrontKept(fs, sel, fastest, i, next);
      AgreeTrans(r, next, res, |r|, |next| - 1);
    }
  }

  /** Where the selection switches between rows whose `n` or `ppn`
      differ, both rows are recorded, the earlier with the old selection
      and the later with the new one, next to each other. */
  lemma SwitchRecordsBoth(fs: seq<Triple>, sel: seq<nat>, fastest: nat -> nat, i: nat)
    requires 1 <= i < |sel| <= |fs| && sel[i - 1] != sel[i]
    requires fs[i - 1].n != fs[i].n || fs[i - 1].ppn != fs[i].ppn
    ensures var res := RowRulesOf(fs, sel, fastest);
      exists j :: 0 <= j < |res| - 1 && res[j] == (i - 1, sel[i - 1]) && res[j + 1] == (i, sel[i])
  {
    var s := RowRulesUpTo(fs, sel, fastest, i);
    var r1 := PutRow(s, i - 1, sel[i - 1]);
    var next := RowStep(fs, sel, fastest, i, s);
    assert next == PutRow(r1, i, sel[i]);
    assert next == RowRulesUpTo(fs, sel, fastest, i + 1);
    var j := |r1| - 1;
    assert next[j] == (i - 1, sel[i - 1]) && next[j + 1] == (i, sel[i]);
    SettledKept(fs, sel, fastest, i + 1, next);
    SplitAt(fs, sel, fastest, i + 1);
    var res := RowRulesOf(fs, sel, fastest);
    assert Agree(next, res, |next|);
    assert res[j] == next[j] && res[j + 1] == next[j + 1];
  }

  /** `get_rules` on distinct rows: where the selection switches between
      rows whose `n` or `ppn` differ, the earlier row is recorded with the
      old selection and the later row, right after it, with the new one. */
  lemma GetRulesRecordsSwitch(fs: seq<Triple>, sel: seq<nat>, predict: seq<Point> -> seq<real>,
                              numAlgs: nat, i: nat)
    requires DistinctRows(fs) && |sel| <= |fs|
    requires GetRules(fs, sel, predict, numAlgs).Success?
    requires 1 <= i < |sel| && sel[i - 1] != sel[i]
    requires fs[i - 1].n != fs[i].n || fs[i - 1].ppn != fs[i].ppn
    ensures var d := GetRules(fs, sel, predict, numAlgs).value;
      exists j :: 0 <= j < |d| - 1 && d[j] == (fs[i - 1], sel[i - 1]) && d[j + 1] == (fs[i], sel[i])
  {
    var fastest := Fastest(fs, predict, numAlgs);
    GetRulesByRow(fs, sel, predict, numAlgs);
    var rr := RowRulesOf(fs, sel, fastest);
    SwitchRecordsBoth(fs, sel, fastest, i);
    var j :| 0 <= j < |rr| - 1 && rr[j] == (i - 1, sel[i - 1]) && rr[j + 1] == (i, sel[i]);
    ToRulesAt(fs, rr, j);
    ToRulesAt(fs, rr, j + 1);
  }
}

=== FILE: json_tree.dfy ===
/** The MPICH algorithm-selection file as a tree (`json_file.py`): every
    JSON object is an insertion-ordered dict from keys to objects.
    `rules_to_dict` folds the break points into three levels of bounds and
    `any_helper` widens the last bound of every level to `=any`. */
module JsonTree {
  import opened Wrappers
  import opened Points
  import opened PyStrings
  import Dicts
  import Encoding
  import Algs
  import JsonRules

  /** A JSON object whose values are objects again; the leaves are `{}`. */
  datatype Tree = Tree(entries: seq<(string, Tree)>)

  type Entries = Dicts.Dict<string, Tree>

  const Empty: Tree := Tree([])

  /** No object repeats a key, at any depth. */
  predicate WellFormed(t: Tree)
    decreases t
  {
    Dicts.KeysDistinct(t.entries)
    && forall i :: 0 <= i < |t.entries| ==> WellFormed(t.entries[i].1)
  }

  /************************** any_helper **************************/

  /** `key[:key.find('=') - 1] + "=any"`: the key's name with its bound
      replaced by `any`. The character before the first `=` is dropped
      with the bound: the `<` of `<=`. */
  function AnyKey(k: string): string {
    Slice(k, 0, Find(k, "=") - 1) + "=any"
  }

  /** For the keys `rules_to_dict` writes, `name<=bound` becomes `name=any`. */
  lemma AnyKeyOfBound(name: string, bound: string)
    requires '=' !in name
    ensures AnyKey(name + "<=" + bound) == name + "=any"
  {
    var k := name + "<=" + bound;
    assert OccursAt(k, "=", |name| + 1);
    forall i | 0 <= i < |name| + 1
      ensures !OccursAt(k, "=", i)
    {
      assert k[i] == if i < |name| then name[i] else '<';
    }
    assert Find(k, "=") == |name| + 1;
    assert k[0..|name|] == name;
  }

  /** Whether `any_helper` stops at this level: the last key starts with
      `algorithm`. */
  predicate IsAlgorithmKey(k: string) {
    Slice(k, 0, 9) == "algorithm"
  }

  /** Every value of `d` with one entry dropped and another assigned
      comes from `d` or is the assigned value. */
  lemma PutValuesFrom(d: Entries, k: string, v: Tree, i: nat)
    requires i < |Dicts.Put(d, k, v)|
    ensures var r := Dicts.Put(d, k, v);
      r[i].1 == v || (i < |d| && r[i].1 == d[i].1)
  {
  }

  /** `any_helper(json_dict)`: nothing happens to an empty object or to one
      whose last key starts with `algorithm`. Otherwise the last entry is
      popped and re-assigned under `AnyKey` of its key (at the end, unless
      that key is already present, whose value is then replaced in place),
      and the helper runs on every value of the renamed object. */
  function AnyHelper(t: Tree): (r: Tree)
    ensures |t.entries| == 0 || IsAlgorithmKey(t.entries[|t.entries| - 1].0) ==> r == t
    ensures |r.entries| <= |t.entries|
    ensures |t.entries| > 0 ==> |r.entries| >= |t.entries| - 1
    decreases t
  {
    var es := t.entries;
    if |es| == 0 then t
    else
      var last := es[|es| - 1];
      if IsAlgorithmKey(last.0) then t
      else
        var renamed := Dicts.Put(DropLast(es), AnyKey(last.0), last.1);
        Tree(seq(|renamed|, i requires 0 <= i < |renamed| =>
          PutValuesFrom(DropLast(es), AnyKey(last.0), last.1, i);
          (renamed[i].0, AnyHelper(renamed[i].1))))
  }

  /** The renamed key collides with none of the other keys. */
  predicate NoClash(es: Entries)
    requires |es| > 0
  {
    !Dicts.HasKey(DropLast(es), AnyKey(es[|es| - 1].0))
  }

  /** What `any_helper` does to one level: unless it stops there, the last
      key (and only it) is renamed and stays last, and every value is
      processed in turn; on a collision the renamed entry takes over the
      colliding one's place and value. */
  lemma AnyHelperLevel(t: Tree)
    ensures |t.entries| == 0 || IsAlgorithmKey(t.entries[|t.entries| - 1].0) ==> AnyHelper(t) == t
    ensures |t.entries| > 0 && !IsAlgorithmKey(t.entries[|t.entries| - 1].0) && NoClash(t.entries) ==>
      var es, r := t.entries, AnyHelper(t).entries;
      |r| == |es|
      && r[|es| - 1] == (AnyKey(es[|es| - 1].0), AnyHelper(es[|es| - 1].1))
      && forall j :: 0 <= j < |es| - 1 ==> r[j] == (es[j].0, AnyHelper(es[j].1))
    ensures |t.entries| > 0 && !IsAlgorithmKey(t.entries[|t.entries| - 1].0) && !NoClash(t.entries) ==>
      var es, r := t.entries, AnyHelper(t).entries;
      var p := Dicts.IndexOf(DropLast(es), AnyKey(es[|es| - 1].0));
      |r| == |es| - 1 && 0 <= p < |r|
      && r[p] == (AnyKey(es[|es| - 1].0), AnyHelper(es[|es| - 1].1))
      && forall j :: 0 <= j < |r| && j != p ==> r[j] == (es[j].0, AnyHelper(es[j].1))
  {
    var es := t.entries;
    if |es| > 0 && !IsAlgorithmKey(es[|es| - 1].0) {
      if NoClash(es) {
        AnyHelperAppends(t);
      } else {
        AnyHelperReplaces(t);
      }
    }
  }

  /** Past the stopping test, the result holds the renamed entries, each
      value processed. */
  lemma AnyHelperRenamed(t: Tree)
    requires |t.entries| > 0 && !IsAlgorithmKey(t.entries[|t.entries| - 1].0)
    ensures var es := t.entries;
      var renamed := Dicts.Put(DropLast(es), AnyKey(es[|es| - 1].0), es[|es| - 1].1);
      var r := AnyHelper(t).entries;
      |r| == |renamed| && forall j :: 0 <= j < |r| ==> r[j] == (renamed[j].0, AnyHelper(renamed[j].1))
  {
  }

  /** Without a collision the renamed entry stays last. */
  lemma AnyHelperAppends(t: Tree)
    requires |t.entries| > 0 && !IsAlgorithmKey(t.entries[|t.entries| - 1].0) && NoClash(t.entries)
    ensures var es, r := t.entries, AnyHelper(t).entries;
      |r| == |es|
      && r[|es| - 1] == (AnyKey(es[|es| - 1].0), AnyHelper(es[|es| - 1].1))
      && forall j :: 0 <= j < |es| - 1 ==> r[j] == (es[j].0, AnyHelper(es[j].1))
  {
    var es := t.entries;
    var front := DropLast(es);
    var renamed := Dicts.Put(front, AnyKey(es[|es| - 1].0), es[|es| - 1].1);
    AnyHelperRenamed(t);
    assert renamed == front + [(AnyKey(es[|es| - 1].0), es[|es| - 1].1)];
    assert forall j :: 0 <= j < |es| - 1 ==> renamed[j] == es[j];
  }

  /** On a collision the renamed entry takes the colliding one's place. */
  lemma AnyHelperReplaces(t: Tree)
    requires |t.entries| > 0 && !IsAlgorithmKey(t.entries[|t.entries| - 1].0) && !NoClash(t.entries)
    ensures var es, r := t.entries, AnyHelper(t).entries;
      var p := Dicts.IndexOf(DropLast(es), AnyKey(es[|es| - 1].0));
      |r| == |es| - 1 && 0 <= p < |r|
      && r[p] == (AnyKey(es[|es| - 1].0), AnyHelper(es[|es| - 1].1))
      && forall j :: 0 <= j < |r| && j != p ==> r[j] == (es[j].0, AnyHelper(es[j].1))
  {
    var es := t.entries;
    var front := DropLast(es);
    var p := Dicts.IndexOf(front, AnyKey(es[|es| - 1].0));
    var renamed := Dicts.Put(front, AnyKey(es[|es| - 1].0), es[|es| - 1].1);
    AnyHelperRenamed(t);
    assert forall j :: 0 <= j < |front| && j != p ==> renamed[j] == es[j];
  }

  /** `any_helper` never makes a key occur twice. */
  lemma {:induction false} AnyHelperWellFormed(t: Tree)
    requires WellFormed(t)
    ensures WellFormed(AnyHelper(t))
    decreases t
  {
    var es := t.entries;
    if |es| > 0 && !IsAlgorithmKey(es[|es| - 1].0) {
      var last := es[|es| - 1];
      var front := DropLast(es);
      assert forall i :: 0 <= i < |front| ==> front[i] == es[i];
      var renamed := Dicts.Put(front, AnyKey(last.0), last.1);
      Dicts.PutKeepsDistinct(front, AnyKey(last.0), last.1);
      var r := AnyHelper(t);
      assert r.entries == seq(|renamed|, i requires 0 <= i < |renamed| => (renamed[i].0, AnyHelper(renamed[i].1)));
      forall i | 0 <= i < |renamed|
        ensures WellFormed(r.entries[i].1)
      {
        PutValuesFrom(front, AnyKey(last.0), last.1, i);
        AnyHelperWellFormed(renamed[i].1);
      }
      assert Dicts.KeysDistinct(r.entries) by {
        assert forall i :: 0 <= i < |renamed| ==> r.entries[i].0 == renamed[i].0;
      }
    }
  }

  /** Renaming a key that does not start with `algorithm` never produces a
      key that starts with `algorithm=`. */
  lemma AnyKeyNotAlgorithm(k: string)
    requires !IsAlgorithmKey(k)
    ensures Slice(AnyKey(k), 0, 10) != "algorithm="
  {
    var p := Slice(k, 0, Find(k, "=") - 1);
    var a := AnyKey(k);
    assert p == k[..|p|];
    if |a| >= 10 {
      assert Slice(a, 0, 10) == a[..10];
      if |p| >= 9 {
        assert a[..9] == k[..9] == Slice(k, 0, 9);
      } else {
        assert a[|p|] == '=';
      }
    }
  }

  /************************** rules_to_dict **************************/

  function SizeKey(v: nat): string { "comm_size<=" + NatToString(v) }
  function PpnKey(v: nat): string { "comm_avg_ppn<=" + NatToString(v) }
  function MsgKey(v: nat): string { "avg_msg_size<=" + NatToString(v) }

  /** The innermost object: `{"algorithm=MPIR_<coll>_intra_<alg>": {}}`. */
  function Leaf(coll: string, alg: string): Tree {
    Tree([("algorithm=MPIR_" + coll + "_intra_" + alg, Empty)])
  }

  /** The entries of `d[k]`, or of a fresh object when `k` is absent. */
  function Child(d: Entries, k: string): Entries {
    match Dicts.Get(d, k)
    case Some(t) => t.entries
    case None => []
  }

  /** `d[a][b][c]`, `None` when any step is missing. */
  function Lookup(d: Entries, a: string, b: string, c: string): Option<Tree> {
    Dicts.Get(Child(Child(d, a), b), c)
  }

  /** `d[a][b] = v`, where `d[a]` is the object the code keeps a handle on. */
  function Update1(d: Entries, a: string, b: string, v: Tree): Entries {
    Dicts.Put(d, a, Tree(Dicts.Put(Child(d, a), b, v)))
  }

  /** `d[a][b][c] = v`, likewise. */
  function Update2(d: Entries, a: string, b: string, c: string, v: Tree): Entries {
    Update1(d, a, b, Tree(Dicts.Put(Child(Child(d, a), b), c, v)))
  }

  /** The loop state of `rules_to_dict`: the object built so far, the last
      decoded `n`, `ppn` and message size (0 before the first rule), and
      the keys of the objects `cur_comm_size_dict` and `cur_comm_ppn_dict`
      refer to. */
  datatype Nest = Nest(root: Entries, n: nat, ppn: nat, msg: nat, sizeKey: string, ppnKey: string)

  const Start: Nest := Nest([], 0, 0, 0, "", "")

  /** The handles name the objects of the current `n` and `ppn`. */
  predicate Consistent(st: Nest) {
    st.n != 0 ==> st.sizeKey == SizeKey(st.n) && st.ppnKey == PpnKey(st.ppn)
  }

  /** The bounds a rule row decodes to: `2 ** (row - 1)`. */
  function Bounds(t: Triple): (nat, nat, nat)
    requires Positive(t)
  {
    (Encoding.Pow2(t.n - 1), Encoding.Pow2(t.ppn - 1), Encoding.Pow2(t.msg - 1))
  }

  predicate Positive(t: Triple) {
    t.n >= 1 && t.ppn >= 1 && t.msg >= 1
  }

  /** The row's bounds differ from the state's last ones, so its message
      level is written. */
  predicate Changes(st: Nest, t: Triple)
    requires Positive(t)
  {
    Bounds(t) != (st.n, st.ppn, st.msg)
  }

  /** `algs[i]` on the dict `read_algs` builds. */
  const KeyError: string := "KeyError: algorithm index"

  /** One pass of the loop over `rules`: a new `n` starts a new size object,
      a new `ppn` (or a new size object) a new ppn object, and a new message
      size (or a new ppn object) writes the leaf. */
  function NestStep(coll: string, algs: seq<string>, rule: (Triple, nat), st: Nest): (r: Result<Nest>)
    ensures r.Failure? <==> !Positive(rule.0) || (Changes(st, rule.0) && rule.1 >= |algs|)
  {
    var t := rule.0;
    if !Positive(t) then Failure(JsonRules.NegativePower)
    else
      var (n, ppn, msg) := Bounds(t);
      var newSize := n != st.n;
      var s1 := if newSize then st.(root := Dicts.Put(st.root, SizeKey(n), Empty), n := n, sizeKey := SizeKey(n))
                else st;
      var newPpn := ppn != s1.ppn || newSize;
      var s2 := if newPpn then s1.(root := Update1(s1.root, s1.sizeKey, PpnKey(ppn), Empty), ppn := ppn,
                                   ppnKey := PpnKey(ppn))
                else s1;
      if msg != s2.msg || newPpn then
        if rule.1 >= |algs| then Failure(KeyError)
        else Success(s2.(root := Update2(s2.root, s2.sizeKey, s2.ppnKey, MsgKey(msg), Leaf(coll, algs[rule.1])),
                         msg := msg))
      else Success(s2)
  }

  function NestFrom(coll: string, algs: seq<string>, rules: JsonRules.Rules, st: Nest): Result<Nest>
    decreases |rules|
  {
    if |rules| == 0 then Success(st)
    else
      var next :- NestStep(coll, algs, rules[0], st);
      NestFrom(coll, algs, rules[1..], next)
  }

  /** `rules_to_dict(collective, rules, algs)`. */
  function RulesToDict(coll: string, rules: JsonRules.Rules, algs: seq<string>): (r: Result<Tree>)
    ensures r.Success? <==> NestFrom(coll, algs, rules, Start).Success?
  {
    var st :- NestFrom(coll, algs, rules, Start);
    Success(AnyHelper(Tree(st.root)))
  }

  /************************** where a rule lands **************************/

  lemma Update2Found(d: Entries, a: string, b: string, c: string, v: Tree)
    ensures Lookup(Update2(d, a, b, c, v), a, b, c) == Some(v)
  {
    var inner := Dicts.Put(Child(Child(d, a), b), c, v);
    var mid := Dicts.Put(Child(d, a), b, Tree(inner));
    Dicts.PutGetSame(d, a, Tree(mid));
    Dicts.PutGetSame(Child(d, a), b, Tree(inner));
    Dicts.PutGetSame(Child(Child(d, a), b), c, v);
  }

  lemma Update2Other(d: Entries, a: string, b: string, c: string, v: Tree, x: string, y: string, z: string)
    requires (x, y, z) != (a, b, c)
    ensures Lookup(Update2(d, a, b, c, v), x, y, z) == Lookup(d, x, y, z)
  {
    var inner := Dicts.Put(Child(Child(d, a), b), c, v);
    var mid := Dicts.Put(Child(d, a), b, Tree(inner));
    if x != a {
      Dicts.PutGetOther(d, a, Tree(mid), x);
    } else {
      Dicts.PutGetSame(d, a, Tree(mid));
      if y != b {
        Dicts.PutGetOther(Child(d, a), b, Tree(inner), y);
      } else {
        Dicts.PutGetSame(Child(d, a), b, Tree(inner));
        Dicts.PutGetOther(Child(Child(d, a), b), c, v, z);
      }
    }
  }

  lemma Update1Other(d: Entries, a: string, b: string, v: Tree, x: string, y: string, z: string)
    requires (x, y) != (a, b)
    ensures Lookup(Update1(d, a, b, v), x, y, z) == Lookup(d, x, y, z)
  {
    var mid := Dicts.Put(Child(d, a), b, v);
    if x != a {
      Dicts.PutGetOther(d, a, Tree(mid), x);
    } else {
      Dicts.PutGetSame(d, a, Tree(mid));
      Dicts.PutGetOther(Child(d, a), b, v, y);
    }
  }

  lemma PutOther(d: Entries, a: string, v: Tree, x: string, y: string, z: string)
    requires x != a
    ensures Lookup(Dicts.Put(d, a, v), x, y, z) == Lookup(d, x, y, z)
  {
    Dicts.PutGetOther(d, a, v, x);
  }

  lemma PrefixedInjective(p: string, s: string, s': string)
    requires p + s == p + s'
    ensures s == s'
  {
    assert s == (p + s)[|p|..];
    assert s' == (p + s')[|p|..];
  }

  /** Distinct bounds give distinct keys. */
  lemma KeysInjective(a: nat, b: nat)
    requires a != b
    ensures SizeKey(a) != SizeKey(b) && PpnKey(a) != PpnKey(b) && MsgKey(a) != MsgKey(b)
  {
    if SizeKey(a) == SizeKey(b) {
      PrefixedInjective("comm_size<=", NatToString(a), NatToString(b));
      NatToStringInjective(a, b);
    }
    if PpnKey(a) == PpnKey(b) {
      PrefixedInjective("comm_avg_ppn<=", NatToString(a), NatToString(b));
      NatToStringInjective(a, b);
    }
    if MsgKey(a) == MsgKey(b) {
      PrefixedInjective("avg_msg_size<=", NatToString(a), NatToString(b));
      NatToStringInjective(a, b);
    }
  }

  /** The path a rule row is filed under. */
  function PathOf(t: Triple): (string, string, string)
    requires Positive(t)
  {
    var (n, ppn, msg) := Bounds(t);
    (SizeKey(n), PpnKey(ppn), MsgKey(msg))
  }

  /** A rule that changes the bounds is filed under its own path, holding
      its algorithm, and the state moves on to its bounds with handles on
      its objects. A rule that changes nothing is skipped. */
  lemma NestStepFiles(coll: string, algs: seq<string>, rule: (Triple, nat), st: Nest)
    requires Consistent(st) && NestStep(coll, algs, rule, st).Success?
    ensures var r := NestStep(coll, algs, rule, st).value;
      var (a, b, c) := PathOf(rule.0);
      Consistent(r)
      && (Changes(st, rule.0) ==>
            (r.n, r.ppn, r.msg) == Bounds(rule.0)
            && rule.1 < |algs| && Lookup(r.root, a, b, c) == Some(Leaf(coll, algs[rule.1])))
      && (!Changes(st, rule.0) ==> r == st)
  {
    var t := rule.0;
    var (n, ppn, msg) := Bounds(t);
    if Changes(st, t) {
      var newSize := n != st.n;
      var s1 := if newSize then st.(root := Dicts.Put(st.root, SizeKey(n), Empty), n := n, sizeKey := SizeKey(n))
                else st;
      var newPpn := ppn != s1.ppn || newSize;
      var s2 := if newPpn then s1.(root := Update1(s1.root, s1.sizeKey, PpnKey(ppn), Empty), ppn := ppn,
                                   ppnKey := PpnKey(ppn))
                else s1;
      assert s2.sizeKey == SizeKey(n) && s2.ppnKey == PpnKey(ppn);
      Update2Found(s2.root, s2.sizeKey, s2.ppnKey, MsgKey(msg), Leaf(coll, algs[rule.1]));
    }
  }

  /** Decoding keeps rows apart: different coordinates give different
      bounds. */
  lemma BoundsApart(x: int, y: int)
    requires x >= 1 && y >= 1 && x != y
    ensures Encoding.Pow2(x - 1) != Encoding.Pow2(y - 1)
  {
    if Encoding.Pow2(x - 1) == Encoding.Pow2(y - 1) {
      Encoding.Pow2Injective(x - 1, y - 1);
    }
  }

  /** A pass with a new `n` writes only under that `n`'s size key. */
  lemma KeepsNewSize(coll: string, algs: seq<string>, rule: (Triple, nat), st: Nest, x: string, y: string, z: string)
    requires Positive(rule.0) && NestStep(coll, algs, rule, st).Success?
    requires Bounds(rule.0).0 != st.n && x != SizeKey(Bounds(rule.0).0)
    ensures Lookup(NestStep(coll, algs, rule, st).value.root, x, y, z) == Lookup(st.root, x, y, z)
  {
    var (n, ppn, msg) := Bounds(rule.0);
    var leaf := Leaf(coll, algs[rule.1]);
    var root1 := Dicts.Put(st.root, SizeKey(n), Empty);
    var root2 := Update1(root1, SizeKey(n), PpnKey(ppn), Empty);
    PutOther(st.root, SizeKey(n), Empty, x, y, z);
    Update1Other(root1, SizeKey(n), PpnKey(ppn), Empty, x, y, z);
    Update2Other(root2, SizeKey(n), PpnKey(ppn), MsgKey(msg), leaf, x, y, z);
  }

  /** A pass with the same `n` and a new `ppn` writes only under that
      `ppn`'s key inside the current size object. */
  lemma KeepsNewPpn(coll: string, algs: seq<string>, rule: (Triple, nat), st: Nest, x: string, y: string, z: string)
    requires Positive(rule.0) && NestStep(coll, algs, rule, st).Success?
    requires Bounds(rule.0).0 == st.n && Bounds(rule.0).1 != st.ppn
    requires (x, y) != (st.sizeKey, PpnKey(Bounds(rule.0).1))
    ensures Lookup(NestStep(coll, algs, rule, st).value.root, x, y, z) == Lookup(st.root, x, y, z)
  {
    var (n, ppn, msg) := Bounds(rule.0);
    var leaf := Leaf(coll, algs[rule.1]);
    var root2 := Update1(st.root, st.sizeKey, PpnKey(ppn), Empty);
    Update1Other(st.root, st.sizeKey, PpnKey(ppn), Empty, x, y, z);
    Update2Other(root2, st.sizeKey, PpnKey(ppn), MsgKey(msg), leaf, x, y, z);
  }

  /** A pass with the same `n` and `ppn` and a new message size writes only
      that message size's entry of the current ppn object. */
  lemma KeepsNewMsg(coll: string, algs: seq<string>, rule: (Triple, nat), st: Nest, x: string, y: string, z: string)
    requires Positive(rule.0) && NestStep(coll, algs, rule, st).Success?
    requires Bounds(rule.0).0 == st.n && Bounds(rule.0).1 == st.ppn && Bounds(rule.0).2 != st.msg
    requires (x, y, z) != (st.sizeKey, st.ppnKey, MsgKey(Bounds(rule.0).2))
    ensures Lookup(NestStep(coll, algs, rule, st).value.root, x, y, z) == Lookup(st.root, x, y, z)
  {
    var (n, ppn, msg) := Bounds(rule.0);
    Update2Other(st.root, st.sizeKey, st.ppnKey, MsgKey(msg), Leaf(coll, algs[rule.1]), x, y, z);
  }

  /** For rows in increasing order `u <= t0 < t`, the level where `t`
      first differs from `t0` separates `t`'s path from `u`'s. */
  lemma PathsApart(t0: Triple, t: Triple, u: Triple)
    requires Positive(t0) && Positive(t) && Positive(u)
    requires LexLess(t0, t) && (u == t0 || LexLess(u, t0))
    ensures t.n != t0.n ==> Bounds(t).0 != Bounds(t0).0 && PathOf(u).0 != SizeKey(Bounds(t).0)
    ensures t.n == t0.n && t.ppn != t0.ppn ==>
      Bounds(t).1 != Bounds(t0).1 && (PathOf(u).0, PathOf(u).1) != (SizeKey(Bounds(t).0), PpnKey(Bounds(t).1))
    ensures t.n == t0.n && t.ppn == t0.ppn ==> Bounds(t).2 != Bounds(t0).2 && PathOf(u) != PathOf(t)
  {
    if t.n != t0.n {
      BoundsApart(t.n, t0.n);
      BoundsApart(t.n, u.n);
      KeysInjective(Bounds(t).0, Bounds(u).0);
    } else if t.ppn != t0.ppn {
      BoundsApart(t.ppn, t0.ppn);
      if u.n != t.n {
        BoundsApart(t.n, u.n);
        KeysInjective(Bounds(t).0, Bounds(u).0);
      } else {
        BoundsApart(t.ppn, u.ppn);
        KeysInjective(Bounds(t).1, Bounds(u).1);
      }
    } else {
      BoundsApart(t.msg, t0.msg);
      if u.n != t.n {
        BoundsApart(t.n, u.n);
        KeysInjective(Bounds(t).0, Bounds(u).0);
      } else if u.ppn != t.ppn {
        BoundsApart(t.ppn, u.ppn);
        KeysInjective(Bounds(t).1, Bounds(u).1);
      } else {
        BoundsApart(t.msg, u.msg);
        KeysInjective(Bounds(t).2, Bounds(u).2);
      }
    }
  }

  /** Where the pass for `t` writes, seen from the state the previous row
      `t0` left: it is never the path of a row `u` at most `t0`. */
  lemma WritesApart(st: Nest, t0: Triple, t: Triple, u: Triple)
    requires Positive(t0) && Positive(t) && Positive(u)
    requires Consistent(st) && (st.n, st.ppn, st.msg) == Bounds(t0)
    requires LexLess(t0, t) && (u == t0 || LexLess(u, t0))
    ensures var (x, y, z) := PathOf(u);
      var b := Bounds(t);
      if b.0 != st.n then x != SizeKey(b.0)
      else if b.1 != st.ppn then (x, y) != (st.sizeKey, PpnKey(b.1))
      else b.2 != st.msg && (x, y, z) != (st.sizeKey, st.ppnKey, MsgKey(b.2))
  {
    PathsApart(t0, t, u);
  }

  /** On rows arriving in increasing order, a pass never disturbs what an
      earlier row (`u`, at most the previous row `t0`) filed. */
  lemma NestStepKeeps(coll: string, algs: seq<string>, rule: (Triple, nat), st: Nest, t0: Triple, u: Triple)
    requires Positive(t0) && Positive(u) && Positive(rule.0)
    requires Consistent(st) && (st.n, st.ppn, st.msg) == Bounds(t0)
    requires LexLess(t0, rule.0) && (u == t0 || LexLess(u, t0))
    requires NestStep(coll, algs, rule, st).Success?
    ensures var (x, y, z) := PathOf(u);
      Lookup(NestStep(coll, algs, rule, st).value.root, x, y, z) == Lookup(st.root, x, y, z)
  {
    var (x, y, z) := PathOf(u);
    var b := Bounds(rule.0);
    WritesApart(st, t0, rule.0, u);
    if b.0 != st.n {
      KeepsNewSize(coll, algs, rule, st, x, y, z);
    } else if b.1 != st.ppn {
      KeepsNewPpn(coll, algs, rule, st, x, y, z);
    } else {
      KeepsNewMsg(coll, algs, rule, st, x, y, z);
    }
  }

  /** Rule rows strictly increase, as `get_rules` produces them on an
      increasing feature space. */
  predicate SortedRules(rules: JsonRules.Rules) {
    forall j, k :: 0 <= j < k < |rules| ==> LexLess(rules[j].0, rules[k].0)
  }

  /** Every rule can be filed: its row decodes, its algorithm exists. */
  predicate Fileable(rules: JsonRules.Rules, algs: seq<string>) {
    forall j :: 0 <= j < |rules| ==> Positive(rules[j].0) && rules[j].1 < |algs|
  }

  /** The rule decodes, its algorithm exists, and
      `root[comm_size<=..][comm_avg_ppn<=..][avg_msg_size<=..]` is that
      algorithm's leaf. */
  predicate Filed(root: Entries, coll: string, algs: seq<string>, rule: (Triple, nat)) {
    && Positive(rule.0) && rule.1 < |algs|
    && var (x, y, z) := PathOf(rule.0);
       Lookup(root, x, y, z) == Some(Leaf(coll, algs[rule.1]))
  }

  lemma UnfoldNestFrom(coll: string, algs: seq<string>, rules: JsonRules.Rules, i: nat, st: Nest)
    requires i < |rules| && NestStep(coll, algs, rules[i], st).Success?
    ensures NestFrom(coll, algs, rules[i..], st)
         == NestFrom(coll, algs, rules[i + 1..], NestStep(coll, algs, rules[i], st).value)
  {
    assert rules[i..][0] == rules[i] && rules[i..][1..] == rules[i + 1..];
  }

  /** One later rule leaves an earlier rule's leaf where it was. */
  lemma KeepsFiled(coll: string, algs: seq<string>, rule: (Triple, nat), st: Nest, t0: Triple, prev: (Triple, nat))
    requires Positive(t0) && Positive(prev.0) && Positive(rule.0) && prev.1 < |algs|
    requires Consistent(st) && (st.n, st.ppn, st.msg) == Bounds(t0)
    requires LexLess(t0, rule.0) && (prev.0 == t0 || LexLess(prev.0, t0))
    requires NestStep(coll, algs, rule, st).Success?
    requires Filed(st.root, coll, algs, prev)
    ensures Filed(NestStep(coll, algs, rule, st).value.root, coll, algs, prev)
  {
    NestStepKeeps(coll, algs, rule, st, t0, prev.0);
  }

  /** The state of the loop once rules `0 .. i - 1` are processed: the
      handles and bounds are those of rule `i - 1`, and every rule so far
      is filed. */
  predicate Filing(coll: string, algs: seq<string>, rules: JsonRules.Rules, i: nat, st: Nest) {
    && SortedRules(rules) && Fileable(rules, algs) && 1 <= i <= |rules|
    && Consistent(st) && (st.n, st.ppn, st.msg) == Bounds(rules[i - 1].0)
    && forall j {:trigger Filed(st.root, coll, algs, rules[j])} ::
         0 <= j < i ==> Filed(st.root, coll, algs, rules[j])
  }

  /** The pass for rule `i` files it and keeps every earlier rule filed. */
  lemma FileStep(coll: string, algs: seq<string>, rules: JsonRules.Rules, i: nat, st: Nest) returns (next: Nest)
    requires Filing(coll, algs, rules, i, st) && i < |rules|
    ensures NestFrom(coll, algs, rules[i..], st) == NestFrom(coll, algs, rules[i + 1..], next)
    ensures Filing(coll, algs, rules, i + 1, next)
  {
    var rule := rules[i];
    var t0 := rules[i - 1].0;
    PathsApart(t0, rule.0, t0);
    assert Changes(st, rule.0);
    next := NestStep(coll, algs, rule, st).value;
    NestStepFiles(coll, algs, rule, st);
    UnfoldNestFrom(coll, algs, rules, i, st);
    KeepsEarlier(coll, algs, rules, i, st, next);
  }

  /** The pass for rule `i` keeps every earlier rule filed. */
  lemma KeepsEarlier(coll: string, algs: seq<string>, rules: JsonRules.Rules, i: nat, st: Nest, next: Nest)
    requires SortedRules(rules) && Fileable(rules, algs) && 1 <= i < |rules|
    requires Consistent(st) && (st.n, st.ppn, st.msg) == Bounds(rules[i - 1].0)
    requires NestStep(coll, algs, rules[i], st) == Success(next)
    requires forall j {:trigger Filed(st.root, coll, algs, rules[j])} ::
      0 <= j < i ==> Filed(st.root, coll, algs, rules[j])
    ensures forall j {:trigger Filed(next.root, coll, algs, rules[j])} ::
      0 <= j < i ==> Filed(next.root, coll, algs, rules[j])
  {
    forall j | 0 <= j < i
      ensures Filed(next.root, coll, algs, rules[j])
    {
      KeepsFiled(coll, algs, rules[i], st, rules[i - 1].0, rules[j]);
    }
  }

  lemma {:induction false} NestFromFiles(coll: string, algs: seq<string>, rules: JsonRules.Rules, i: nat, st: Nest)
    returns (res: Nest)
    requires Filing(coll, algs, rules, i, st)
    ensures NestFrom(coll, algs, rules[i..], st) == Success(res)
    ensures Filing(coll, algs, rules, |rules|, res)
    decreases |rules| - i
  {
    if i < |rules| {
      var next := FileStep(coll, algs, rules, i, st);
      res := NestFromFiles(coll, algs, rules, i + 1, next);
    } else {
      assert rules[i..] == [];
      res := st;
    }
  }

  /** Before the `=any` widening, `rules_to_dict` on increasing, fileable
      rules succeeds and files every rule under the path of its bounds,
      holding its own algorithm: a later rule never overwrites an earlier
      one. */
  lemma RulesNestFiles(coll: string, algs: seq<string>, rules: JsonRules.Rules)
    requires SortedRules(rules) && Fileable(rules, algs)
    ensures NestFrom(coll, algs, rules, Start).Success?
    ensures forall j :: 0 <= j < |rules| ==> Filed(NestFrom(coll, algs, rules, Start).value.root, coll, algs, rules[j])
  {
    if |rules| > 0 {
      var rule := rules[0];
      assert Changes(Start, rule.0);
      var next := NestStep(coll, algs, rule, Start).value;
      NestStepFiles(coll, algs, rule, Start);
      UnfoldNestFrom(coll, algs, rules, 0, Start);
      assert rules[0..] == rules;
      var res := NestFromFiles(coll, algs, rules, 1, next);
    }
  }

  /** The first rule builds one path of fresh objects down to its leaf. */
  lemma FirstStep(coll: string, algs: seq<string>, rule: (Triple, nat))
    requires Positive(rule.0) && rule.1 < |algs|
    ensures var (n, ppn, msg) := Bounds(rule.0);
      NestStep(coll, algs, rule, Start)
      == Success(Nest([(SizeKey(n), Tree([(PpnKey(ppn), Tree([(MsgKey(msg), Leaf(coll, algs[rule.1]))]))]))],
                      n, ppn, msg, SizeKey(n), PpnKey(ppn)))
  {
    var (n, ppn, msg) := Bounds(rule.0);
    var leaf := Leaf(coll, algs[rule.1]);
    var root1 := Dicts.Put([], SizeKey(n), Empty);
    assert root1 == [(SizeKey(n), Empty)];
    assert Child(root1, SizeKey(n)) == [];
    var mid := Dicts.Put([], PpnKey(ppn), Empty);
    assert mid == [(PpnKey(ppn), Empty)];
    var root2 := Update1(root1, SizeKey(n), PpnKey(ppn), Empty);
    assert Dicts.IndexOf(root1, SizeKey(n)) == 0;
    assert root2 == root1[0 := (SizeKey(n), Tree(mid))];
    assert root2 == [(SizeKey(n), Tree(mid))];
    assert Child(root2, SizeKey(n)) == mid;
    assert Child(mid, PpnKey(ppn)) == [];
    var inner := Dicts.Put([], MsgKey(msg), leaf);
    assert inner == [(MsgKey(msg), leaf)];
    var mid' := Dicts.Put(mid, PpnKey(ppn), Tree(inner));
    assert Dicts.IndexOf(mid, PpnKey(ppn)) == 0;
    assert mid' == [(PpnKey(ppn), Tree(inner))];
    var root3 := Update2(root2, SizeKey(n), PpnKey(ppn), MsgKey(msg), leaf);
    assert Dicts.IndexOf(root2, SizeKey(n)) == 0;
    assert root3 == [(SizeKey(n), Tree(mid'))];
  }

  /** An object with a single non-algorithm key: the key is widened and
      its value processed. */
  lemma AnyHelperSingle(k: string, v: Tree)
    requires !IsAlgorithmKey(k)
    ensures AnyHelper(Tree([(k, v)])) == Tree([(AnyKey(k), AnyHelper(v))])
  {
    AnyHelperLevel(Tree([(k, v)]));
  }

  /** The bound keys `rules_to_dict` writes are not algorithm keys. */
  lemma BoundKeyNotAlgorithm(name: string, bound: string)
    requires |name| >= 9 && name[..9] != "algorithm"
    ensures !IsAlgorithmKey(name + "<=" + bound)
  {
    assert Slice(name + "<=" + bound, 0, 9) == name[..9];
  }

  lemma LeafKeyIsAlgorithm(coll: string, alg: string)
    ensures IsAlgorithmKey(Leaf(coll, alg).entries[0].0)
  {
    var k := Leaf(coll, alg).entries[0].0;
    assert Slice(k, 0, 9) == k[..9] == "algorithm=MPIR_"[..9];
  }

  /** One level holding a single bound key `name<=v`. */
  lemma WidenBound(name: string, v: nat, child: Tree)
    requires name in {"comm_size", "comm_avg_ppn", "avg_msg_size"}
    ensures AnyHelper(Tree([(name + "<=" + NatToString(v), child)])) == Tree([(name + "=any", AnyHelper(child))])
  {
    assert name[0] != 'a' || name[1] != 'l';
    BoundKeyNotAlgorithm(name, NatToString(v));
    AnyKeyOfBound(name, NatToString(v));
    AnyHelperSingle(name + "<=" + NatToString(v), child);
  }

  /** A single path of bound keys down to an algorithm leaf is widened
      at every level. */
  lemma WidenPath(coll: string, alg: string, n: nat, ppn: nat, msg: nat)
    ensures AnyHelper(Tree([(SizeKey(n), Tree([(PpnKey(ppn), Tree([(MsgKey(msg), Leaf(coll, alg))]))]))]))
      == Tree([("comm_size=any", Tree([("comm_avg_ppn=any", Tree([("avg_msg_size=any", Leaf(coll, alg))]))]))])
  {
    var t2 := Tree([(PpnKey(ppn), Tree([(MsgKey(msg), Leaf(coll, alg))]))]);
    WidenPpnLevel(coll, alg, ppn, msg);
    assert SizeKey(n) == "comm_size" + "<=" + NatToString(n);
    WidenBound("comm_size", n, t2);
    assert "comm_size" + "=any" == "comm_size=any";
  }

  lemma WidenPpnLevel(coll: string, alg: string, ppn: nat, msg: nat)
    ensures AnyHelper(Tree([(PpnKey(ppn), Tree([(MsgKey(msg), Leaf(coll, alg))]))]))
      == Tree([("comm_avg_ppn=any", Tree([("avg_msg_size=any", Leaf(coll, alg))]))])
  {
    var t3 := Tree([(MsgKey(msg), Leaf(coll, alg))]);
    WidenMsgLevel(coll, alg, msg);
    assert PpnKey(ppn) == "comm_avg_ppn" + "<=" + NatToString(ppn);
    WidenBound("comm_avg_ppn", ppn, t3);
    assert "comm_avg_ppn" + "=any" == "comm_avg_ppn=any";
  }

  lemma WidenMsgLevel(coll: string, alg: string, msg: nat)
    ensures AnyHelper(Tree([(MsgKey(msg), Leaf(coll, alg))])) == Tree([("avg_msg_size=any", Leaf(coll, alg))])
  {
    var leaf := Leaf(coll, alg);
    LeafKeyIsAlgorithm(coll, alg);
    assert AnyHelper(leaf) == leaf;
    assert MsgKey(msg) == "avg_msg_size" + "<=" + NatToString(msg);
    WidenBound("avg_msg_size", msg, leaf);
    assert "avg_msg_size" + "=any" == "avg_msg_size=any";
  }

  /** A single rule: every level has one key, so every level is widened
      and its algorithm applies to every communicator and message size. */
  lemma SingleRuleAppliesEverywhere(coll: string, algs: seq<string>, rule: (Triple, nat))
    requires Positive(rule.0) && rule.1 < |algs|
    ensures RulesToDict(coll, [rule], algs)
      == Success(Tree([("comm_size=any", Tree([("comm_avg_ppn=any", Tree([("avg_msg_size=any",
           Leaf(coll, algs[rule.1]))]))]))]))
  {
    var (n, ppn, msg) := Bounds(rule.0);
    var root := [(SizeKey(n), Tree([(PpnKey(ppn), Tree([(MsgKey(msg), Leaf(coll, algs[rule.1]))]))]))];
    assert NestFrom(coll, algs, [rule], Start).Success? && NestFrom(coll, algs, [rule], Start).value.root == root by {
      FirstStep(coll, algs, rule);
      assert [rule][0] == rule && [rule][1..] == [];
    }
    WidenPath(coll, algs[rule.1], n, ppn, msg);
  }
}

=== FILE: local.dfy ===
/** The local scheduler, for testing: every request fits, any number of
    times, and the topology has no state. */
module Local {
  import opened Wrappers

  datatype Topology = Topology

  /** `get_topology(path)`: the path is ignored. */
  function GetTopology(path: string): Topology {
    Topology
  }

  /** `fit_point(n)` always answers `['local']` and changes nothing. */
  function FitPoint(t: Topology, n: int): (r: (Topology, Option<seq<string>>))
    ensures r.1 == Some(["local"])
  {
    (t, Some(["local"]))
  }

  /** `reset_fit` does nothing. */
  function Reset(t: Topology): Topology {
    t
  }

  /** `gen_topology_file(n)` returns no path. */
  function GenTopologyFile(n: int): (r: Option<string>)
    ensures r.None?
  {
    None
  }

  /** `create_nodefile(nodes, path)` writes nothing and returns no path. */
  function CreateNodefile(nodes: seq<string>, path: string): (r: Option<string>)
    ensures r.None?
  {
    None
  }

  function RunFits(t: Topology, ns: seq<int>): (Topology, seq<Option<seq<string>>>)
    decreases |ns|
  {
    if |ns| == 0 then (t, [])
    else
      var f := FitPoint(t, ns[0]);
      var rest := RunFits(f.0, ns[1..]);
      (rest.0, [f.1] + rest.1)
  }

  /** Every fit of every run succeeds with `['local']`, with or without
      resets in between. */
  lemma {:induction false} EveryFitSucceeds(t: Topology, ns: seq<int>)
    ensures var r := RunFits(t, ns);
      |r.1| == |ns| && forall i :: 0 <= i < |ns| ==> r.1[i] == Some(["local"])
    decreases |ns|
  {
    if |ns| > 0 {
      EveryFitSucceeds(FitPoint(t, ns[0]).0, ns[1..]);
    }
  }
}

=== FILE: nodefile.dfy ===
/** Nodefile contents, as written by every `create_nodefile` that writes one:
    one node name per line and no newline after the last name. */
module Nodefile {

  predicate NoNewline(s: string) {
    forall i :: 0 <= i < |s| ==> s[i] != '\n'
  }

  /** What `create_nodefile(nodes, path)` writes: node `i` followed by "\n"
      for every `i` but the last, then the last node on its own. */
  function Content(nodes: seq<string>): (r: string)
    ensures |nodes| == 0 ==> r == ""
    ensures |nodes| > 0 ==> |r| >= |nodes[|nodes| - 1]| && r[|r| - |nodes[|nodes| - 1]|..] == nodes[|nodes| - 1]
  {
    if |nodes| == 0 then ""
    else if |nodes| == 1 then nodes[0]
    else nodes[0] + "\n" + Content(nodes[1..])
  }

  /** Index of the first newline of `s`, or `|s|` when there is none. */
  function LineEnd(s: string): (k: nat)
    ensures k <= |s|
    ensures k < |s| ==> s[k] == '\n'
    ensures forall i :: 0 <= i < k ==> s[i] != '\n'
  {
    if |s| == 0 || s[0] == '\n' then 0 else 1 + LineEnd(s[1..])
  }

  /** Python's `f.readlines()`: every line keeps its "\n", and a final line
      without one is still returned. */
  function ReadLines(s: string): seq<string>
    decreases |s|
  {
    if |s| == 0 then []
    else
      var k := LineEnd(s);
      if k == |s| then [s] else [s[..k + 1]] + ReadLines(s[k + 1..])
  }

  /** What a reader of the nodefile sees: line `i` is node `i` plus "\n", except
      the last line, which is the last node with no newline. */
  function ExpectedLines(nodes: seq<string>): (r: seq<string>)
    ensures |r| == |nodes|
  {
    if |nodes| == 0 then []
    else if |nodes| == 1 then [nodes[0]]
    else [nodes[0] + "\n"] + ExpectedLines(nodes[1..])
  }

  lemma LineEndOfJoin(a: string, b: string)
    requires NoNewline(a)
    ensures LineEnd(a + "\n" + b) == |a|
  {
    var s := a + "\n" + b;
    assert s[|a|] == '\n';
  }

  /** Reading back a nodefile yields exactly the lines the test suite expects,
      provided no node name is empty or contains a newline. */
  lemma {:induction false} ReadBackNodefile(nodes: seq<string>)
    requires forall i :: 0 <= i < |nodes| ==> |nodes[i]| > 0 && NoNewline(nodes[i])
    ensures ReadLines(Content(nodes)) == ExpectedLines(nodes)
  {
    if |nodes| == 1 {
      var s := nodes[0];
      assert LineEnd(s) == |s|;
    } else if |nodes| > 1 {
      var s := Content(nodes);
      var rest := Content(nodes[1..]);
      assert s == nodes[0] + "\n" + rest;
      LineEndOfJoin(nodes[0], rest);
      assert s[..|nodes[0]| + 1] == nodes[0] + "\n";
      assert s[|nodes[0]| + 1..] == rest;
      ReadBackNodefile(nodes[1..]);
    }
  }
}

=== FILE: normalizations.dfy ===
/** Normalisation of inputs and measured outputs (`normalizations.py`),
    over reals. `log10` and `10 **` are parameters: the model knows only
    what a lemma assumes of them. */
module Normalizations {
  import opened Points
  import opened Algs
  import opened Arith
  import Encoding

  /** The modes modelled: "alg", "log", and any other name, which leaves
      the values alone. */
  datatype NormMode = AlgNorm | LogNorm | NoNorm

  /** `undo_preprocess_input(X, "log")`: columns 0..2 become `2 ** (v - 1)`,
      the algorithm column stays. */
  function UndoPreprocessRow(p: Point): (r: (real, real, real, real))
    ensures p.n >= 1 ==> r.0 == Encoding.Pow2(p.n - 1) as real
    ensures p.ppn >= 1 ==> r.1 == Encoding.Pow2(p.ppn - 1) as real
    ensures p.msg >= 1 ==> r.2 == Encoding.Pow2(p.msg - 1) as real
    ensures r.3 == p.alg as real
  {
    (Encoding.Decode(p.n), Encoding.Decode(p.ppn), Encoding.Decode(p.msg), p.alg as real)
  }

  function UndoPreprocessInput(x: seq<Point>): (r: seq<(real, real, real, real)>)
    ensures |r| == |x|
    ensures forall i :: 0 <= i < |x| ==> r[i] == UndoPreprocessRow(x[i])
  {
    seq(|x|, i requires 0 <= i < |x| => UndoPreprocessRow(x[i]))
  }

  /** Undoing the input encoding is `unprocess_features` on the first three
      columns, so it inverts `preprocess_features` on powers of two
      (`Encoding.UnprocessPreprocess`). */
  lemma UndoPreprocessIsUnprocess(p: Point)
    ensures var u := Encoding.UnprocessFeatures(p.n, p.ppn, p.msg, "log");
      UndoPreprocessRow(p) == (u.0, u.1, u.2, p.alg as real)
  {
  }

  /** The row `[10, 5, 3, 2]` of the example decodes to `[512, 16, 4, 2]`. */
  lemma UndoPreprocessExample()
    ensures UndoPreprocessRow(Point(10, 5, 3, 2)) == (512.0, 16.0, 4.0, 2.0)
  {
    assert Encoding.Pow2(2) == 4 && Encoding.Pow2(4) == 16;
    assert Encoding.Pow2(9) == 512;
  }

  /************************** output normalisation **************************/

  /** Every complete block of `numAlgs` values starts with a non-zero value
      (a zero would make numpy divide by zero). */
  predicate HeadsNonZero(y: seq<real>, numAlgs: nat)
    requires numAlgs >= 1
    decreases |y|
  {
    |y| < numAlgs || (y[0] != 0.0 && HeadsNonZero(y[numAlgs..], numAlgs))
  }

  /** One complete block divided by its own first value. */
  function DivideBlock(b: seq<real>): (r: seq<real>)
    requires |b| > 0 && b[0] != 0.0
    ensures |r| == |b|
  {
    seq(|b|, x requires 0 <= x < |b| => b[x] / b[0])
  }

  /** The `while` loop of the "alg" mode: each complete block is divided by
      its original first element (read once, before the block changes); a
      trailing incomplete block is left as it is. */
  function DivideBlocks(y: seq<real>, numAlgs: nat): (r: seq<real>)
    requires numAlgs >= 1 && HeadsNonZero(y, numAlgs)
    ensures |r| == |y|
    decreases |y|
  {
    if |y| < numAlgs then y
    else DivideBlock(y[..numAlgs]) + DivideBlocks(y[numAlgs..], numAlgs)
  }

  /** `np.log10(y) + 1`, elementwise. */
  function LogPlusOne(y: seq<real>, log10: real -> real): (r: seq<real>)
    ensures |r| == |y|
  {
    seq(|y|, i requires 0 <= i < |y| => log10(y[i]) + 1.0)
  }

  /** `normalize_output(y, num_algs, norm_type)`: the normalised values and
      an untouched copy of the input. */
  function NormalizeOutput(y: seq<real>, numAlgs: nat, mode: NormMode, log10: real -> real): (r: (seq<real>, seq<real>))
    requires mode.AlgNorm? ==> numAlgs >= 1 && HeadsNonZero(y, numAlgs)
    ensures r.1 == y
    ensures |r.0| == |y|
    ensures mode.NoNorm? ==> r.0 == y
  {
    match mode
    case AlgNorm => (LogPlusOne(DivideBlocks(y, numAlgs), log10), y)
    case LogNorm => (LogPlusOne(y, log10), y)
    case NoNorm => (y, y)
  }

  /** Inside complete block `b`, value `x` is divided by the block's first
      value; values of the trailing incomplete block are left alone. */
  lemma {:induction false} DivideBlocksCell(y: seq<real>, numAlgs: nat, b: nat, x: nat)
    requires numAlgs >= 1 && HeadsNonZero(y, numAlgs)
    requires x < numAlgs && b * numAlgs + x < |y|
    ensures (b + 1) * numAlgs <= |y| ==>
      y[b * numAlgs] != 0.0 && DivideBlocks(y, numAlgs)[b * numAlgs + x] == y[b * numAlgs + x] / y[b * numAlgs]
    ensures (b + 1) * numAlgs > |y| ==> DivideBlocks(y, numAlgs)[b * numAlgs + x] == y[b * numAlgs + x]
    decreases b
  {
    if |y| >= numAlgs {
      if b == 0 {
        assert DivideBlocks(y, numAlgs)[x] == DivideBlock(y[..numAlgs])[x];
      } else {
        var rest := y[numAlgs..];
        assert (b - 1) * numAlgs + x == b * numAlgs + x - numAlgs;
        assert (b + 1) * numAlgs == b * numAlgs + numAlgs;
        assert b * numAlgs == (b - 1) * numAlgs + numAlgs;
        DivideBlocksCell(rest, numAlgs, b - 1, x);
        assert DivideBlocks(y, numAlgs)[b * numAlgs + x] == DivideBlocks(rest, numAlgs)[(b - 1) * numAlgs + x];
      }
    } else {
      assert b == 0 by {
        if b > 0 { MulMonotone(1, b, numAlgs); }
      }
    }
  }

  /** The first value of every complete block normalises to exactly one. */
  lemma BlockHeadIsOne(y: seq<real>, numAlgs: nat, b: nat)
    requires numAlgs >= 1 && HeadsNonZero(y, numAlgs)
    requires (b + 1) * numAlgs <= |y|
    ensures DivideBlocks(y, numAlgs)[b * numAlgs] == 1.0
  {
    var k := b * numAlgs;
    assert (b + 1) * numAlgs == k + numAlgs;
    DivideBlocksCell(y, numAlgs, b, 0);
    assert y[k] != 0.0 && DivideBlocks(y, numAlgs)[k] == y[k] / y[k];
    DivideSelf(y[k]);
  }

  lemma DivideSelf(v: real)
    requires v != 0.0
    ensures v / v == 1.0
  {
  }

  /** The first example: one block [10, 11, 12] becomes [1, 1.1, 1.2]. */
  lemma NormalizeExample()
    ensures DivideBlocks([10.0, 11.0, 12.0], 3) == [1.0, 1.1, 1.2]
  {
    var y := [10.0, 11.0, 12.0];
    assert y[3..] == [];
    assert y[..3] == y;
  }

  /************************** undoing it **************************/

  /** The inner loop of `undo_normalize_output` ("alg") for one query row:
      `c * y_nf[j]` for every training row `j` with the query's three
      features and algorithm 0. */
  /** Real product, as a function so that equal arguments give provably
      equal products. */
  function Times(a: real, b: real): real {
    a * b
  }

  function MatchRows(x: seq<Point>, ynf: seq<real>, t: Triple, c: real): (r: seq<real>)
    requires |ynf| == |x|
    ensures |r| <= |x|
    ensures forall v :: v in r ==> FromMatch(x, ynf, t, c, v)
    decreases |x|
  {
    if |x| == 0 then []
    else
      var rest := MatchRows(x[1..], ynf[1..], t, c);
      MatchInTail(x, ynf, t, c, rest);
      (if TripleOf(x[0]) == t && x[0].alg == 0 then [Times(c, ynf[0])] else []) + rest
  }

  /** `v` is `c` times the raw timing of some algorithm-0 training row with
      triple `t`. */
  predicate FromMatch(x: seq<Point>, ynf: seq<real>, t: Triple, c: real, v: real)
    requires |ynf| == |x|
  {
    exists j :: 0 <= j < |x| && IsAlgZeroRowOf(x[j], t) && v == Times(c, ynf[j])
  }

  /** What matches in the tail matches in the whole. */
  lemma MatchInTail(x: seq<Point>, ynf: seq<real>, t: Triple, c: real, rest: seq<real>)
    requires |ynf| == |x| > 0
    requires forall v :: v in rest ==> FromMatch(x[1..], ynf[1..], t, c, v)
    ensures forall v :: v in rest ==> FromMatch(x, ynf, t, c, v)
  {
    forall v | v in rest ensures FromMatch(x, ynf, t, c, v) {
      var j :| 0 <= j < |x| - 1 && IsAlgZeroRowOf(x[1..][j], t) && v == Times(c, ynf[1..][j]);
      assert x[1..][j] == x[j + 1] && ynf[1..][j] == ynf[j + 1];
    }
  }

  /** `undo_normalize_output(X, y_nf, X_set, y_set, num_algs, "alg")`. */
  function UndoNormalize(x: seq<Point>, ynf: seq<real>, xs: seq<Point>, ys: seq<real>, exp10: real -> real): (r: seq<real>)
    requires |ynf| == |x| && |ys| == |xs|
    ensures forall v :: v in r ==> Undone(x, ynf, xs, ys, exp10, v)
    decreases |xs|
  {
    if |xs| == 0 then []
    else
      var head := MatchRows(x, ynf, TripleOf(xs[0]), exp10(ys[0] - 1.0));
      var rest := UndoNormalize(x, ynf, xs[1..], ys[1..], exp10);
      UndoneCons(x, ynf, xs, ys, exp10, head, rest);
      head + rest
  }

  /** `v` is the raw timing of an algorithm-0 training row sharing the
      triple of some query row `q`, scaled by `10 ** (y_set[q] - 1)`. */
  predicate Undone(x: seq<Point>, ynf: seq<real>, xs: seq<Point>, ys: seq<real>, exp10: real -> real, v: real)
    requires |ynf| == |x| && |ys| == |xs|
  {
    exists q :: 0 <= q < |xs| && FromMatch(x, ynf, TripleOf(xs[q]), exp10(ys[q] - 1.0), v)
  }

  /** The first query row's matches, then the rest's, are all undone values. */
  lemma UndoneCons(x: seq<Point>, ynf: seq<real>, xs: seq<Point>, ys: seq<real>, exp10: real -> real,
                   head: seq<real>, rest: seq<real>)
    requires |ynf| == |x| && |ys| == |xs| > 0
    requires forall v :: v in head ==> FromMatch(x, ynf, TripleOf(xs[0]), exp10(ys[0] - 1.0), v)
    requires forall v :: v in rest ==> Undone(x, ynf, xs[1..], ys[1..], exp10, v)
    ensures forall v :: v in head + rest ==> Undone(x, ynf, xs, ys, exp10, v)
  {
    forall v | v in head + rest ensures Undone(x, ynf, xs, ys, exp10, v) {
      if v in head {
        assert FromMatch(x, ynf, TripleOf(xs[0]), exp10(ys[0] - 1.0), v);
      } else {
        assert v in rest;
        assert Undone(x, ynf, xs[1..], ys[1..], exp10, v);
        var q :| 0 <= q < |xs| - 1 && FromMatch(x, ynf, TripleOf(xs[1..][q]), exp10(ys[1..][q] - 1.0), v);
        assert xs[1..][q] == xs[q + 1] && ys[1..][q] == ys[q + 1];
      }
    }
  }

  /** The "log" mode undone: `10 ** (y - 1)` elementwise. */
  function UndoLog(ys: seq<real>, exp10: real -> real): (r: seq<real>)
    ensures |r| == |ys|
  {
    seq(|ys|, i requires 0 <= i < |ys| => exp10(ys[i] - 1.0))
  }

  predicate IsAlgZeroRowOf(p: Point, t: Triple) {
    TripleOf(p) == t && p.alg == 0
  }

  /** With exactly one matching training row the inner loop emits exactly
      one value, from that row. */
  lemma {:induction false} MatchRowsUnique(x: seq<Point>, ynf: seq<real>, t: Triple, c: real, j: nat)
    requires |ynf| == |x| && j < |x| && UniqueMatch(x, t, j)
    ensures MatchRows(x, ynf, t, c) == [Times(c, ynf[j])]
    decreases |x|
  {
    var tx, ty := x[1..], ynf[1..];
    assert forall i :: 0 <= i < |tx| ==> tx[i] == x[i + 1];
    if j == 0 {
      forall i | 0 <= i < |tx| ensures !IsAlgZeroRowOf(tx[i], t) {
        assert tx[i] == x[i + 1];
      }
      MatchRowsNone(tx, ty, t, c);
      assert TripleOf(x[0]) == t && x[0].alg == 0;
      var v := Times(c, ynf[j]);
      assert MatchRows(x, ynf, t, c) == [v] + MatchRows(tx, ty, t, c);
      assert [v] + [] == [v];
    } else {
      assert !IsAlgZeroRowOf(x[0], t);
      assert tx[j - 1] == x[j] && ty[j - 1] == ynf[j];
      forall i | 0 <= i < |tx| && i != j - 1 ensures !IsAlgZeroRowOf(tx[i], t) {
        assert tx[i] == x[i + 1];
      }
      MatchRowsUnique(tx, ty, t, c, j - 1);
      var m := MatchRows(tx, ty, t, c);
      assert MatchRows(x, ynf, t, c) == [] + m;
      var v := Times(c, ynf[j]);
      assert |m| == 1 && m[0] == v;
      assert m == [v];
      assert [] + m == m;
    }
  }

  lemma {:induction false} MatchRowsNone(x: seq<Point>, ynf: seq<real>, t: Triple, c: real)
    requires |ynf| == |x|
    requires forall i :: 0 <= i < |x| ==> !IsAlgZeroRowOf(x[i], t)
    ensures MatchRows(x, ynf, t, c) == []
    decreases |x|
  {
    if |x| > 0 {
      MatchRowsNone(x[1..], ynf[1..], t, c);
    }
  }

  lemma {:induction false} UndoNormalizeAppend(x: seq<Point>, ynf: seq<real>, xs1: seq<Point>, ys1: seq<real>,
                                               xs2: seq<Point>, ys2: seq<real>, exp10: real -> real)
    requires |ynf| == |x| && |ys1| == |xs1| && |ys2| == |xs2|
    ensures UndoNormalize(x, ynf, xs1 + xs2, ys1 + ys2, exp10)
         == UndoNormalize(x, ynf, xs1, ys1, exp10) + UndoNormalize(x, ynf, xs2, ys2, exp10)
    decreases |xs1|
  {
    if |xs1| == 0 {
      assert xs1 + xs2 == xs2 && ys1 + ys2 == ys2;
    } else {
      var xs, ys := xs1 + xs2, ys1 + ys2;
      assert xs[0] == xs1[0] && ys[0] == ys1[0];
      assert xs[1..] == xs1[1..] + xs2 && ys[1..] == ys1[1..] + ys2;
      UndoNormalizeAppend(x, ynf, xs1[1..], ys1[1..], xs2, ys2, exp10);
      UndoNormalizeHead(x, ynf, xs, ys, exp10);
      UndoNormalizeHead(x, ynf, xs1, ys1, exp10);
      ConcatAssoc(MatchRows(x, ynf, TripleOf(xs1[0]), exp10(ys1[0] - 1.0)),
                  UndoNormalize(x, ynf, xs1[1..], ys1[1..], exp10), UndoNormalize(x, ynf, xs2, ys2, exp10));
    }
  }

  /** One step of the outer loop. */
  lemma UndoNormalizeHead(x: seq<Point>, ynf: seq<real>, xs: seq<Point>, ys: seq<real>, exp10: real -> real)
    requires |ynf| == |x| && |ys| == |xs| > 0
    ensures UndoNormalize(x, ynf, xs, ys, exp10)
         == MatchRows(x, ynf, TripleOf(xs[0]), exp10(ys[0] - 1.0)) + UndoNormalize(x, ynf, xs[1..], ys[1..], exp10)
  {
  }

  lemma ConcatAssoc<T>(a: seq<T>, b: seq<T>, c: seq<T>)
    ensures a + (b + c) == (a + b) + c
  {
  }

  /** The training data determines, for each feature triple of `fs`, one
      algorithm-0 row whose raw value is the head of that triple's block of
      `y`. */
  predicate Anchored(x: seq<Point>, ynf: seq<real>, fs: seq<Triple>, y: seq<real>, numAlgs: nat)
    requires |ynf| == |x| && |y| == |fs| * numAlgs
  {
    forall b :: 0 <= b < |fs| ==> b * numAlgs < |y| && AnchoredAt(x, ynf, fs[b], y[b * numAlgs])
  }

  /** Exactly one algorithm-0 training row has triple `t`, and its raw
      value is `head`. */
  predicate AnchoredAt(x: seq<Point>, ynf: seq<real>, t: Triple, head: real)
    requires |ynf| == |x|
  {
    exists j :: 0 <= j < |x| && UniqueMatch(x, t, j) && ynf[j] == head
  }

  predicate UniqueMatch(x: seq<Point>, t: Triple, j: nat)
    requires j < |x|
  {
    IsAlgZeroRowOf(x[j], t) && forall i :: 0 <= i < |x| && i != j ==> !IsAlgZeroRowOf(x[i], t)
  }

  /** One value of the round trip: `10 ** ((log10(v / h) + 1) - 1) * h == v`. */
  lemma RoundTripCell(h: real, v: real, z: real, log10: real -> real, exp10: real -> real)
    requires h > 0.0 && v > 0.0 && z == log10(v / h) + 1.0
    requires forall u: real :: u > 0.0 ==> exp10(log10(u)) == u
    ensures Times(exp10(z - 1.0), h) == v
  {
    var q := v / h;
    assert q > 0.0;
    assert z - 1.0 == log10(q);
    assert exp10(log10(q)) == q;
    assert q * h == v;
  }

  /** One block of the round trip: the `A` rows of one triple come back. */
  lemma RoundTripBlock(x: seq<Point>, ynf: seq<real>, t: Triple, yb: seq<real>, numAlgs: nat,
                       log10: real -> real, exp10: real -> real, j: nat)
    requires numAlgs >= 1 && |yb| == numAlgs && |ynf| == |x|
    requires forall i :: 0 <= i < |yb| ==> yb[i] > 0.0
    requires forall v: real :: v > 0.0 ==> exp10(log10(v)) == v
    requires j < |x| && UniqueMatch(x, t, j) && ynf[j] == yb[0]
    ensures UndoNormalize(x, ynf, AddAlgsOne(t, numAlgs), LogPlusOne(DivideBlock(yb), log10), exp10) == yb
  {
    var xs := AddAlgsOne(t, numAlgs);
    var ys := LogPlusOne(DivideBlock(yb), log10);
    var d := DivideBlock(yb);
    UndoNormalizeCells(x, ynf, xs, ys, exp10, t, j);
    var r := UndoNormalize(x, ynf, xs, ys, exp10);
    assert |r| == |yb|;
    forall a | 0 <= a < numAlgs ensures r[a] == yb[a] {
      assert r[a] == Times(exp10(ys[a] - 1.0), yb[0]);
      assert ys[a] == log10(yb[a] / yb[0]) + 1.0;
      RoundTripCell(yb[0], yb[a], ys[a], log10, exp10);
    }
  }

  /** When every query row has the same triple `t` and one training row
      matches it, each query row yields one value. */
  lemma {:induction false} UndoNormalizeCells(x: seq<Point>, ynf: seq<real>, xs: seq<Point>, ys: seq<real>,
                                              exp10: real -> real, t: Triple, j: nat)
    requires |ynf| == |x| && |ys| == |xs|
    requires j < |x| && UniqueMatch(x, t, j)
    requires forall a :: 0 <= a < |xs| ==> TripleOf(xs[a]) == t
    ensures var r := UndoNormalize(x, ynf, xs, ys, exp10);
      |r| == |xs| && forall a :: 0 <= a < |xs| ==> r[a] == Times(exp10(ys[a] - 1.0), ynf[j])
    decreases |xs|
  {
    if |xs| > 0 {
      MatchRowsUnique(x, ynf, t, exp10(ys[0] - 1.0), j);
      UndoNormalizeCells(x, ynf, xs[1..], ys[1..], exp10, t, j);
    }
  }

  lemma {:induction false} PositiveHeads(y: seq<real>, numAlgs: nat)
    requires numAlgs >= 1 && forall i :: 0 <= i < |y| ==> y[i] > 0.0
    ensures HeadsNonZero(y, numAlgs)
    decreases |y|
  {
    if |y| >= numAlgs {
      PositiveHeads(y[numAlgs..], numAlgs);
    }
  }

  /** Dropping the first triple keeps the anchoring of the others. */
  lemma AnchoredTail(x: seq<Point>, ynf: seq<real>, fs: seq<Triple>, y: seq<real>, numAlgs: nat)
    requires numAlgs >= 1 && |ynf| == |x| && |fs| > 0 && |y| == |fs| * numAlgs
    requires Anchored(x, ynf, fs, y, numAlgs)
    ensures |y[numAlgs..]| == |fs[1..]| * numAlgs
    ensures Anchored(x, ynf, fs[1..], y[numAlgs..], numAlgs)
  {
    assert |fs| * numAlgs == (|fs| - 1) * numAlgs + numAlgs;
    var rest := y[numAlgs..];
    forall b | 0 <= b < |fs[1..]|
      ensures b * numAlgs < |rest| && AnchoredAt(x, ynf, fs[1..][b], rest[b * numAlgs])
    {
      assert fs[1..][b] == fs[b + 1];
      assert (b + 1) * numAlgs == b * numAlgs + numAlgs;
      CellInRange(b, 0, numAlgs, |fs[1..]|);
      assert AnchoredAt(x, ynf, fs[b + 1], y[(b + 1) * numAlgs]);
      assert rest[b * numAlgs] == y[(b + 1) * numAlgs];
    }
  }

  /** The normalised values split at the first block. */
  lemma NormalizeSplit(y: seq<real>, numAlgs: nat, log10: real -> real)
    requires numAlgs >= 1 && |y| >= numAlgs && HeadsNonZero(y, numAlgs)
    ensures LogPlusOne(DivideBlocks(y, numAlgs), log10)
         == LogPlusOne(DivideBlock(y[..numAlgs]), log10) + LogPlusOne(DivideBlocks(y[numAlgs..], numAlgs), log10)
  {
    var a, b := DivideBlock(y[..numAlgs]), DivideBlocks(y[numAlgs..], numAlgs);
    assert DivideBlocks(y, numAlgs) == a + b;
    var l, la, lb := LogPlusOne(a + b, log10), LogPlusOne(a, log10), LogPlusOne(b, log10);
    forall i | 0 <= i < |l| ensures l[i] == (la + lb)[i] {
      if i < |a| {
        assert (a + b)[i] == a[i];
      } else {
        assert (a + b)[i] == b[i - |a|];
      }
    }
  }

  /** Normalising in "alg" mode and undoing it gives the raw values back,
      when every queried triple has one algorithm-0 training row holding
      the head of its block (as for the training set itself, or the example
      of the query rows `(1,1,2,*)` and `(1,2,2,*)`). */
  lemma {:induction false} RoundTrip(x: seq<Point>, ynf: seq<real>, fs: seq<Triple>, y: seq<real>, numAlgs: nat,
                                     log10: real -> real, exp10: real -> real)
    requires numAlgs >= 1 && |ynf| == |x| && |y| == |fs| * numAlgs
    requires forall i :: 0 <= i < |y| ==> y[i] > 0.0
    requires forall v: real :: v > 0.0 ==> exp10(log10(v)) == v
    requires Anchored(x, ynf, fs, y, numAlgs)
    ensures HeadsNonZero(y, numAlgs)
    ensures UndoNormalize(x, ynf, AddAlgs(fs, numAlgs),
                          NormalizeOutput(y, numAlgs, AlgNorm, log10).0, exp10) == y
    decreases |fs|
  {
    PositiveHeads(y, numAlgs);
    if |fs| > 0 {
      MulMonotone(1, |fs|, numAlgs);
      var yb, rest := y[..numAlgs], y[numAlgs..];
      assert y == yb + rest;
      assert AddAlgs(fs, numAlgs) == AddAlgsOne(fs[0], numAlgs) + AddAlgs(fs[1..], numAlgs);
      AnchoredTail(x, ynf, fs, y, numAlgs);
      RoundTrip(x, ynf, fs[1..], rest, numAlgs, log10, exp10);
      assert 0 * numAlgs == 0;
      assert AnchoredAt(x, ynf, fs[0], y[0]);
      var j :| 0 <= j < |x| && UniqueMatch(x, fs[0], j) && ynf[j] == y[0];
      RoundTripBlock(x, ynf, fs[0], yb, numAlgs, log10, exp10, j);
      NormalizeSplit(y, numAlgs, log10);
      UndoNormalizeAppend(x, ynf, AddAlgsOne(fs[0], numAlgs), LogPlusOne(DivideBlock(yb), log10),
                          AddAlgs(fs[1..], numAlgs), LogPlusOne(DivideBlocks(rest, numAlgs), log10), exp10);
    }
  }

  /** "log" mode round trip: `10 ** (log10(y) + 1 - 1) == y`. */
  lemma LogRoundTrip(y: seq<real>, log10: real -> real, exp10: real -> real)
    requires forall i :: 0 <= i < |y| ==> y[i] > 0.0
    requires forall v: real :: v > 0.0 ==> exp10(log10(v)) == v
    ensures UndoLog(NormalizeOutput(y, 1, LogNorm, log10).0, exp10) == y
  {
    var n := NormalizeOutput(y, 1, LogNorm, log10).0;
    forall i | 0 <= i < |y| ensures UndoLog(n, exp10)[i] == y[i] {
      assert n[i] - 1.0 == log10(y[i]);
    }
  }
}

=== FILE: param_algs.dfy ===
/** Parameterised algorithm names (`param_algs_to_json.py`): a name such as
    `recursive_multiplying4` is the algorithm `recursive_multiplying` with
    its radix 4, which the selection file spells as the rule `k=4`. */
module ParamAlgs {
  import opened Wrappers
  import opened PyStrings

  /** Where the run of digits at the end of `s` starts: the loop of
      `split_param_alg` walks back from the end while it sees digits. */
  function DigitRunStart(s: string): (r: nat)
    ensures r <= |s|
    ensures AllDigits(s[r..])
    ensures r == 0 || !IsDigit(s[r - 1])
    decreases |s|
  {
    if |s| == 0 || !IsDigit(s[|s| - 1]) then |s|
    else
      var r := DigitRunStart(s[..|s| - 1]);
      assert s[..|s| - 1][r..] + [s[|s| - 1]] == s[r..];
      assert r == 0 || s[..|s| - 1][r - 1] == s[r - 1];
      r
  }

  /** `split_param_alg(alg_str)`: the name and the value of its trailing
      digits, or the whole string and `None` when it does not end in a
      digit. */
  function SplitParamAlg(s: string): (r: (string, Option<nat>))
    ensures r.1.None? <==> |s| == 0 || !IsDigit(s[|s| - 1])
    ensures r.1.None? ==> r.0 == s
    ensures r.1.Some? ==>
      |r.0| < |s| && s[..|r.0|] == r.0 && AllDigits(s[|r.0|..])
      && (|r.0| == 0 || !IsDigit(r.0[|r.0| - 1]))
      && r.1.value == DigitsValue(s[|r.0|..])
  {
    var i := DigitRunStart(s);
    if i == |s| then (s, None)
    else (s[..i], Some(DigitsValue(s[i..])))
  }

  /** The split takes the whole run of trailing digits: a name that does
      not end in a digit, followed by the decimal form of a value, splits
      back into the two. */
  lemma SplitJoin(name: string, v: nat)
    requires |name| == 0 || !IsDigit(name[|name| - 1])
    ensures SplitParamAlg(name + NatToString(v)) == (name, Some(v))
  {
    var s := name + NatToString(v);
    var r := SplitParamAlg(s);
    var digits := NatToString(v);
    assert IsDigit(s[|s| - 1]) by {
      assert s[|s| - 1] == digits[|digits| - 1];
    }
    assert s[..|name|] == name && s[|name|..] == digits;
    DigitsOfNatToString(v);
  }

  /** Splitting and joining the digits back gives the string again; a
      string with a number keeps any leading zeros in the digit run, so
      only the value, not the spelling, survives the split. */
  lemma SplitThenJoin(s: string)
    ensures var (name, v) := SplitParamAlg(s);
      v.Some? ==>
        exists digits :: AllDigits(digits) && |digits| > 0 && s == name + digits && DigitsValue(digits) == v.value
  {
    var (name, v) := SplitParamAlg(s);
    if v.Some? {
      var digits := s[|name|..];
      assert s == name + digits;
    }
  }

  /** The algorithms whose parameter is the radix `k`. */
  predicate HasRadix(alg: string) {
    alg in {"recexch", "recexch_doubling", "recexch_halving", "tree", "recursive_multiplying", "k_brucks"}
  }

  /** `str(v)` for any integer. */
  function IntToString(v: int): (r: string)
    ensures v >= 0 ==> r == NatToString(v)
    ensures v < 0 ==> r == "-" + NatToString(-v)
  {
    if v < 0 then "-" + NatToString(-v) else NatToString(v)
  }

  /** `Warning(...)` only builds an object, so an unknown name with a value
      goes on to `None + "="`. */
  const TypeError: string := "TypeError: unsupported operand type(s) for +: 'NoneType' and 'str'"

  /** `get_param_rule(collective, alg_str, param_value)`: no value, no rule;
      a radix algorithm's value becomes `k=<value>`; any other name with a
      value fails. The collective is not consulted. */
  function GetParamRule(coll: string, alg: string, value: Option<int>): (r: Result<Option<string>>)
    ensures value.None? ==> r == Success(None)
    ensures value.Some? && HasRadix(alg) ==> r == Success(Some("k=" + IntToString(value.value)))
    ensures value.Some? && !HasRadix(alg) ==> r.Failure?
  {
    if value.None? then Success(None)
    else if HasRadix(alg) then Success(Some("k=" + IntToString(value.value)))
    else Failure(TypeError)
  }

  /** The rule for a parameterised name carries the value written in the
      name: splitting `alg + str(v)` and asking for the rule gives `k=v`,
      and parsing the part after `k=` gives `v` back. */
  lemma ParamRuleRoundTrip(coll: string, alg: string, v: nat)
    requires HasRadix(alg)
    ensures var (name, value) := SplitParamAlg(alg + NatToString(v));
      GetParamRule(coll, name, value.(value := value.value as int)) == Success(Some("k=" + NatToString(v)))
      && ParseInt(GetParamRule(coll, name, value.(value := value.value as int)).value.value[2..]) == Some(v as int)
  {
    assert alg[|alg| - 1] !in "0123456789";
    SplitJoin(alg, v);
    var rule := "k=" + NatToString(v);
    assert rule[2..] == NatToString(v);
    ParseIntOfNatToString(v);
  }

  lemma SplitExamples()
    ensures SplitParamAlg("recursive_doubling") == ("recursive_doubling", None)
    ensures SplitParamAlg("recursive_multiplying2") == ("recursive_multiplying", Some(2))
    ensures SplitParamAlg("recursive_multiplying16") == ("recursive_multiplying", Some(16))
  {
    SplitJoin("recursive_multiplying", 2);
    SplitJoin("recursive_multiplying", 16);
    assert NatToString(2) == "2";
    assert NatToString(16) == NatToString(1) + [DigitChar(6)] == "16";
    assert "recursive_multiplying" + "2" == "recursive_multiplying2";
    assert "recursive_multiplying" + "16" == "recursive_multiplying16";
  }

  lemma ParamRuleExamples()
    ensures GetParamRule("allreduce", "recursive_multiplying", Some(2)) == Success(Some("k=2"))
    ensures GetParamRule("allreduce", "tree", Some(2)) == Success(Some("k=2"))
    ensures GetParamRule("allreduce", "recexch_halving", Some(2)) == Success(Some("k=2"))
    ensures GetParamRule("allreduce", "k_brucks", None) == Success(None)
    ensures GetParamRule("allreduce", "ring", Some(2)).Failure?
  {
    assert IntToString(2) == "2";
    assert "k=" + "2" == "k=2";
    assert "ring" != "tree";
  }
}

=== FILE: point_selection.dfy ===
/** Choosing where to sample next (`point_selection.py`): the test row, or
    the batch of test rows, with the largest jackknife variance. The forest
    is given as its prediction matrix on the test rows. */
module PointSelection {
  import opened Wrappers
  import Jackknife

  /************************** argmax **************************/

  /** `i` is where `np.argmax` lands: a maximum, and the first one. */
  predicate IsFirstMax(v: seq<real>, i: int) {
    0 <= i < |v|
    && (forall j :: 0 <= j < |v| ==> v[j] <= v[i])
    && (forall j :: 0 <= j < i ==> v[j] < v[i])
  }

  /** The first maximum of a non-empty vector, scanning from the front. */
  function FirstMax(v: seq<real>): (r: nat)
    requires |v| > 0
    ensures IsFirstMax(v, r)
    decreases |v|
  {
    if |v| == 1 then 0
    else
      var i := FirstMax(v[..|v| - 1]);
      assert forall j :: 0 <= j < |v| - 1 ==> v[..|v| - 1][j] == v[j];
      if v[|v| - 1] > v[i] then |v| - 1 else i
  }

  /** `np.argmax(v)`; an empty vector raises. */
  function Argmax(v: seq<real>): (r: Result<nat>)
    ensures r.Success? <==> |v| > 0
    ensures r.Success? ==> IsFirstMax(v, r.value)
  {
    if |v| == 0 then Failure("ValueError: attempt to get argmax of an empty sequence")
    else Success(FirstMax(v))
  }

  /** There is only one first maximum, so `Argmax` is fully determined by
      `IsFirstMax`. */
  lemma FirstMaxUnique(v: seq<real>, i: int, k: int)
    requires IsFirstMax(v, i) && IsFirstMax(v, k)
    ensures i == k
  {
    assert v[i] == v[k];
    assert !(i < k);
    assert !(k < i);
  }

  /** Ties go to the first index. */
  lemma ArgmaxTieExample()
    ensures Argmax([1.0, 3.0, 3.0, 2.0]) == Success(1)
  {
    var v := [1.0, 3.0, 3.0, 2.0];
    assert IsFirstMax(v, 1);
    FirstMaxUnique(v, FirstMax(v), 1);
  }

  /************************** single point **************************/

  /** `point_selection_single(regressor, X_train, X_test)`: the test row with
      the largest variance and its index. `preds` are the members'
      predictions on `xtest`; `xtrain` is not consulted. */
  function SelectSingle<T>(preds: seq<seq<real>>, xtrain: seq<T>, xtest: seq<T>): (r: Result<(T, nat)>)
    requires |preds| >= 2 && Jackknife.Rectangular(preds, |xtest|)
    ensures r.Success? <==> |xtest| > 0
    ensures r.Success? ==> r.value.1 < |xtest| && r.value.0 == xtest[r.value.1]
    ensures r.Success? ==> IsFirstMax(Jackknife.Variances(preds, |xtest|), r.value.1)
  {
    var i :- Argmax(Jackknife.Variances(preds, |xtest|));
    Success((xtest[i], i))
  }

  /************************** batch **************************/

  /** `np.argpartition(v, -b)` accepts `kth = -b` only inside `[-n, n - 1]`. */
  predicate BatchSizeValid(n: nat, b: int) {
    1 - n <= b <= n
  }

  /** How many indices `[-b:]` keeps: the last `b`, or for `b <= 0` the
      slice `[|b|:]`, i.e. `n + b` of them (all `n` when `b == 0`). */
  function BatchCount(n: nat, b: int): (r: nat)
    requires BatchSizeValid(n, b)
    ensures b > 0 ==> r == b
    ensures b <= 0 ==> r == n + b
    ensures r <= n
  {
    if b > 0 then b else n + b
  }

  predicate Distinct(s: seq<nat>) {
    forall i, j :: 0 <= i < j < |s| ==> s[i] != s[j]
  }

  predicate InRange(s: seq<nat>, n: nat) {
    forall i :: 0 <= i < |s| ==> s[i] < n
  }

  /** `sel` picks distinct rows of `v`, and every picked row's variance is
      at least that of every row left out. */
  predicate IsTopSelection(v: seq<real>, sel: seq<nat>) {
    InRange(sel, |v|) && Distinct(sel)
    && forall i, j :: 0 <= i < |sel| && 0 <= j < |v| && j !in sel ==> v[sel[i]] >= v[j]
  }

  /** The position, inside `idx`, of an index with the largest value. */
  function MaxPosition(v: seq<real>, idx: seq<nat>): (p: nat)
    requires |idx| > 0 && InRange(idx, |v|)
    ensures p < |idx|
    ensures forall q :: 0 <= q < |idx| ==> v[idx[q]] <= v[idx[p]]
    decreases |idx|
  {
    if |idx| == 1 then 0
    else
      var p := MaxPosition(v, idx[1..]);
      assert forall q :: 1 <= q < |idx| ==> idx[1..][q - 1] == idx[q];
      if v[idx[0]] >= v[idx[1..][p]] then 0 else p + 1
  }

  /** The loop state of the batch selection: every row is either picked
      or left, once, and the picked ones are at least as variant as the
      ones left. */
  predicate Split(v: seq<real>, sel: seq<nat>, rest: seq<nat>) {
    && |sel| + |rest| == |v|
    && InRange(sel, |v|) && InRange(rest, |v|)
    && Distinct(sel) && Distinct(rest)
    && (forall i :: 0 <= i < |sel| ==> sel[i] !in rest)
    && (forall j :: 0 <= j < |v| ==> j in sel || j in rest)
    && (forall i, q :: 0 <= i < |sel| && 0 <= q < |rest| ==> v[sel[i]] >= v[rest[q]])
  }

  /** Moving a largest left row over to the picked ones keeps the split. */
  lemma TakeMax(v: seq<real>, sel: seq<nat>, rest: seq<nat>, p: nat)
    requires Split(v, sel, rest) && p < |rest|
    requires forall q :: 0 <= q < |rest| ==> v[rest[q]] <= v[rest[p]]
    ensures Split(v, sel + [rest[p]], rest[..p] + rest[p + 1..])
  {
    var x := rest[p];
    var rest' := rest[..p] + rest[p + 1..];
    assert forall q :: 0 <= q < |rest'| ==> rest'[q] == (if q < p then rest[q] else rest[q + 1]);
    assert forall j :: j in rest ==> j == x || j in rest';
  }

  /** `point_selection_batch`: the indices `np.argpartition(v, -b)[-b:]`
      chooses, here in decreasing-variance order (numpy leaves the order
      unspecified), or the error numpy raises for a `kth` out of bounds. */
  method SelectBatchIndices(v: seq<real>, b: int) returns (r: Result<seq<nat>>)
    ensures r.Success? <==> BatchSizeValid(|v|, b)
    ensures r.Success? ==> |r.value| == BatchCount(|v|, b) && IsTopSelection(v, r.value)
    ensures r.Success? && BatchCount(|v|, b) == |v| ==> forall j :: 0 <= j < |v| ==> j in r.value
  {
    var n := |v|;
    if !BatchSizeValid(n, b) {
      return Failure("ValueError: kth out of bounds");
    }
    var k := BatchCount(n, b);
    var sel: seq<nat> := [];
    var rest: seq<nat> := seq(n, i requires 0 <= i < n => i);
    forall j | 0 <= j < n ensures j in rest {
      assert rest[j] == j;
    }
    while |sel| < k
      invariant |sel| <= k
      invariant Split(v, sel, rest)
      decreases k - |sel|
    {
      var p := MaxPosition(v, rest);
      TakeMax(v, sel, rest, p);
      sel, rest := sel + [rest[p]], rest[..p] + rest[p + 1..];
    }
    forall i, j | 0 <= i < |sel| && 0 <= j < n && j !in sel
      ensures v[sel[i]] >= v[j]
    {
      var q :| 0 <= q < |rest| && rest[q] == j;
    }
    assert IsTopSelection(v, sel);
    assert k == n ==> forall j :: 0 <= j < n ==> j in sel;
    return Success(sel);
  }

  /** `point_selection_batch(regressor, X_train, X_test, batch_size)`: the
      chosen test rows and their indices. */
  method SelectBatch<T>(preds: seq<seq<real>>, xtrain: seq<T>, xtest: seq<T>, b: int)
    returns (r: Result<(seq<T>, seq<nat>)>)
    requires |preds| >= 2 && Jackknife.Rectangular(preds, |xtest|)
    ensures r.Success? <==> BatchSizeValid(|xtest|, b)
    ensures r.Success? ==> |r.value.0| == |r.value.1| == BatchCount(|xtest|, b)
    ensures r.Success? ==> IsTopSelection(Jackknife.Variances(preds, |xtest|), r.value.1)
    ensures r.Success? ==> forall i :: 0 <= i < |r.value.1| ==> r.value.0[i] == xtest[r.value.1[i]]
  {
    var v := Jackknife.Variances(preds, |xtest|);
    var idx := SelectBatchIndices(v, b);
    if idx.Failure? {
      return Failure(idx.error);
    }
    var sel := idx.value;
    var points := seq(|sel|, i requires 0 <= i < |sel| => xtest[sel[i]]);
    return Success((points, sel));
  }

  /** A batch of one holds a row as variant as the single selection's. */
  lemma BatchOfOneIsAMax(v: seq<real>, sel: seq<nat>)
    requires |v| > 0 && |sel| == 1 && IsTopSelection(v, sel)
    ensures v[sel[0]] == v[FirstMax(v)]
  {
    var i := FirstMax(v);
    if i !in sel {
      assert v[sel[0]] >= v[i];
    }
  }
}

=== FILE: points.dfy ===
/** Rows of the feature space and of the training set. Every coordinate is in
    log2-plus-one encoding: the stored value `e` stands for `2^(e-1)`. */
module Points {

  /** One feature-space row: (n, ppn, msg_size). */
  datatype Triple = Triple(n: int, ppn: int, msg: int)

  /** One training row: a feature triple followed by an algorithm id, the
      index of the algorithm in the collective's algorithm table. */
  datatype Point = Point(n: int, ppn: int, msg: int, alg: int)

  function WithAlg(t: Triple, alg: int): Point {
    Point(t.n, t.ppn, t.msg, alg)
  }

  /** The first three columns of a training row, `row[0:3]`. */
  function TripleOf(p: Point): Triple {
    Triple(p.n, p.ppn, p.msg)
  }

  /** Lexicographic order on (n, ppn, msg_size), the order in which the
      feature space is enumerated. */
  predicate LexLess(a: Triple, b: Triple) {
    a.n < b.n || (a.n == b.n && (a.ppn < b.ppn || (a.ppn == b.ppn && a.msg < b.msg)))
  }
}

=== FILE: pystrings.dfy ===
/** The handful of Python string built-ins the modelled code relies on:
    slicing with negative and out-of-range bounds, `find`, `count`, `rstrip`,
    `strip`, `int()` on text, `str()` on a natural number, `capitalize`. */
module PyStrings {
  import opened Wrappers

  /** Python normalises one slice bound: negative bounds count from the end,
      and every bound is clamped into `0..len`. */
  function ClampIndex(i: int, len: nat): (r: nat)
    ensures r <= len
    ensures 0 <= i <= len ==> r == i
    ensures i < 0 && -(len as int) <= i ==> r == len + i
    ensures i < -(len as int) ==> r == 0
    ensures i > len ==> r == len
  {
    if i < 0 then (if len + i < 0 then 0 else len + i)
    else if i > len then len
    else i
  }

  /** `s[i:j]` */
  function Slice<T>(s: seq<T>, i: int, j: int): (r: seq<T>)
    ensures |r| <= |s|
    ensures 0 <= i <= j <= |s| ==> r == s[i..j]
    ensures 0 <= j <= i ==> r == []
  {
    var a := ClampIndex(i, |s|);
    var b := ClampIndex(j, |s|);
    if a <= b then s[a..b] else []
  }

  /** `s[i:]` */
  function SliceFrom<T>(s: seq<T>, i: int): (r: seq<T>)
    ensures 0 <= i <= |s| ==> r == s[i..]
    ensures i > |s| ==> r == []
  {
    Slice(s, i, |s|)
  }

  /** `s[:-1]`: everything but the last element, and empty for empty input. */
  function DropLast<T>(s: seq<T>): (r: seq<T>)
    ensures |s| > 0 ==> r == s[..|s| - 1]
    ensures |s| == 0 ==> r == []
  {
    Slice(s, 0, -1)
  }

  predicate OccursAt<T(==)>(s: seq<T>, sub: seq<T>, i: int) {
    0 <= i && i + |sub| <= |s| && s[i..i + |sub|] == sub
  }

  /** `s.find(sub)`: the first index where `sub` occurs, or -1. */
  function Find<T(==)>(s: seq<T>, sub: seq<T>): (r: int)
    ensures -1 <= r <= |s|
    ensures r >= 0 ==> OccursAt(s, sub, r)
    ensures forall i :: 0 <= i && (r == -1 || i < r) ==> !OccursAt(s, sub, i)
  {
    FindFrom(s, sub, 0)
  }

  /** `sub` cannot start at `i` when the character after `i` is not its
      second one. */
  lemma MismatchAtSecond<T>(s: seq<T>, sub: seq<T>, i: int)
    requires 0 <= i && i + 1 < |s| && |sub| >= 2 && s[i + 1] != sub[1]
    ensures !OccursAt(s, sub, i)
  {
    if i + |sub| <= |s| {
      assert s[i..i + |sub|][1] == s[i + 1];
    }
  }

  /** The first occurrence of `sub` in `a + sub + b` is right after `a` when
      `sub`'s second character appears neither in `a` nor as its first. */
  lemma FindAfterPrefix<T>(a: seq<T>, sub: seq<T>, b: seq<T>)
    requires |sub| >= 2 && sub[0] != sub[1] && sub[1] !in a
    ensures Find(a + sub + b, sub) == |a|
  {
    var s := a + sub + b;
    assert OccursAt(s, sub, |a|) by {
      assert s[|a|..|a| + |sub|] == sub;
    }
    forall i | 0 <= i < |a|
      ensures !OccursAt(s, sub, i)
    {
      if i + 1 < |a| {
        assert s[i + 1] == a[i + 1];
      } else {
        assert s[i + 1] == sub[0];
      }
      MismatchAtSecond(s, sub, i);
    }
  }

  /** The first occurrence of `[c]` in `a + [c] + b` is right after `a` when
      `a` does not contain `c`. */
  lemma FindCharAfterPrefix<T>(a: seq<T>, c: T, b: seq<T>)
    requires c !in a
    ensures Find(a + [c] + b, [c]) == |a|
  {
    var s := a + [c] + b;
    assert OccursAt(s, [c], |a|) by {
      assert s[|a|..|a| + 1] == [c];
    }
    forall i | 0 <= i < |a|
      ensures !OccursAt(s, [c], i)
    {
      assert s[i..i + 1][0] == a[i];
    }
  }

  function FindFrom<T(==)>(s: seq<T>, sub: seq<T>, k: nat): (r: int)
    requires k <= |s| + 1
    ensures r == -1 || k <= r <= |s|
    ensures r >= 0 ==> OccursAt(s, sub, r)
    ensures forall i :: k <= i && (r == -1 || i < r) ==> !OccursAt(s, sub, i)
    decreases |s| + 1 - k
  {
    if k + |sub| > |s| then -1
    else if s[k..k + |sub|] == sub then k
    else FindFrom(s, sub, k + 1)
  }

  /** `sub in s` */
  predicate Contains<T(==)>(s: seq<T>, sub: seq<T>) {
    Find(s, sub) != -1
  }

  /** `s.count(c)` for a one-character argument. */
  function Count<T(==)>(s: seq<T>, c: T): (r: nat)
    ensures r <= |s|
    ensures r == 0 <==> c !in s
  {
    if |s| == 0 then 0
    else (if s[0] == c then 1 else 0) + Count(s[1..], c)
  }

  /** The characters `str.isspace` accepts, which `strip`, `rstrip` and
      `lstrip` without an argument remove: tab through carriage return, the
      four information separators, space, next-line, no-break space, and the
      Unicode space and line/paragraph separators. */
  predicate IsSpace(c: char) {
    || '\U{09}' <= c <= '\U{0D}'
    || '\U{1C}' <= c <= '\U{20}'
    || c == '\U{85}' || c == '\U{A0}' || c == '\U{1680}'
    || '\U{2000}' <= c <= '\U{200A}'
    || c == '\U{2028}' || c == '\U{2029}' || c == '\U{202F}' || c == '\U{205F}' || c == '\U{3000}'
  }

  /** `s.rstrip()` */
  function RStrip(s: string): (r: string)
    ensures r <= s
    ensures |r| > 0 ==> !IsSpace(r[|r| - 1])
    ensures forall i :: |r| <= i < |s| ==> IsSpace(s[i])
  {
    if |s| > 0 && IsSpace(s[|s| - 1]) then RStrip(s[..|s| - 1]) else s
  }

  /** `s.lstrip()` */
  function LStrip(s: string): (r: string)
    ensures |r| <= |s| && r == s[|s| - |r|..]
    ensures |r| > 0 ==> !IsSpace(r[0])
    ensures forall i :: 0 <= i < |s| - |r| ==> IsSpace(s[i])
  {
    if |s| > 0 && IsSpace(s[0]) then LStrip(s[1..]) else s
  }

  /** `s.strip()` */
  function Strip(s: string): string {
    LStrip(RStrip(s))
  }

  predicate IsDigit(c: char) {
    '0' <= c <= '9'
  }

  predicate AllDigits(s: string) {
    forall i :: 0 <= i < |s| ==> IsDigit(s[i])
  }

  function DigitValue(c: char): (r: nat)
    requires IsDigit(c)
    ensures r < 10
  {
    (c as int - '0' as int) as nat
  }

  function DigitChar(d: nat): (c: char)
    requires d < 10
    ensures IsDigit(c) && DigitValue(c) == d
  {
    (d + '0' as int) as char
  }

  /** The value of a run of decimal digits, most significant first. */
  function DigitsValue(s: string): nat
    requires AllDigits(s)
  {
    if |s| == 0 then 0
    else DigitsValue(s[..|s| - 1]) * 10 + DigitValue(s[|s| - 1])
  }

  /** `str(n)` for a natural number. */
  function NatToString(n: nat): (r: string)
    ensures |r| > 0 && AllDigits(r)
  {
    if n < 10 then [DigitChar(n)]
    else NatToString(n / 10) + [DigitChar(n % 10)]
  }

  /** `int(s)`: surrounding whitespace, an optional sign and a non-empty run of
      ASCII digits; anything else is a ValueError, here `None`. */
  function ParseInt(s: string): Option<int> {
    var t := Strip(s);
    if |t| > 0 && (t[0] == '+' || t[0] == '-') then
      var body := t[1..];
      if |body| > 0 && AllDigits(body) then
        Some(if t[0] == '-' then -(DigitsValue(body) as int) else DigitsValue(body) as int)
      else None
    else if |t| > 0 && AllDigits(t) then Some(DigitsValue(t) as int)
    else None
  }

  lemma {:induction false} DigitsOfNatToString(n: nat)
    ensures DigitsValue(NatToString(n)) == n
  {
    if n >= 10 {
      var s := NatToString(n);
      assert s[..|s| - 1] == NatToString(n / 10);
      DigitsOfNatToString(n / 10);
    }
  }

  lemma StripOfDigits(s: string)
    requires AllDigits(s)
    ensures Strip(s) == s
  {
    assert |s| > 0 ==> !IsSpace(s[|s| - 1]) && !IsSpace(s[0]);
  }

  /** `int(s)` of a plain run of digits is its decimal value. */
  lemma ParseIntOfDigits(s: string)
    requires |s| > 0 && AllDigits(s)
    ensures ParseInt(s) == Some(DigitsValue(s) as int)
  {
    StripOfDigits(s);
    assert !(s[0] == '+' || s[0] == '-') by {
      assert IsDigit(s[0]);
    }
  }

  /** `int(str(n)) == n` */
  lemma ParseIntOfNatToString(n: nat)
    ensures ParseInt(NatToString(n)) == Some(n as int)
  {
    var s := NatToString(n);
    StripOfDigits(s);
    DigitsOfNatToString(n);
  }

  /** Distinct numbers print differently. */
  lemma NatToStringInjective(a: nat, b: nat)
    requires NatToString(a) == NatToString(b)
    ensures a == b
  {
    DigitsOfNatToString(a);
    DigitsOfNatToString(b);
  }

  function ToUpper(c: char): char {
    if 'a' <= c <= 'z' then (c as int - 32) as char else c
  }

  function ToLower(c: char): char {
    if 'A' <= c <= 'Z' then (c as int + 32) as char else c
  }

  function LowerAll(s: string): (r: string)
    ensures |r| == |s|
    ensures forall i :: 0 <= i < |s| ==> r[i] == ToLower(s[i])
  {
    if |s| == 0 then "" else [ToLower(s[0])] + LowerAll(s[1..])
  }

  /** `s.capitalize()` on ASCII text: first character upper case, every other
      character lower case. */
  function Capitalize(s: string): (r: string)
    ensures |r| == |s|
    ensures |s| > 0 ==> r[0] == ToUpper(s[0])
    ensures forall i :: 1 <= i < |s| ==> r[i] == ToLower(s[i])
  {
    if |s| == 0 then "" else [ToUpper(s[0])] + LowerAll(s[1..])
  }
}

=== FILE: serial.dfy ===
/** The serial scheduler: one benchmark at a time. The topology remembers
    only whether this epoch's single slot is taken. */
module Serial {
  import opened Wrappers

  datatype Topology = Topology(fit: bool)

  /** `Topology()` and `get_topology(path)`: the path is ignored. */
  function GetTopology(path: string): (t: Topology)
    ensures !t.fit
  {
    Topology(false)
  }

  /** `fit_point(n)`: `['serial']` when the slot is free (and takes it),
      `False` (here `None`) otherwise; `n` plays no part. */
  function FitPoint(t: Topology, n: int): (r: (Topology, Option<seq<string>>))
    ensures r.1.Some? <==> !t.fit
    ensures r.1.Some? ==> r.1.value == ["serial"]
    ensures r.0.fit
  {
    if !t.fit then (Topology(true), Some(["serial"])) else (t, None)
  }

  /** `reset_fit` */
  function Reset(t: Topology): (r: Topology)
    ensures !r.fit
  {
    Topology(false)
  }

  /** `gen_topology_file(n)` returns no path. */
  function GenTopologyFile(n: int): (r: Option<string>)
    ensures r.None?
  {
    None
  }

  /** `create_nodefile(nodes, path)` writes nothing and returns no path. */
  function CreateNodefile(nodes: seq<string>, path: string): (r: Option<string>)
    ensures r.None?
  {
    None
  }

  /** The answers to a run of `fit_point` calls, and the final state. */
  function RunFits(t: Topology, ns: seq<int>): (Topology, seq<Option<seq<string>>>)
    decreases |ns|
  {
    if |ns| == 0 then (t, [])
    else
      var f := FitPoint(t, ns[0]);
      var rest := RunFits(f.0, ns[1..]);
      (rest.0, [f.1] + rest.1)
  }

  /** Once the slot is taken every further fit fails. */
  lemma {:induction false} TakenStaysTaken(t: Topology, ns: seq<int>)
    requires t.fit
    ensures var r := RunFits(t, ns);
      |r.1| == |ns| && r.0.fit && forall i :: 0 <= i < |ns| ==> r.1[i].None?
    decreases |ns|
  {
    if |ns| > 0 {
      TakenStaysTaken(t, ns[1..]);
    }
  }

  /** After a reset exactly one fit succeeds, the first, whatever the sizes. */
  lemma OneSuccessPerEpoch(t: Topology, ns: seq<int>)
    requires |ns| > 0
    ensures var r := RunFits(Reset(t), ns);
      && |r.1| == |ns|
      && r.1[0] == Some(["serial"])
      && forall i :: 1 <= i < |ns| ==> r.1[i].None?
  {
    var f := FitPoint(Reset(t), ns[0]);
    TakenStaysTaken(f.0, ns[1..]);
    var rest := RunFits(f.0, ns[1..]);
    assert RunFits(Reset(t), ns).1 == [f.1] + rest.1;
  }

  /** A fresh topology behaves as a reset one. */
  lemma FreshIsReset(path: string, t: Topology)
    ensures GetTopology(path) == Reset(t)
  {
  }
}

=== FILE: theta.dfy ===
/** Topology packing for ANL Theta (Cray XC40). Racks come in pairs that share
    a dragonfly group; `fit_point` only answers whether a request fits, it
    does not name the nodes. */
module Theta {
  import opened Wrappers
  import opened PyStrings

  datatype Rack = Rack(name: int, nodes: seq<string>, full: bool)

  datatype RackPair = RackPair(rack1: Rack, rack2: Rack)

  datatype Topology = Topology(pairs: seq<RackPair>)

  /************************** racks and pairs **************************/

  /** `RackPair.__init__`: a rack whose last digit is odd is paired with the
      rack ten below it, otherwise with the rack ten above it. The first rack
      of a pair is always the lower one. */
  function NewPair(rack: int): (p: RackPair)
    ensures p.rack2.name == p.rack1.name + 10
    ensures (rack % 10) % 2 == 1 ==> p.rack2.name == rack
    ensures (rack % 10) % 2 != 1 ==> p.rack1.name == rack
    ensures p.rack1.nodes == [] && p.rack2.nodes == [] && !p.rack1.full && !p.rack2.full
  {
    if (rack % 10) % 2 == 1 then RackPair(Rack(rack - 10, [], false), Rack(rack, [], false))
    else RackPair(Rack(rack, [], false), Rack(rack + 10, [], false))
  }

  /** `RackPair.contains` */
  predicate PairContains(p: RackPair, rack: int) {
    p.rack1.name == rack || p.rack2.name == rack
  }

  /** `Topology.contains_rack` */
  predicate ContainsRack(t: Topology, rack: int) {
    exists i :: 0 <= i < |t.pairs| && PairContains(t.pairs[i], rack)
  }

  /** `Topology.add_rack`: a new pair only for a rack no pair holds yet. */
  function AddRack(t: Topology, rack: int): (r: Topology)
    ensures ContainsRack(r, rack)
    ensures ContainsRack(t, rack) ==> r == t
    ensures !ContainsRack(t, rack) ==> r.pairs == t.pairs + [NewPair(rack)]
  {
    if ContainsRack(t, rack) then t
    else
      var r := Topology(t.pairs + [NewPair(rack)]);
      assert PairContains(r.pairs[|t.pairs|], rack);
      r
  }

  /** `Rack.add_node`: a name already present is ignored. */
  function RackAddNode(r: Rack, node: string): (r': Rack)
    ensures r'.name == r.name && r'.full == r.full
    ensures node in r'.nodes
    ensures forall x :: x in r'.nodes <==> x in r.nodes || x == node
  {
    if node in r.nodes then r else r.(nodes := r.nodes + [node])
  }

  /** `RackPair.add_node`: the first rack with that name takes the node. */
  function PairAddNode(p: RackPair, rack: int, node: string): (r: (RackPair, bool))
    ensures r.1 <==> PairContains(p, rack)
    ensures r.0.rack1.name == p.rack1.name && r.0.rack2.name == p.rack2.name
  {
    if p.rack1.name == rack then (p.(rack1 := RackAddNode(p.rack1, node)), true)
    else if p.rack2.name == rack then (p.(rack2 := RackAddNode(p.rack2, node)), true)
    else (p, false)
  }

  /** Index of the first pair holding `rack`, or `|ps|`. */
  function PairIndex(ps: seq<RackPair>, rack: int): (i: nat)
    ensures i <= |ps|
    ensures i < |ps| ==> PairContains(ps[i], rack)
    ensures forall j :: 0 <= j < i ==> !PairContains(ps[j], rack)
  {
    if |ps| == 0 || PairContains(ps[0], rack) then 0 else 1 + PairIndex(ps[1..], rack)
  }

  /** `Topology.add_node`: adds the pair if needed, then gives the node to the
      first pair holding the rack. The `False` result ("does not contain
      rack") cannot happen, since the rack was just added. */
  function AddNode(t: Topology, rack: int, node: string): (r: (Topology, bool))
    ensures r.1
    ensures |r.0.pairs| == |AddRack(t, rack).pairs|
  {
    var t1 := AddRack(t, rack);
    PairIndexFinds(t1.pairs, rack);
    var i := PairIndex(t1.pairs, rack);
    var added := PairAddNode(t1.pairs[i], rack, node);
    (Topology(t1.pairs[i := added.0]), added.1)
  }

  lemma PairIndexFinds(ps: seq<RackPair>, rack: int)
    requires ContainsRack(Topology(ps), rack)
    ensures PairIndex(ps, rack) < |ps|
  {
    var j :| 0 <= j < |ps| && PairContains(ps[j], rack);
    assert PairIndex(ps, rack) <= j;
  }

  /************************** hostfile lines **************************/

  /** `get_rack_name_from_line`: the digits either side of the first dash, read
      as one number; -1 when there is no dash. `s[dash - 1]` at dash 0 is
      Python's last character; `s[dash + 1]` past the end is an IndexError;
      two characters that are not a number are a ValueError. */
  function RackNameFromLine(s: string): (r: Result<int>)
    ensures Find(s, "-") == -1 ==> r == Success(-1)
    ensures var d := Find(s, "-"); 0 < d < |s| - 1 ==>
      && (r.Success? <==> ParseInt([s[d - 1], s[d + 1]]).Some?)
      && (r.Success? ==> r.value == ParseInt([s[d - 1], s[d + 1]]).value)
    ensures Find(s, "-") == 0 && |s| > 1 ==>
      && (r.Success? <==> ParseInt([s[|s| - 1], s[1]]).Some?)
      && (r.Success? ==> r.value == ParseInt([s[|s| - 1], s[1]]).value)
    ensures Find(s, "-") >= 0 && Find(s, "-") == |s| - 1 ==> r.Failure?
  {
    var dash := Find(s, "-");
    if dash == -1 then Success(-1)
    else if dash == |s| - 1 then Failure("IndexError: string index out of range")
    else
      var before := if dash == 0 then s[|s| - 1] else s[dash - 1];
      match ParseInt([before, s[dash + 1]])
      case Some(v) => Success(v)
      case None => Failure("ValueError: invalid literal for int()")
  }

  /** `get_node_name_from_line`: what follows "cname = ", right-stripped. */
  function NodeNameFromLine(line: string): (r: string)
    ensures Find(line, "cname = ") >= 0 ==>
      r == RStrip(line[Find(line, "cname = ") + 8..])
  {
    RStrip(SliceFrom(line, Find(line, "cname = ") + 8))
  }

  const CnameMarker := "/proc/cray_xt/cname = "

  /** The filter of `get_topology`: a line the loop keeps, with the rack its
      node lands in. `None` is a line it skips, `Failure` an exception. */
  function ParseLine(line: string): (r: Result<Option<(int, string)>>)
    ensures !Contains(line, CnameMarker) ==> r == Success(None)
    ensures r.Success? && r.value.Some? ==>
      && Contains(line, CnameMarker)
      && r.value.value.1 == NodeNameFromLine(line)
      && RackNameFromLine(r.value.value.1) == Success(r.value.value.0)
      && r.value.value.0 != -1
      && Count(r.value.value.1, 'c') == 2 && Count(r.value.value.1, 's') == 1
      && Count(r.value.value.1, 'n') == 1
  {
    if !Contains(line, CnameMarker) then Success(None)
    else
      var node := NodeNameFromLine(line);
      var rack :- RackNameFromLine(node);
      if rack == -1 || Count(node, 'c') != 2 || Count(node, 's') != 1 || Count(node, 'n') != 1 then
        Success(None)
      else Success(Some((rack, node)))
  }

  /** `get_topology` over the lines of the file, in order. */
  function BuildFrom(t: Topology, lines: seq<string>): (r: Result<Topology>)
    ensures r.Failure? ==> exists i :: 0 <= i < |lines| && ParseLine(lines[i]).Failure?
    ensures (forall i :: 0 <= i < |lines| ==> !Contains(lines[i], CnameMarker)) ==> r == Success(t)
    decreases |lines|
  {
    if |lines| == 0 then Success(t)
    else
      match ParseLine(lines[0])
      case Failure(e) => Failure(e)
      case Success(None) => BuildFrom(t, lines[1..])
      case Success(Some(rn)) => BuildFrom(AddNode(AddRack(t, rn.0), rn.0, rn.1).0, lines[1..])
  }

  function Build(lines: seq<string>): (r: Result<Topology>)
    ensures r.Failure? ==> exists i :: 0 <= i < |lines| && ParseLine(lines[i]).Failure?
    ensures (forall i :: 0 <= i < |lines| ==> !Contains(lines[i], CnameMarker)) ==> r == Success(Topology([]))
  {
    BuildFrom(Topology([]), lines)
  }

  /************************** fitting **************************/

  /** `Rack.is_full`: an empty rack is always full. */
  predicate RackIsFull(r: Rack) {
    |r.nodes| == 0 || r.full
  }

  predicate PairIsFull(p: RackPair) {
    RackIsFull(p.rack1) && RackIsFull(p.rack2)
  }

  /** Nodes a rack can still give in this epoch. */
  function RackFree(r: Rack): nat {
    if RackIsFull(r) then 0 else |r.nodes|
  }

  function PairFree(p: RackPair): nat {
    RackFree(p.rack1) + RackFree(p.rack2)
  }

  function PairsFree(ps: seq<RackPair>): nat {
    if |ps| == 0 then 0 else PairFree(ps[0]) + PairsFree(ps[1..])
  }

  /** Free capacity of the whole machine. */
  function FreeCap(t: Topology): nat {
    PairsFree(t.pairs)
  }

  function Min(a: nat, b: nat): nat {
    if a <= b then a else b
  }

  /** `Rack.fit(k)`: mark the rack used and report how many of the `k` nodes it
      takes. */
  function RackFit(r: Rack, k: nat): (res: (Rack, nat))
    ensures res.0 == r.(full := true)
    ensures res.1 == Min(k, |r.nodes|)
  {
    (r.(full := true), if k > |r.nodes| then |r.nodes| else k)
  }

  /** `RackPair.fit(k)`: the first rack, then the second if the first did not
      take everything. Returns the new pair and the number of nodes taken. */
  function PairFit(p: RackPair, k: nat): (res: (RackPair, nat))
    ensures res.1 == Min(k, PairFree(p))
    ensures res.1 < k ==> PairFree(res.0) == 0
    ensures res.0.rack1.name == p.rack1.name && res.0.rack1.nodes == p.rack1.nodes
    ensures res.0.rack2.name == p.rack2.name && res.0.rack2.nodes == p.rack2.nodes
    ensures p.rack1.full ==> res.0.rack1.full
    ensures p.rack2.full ==> res.0.rack2.full
  {
    if !RackIsFull(p.rack1) then
      var f1 := RackFit(p.rack1, k);
      if f1.1 == k then (p.(rack1 := f1.0), f1.1)
      else if !RackIsFull(p.rack2) then
        var f2 := RackFit(p.rack2, k - f1.1);
        (RackPair(f1.0, f2.0), f1.1 + f2.1)
      else (p.(rack1 := f1.0), f1.1)
    else if !RackIsFull(p.rack2) then
      var f2 := RackFit(p.rack2, k);
      (p.(rack2 := f2.0), f2.1)
    else (p, 0)
  }

  /** The loop of `Topology.fit_point`, with `unassigned` nodes still to place:
      `True` as soon as nothing is left to place, `False` at the end. */
  function FitPairs(ps: seq<RackPair>, unassigned: nat): (r: (seq<RackPair>, bool))
    ensures |r.0| == |ps|
  {
    if |ps| == 0 then ([], false)
    else if !PairIsFull(ps[0]) then
      var f := PairFit(ps[0], unassigned);
      if unassigned - f.1 == 0 then ([f.0] + ps[1..], true)
      else
        var rest := FitPairs(ps[1..], unassigned - f.1);
        ([f.0] + rest.0, rest.1)
    else
      var rest := FitPairs(ps[1..], unassigned);
      ([ps[0]] + rest.0, rest.1)
  }

  function FitPoint(t: Topology, k: nat): (r: (Topology, bool))
    ensures r.1 <==> 0 < FreeCap(t) && k <= FreeCap(t)
    ensures !r.1 ==> FreeCap(r.0) == 0
    ensures FlagsOnly(t.pairs, r.0.pairs)
  {
    FitPairsAnswer(t.pairs, k);
    FitPairsDrains(t.pairs, k);
    FitPairsFlagsOnly(t.pairs, k);
    var res := FitPairs(t.pairs, k);
    (Topology(res.0), res.1)
  }

  /** `Topology.reset_fit` */
  function ResetRack(r: Rack): Rack {
    r.(full := false)
  }

  function ResetPairs(ps: seq<RackPair>): (r: seq<RackPair>)
    ensures |r| == |ps|
    ensures forall i :: 0 <= i < |ps| ==>
      r[i] == RackPair(ResetRack(ps[i].rack1), ResetRack(ps[i].rack2))
  {
    if |ps| == 0 then []
    else [RackPair(ResetRack(ps[0].rack1), ResetRack(ps[0].rack2))] + ResetPairs(ps[1..])
  }

  function Reset(t: Topology): (r: Topology)
    ensures |r.pairs| == |t.pairs|
    ensures forall i :: 0 <= i < |t.pairs| ==>
      && !r.pairs[i].rack1.full && !r.pairs[i].rack2.full
      && RackFlagsOnly(r.pairs[i].rack1, t.pairs[i].rack1) && RackFlagsOnly(r.pairs[i].rack2, t.pairs[i].rack2)
  {
    Topology(ResetPairs(t.pairs))
  }

  /************************** fit properties **************************/

  predicate RackFlagsOnly(r: Rack, r': Rack) {
    r'.name == r.name && r'.nodes == r.nodes && (r.full ==> r'.full)
  }

  /** Fitting changes full flags and nothing else, and never clears one. */
  predicate FlagsOnly(ps: seq<RackPair>, ps': seq<RackPair>) {
    && |ps'| == |ps|
    && forall i :: 0 <= i < |ps| ==>
         RackFlagsOnly(ps[i].rack1, ps'[i].rack1) && RackFlagsOnly(ps[i].rack2, ps'[i].rack2)
  }

  /** A non-full pair has something to give. */
  lemma NonFullPairHasRoom(p: RackPair)
    ensures PairIsFull(p) <==> PairFree(p) == 0
  {
  }

  lemma PairsFreeCons(p: RackPair, qs: seq<RackPair>)
    ensures PairsFree([p] + qs) == PairFree(p) + PairsFree(qs)
  {
    assert ([p] + qs)[1..] == qs;
  }

  /** `fit_point(k)` is `True` exactly when the free capacity is positive and
      at least `k`. (For `k == 0` Python still needs one non-full pair.) */
  lemma {:induction false} FitPairsAnswer(ps: seq<RackPair>, unassigned: nat)
    ensures FitPairs(ps, unassigned).1 <==> 0 < PairsFree(ps) && unassigned <= PairsFree(ps)
  {
    if |ps| > 0 {
      PairsFreeCons(ps[0], ps[1..]);
      assert [ps[0]] + ps[1..] == ps;
      NonFullPairHasRoom(ps[0]);
      if !PairIsFull(ps[0]) {
        var f := PairFit(ps[0], unassigned);
        if unassigned - f.1 != 0 {
          FitPairsAnswer(ps[1..], unassigned - f.1);
        }
      } else {
        FitPairsAnswer(ps[1..], unassigned);
      }
    }
  }

  /** A fit that answers `False` has used every rack. */
  lemma {:induction false} FitPairsDrains(ps: seq<RackPair>, unassigned: nat)
    ensures !FitPairs(ps, unassigned).1 ==> PairsFree(FitPairs(ps, unassigned).0) == 0
  {
    if |ps| > 0 {
      if !PairIsFull(ps[0]) {
        var f := PairFit(ps[0], unassigned);
        if unassigned - f.1 != 0 {
          FitPairsDrains(ps[1..], unassigned - f.1);
          PairsFreeCons(f.0, FitPairs(ps[1..], unassigned - f.1).0);
        }
      } else {
        FitPairsDrains(ps[1..], unassigned);
        NonFullPairHasRoom(ps[0]);
        PairsFreeCons(ps[0], FitPairs(ps[1..], unassigned).0);
      }
    }
  }

  lemma {:induction false} FitPairsFlagsOnly(ps: seq<RackPair>, unassigned: nat)
    ensures FlagsOnly(ps, FitPairs(ps, unassigned).0)
  {
    if |ps| > 0 {
      if !PairIsFull(ps[0]) {
        var f := PairFit(ps[0], unassigned);
        if unassigned - f.1 != 0 {
          FitPairsFlagsOnly(ps[1..], unassigned - f.1);
        }
      } else {
        FitPairsFlagsOnly(ps[1..], unassigned);
      }
    }
  }

  /** A fit followed by `reset_fit` is `reset_fit` alone. */
  lemma ResetUndoesFit(t: Topology, k: nat)
    ensures Reset(FitPoint(t, k).0) == Reset(t)
  {
    var ps, ps' := t.pairs, FitPoint(t, k).0.pairs;
    assert forall i :: 0 <= i < |ps| ==> ResetPairs(ps')[i] == ResetPairs(ps)[i];
  }

  lemma ResetIdempotent(t: Topology)
    ensures Reset(Reset(t)) == Reset(t)
  {
    assert forall i :: 0 <= i < |t.pairs| ==> ResetPairs(ResetPairs(t.pairs))[i] == ResetPairs(t.pairs)[i];
  }

  /** Total number of nodes, used or not. */
  function PairsSize(ps: seq<RackPair>): nat {
    if |ps| == 0 then 0 else |ps[0].rack1.nodes| + |ps[0].rack2.nodes| + PairsSize(ps[1..])
  }

  lemma {:induction false} FreeAfterResetPairs(ps: seq<RackPair>)
    ensures PairsFree(ResetPairs(ps)) == PairsSize(ps)
  {
    if |ps| > 0 {
      FreeAfterResetPairs(ps[1..]);
      var p := RackPair(ResetRack(ps[0].rack1), ResetRack(ps[0].rack2));
      assert ResetPairs(ps) == [p] + ResetPairs(ps[1..]);
      PairsFreeCons(p, ResetPairs(ps[1..]));
    }
  }

  /** After `reset_fit` the whole machine is free: a request fits exactly when
      it asks for at most every node (and the machine is not empty). */
  lemma FitAfterReset(t: Topology, k: nat)
    ensures FitPoint(Reset(t), k).1 <==> 0 < PairsSize(t.pairs) && k <= PairsSize(t.pairs)
  {
    FreeAfterResetPairs(t.pairs);
  }

  /** On success a fit consumes at least `k` of the free capacity. */
  lemma {:induction false} FitPairsConsumes(ps: seq<RackPair>, unassigned: nat)
    ensures FitPairs(ps, unassigned).1 ==>
      PairsFree(FitPairs(ps, unassigned).0) + unassigned <= PairsFree(ps)
  {
    if |ps| > 0 {
      PairsFreeCons(ps[0], ps[1..]);
      assert [ps[0]] + ps[1..] == ps;
      if !PairIsFull(ps[0]) {
        var f := PairFit(ps[0], unassigned);
        if unassigned - f.1 == 0 {
          PairsFreeCons(f.0, ps[1..]);
        } else {
          FitPairsConsumes(ps[1..], unassigned - f.1);
          PairsFreeCons(f.0, FitPairs(ps[1..], unassigned - f.1).0);
        }
      } else {
        FitPairsConsumes(ps[1..], unassigned);
        PairsFreeCons(ps[0], FitPairs(ps[1..], unassigned).0);
      }
    }
  }

  lemma FitConsumes(t: Topology, k: nat)
    ensures FitPoint(t, k).1 ==> FreeCap(FitPoint(t, k).0) + k <= FreeCap(t)
  {
    FitPairsConsumes(t.pairs, k);
  }

  /************************** building **************************/

  /** The rack of a pair called `rack` (the first one when both are). */
  function RackOf(p: RackPair, rack: int): Rack {
    if p.rack1.name == rack then p.rack1 else p.rack2
  }

  /** `add_node` leaves the node in a rack of the requested name. */
  lemma AddNodePlaces(t: Topology, rack: int, node: string)
    ensures var t' := AddNode(t, rack, node).0;
      && PairIndex(t'.pairs, rack) < |t'.pairs|
      && RackOf(t'.pairs[PairIndex(t'.pairs, rack)], rack).name == rack
      && node in RackOf(t'.pairs[PairIndex(t'.pairs, rack)], rack).nodes
  {
    var t1 := AddRack(t, rack);
    PairIndexFinds(t1.pairs, rack);
    var i := PairIndex(t1.pairs, rack);
    var t' := AddNode(t, rack, node).0;
    assert t'.pairs == t1.pairs[i := PairAddNode(t1.pairs[i], rack, node).0];
    PairIndexUnchanged(t1.pairs, i, PairAddNode(t1.pairs[i], rack, node).0, rack);
  }

  lemma PairIndexUnchanged(ps: seq<RackPair>, i: nat, p: RackPair, rack: int)
    requires i < |ps| && PairIndex(ps, rack) == i
    requires p.rack1.name == ps[i].rack1.name && p.rack2.name == ps[i].rack2.name
    ensures PairIndex(ps[i := p], rack) == i
  {
    if i > 0 {
      PairIndexUnchanged(ps[1..], i - 1, p, rack);
      assert ps[i := p][1..] == ps[1..][i - 1 := p];
    }
  }

  /** The shape `get_topology` keeps: the second rack of a pair is ten above
      the first, no rack repeats a node, and every node sits in the rack its
      own name designates. */
  predicate RackOk(r: Rack) {
    && (forall i, j :: 0 <= i < j < |r.nodes| ==> r.nodes[i] != r.nodes[j])
    && (forall x :: x in r.nodes ==> RackNameFromLine(x) == Success(r.name))
  }

  predicate WellFormed(t: Topology) {
    forall i :: 0 <= i < |t.pairs| ==>
      && t.pairs[i].rack2.name == t.pairs[i].rack1.name + 10
      && RackOk(t.pairs[i].rack1) && RackOk(t.pairs[i].rack2)
  }

  lemma RackAddNodeOk(r: Rack, node: string)
    requires RackOk(r) && RackNameFromLine(node) == Success(r.name)
    ensures RackOk(RackAddNode(r, node))
  {
    if node !in r.nodes {
      var s := r.nodes + [node];
      forall i, j | 0 <= i < j < |s| ensures s[i] != s[j] {
        if j == |r.nodes| {
          assert s[i] == r.nodes[i];
        }
      }
    }
  }

  lemma AddRackKeepsShape(t: Topology, rack: int)
    requires WellFormed(t)
    ensures WellFormed(AddRack(t, rack))
  {
  }

  lemma AddNodeKeepsShape(t: Topology, rack: int, node: string)
    requires WellFormed(t) && RackNameFromLine(node) == Success(rack)
    ensures WellFormed(AddNode(t, rack, node).0)
  {
    var t1 := AddRack(t, rack);
    AddRackKeepsShape(t, rack);
    PairIndexFinds(t1.pairs, rack);
    var i := PairIndex(t1.pairs, rack);
    var p := t1.pairs[i];
    if p.rack1.name == rack {
      RackAddNodeOk(p.rack1, node);
    } else {
      RackAddNodeOk(p.rack2, node);
    }
  }

  /** `get_topology` builds a well-formed topology from any file it reads
      without an exception. */
  lemma {:induction false} BuildFromShape(t: Topology, lines: seq<string>)
    requires WellFormed(t)
    ensures BuildFrom(t, lines).Success? ==> WellFormed(BuildFrom(t, lines).value)
    decreases |lines|
  {
    if |lines| > 0 {
      match ParseLine(lines[0])
      case Failure(_) =>
      case Success(None) => BuildFromShape(t, lines[1..]);
      case Success(Some(rn)) =>
        var t1 := AddRack(t, rn.0);
        AddRackKeepsShape(t, rn.0);
        AddNodeKeepsShape(t1, rn.0, rn.1);
        BuildFromShape(AddNode(t1, rn.0, rn.1).0, lines[1..]);
    }
  }

  lemma BuildShape(lines: seq<string>)
    ensures Build(lines).Success? ==> WellFormed(Build(lines).value)
  {
    BuildFromShape(Topology([]), lines);
  }

  /************************** scenarios **************************/

  const RackLine0 := "0: /proc/cray_xt/cname = c5" + "-" + "1c1s3n1"

  /** The line `0: /proc/cray_xt/cname = c5-1c1s3n1` is in rack 51: the
      first dash of the whole line is the one inside the node name. */
  lemma RackNameExample()
    ensures RackNameFromLine(RackLine0) == Success(51)
  {
    var pre, tail := "0: /proc/cray_xt/cname = c5", "1c1s3n1";
    FindCharAfterPrefix(pre, '-', tail);
    assert RackLine0[|pre| - 1] == '5' && RackLine0[|pre| + 1] == '1';
    assert [RackLine0[|pre| - 1], RackLine0[|pre| + 1]] == "51";
    Parse51();
  }

  const NodeLine11 := "11: /proc/cray_xt/" + "cname = " + "c6-0c1s3n1 \n"

  /** `11: /proc/cray_xt/cname = c6-0c1s3n1 \n` names node `c6-0c1s3n1`:
      the trailing blank and newline are stripped. */
  lemma NodeNameExample()
    ensures NodeNameFromLine(NodeLine11) == "c6-0c1s3n1"
  {
    var pre, tail := "11: /proc/cray_xt/", "c6-0c1s3n1 \n";
    FindAfterPrefix(pre, "cname = ", tail);
    assert NodeLine11[|pre| + 8..] == tail;
    assert RStrip(tail) == RStrip(tail[..|tail| - 1]) == RStrip(tail[..|tail| - 2]);
    assert tail[..|tail| - 2] == "c6-0c1s3n1";
  }

  lemma Parse51()
    ensures ParseInt("51") == Some(51)
  {
    var d := "51";
    assert AllDigits(d);
    assert DigitsValue(d) == 51 by {
      assert d[..1] == "5" && "5"[..0] == "";
    }
    ParseIntOfDigits(d);
  }

  /** Two rack pairs with the given first racks (the second racks are ten
      above), their nodes, and their full flags. */
  function TwoPairs(a: int, b: int, n1: seq<string>, n2: seq<string>, n3: seq<string>, n4: seq<string>,
                    u1: bool, u2: bool, u3: bool, u4: bool): Topology
  {
    Topology([RackPair(Rack(a, n1, u1), Rack(a + 10, n2, u2)),
              RackPair(Rack(b, n3, u3), Rack(b + 10, n4, u4))])
  }

  lemma TwoPairsFree(a: int, b: int, n1: seq<string>, n2: seq<string>, n3: seq<string>, n4: seq<string>,
                     u1: bool, u2: bool, u3: bool, u4: bool)
    ensures FreeCap(TwoPairs(a, b, n1, n2, n3, n4, u1, u2, u3, u4))
      == (if u1 then 0 else |n1|) + (if u2 then 0 else |n2|) + (if u3 then 0 else |n3|) + (if u4 then 0 else |n4|)
  {
    var ps := TwoPairs(a, b, n1, n2, n3, n4, u1, u2, u3, u4).pairs;
    assert ps[1..] == [ps[1]] && [ps[1]][1..] == [];
    assert PairsFree([ps[1]]) == PairFree(ps[1]);
  }

  /** A fit that the first pair satisfies alone leaves the second untouched. */
  lemma FitInFirstPair(t: Topology, k: nat)
    requires |t.pairs| == 2 && !PairIsFull(t.pairs[0]) && PairFit(t.pairs[0], k).1 == k
    ensures FitPoint(t, k) == (Topology([PairFit(t.pairs[0], k).0, t.pairs[1]]), true)
  {
    assert [PairFit(t.pairs[0], k).0] + t.pairs[1..] == [PairFit(t.pairs[0], k).0, t.pairs[1]];
  }

  /** A fit that passes over a full first pair. */
  lemma FitInSecondPair(t: Topology, k: nat)
    requires |t.pairs| == 2 && PairIsFull(t.pairs[0]) && !PairIsFull(t.pairs[1])
    requires PairFit(t.pairs[1], k).1 == k
    ensures FitPoint(t, k) == (Topology([t.pairs[0], PairFit(t.pairs[1], k).0]), true)
  {
    var rest := t.pairs[1..];
    assert rest == [t.pairs[1]] && rest[1..] == [];
    var f := PairFit(t.pairs[1], k).0;
    assert [f] + [] == [f];
    assert FitPairs(rest, k) == ([f], true);
    assert [t.pairs[0]] + [f] == [t.pairs[0], f];
  }

  /** A fit that takes what the first pair has and the rest from the second. */
  lemma FitAcrossPairs(t: Topology, k: nat)
    requires |t.pairs| == 2 && !PairIsFull(t.pairs[0]) && !PairIsFull(t.pairs[1])
    requires var c := PairFit(t.pairs[0], k).1; c < k && PairFit(t.pairs[1], k - c).1 == k - c
    ensures var c := PairFit(t.pairs[0], k).1;
      FitPoint(t, k) == (Topology([PairFit(t.pairs[0], k).0, PairFit(t.pairs[1], k - c).0]), true)
  {
    var c := PairFit(t.pairs[0], k).1;
    var rest := t.pairs[1..];
    assert rest == [t.pairs[1]] && rest[1..] == [];
    var f := PairFit(t.pairs[1], k - c).0;
    assert [f] + [] == [f];
    assert FitPairs(rest, k - c) == ([f], true);
    assert [PairFit(t.pairs[0], k).0] + [f] == [PairFit(t.pairs[0], k).0, f];
  }

  /** The small Theta file: one node in rack 51 and one in rack 60, so pairs
      (41, 51) and (60, 70). Fits of 1, 1, 1 answer True, True, False; after
      a reset, 2 then 1 answer True, False. */
  lemma SimpleScenario(x: string, y: string)
    ensures var t := TwoPairs(41, 60, [], [x], [y], [], false, false, false, false);
      && var f1 := FitPoint(t, 1);
      && f1.1
      && var f2 := FitPoint(f1.0, 1);
      && f2.1
      && var f3 := FitPoint(f2.0, 1);
      && !f3.1
      && var f4 := FitPoint(Reset(f3.0), 2);
      && f4.1
      && !FitPoint(f4.0, 1).1
  {
    var t := TwoPairs(41, 60, [], [x], [y], [], false, false, false, false);
    var t1 := TwoPairs(41, 60, [], [x], [y], [], false, true, false, false);
    var t2 := TwoPairs(41, 60, [], [x], [y], [], false, true, true, false);
    TwoPairsFree(41, 60, [], [x], [y], [], false, false, false, false);
    TwoPairsFree(41, 60, [], [x], [y], [], false, true, false, false);
    TwoPairsFree(41, 60, [], [x], [y], [], false, true, true, false);
    FitInFirstPair(t, 1);
    assert FitPoint(t, 1).0 == t1;
    FitInSecondPair(t1, 1);
    assert FitPoint(t1, 1).0 == t2;
    var f3 := FitPoint(t2, 1);
    ResetUndoesFit(t2, 1);
    ResetUndoesFit(t1, 1);
    ResetUndoesFit(t, 1);
    assert Reset(t) == t;
    var f4 := FitPoint(t, 2);
    FitConsumes(t, 2);
  }

  /** The example Theta file: pairs (41, 51) and (61, 71) holding 0, 1, 6 and
      9 nodes. */
  lemma ComplexScenario(n2: seq<string>, n3: seq<string>, n4: seq<string>)
    requires |n2| == 1 && |n3| == 6 && |n4| == 9
    ensures var t := TwoPairs(41, 61, [], n2, n3, n4, false, false, false, false);
      && var f1 := FitPoint(t, 7);
      && f1.1
      && var f2 := FitPoint(f1.0, 3);
      && f2.1
      && !FitPoint(f2.0, 2).1
      && var f4 := FitPoint(t, 16);
      && f4.1
      && !FitPoint(f4.0, 1).1
      && var g1 := FitPoint(t, 1);
      && g1.1
      && var g2 := FitPoint(g1.0, 6);
      && g2.1
      && var g3 := FitPoint(g2.0, 9);
      && g3.1
      && !FitPoint(g3.0, 1000).1
  {
    var t := TwoPairs(41, 61, [], n2, n3, n4, false, false, false, false);
    var s1 := TwoPairs(41, 61, [], n2, n3, n4, false, true, true, false);
    var s2 := TwoPairs(41, 61, [], n2, n3, n4, false, true, true, true);
    var s3 := TwoPairs(41, 61, [], n2, n3, n4, false, true, false, false);
    TwoPairsFree(41, 61, [], n2, n3, n4, false, false, false, false);
    TwoPairsFree(41, 61, [], n2, n3, n4, false, true, true, false);
    TwoPairsFree(41, 61, [], n2, n3, n4, false, true, true, true);
    TwoPairsFree(41, 61, [], n2, n3, n4, false, true, false, false);
    FitAcrossPairs(t, 7);
    assert FitPoint(t, 7).0 == s1;
    FitInSecondPair(s1, 3);
    assert FitPoint(s1, 3).0 == s2;
    FitConsumes(t, 16);
    FitInFirstPair(t, 1);
    assert FitPoint(t, 1).0 == s3;
    FitInSecondPair(s3, 6);
    assert FitPoint(s3, 6).0 == s1;
    FitConsumes(s1, 9);
  }
}

=== FILE: wrappers.dfy ===
/** Failure-carrying results used wherever the modelled Python code returns
    `None`, `False` or raises an exception. */
module Wrappers {

  /** A value that may be absent (Python's `None`). */
  datatype Option<+T> = None | Some(value: T) {
    predicate IsFailure() {
      None?
    }

    function PropagateFailure<U>(): Option<U>
      requires None?
    {
      None
    }

    function Extract(): T
      requires Some?
    {
      value
    }
  }

  /** A value or the exception the Python code would raise instead. */
  datatype Result<+T> = Success(value: T) | Failure(error: string) {
    predicate IsFailure() {
      Failure?
    }

    function PropagateFailure<U>(): Result<U>
      requires Failure?
    {
      Failure(error)
    }

    function Extract(): T
      requires Success?
    {
      value
    }
  }
}

=== FILE: xctopo.dfy ===
/** Coordinate arithmetic of the Aries topology helper for Theta: a node's
    canonical name `c<racki>-<rackj>c<chassis>s<blade>n<nic>` gives its
    dragonfly group and its chassis within the group. The C code computes on
    `int` with C's truncating `/` and `%`. */
module Xctopo {

  /** The coordinates read from the canonical name (`xctopo_t`). */
  datatype Coords = Coords(racki: int, rackj: int, chassis: int, blade: int, nic: int)

  /** C's `a / b` for `b > 0`: the quotient rounds toward zero. */
  function CDiv(a: int, b: int): (q: int)
    requires b > 0
    ensures a >= 0 ==> q == a / b
    ensures a < 0 ==> q == -((-a) / b)
  {
    if a >= 0 then a / b else -((-a) / b)
  }

  /** C's `a % b` for `b > 0`: the remainder takes the sign of `a`. */
  function CMod(a: int, b: int): (r: int)
    requires b > 0
    ensures a == CDiv(a, b) * b + r
    ensures a >= 0 ==> 0 <= r < b
    ensures a < 0 ==> -b < r <= 0
  {
    a - CDiv(a, b) * b
  }

  /** `xctopo_get_group`: two neighbouring racks of a row share a group, and
      every row holds six groups. */
  function Group(c: Coords): (g: int)
    ensures c.racki >= 0 && c.rackj >= 0 ==> g >= 0
    ensures c.racki >= 0 ==> 6 * c.rackj <= g
  {
    CDiv(c.racki, 2) + c.rackj * 6
  }

  /** `xctopo_get_chassis`: the odd rack of a pair numbers its chassis from 3. */
  function Chassis(c: Coords): (k: int)
    ensures c.racki >= 0 && 0 <= c.chassis <= 2 ==> 0 <= k <= 5
    ensures c.racki >= 0 && 0 <= c.chassis <= 2 ==> (k < 3 <==> c.racki % 2 == 0)
  {
    CMod(c.racki, 2) * 3 + c.chassis
  }

  /** `xctopo_get_blade` */
  function Blade(c: Coords): (b: int)
    ensures b == c.blade
  {
    c.blade
  }

  /** `xctopo_get_nic` */
  function Nic(c: Coords): (n: int)
    ensures n == c.nic
  {
    c.nic
  }

  /** Both racks of a pair `2m`, `2m + 1` of a row are in one group. */
  lemma PairedRacksShareGroup(m: nat, rackj: int, ch: int, ch': int, b: int, b': int, n: int, n': int)
    ensures Group(Coords(2 * m, rackj, ch, b, n)) == Group(Coords(2 * m + 1, rackj, ch', b', n'))
  {
  }

  /** With at most twelve racks a row, the group number determines the rack
      pair and the row: `group % 6` is the pair, `group / 6` the row. */
  lemma GroupDecodes(c: Coords)
    requires 0 <= c.racki < 12 && c.rackj >= 0
    ensures Group(c) % 6 == c.racki / 2
    ensures Group(c) / 6 == c.rackj
  {
    var g := Group(c);
    assert g == c.racki / 2 + 6 * c.rackj;
    assert 0 <= c.racki / 2 < 6;
  }

  /** Two coordinates with the same group and rows within twelve racks sit
      in the same rack pair of the same row. */
  lemma GroupInjective(c: Coords, d: Coords)
    requires 0 <= c.racki < 12 && c.rackj >= 0 && 0 <= d.racki < 12 && d.rackj >= 0
    requires Group(c) == Group(d)
    ensures c.racki / 2 == d.racki / 2 && c.rackj == d.rackj
  {
    GroupDecodes(c);
    GroupDecodes(d);
  }

  /** The chassis number is invertible: it gives back the rack's parity and
      the raw chassis. */
  lemma ChassisDecodes(c: Coords)
    requires c.racki >= 0 && 0 <= c.chassis <= 2
    ensures Chassis(c) / 3 == c.racki % 2
    ensures Chassis(c) % 3 == c.chassis
  {
  }

  /** Group, chassis, blade and nic together name one node: two nodes of
      valid coordinates that agree on all four getters are the same node. */
  lemma GettersIdentifyNode(c: Coords, d: Coords)
    requires 0 <= c.racki < 12 && c.rackj >= 0 && 0 <= c.chassis <= 2
    requires 0 <= d.racki < 12 && d.rackj >= 0 && 0 <= d.chassis <= 2
    requires Group(c) == Group(d) && Chassis(c) == Chassis(d)
    requires Blade(c) == Blade(d) && Nic(c) == Nic(d)
    ensures c == d
  {
    GroupInjective(c, d);
    ChassisDecodes(c);
    ChassisDecodes(d);
    assert c.racki == 2 * (c.racki / 2) + c.racki % 2;
    assert d.racki == 2 * (d.racki / 2) + d.racki % 2;
  }

  /** The racks named in the header's table, as the formula computes them:
      c0-0 and c1-0 are group 0 as the table says, but c0-1 and c1-1 are
      group 6 where the table says 1, and c2-0 and c3-0 are group 1 where the
      table says 2. */
  lemma HeaderTableExamples()
    ensures Group(Coords(0, 0, 0, 0, 0)) == 0 && Group(Coords(1, 0, 0, 0, 0)) == 0
    ensures Group(Coords(0, 1, 0, 0, 0)) == 6 && Group(Coords(1, 1, 0, 0, 0)) == 6
    ensures Group(Coords(2, 0, 0, 0, 0)) == 1 && Group(Coords(3, 0, 0, 0, 0)) == 1
  {
    assert CDiv(0, 2) == 0 && CDiv(1, 2) == 0 && CDiv(2, 2) == 1 && CDiv(3, 2) == 1;
    assert Group(Coords(3, 0, 0, 0, 0)) == 1 + 0 * 6;
    assert Group(Coords(0, 1, 0, 0, 0)) == 0 + 1 * 6;
    assert Group(Coords(1, 1, 0, 0, 0)) == 0 + 1 * 6;
    assert Group(Coords(2, 0, 0, 0, 0)) == 1 + 0 * 6;
  }

  /** Negative rack coordinates follow C's rounding toward zero. */
  lemma NegativeRack()
    ensures Group(Coords(-1, 0, 0, 0, 0)) == 0
    ensures Chassis(Coords(-1, 0, 1, 0, 0)) == -2
  {
    assert CDiv(-1, 2) == 0;
    assert CMod(-1, 2) == -1;
  }
}
